=== FILE: README.md ===
# CatCaretaker core in Dafny

This project models the string-processing core of CatCaretaker, a package
manager that fetches packages from repositories and runs their install
scripts. Every part is written as pure functions over immutable datatypes,
with the state each C++ routine mutates passed in and returned explicitly.

- **KittenLexer** (`KittenLexer`, `KittenLexerProps`): the configurable
  character-class tokenizer. It covers quotes, capsules, extract and
  con-extract characters, lineskips, backslash options, the line counter and
  the sticky fail flag.
- **CareScript**, the embedded scripting language:
  - `ScriptValues`: the four value types.
  - `Numerals`: how numbers are read with `stold` and rendered with
    `std::to_string`.
  - `ScriptState`: the builtin, operator, typecheck and macro tables, the
    interpreter settings and their merge rules.
  - `ScriptParsing` and `ScriptPreprocess`: argument lists, label argument
    lists, `@ const` / `@ bake` and labels.
  - `ScriptEngine` and `ScriptEngineProps`: token preparation, precedence
    climbing with speculative operator resolution, calls and statement
    execution.
  - `ScriptTree`, `ScriptClimb` and `ScriptPrecedence`: the reference reading
    of an operand/operator list as a tree split at its loosest operator, and
    the proof that precedence climbing evaluates that tree. A lower priority
    number binds tighter, and equal priorities group to the left.
  - `ScriptDefaults`: the default builtins, operators and typechecks.
  - `ScriptInterpreter`: the embedding API.
- **InI++** (`IniPlus`, `IniPlusFile`): the INI library the application links.
  It covers the element codec for strings, numbers, lists, dictionaries and
  vectors, sections, `has`/`get`/`set`, and reading a file's text. Its
  writer and reader are proved to round-trip.
- **inipp.hpp** (`IniLexed`): the second, lexer-based INI reader and its
  codec.
- **The URL-rule language** (`PageLinks`, `PageList`, `PageFind`): split
  signs, `is_url`, link patterns, the RULE/FROM/LINK/DEFAULT/SIGNS/WITH/
  ATTACH/SCRIPTS/EMBED commands, and `find_url`.
- **ArgParser** (`ArgParser`): declared arguments, the parse pass, the
  dependency checks and the `ParsedArgs` lookups.
- **Application helpers** (`Options`, `Configs`):
  - the option and redirect tables, `to_lowercase`, `get_username`,
    `app_username` and `last_name`;
  - the checklist health check, and the edits of the register and of the
    dependency list.

Behaviour the C++ leaves undefined shows up in the model as an explicit
outcome rather than an arbitrary value: `Undefined` in the script engine
and page commands, `None` in the INI readers. Examples are reading a
missing map entry's uninitialised type, `pop_back` on an empty string, and
a `size_t` loop that never ends. Integers are unbounded and strings are
`seq<char>`, each `char` standing for one byte of a C++ `std::string`, so
indices, lengths and `substr` arithmetic count bytes and lowering is
byte-wise, as in the C++. `/` is the only directory separator.

The application is built with the InI++ header, because both INI headers
use the same include guard. So `Configs` works on InI++ elements.

## Model

| member | source | states |
|---|---|---|
| Common.TruncToInt | carescript/carescript-defaults.hpp:317 | converting a number to `int` drops the fraction toward zero: the result is the integer next to the number on the side of zero |
| Common.StripEnds | mods/inipp.hpp:366-368 | removing the first and last character keeps exactly the characters in between, in order |
| KittenLexer.AddCapsule | mods/kittenlexer.hpp:91-95 | a pair whose characters are already used by a capsule is refused and the lexer is unchanged; otherwise the pair is registered; earlier capsules stay registered, the failure flag is untouched, and capsules never come to share a delimiter |
| KittenLexer.Step | mods/kittenlexer.hpp:162-249 | each character is consumed once and no step reads past the end of the source; a step consumes two characters only for a backslash outside capsules with backslash options on, and then appends the escaped character (its `add_backslashopt` translation, or itself) to the pending token; a backslash in no character class, outside capsules and followed by another character, always does that; a step fails only on a trailing backslash or on a capsule closer outside quotes and skipped text |
| KittenLexer.Lex | mods/kittenlexer.hpp:155-263 | lexing never changes the configuration; the failure flag is sticky: a lexer that had failed stays failed, and one that reports success had not failed before |
| KittenLexer.GroupByLine | carescript/carescript-parsing.hpp:74-82 | grouping tokens by line yields no empty group, and a non-empty token list yields at least one group |
| KittenLexer.Ok | mods/kittenlexer.hpp:261-263 | a lexer converts to true exactly when its failure flag is clear; `KittenLexer.Lex` and `KittenLexerProps.StrayCloserFails` state how lexing sets that flag |
| KittenLexerProps.TokenLinesBounded | mods/kittenlexer.hpp:160-165 | no token is stamped with a line later than one plus the number of linebreaks in the source |
| KittenLexerProps.FinalLine | mods/kittenlexer.hpp:160-165 | without backslash escapes, a run that completes ends with the line counter at one plus the number of linebreak characters |
| KittenLexerProps.StrayCloserFails | mods/kittenlexer.hpp:185-189 | a source that starts with a closing delimiter sets the failure flag and yields no token |
| KittenLexerProps.TrailingBackslashFails | mods/kittenlexer.hpp:230-244 | a backslash as the last character, with escapes enabled, sets the failure flag |
| KittenLexerProps.CapsuleTokensClosed | mods/kittenlexer.hpp:174-198 | every unquoted token that starts with an opening delimiter holds a whole capsule: at least two characters, ending in the matching closer |
| KittenLexerProps.ErasedLexHasNoEmptyWords | mods/kittenlexer.hpp:166-223 | with empty tokens erased, the only empty tokens are quoted strings |
| KittenLexerProps.GroupByLineFlattens | carescript/carescript-parsing.hpp:74-82 | concatenating the line groups gives back the token list exactly: nothing lost, duplicated or reordered |
| KittenLexerProps.GroupsShareLine | carescript/carescript-parsing.hpp:74-82 | all tokens of one group carry the same line |
| KittenLexerProps.SameLineGroups | carescript/carescript-parsing.hpp:74-82 | tokens on the line of the group being filled all join that group |
| KittenLexerProps.OneLine | carescript/carescript-parsing.hpp:74-82 | a non-empty token list on a single line forms exactly one group |
| KittenLexerProps.PlainRun | mods/kittenlexer.hpp:246-249 | a stretch of characters with no configured role is appended to the pending token, which takes the current line if it was empty |
| KittenLexerProps.IgnoreStep | mods/kittenlexer.hpp:166-173 | an ignored character at the top level ends the pending token, emitting it unless it is empty and empties are erased |
| KittenLexerProps.ExtractStep | mods/kittenlexer.hpp:218-223 | an extracted character at the top level emits the pending token (unless erased as empty) and then itself as a one-character token, both on the current line |
| KittenLexerProps.LexLength | mods/kittenlexer.hpp:155-259 | the tokens together never hold more characters than the source |
| KittenLexerProps.CapsuleFresh | mods/kittenlexer.hpp:91-95 | a pair whose characters no registered capsule uses is appended to the capsule list |
| KittenLexerProps.WovenLex | mods/kittenlexer.hpp:155-259 | words of plain characters separated by ignored or extracted characters lex to the words in order, each extracted separator as its own token, all on line 1, without failure |
| KittenLexerProps.InnerRun | mods/kittenlexer.hpp:174-198 | inside an open capsule every character that neither opens nor closes a capsule, starts a comment or breaks a line is kept verbatim in the token |
| KittenLexerProps.CapsuleLex | mods/kittenlexer.hpp:174-198 | an opener, inner characters and the matching closer lex to one token holding all of them, on line 1 |
| Numerals.ReadNumber | carescript/carescript-defaults.hpp:410-417 | `std::stold` either rejects the text or reads a non-empty prefix of it |
| Numerals.DropTrailing | carescript/carescript-types.hpp:34-35 | erasing after the last character that is not `c` leaves a prefix that does not end in `c`, and everything removed was `c` |
| Numerals.DropTrailingRun | carescript/carescript-types.hpp:34-35 | appending a run of `c` to a text not ending in `c` and erasing trailing `c` gives the text back |
| Numerals.RenderWhole | carescript/carescript-defaults.hpp:89 | `std::to_string` of a whole number is its decimal digits, a sign if negative, a point and six zeros |
| Numerals.WholeNumberText | carescript/carescript-types.hpp:32-37 | the printable text of a whole number is exactly its integer text: the zeros and the point are stripped |
| Numerals.Stoi | mods/inipp.hpp:667-669 | a successful `std::stoi` lies within the 32-bit `int` range |
| Numerals.DecimalValueOfText | mods/inipp.hpp:667-669 | the value of the decimal text of a natural number is that number |
| Numerals.StoiOfText | mods/inipp.hpp:667-669 | `std::stoi` reads back the `std::to_string` text of every `int` |
| ScriptValues.Assign | carescript/carescript-defs.hpp:50-53 | copy assignment from an empty wrapper leaves the target as it was; from a full one the target becomes that value |
| ScriptValues.ValueEqIsEquality | carescript/carescript-types.hpp:24-118 | the value classes' `operator==` (same type name, same payload) is exactly structural equality of values |
| ScriptValues.SourceTextQuotesOnlyStrings | carescript/carescript-types.hpp:32-40 | `to_string` and `to_printable` agree for every type but strings, whose `to_string` is wrapped in double quotes |
| ScriptValues.WholeNumberPrints | carescript/carescript-types.hpp:32-37 | a whole number prints as its decimal digits, with the trailing zeros and the point stripped; true and false print 1 and 0 |
| ScriptValues.TypeName | carescript/carescript-types.hpp:24-118 | `get_type` of each value class: Number, String, Name and Null; `ScriptDefaults.TypeOfBuiltin` hands it to scripts |
| ScriptValues.ValueEq | carescript/carescript-types.hpp:24-118 | `operator==` compares type names first, then payloads; `ScriptValues.ValueEqIsEquality` shows this is structural equality |
| ScriptValues.Printable | carescript/carescript-types.hpp:32-37 | `to_printable`; `ScriptValues.WholeNumberPrints` states how whole numbers and truth values print |
| ScriptValues.SourceText | carescript/carescript-types.hpp:38-40 | `to_string`; `ScriptValues.SourceTextQuotesOnlyStrings` states that only strings differ from the printable form, by their quotes |
| ScriptValues.IsNull | carescript/carescript-defs.hpp:97-99 | a wrapper is null when it holds nothing or holds the Null value |
| ScriptState.FreshSettings | carescript/carescript-defs.hpp:114-133 | new settings start at line 0, not exiting, with no error, no variables, an empty condition stack and a Null return value |
| ScriptState.Report | carescript/carescript-macromagic.hpp:6 | an operator or builtin that reports an error sets exactly the error message; reporting nothing changes nothing |
| ScriptState.AddBuiltins | carescript/carescript-defs.hpp:222-225 | merging builtins adds the new names and keeps the builtin of every name already present; the other tables are unchanged |
| ScriptState.AddOperators | carescript/carescript-defs.hpp:226-233 | merging operators appends the bundle's definitions to each name already present and adds no new names |
| ScriptState.AddTypechecks | carescript/carescript-defs.hpp:234-239 | merged typechecks come after the existing ones, in the bundle's order |
| ScriptState.AddMacros | carescript/carescript-defs.hpp:240-243 | merging macros adds new names and keeps the text of every macro already present |
| ScriptState.AppendOperators | carescript/carescript-parsing.hpp:50-54 | baked operator definitions go after the existing definitions of their name; a new name is created; other names are untouched |
| ScriptState.BakeExtension | carescript/carescript-parsing.hpp:42-58 | baking fails exactly when there is no bundle, and then changes nothing; otherwise builtins and macros are merged with existing names winning, typechecks appended and operator definitions appended per name |
| ScriptState.BakeKeepsExisting | carescript/carescript-parsing.hpp:45-56 | baking never replaces a registered builtin or macro, and keeps every registered operator definition in front |
| ScriptInterpreter.NewInterpreter | carescript/carescript-defs.hpp:271-276 | a new interpreter holds the default tables, no snapshots and no error handler, and reports no error |
| ScriptInterpreter.Finish | carescript/carescript-defs.hpp:268-270 | the error handler runs exactly when a message is set and a handler is installed; a value is returned exactly when the return value is not Null |
| ScriptInterpreter.OnErrorRuns | carescript/carescript-defs.hpp:394-397 | the `on_error` callback runs exactly when the interpreter holds an error message |
| ScriptInterpreter.OtherwiseRuns | carescript/carescript-defs.hpp:399-402 | the `otherwise` callback runs exactly when the interpreter holds no error message |
| ScriptInterpreter.ValueOr | carescript/carescript-defs.hpp:259 | `get_value_or` gives the returned value when there is one and the fallback otherwise |
| ScriptInterpreter.Save | carescript/carescript-defs.hpp:278-280 | saving stores the current four tables under the number, replacing an older snapshot, and changes nothing else |
| ScriptInterpreter.Load | carescript/carescript-defs.hpp:282-284 | loading a saved number restores its tables; loading an unknown number creates an empty snapshot and empties the tables |
| ScriptInterpreter.Clear | carescript/carescript-defs.hpp:286-291 | clearing empties the four tables and changes nothing else |
| ScriptInterpreter.AddBuiltin | carescript/carescript-defs.hpp:347-350 | `add_builtin` sets the name, replacing an existing builtin, and touches no other table |
| ScriptInterpreter.AddOperator | carescript/carescript-defs.hpp:351-354 | `add_operator` appends one definition after the name's existing ones; other names are untouched |
| ScriptInterpreter.AddTypecheck | carescript/carescript-defs.hpp:355-358 | `add_typecheck` appends, so earlier typechecks keep precedence |
| ScriptInterpreter.AddMacro | carescript/carescript-defs.hpp:359-362 | `add_macro` sets the name, replacing an existing macro |
| ScriptInterpreter.BakeCompiled | carescript/carescript-defs.hpp:368-372 | a missing bundle sets "error while baking: <compiled>" and keeps the tables; a present one is merged; no error handler runs |
| ScriptInterpreter.BakeFile | carescript/carescript-defs.hpp:363-367 | a bundle that fails to load sets "error while baking: " plus the file name; a loaded one is merged; no error handler runs |
| ScriptInterpreter.PreProcessSource | carescript/carescript-defs.hpp:300-305 | preprocessing keeps the snapshots and the handler, every stored label's parameters are identifiers, the reply never carries a value (the error object is built from the interpreter alone), and the handler runs exactly when the preprocessing failed and a handler is set |
| ScriptInterpreter.Run | carescript/carescript-defs.hpp:307-314 | after `run()` the exit flag is cleared and the snapshots are unchanged |
| ScriptInterpreter.RunNamed | carescript/carescript-defs.hpp:321-328 | running a label that does not exist resets the return value, line and exit flag, clears the message and runs nothing; the snapshots are unchanged |
| ScriptInterpreter.EvalSource | carescript/carescript-defs.hpp:330-336 | after `eval` the exit flag is cleared and the snapshots are unchanged |
| ScriptInterpreter.LoadAfterSave | carescript/carescript-defs.hpp:278-284 | loading a number gives back exactly the tables saved under it, whatever happened to the tables in between |
| ScriptInterpreter.SaveKeepsOthers | carescript/carescript-defs.hpp:278-280 | saving under one number leaves the snapshots under other numbers as they were |
| ScriptInterpreter.AddBuiltinWinsOverBake | carescript/carescript-defs.hpp:347-350 | a builtin set with `add_builtin` survives a later bake of a bundle that defines the same name |
| ScriptInterpreter.ExactlyOneBranch | carescript/carescript-defs.hpp:394-402 | of the `on_error` and `otherwise` callbacks, exactly one runs |
| ScriptParsing.ScanArglistAlternates | carescript/carescript-parsing.hpp:171-182 | the scan of `is_label_arglist` accepts exactly an odd-length list with identifiers at even positions and commas at odd ones |
| ScriptParsing.LabelArglistShape | carescript/carescript-parsing.hpp:158-183 | a parameter list is accepted exactly when it is bracketed and its inside lexes to nothing or to alternating identifiers and commas |
| ScriptParsing.CollectNamesOfAlternating | carescript/carescript-parsing.hpp:199-211 | on an alternating list the collecting scan succeeds with exactly the tokens at even positions |
| ScriptParsing.ParseLabelArglist | carescript/carescript-parsing.hpp:185-212 | every parameter name returned is an identifier |
| ScriptParsing.CollectedAreNames | carescript/carescript-parsing.hpp:199-211 | whatever the collecting scan returns consists of identifiers |
| ScriptParsing.SplitArgumentsCount | carescript/carescript-parsing.hpp:233-244 | an argument list splits into one text more than it has top-level commas, and the texts already started are kept |
| ScriptParsing.SplitWithoutCommas | carescript/carescript-parsing.hpp:233-244 | without commas every token lands in the single argument, each preceded by a blank, strings re-quoted and macros replaced |
| ScriptEngine.ExpressionError | carescript/carescript-parsing.hpp:528-533 | the message of a failed expression always starts with the "Error in expression" header |
| ScriptEngine.PrepareTokens | carescript/carescript-parsing.hpp:369-405 | classifying tokens adds no error only when none was recorded before |
| ScriptEngine.TouchOperator | carescript/carescript-parsing.hpp:492 | looking up an operator name through `operator[]` inserts it with no definitions when missing and changes nothing else |
| ScriptEngine.FirstInvalid | carescript/carescript-parsing.hpp:84-88 | finds the first line of a label that is not a statement, all lines before it being statements; none means every line is one |
| ScriptEngine.PersistentTrans | carescript/carescript-parsing.hpp:286-537 | what no evaluation changes (constants, tables beyond empty operator entries) is preserved along a chain of evaluations |
| ScriptEngine.BindArgsKeeps | carescript/carescript-parsing.hpp:93-95 | binding arguments leaves every variable that is not a parameter as it was |
| ScriptEngine.BindArgsBinds | carescript/carescript-parsing.hpp:93-95 | a parameter not repeated later in the list holds the argument at its position |
| ScriptEngine.EvaluateExpression | carescript/carescript-parsing.hpp:508-537 | a Null result always comes with an "Error in expression" message, and without a message the result is not Null; the label stack and constants are untouched |
| ScriptEngine.ForceParse | carescript/carescript-parsing.hpp:465-506 | with an error already recorded the result is Null; the label stack and constants are untouched |
| ScriptEngine.TryOptions | carescript/carescript-parsing.hpp:492-505 | a non-Null result of the trial loop carries no new error |
| ScriptEngine.CheckPrec | carescript/carescript-parsing.hpp:407-450 | with an error already recorded the climb yields Null and records nothing more |
| ScriptEngine.CheckPrecLoop | carescript/carescript-parsing.hpp:422-449 | the binary loop of precedence climbing leaves the label stack and constants untouched |
| ScriptEngine.ClimbBinary | carescript/carescript-parsing.hpp:433-447 | applying a binary operator below the bound leaves the label stack and constants untouched |
| ScriptEngine.GetVal | carescript/carescript-parsing.hpp:345-366 | a literal token yields itself without touching settings or errors |
| ScriptEngine.CallFunction | carescript/carescript-parsing.hpp:306-330 | a function call in an expression leaves the label stack and constants untouched |
| ScriptEngine.ParseArgumentList | carescript/carescript-parsing.hpp:214-252 | a failed argument list yields no values; a successful one yields only non-Null values |
| ScriptEngine.EvalArguments | carescript/carescript-parsing.hpp:246-251 | arguments are evaluated in order; the first error discards all values, otherwise none is Null |
| ScriptEngine.MoreArguments | carescript/carescript-parsing.hpp:247-250 | after an argument evaluated without error the remaining ones keep the same guarantee |
| ScriptEngine.ExecBuiltin | carescript/carescript-defaults.hpp:8-400 | every builtin but `call` changes only the run state (variables, condition stack, return value, exit flag, error) |
| ScriptEngine.CallBuiltin | carescript/carescript-defaults.hpp:264-292 | `call` reports an unknown label and a wrong argument count with the source's messages; otherwise it runs the label in fresh settings that carry the caller's tables and constants, yields the child's return value, takes the child's error as its own and sets the raw-error flag when that error is non-empty; nothing else of the caller changes |
| ScriptEngine.RunLabel | carescript/carescript-parsing.hpp:71-126 | an unknown label runs nothing; a label with a line that is not a statement reports "line ..." and changes nothing; the label stack is restored unless the run exited |
| ScriptEngine.RunLines | carescript/carescript-parsing.hpp:97-125 | a run past the last statement pops the label and returns no message; a set exit flag stops the run at once |
| ScriptEngine.StatementError | carescript/carescript-parsing.hpp:116-121 | a failed statement's message is the bare message under the raw-error flag, else the script line, what failed, the message and the label's name |
| ScriptEngine.RunStatement | carescript/carescript-parsing.hpp:100-122 | a failed argument list, an unknown builtin and a builtin that sets an error each end the label with the source's message (`line L: name: msg (in label X)`, or the message alone under the raw-error flag); the label stack discipline holds and constants and tables persist |
| ScriptEngineProps.CheckPrecOperand | carescript/carescript-parsing.hpp:413-422 | an operand that is not an operator goes straight into the binary loop |
| ScriptEngineProps.CheckPrecUnary | carescript/carescript-parsing.hpp:415-420 | a unary operator applies to the operand climbed with its own priority as the bound |
| ScriptEngineProps.CheckPrecLoopEnd | carescript/carescript-parsing.hpp:422-449 | at the end of the tokens the loop yields its left operand |
| ScriptEngineProps.CheckPrecLoopStop | carescript/carescript-parsing.hpp:433-434 | a binary operator whose priority is not below the bound ends the loop |
| ScriptEngineProps.CheckPrecLoopApply | carescript/carescript-parsing.hpp:435-442 | a binary operator below the bound combines the left operand with the right operand climbed under its priority |
| ScriptEngineProps.ForceParseClimb | carescript/carescript-parsing.hpp:475-478 | once every operator is resolved the whole list is climbed from the maximal bound |
| ScriptEngineProps.ForceParseTries | carescript/carescript-parsing.hpp:480-492 | the next operator is tried as unary when it stands at the position and as binary when it follows an operand |
| ScriptEngineProps.TryOptionsSkip | carescript/carescript-parsing.hpp:494-495 | a definition of the other kind is skipped |
| ScriptEngineProps.TryOptionsWins | carescript/carescript-parsing.hpp:499-502 | the first trial that yields a value without a new error wins |
| ScriptEngineProps.TighterOperatorFirst | carescript/carescript-defaults.hpp:441-480 | `2 + 3 * 4` evaluates to 14: `*` (priority -1) binds tighter than `+` (priority 0) |
| ScriptEngineProps.LeadingMinusIsNegation | carescript/carescript-defaults.hpp:455-470 | `- 2 * 3` evaluates to -6: a leading `-` is tried only as negation (priority -3) |
| ScriptPrecedence.ClimbingEvaluatesTree | carescript/carescript-parsing.hpp:407-450 | over operands and resolved binary operators all below the outer bound, precedence climbing evaluates the reference tree that splits at the loosest operator (the largest priority number, the rightmost of equals): the same value stopped at the end, the same stuck run, or Null with a new error exactly when an application in the tree fails |
| ScriptPrecedence.TighterLeftFirst | carescript/carescript-parsing.hpp:433-437 | with p1 < p2, `a o1 b o2 c` evaluates to `(a o1 b) o2 c`: a lower priority number binds tighter |
| ScriptPrecedence.TighterRightFirst | carescript/carescript-parsing.hpp:433-437 | with p2 < p1, `a o1 b o2 c` evaluates to `a o1 (b o2 c)` |
| ScriptPrecedence.EqualGroupLeft | carescript/carescript-parsing.hpp:433-434 | with equal priorities, `a o1 b o2 c` evaluates to `(a o1 b) o2 c`: the inner climb stops at an operator of its own priority |
| ScriptPrecedence.EngineRecurrences | carescript/carescript-parsing.hpp:407-450 | the climb and the loop of `expression_check_prec` satisfy the three recurrences of precedence climbing, with the interpreter's operator application |
| ScriptPrecedence.EngineLoopsEnd | carescript/carescript-parsing.hpp:422-449 | the loop returns its left operand at the end of the list or at an operator whose priority reaches the bound |
| ScriptPrecedence.EngineClimbsStart | carescript/carescript-parsing.hpp:413-422 | a climb from an operand runs the loop after it with that operand on the left |
| ScriptPrecedence.EngineLoopsApply | carescript/carescript-parsing.hpp:433-447 | an operator below the bound climbs its right side under its own priority, then goes on with the application's value where that climb stopped, or ends with its failure |
| ScriptPrecedence.LoopStops | carescript/carescript-parsing.hpp:422-449 | at the end of the list or at an operator at or above the bound, the loop returns its left operand at the same position with nothing changed |
| ScriptPrecedence.BinaryAgrees | carescript/carescript-parsing.hpp:435-447 | what an application gives follows what the climb of its right operand agrees with: stuck stays stuck, a failure stays a failure, and a value is applied |
| ScriptPrecedence.BinaryStuck | carescript/carescript-parsing.hpp:436 | a stuck climb of the right operand is a stuck application |
| ScriptPrecedence.BinaryRightFails | carescript/carescript-parsing.hpp:436-437 | a right operand that records an error ends the loop with Null and the error |
| ScriptPrecedence.BinaryOpStuck | carescript/carescript-parsing.hpp:442 | an operator application that is stuck makes the loop stuck |
| ScriptPrecedence.BinaryOpFails | carescript/carescript-parsing.hpp:442-446 | an application that reports an error ends the loop with Null and a new error record |
| ScriptPrecedence.BinaryOpValue | carescript/carescript-parsing.hpp:439-442 | an application with a value goes on with the loop after the right operand, with that value on the left and nothing else changed |
| ScriptClimb.ClimbAgrees | carescript/carescript-parsing.hpp:407-450 | for any climb and loop that satisfy the recurrences, a climb from an operand evaluates the reference tree of the segment up to where its bound stops it |
| ScriptClimb.LoopAgrees | carescript/carescript-parsing.hpp:422-449 | for any climb and loop that satisfy the recurrences, the loop whose left operand is the tree value of the operands so far finishes the tree of the segment up to where the bound stops it |
| ScriptClimb.LoopStep | carescript/carescript-parsing.hpp:433-447 | one application of the loop is the node of the reference tree at that operator: a failure fails the whole segment, and a value goes on with the tree of the operands so far and the same stop |
| ScriptClimb.LoopEnds | carescript/carescript-parsing.hpp:433-449 | a loop that stops at once agrees with the tree of the operands so far |
| ScriptDefaults.BinaryGuard | carescript/carescript-macromagic.hpp:44-50 | a binary operator's checks pass exactly when both operands have the same type and that type is one the operator accepts |
| ScriptDefaults.NumericOp | carescript/carescript-defaults.hpp:455-502 | a numeric operator succeeds exactly on two numbers and then yields their combination |
| ScriptDefaults.BinaryOperatorsNeedSameType | carescript/carescript-defaults.hpp:441-547 | every default binary operator refuses operands of different types with a message and a Null result |
| ScriptDefaults.IsIsntComplement | carescript/carescript-defaults.hpp:504-517 | `is` holds exactly for equal values and `isnt` is its negation |
| ScriptDefaults.DivisionByZero | carescript/carescript-defaults.hpp:481-487 | division by zero is refused with its own message and a Null result |
| ScriptDefaults.DerefLookupOrder | carescript/carescript-defaults.hpp:555-567 | `$` prefers a variable over a constant of the same name and fails exactly when the name is neither |
| ScriptDefaults.LogicUsesExactlyOne | carescript/carescript-defaults.hpp:518-533 | `and` needs its left operand to be exactly 1 and its right to be non-zero; `or` needs one operand to be exactly 1 |
| ScriptDefaults.ToVarFirstMatch | carescript/carescript-defs.hpp:424-445 | the first typecheck, in registration order, that accepts a token decides its value, and the token is a valid literal |
| ScriptDefaults.ToVarNoMatch | carescript/carescript-defs.hpp:424-445 | a token no typecheck accepts becomes Null and is not a valid literal |
| ScriptDefaults.IsName | carescript/carescript-parsing.hpp:145-156 | `is_name`: non-empty, no leading digit, only ASCII letters, digits and underscores; `ScriptDefaults.DefaultWordLiteral` states that such a word is a Name literal |
| ScriptDefaults.ToVar | carescript/carescript-defs.hpp:424-433 | `to_var` asks the typechecks in order; `ScriptDefaults.ToVarFirstMatch` and `ScriptDefaults.ToVarNoMatch` state that the first accepting one decides and that no match gives Null |
| ScriptDefaults.ValidLiteral | carescript/carescript-defs.hpp:436-445 | `valid_literal` holds exactly when some typecheck accepts the token; stated by `ScriptDefaults.ToVarFirstMatch` and `ScriptDefaults.ToVarNoMatch` |
| ScriptDefaults.DefaultStringLiteral | carescript/carescript-defaults.hpp:404-409 | a quoted token is always a String |
| ScriptDefaults.DefaultNumberLiteral | carescript/carescript-defaults.hpp:410-417 | an unquoted token with a numeral prefix is a Number of that prefix's value, whatever follows |
| ScriptDefaults.DefaultWordLiteral | carescript/carescript-defaults.hpp:418-437 | without a numeral prefix, `null` is Null, an identifier is a Name, and anything else is not a literal |
| ScriptDefaults.DefaultNullWord | carescript/carescript-defaults.hpp:418-422 | the word `null` is the Null literal |
| ScriptDefaults.DefaultNameWord | carescript/carescript-defaults.hpp:423-437 | an identifier that is not a numeral is a Name |
| ScriptDefaults.DefaultOtherWord | carescript/carescript-defaults.hpp:423-437 | a word that is neither numeral, `null` nor identifier is rejected by every default typecheck |
| ScriptDefaults.Err | carescript/carescript-macromagic.hpp:6 | a builtin error changes only the error message of the run state |
| ScriptDefaults.SetBuiltin | carescript/carescript-defaults.hpp:9-15 | `set` changes only the run state |
| ScriptDefaults.IfBuiltin | carescript/carescript-defaults.hpp:16-26 | `if` changes only the run state |
| ScriptDefaults.ElseBuiltin | carescript/carescript-defaults.hpp:27-33 | `else` changes only the run state |
| ScriptDefaults.EndifBuiltin | carescript/carescript-defaults.hpp:34-42 | `endif` changes only the run state |
| ScriptDefaults.ReturnBuiltin | carescript/carescript-defaults.hpp:293-298 | `return` stores its argument as the return value, sets the exit flag and yields Null; inside a false branch it does nothing; only the run state changes |
| ScriptDefaults.TypeOfBuiltin | carescript/carescript-defaults.hpp:397-400 | `typeof` yields the name of its argument's type as a String and leaves the settings as they were; inside a false branch it does nothing |
| ScriptDefaults.ToNumberBuiltin | carescript/carescript-defaults.hpp:68-84 | `to_number` changes only the run state |
| ScriptDefaults.ToStringBuiltin | carescript/carescript-defaults.hpp:85-96 | `to_string` changes only the run state |
| ScriptDefaults.ExitBuiltin | carescript/carescript-defaults.hpp:129-134 | `exit` changes only the run state |
| ScriptDefaults.SkippedBuiltinsDoNothing | carescript/carescript-macromagic.hpp:43 | inside a skipped branch every builtin but `if`, `else` and `endif` does nothing and returns Null |
| ScriptDefaults.IfTakesExactlyOne | carescript/carescript-defaults.hpp:16-26 | `if` opens a running branch exactly when its number is 1; 2 opens a skipped one |
| ScriptDefaults.IfElseEndifBalance | carescript/carescript-defaults.hpp:16-42 | `if` followed by `endif` restores the condition stack, and two `else` cancel out |
| ScriptDefaults.SkippedIfBalance | carescript/carescript-defaults.hpp:17-19 | a nested `if` in a skipped branch is balanced by its `endif` through the ignore counter |
| ScriptDefaults.SetThenDeref | carescript/carescript-defaults.hpp:9-15 | after `set` the variable holds exactly the given value, and `$` of the name gives it back |
| ScriptDefaults.EraseAt | carescript/carescript-defaults.hpp:314-323 | ERASE removes exactly the character at the index, keeping the order of the others |
| ScriptDefaults.PutAt | carescript/carescript-defaults.hpp:337-348 | PUT replaces exactly the character at the index by the given text |
| ScriptDefaults.SubstrAt | carescript/carescript-defaults.hpp:370-384 | SUBSTR of two equal indices is empty; otherwise it is the tail from the larger index, as the swapped arguments make it |
| ScriptDefaults.InsertIsPutBefore | carescript/carescript-defaults.hpp:325-336 | INSERT at a positive index overwrites the character before the index instead of inserting |
| ScriptDefaults.PutErasePartners | carescript/carescript-defaults.hpp:314-348 | PUT of the character already there changes nothing, and ERASE is undone by a PUT of the two original characters one position earlier |
| ScriptDefaults.StrmodAsWritten | carescript/carescript-defaults.hpp:300-312 | `strmod` as written changes only the run state |
| ScriptDefaults.StrmodAsWrittenRejectsStrings | carescript/carescript-defaults.hpp:308-311 | as written, every `strmod` call on a string variable fails with "requires string variable" |
| ScriptDefaults.StrmodBuiltin | carescript/carescript-defaults.hpp:300-390 | `strmod` with the guard corrected changes only the run state |
| ScriptDefaults.StrmodEdits | carescript/carescript-defaults.hpp:314-369 | with the guard corrected, ERASE and PUT store their edit in the variable, SIZE gives the length and AT the character |
| ScriptDefaults.NegativeIndexOverflows | carescript/carescript-defaults.hpp:317-320 | a negative index is reported as an overflow, never as an underflow, since the comparison is unsigned |
| ScriptPreprocess.ConstLinesBindAll | carescript/carescript-parsing.hpp:563-579 | when a constant block finishes without error, every line had the `name = expression` shape and its name is bound to a non-Null value |
| ScriptPreprocess.ConstLinesKeep | carescript/carescript-parsing.hpp:563-579 | constants bound before an error-free block stay bound, with their value or a non-Null rebinding |
| ScriptPreprocess.ConstLinesHead | carescript/carescript-parsing.hpp:564-575 | the first line of an error-free block had the constant shape and bound its name |
| ScriptPreprocess.ParseConstPreprog | carescript/carescript-parsing.hpp:540-579 | a constant block is lexed, grouped by line and bound line by line; `ScriptPreprocess.ConstLinesBindAll`, `ConstLinesKeep` and `ConstLinesHead` state what an error-free block binds |
| ScriptPreprocess.ConstDirective | carescript/carescript-parsing.hpp:621-642 | a failing `const` directive halts with a message; a passing one keeps the labels and the current label |
| ScriptPreprocess.BakeDirective | carescript/carescript-parsing.hpp:643-677 | a failing `bake` directive halts with a message; a passing one changes only the tables |
| ScriptPreprocess.OpenLabel | carescript/carescript-parsing.hpp:678-685 | opening a label makes it current and registered; the error is set exactly when the label was open already or an error was pending |
| ScriptPreprocess.Directive | carescript/carescript-parsing.hpp:610-690 | a directive without exactly two arguments halts; a halt always carries a message; labels keep identifier parameters |
| ScriptPreprocess.OtherDirective | carescript/carescript-parsing.hpp:611-689 | every directive but `const` halts with a message on a wrong shape and keeps identifier parameters otherwise |
| ScriptPreprocess.PreLines | carescript/carescript-parsing.hpp:608-694 | the preprocessing loop only ever registers labels whose parameters are identifiers |
| ScriptPreprocess.BakeAll | carescript/carescript-parsing.hpp:666-676 | a `bake` body succeeds only when every entry is a string naming a loadable extension |
| ScriptPreprocess.PreProcess | carescript/carescript-parsing.hpp:582-697 | every label the preprocessor produces has identifiers as parameters |
| ScriptPreprocess.PlainLineStep | carescript/carescript-parsing.hpp:691-693 | a line that is not a directive is appended to the current label |
| ScriptPreprocess.PlainLinesAppend | carescript/carescript-parsing.hpp:691-693 | lines that are not directives are appended, in order, to the current label |
| ScriptPreprocess.DuplicateLabelContinues | carescript/carescript-parsing.hpp:679-684 | opening a label twice sets the message but does not stop preprocessing, and the label is reopened |
| ScriptPreprocess.RunScript | carescript/carescript-parsing.hpp:60-69 | a script run that returns no message has the exit flag cleared |
| IniPlus.AllNumbersFrom | mods/InI++/Inipp.cpp:48-63 | continuing the scan with the dot flag already set or not, the text passes exactly when it is digits and dots with at most one dot counting the earlier one, and the flag ends set exactly when there was or is one dot |
| IniPlus.AllNumbers | mods/InI++/Inipp.cpp:48-63 | `all_numbers` accepts exactly the texts of digits and dots with at most one dot, and reports a dot exactly when there is one |
| IniPlus.BrScanMeans | mods/InI++/Inipp.cpp:70-85 | the counting loop succeeds exactly when the nesting depth ends at zero and does not reach zero before the last character |
| IniPlus.BrCheck | mods/InI++/Inipp.cpp:65-86 | `br_check` holds exactly when the whole text is one bracket group: at least two characters, depth zero at the end and nowhere earlier |
| IniPlus.LinesFrom | mods/InI++/Inipp.cpp:91-104 | splitting the rest of the text at newlines yields only non-empty lines without a newline |
| IniPlus.ToLines | mods/InI++/Inipp.cpp:88-107 | `to_lines` yields only non-empty lines, none holding a newline |
| IniPlus.DropBlank | mods/InI++/Inipp.cpp:625-632 | erasing blank pieces leaves only non-blank pieces taken from the input, and changes nothing when none is blank |
| IniPlus.SplitBy | mods/InI++/Inipp.cpp:590-635 | with `delete_empty` set, no piece is blank |
| IniPlus.SplitJoined | mods/InI++/Inipp.cpp:590-635 | pieces joined by an erased separator are split back into exactly those pieces when each goes through the splitter whole |
| IniPlus.ToElement | mods/InI++/Inipp.cpp:753-797 | Null exactly for "" and "NULL", with text "NULL"; a string is always quoted and is the text or the text in quotes; Int or Float exactly for digit-and-dot texts with at most one dot, Float with one dot; every kind but String and Null keeps the text; the undetermined case only for texts holding a double quote |
| IniPlus.ToElementIdempotent | mods/InI++/Inipp.cpp:753-797 | classifying the stored text of a classified element gives the same element again |
| IniPlus.AsText | mods/InI++/Inipp.cpp:501-505 | converting to `std::string` strips the quotes of a string, so quoting the result gives the stored text back; other kinds give their text |
| IniPlus.QuotedTextIsString | mods/InI++/Inipp.cpp:753-759 | any text in double quotes is classified as a string, and converting it back gives the text |
| IniPlus.Classify | mods/InI++/Inipp.cpp:720-722 | one element per piece, each the classification of its piece, in order |
| IniPlus.ToList | mods/InI++/Inipp.cpp:706-724 | "" gives the empty list, and a non-empty result comes from a text that is one square-bracket group |
| IniPlus.ListTextEnclosed | mods/InI++/Inipp.cpp:813-823 | the text `to_string(IniList)` writes for elements with balanced square brackets is one square-bracket group |
| IniPlus.ListRoundTrip | mods/InI++/Inipp.cpp:706-823 | `to_list` reads back, element for element, the text `to_string(IniList)` writes for elements that classify as themselves and split whole |
| IniPlus.ListTextIsList | mods/InI++/Inipp.cpp:753-774 | the text of such a list is itself classified as a List holding that text |
| IniPlus.LessIrreflexive | mods/InI++/Inipp.cpp:687 | the key order of `std::map` is irreflexive |
| IniPlus.LessTotal | mods/InI++/Inipp.cpp:687 | any two different keys are ordered one way or the other |
| IniPlus.LessTransitive | mods/InI++/Inipp.cpp:687 | the key order is transitive |
| IniPlus.Put | mods/InI++/Inipp.cpp:687 | `dic[kp] = v` adds the key to the key set, keeps the dictionary ordered by key, and the last entry is the new one or the old last one, whose key is greater |
| IniPlus.PutLookup | mods/InI++/Inipp.cpp:687 | after `dic[kp] = v` the key maps to the value and every other key maps to what it did before |
| IniPlus.LookupAppend | mods/InI++/Inipp.cpp:687 | an appended entry is found only when its key was not already there |
| IniPlus.ToDictionary | mods/InI++/Inipp.cpp:667-704 | a text not starting with `{` and ending with `}` gives the empty dictionary; every result is ordered by key |
| IniPlus.DictRunSorted | mods/InI++/Inipp.cpp:681-701 | the key-colon-value loop keeps the dictionary ordered by key |
| IniPlus.DictRunEntries | mods/InI++/Inipp.cpp:681-701 | the pieces of well-formed entries, after the entries already read, read back all entries in order |
| IniPlus.SplitDictText | mods/InI++/Inipp.cpp:677 | the inside of a dictionary's text splits into key, ":" and value for each entry |
| IniPlus.DictRoundTrip | mods/InI++/Inipp.cpp:667-834 | `to_dictionary` reads back the text `to_string(IniDictionary)` writes, for sorted well-formed entries |
| IniPlus.ToVector | mods/InI++/Inipp.cpp:726-751 | a text wrong at both ends gives the zero vector, and every component fits a 32-bit `int` |
| IniPlus.VectorRoundTrip | mods/InI++/Inipp.cpp:726-838 | `to_vector` reads back the text `to_string(IniVector)` writes for every vector of 32-bit integers |
| IniPlus.VectorShapeNeedsOneEnd | mods/InI++/Inipp.cpp:727 | the shape test joins its conditions with `&&`, so "(1,2,3]" is read as (1,2,3) |
| IniPlusFile.SectionHas | mods/InI++/Inipp.cpp:375-382 | `IniSection::has` holds exactly when some member has the key |
| IniPlusFile.MemberValue | mods/InI++/Inipp.cpp:364-369 | a key is found exactly when the section has it, and what is found is a member stored under that key |
| IniPlusFile.SectionAccess | mods/InI++/Inipp.cpp:364-373 | `operator[]` hands out the element stored under the key; a missing key is appended holding Null, and a present one leaves the section as it was |
| IniPlusFile.SectionSet | mods/InI++/Inipp.cpp:364-373 | assigning through `operator[]` stores the value under the key, changes no other key, appends a missing key at the end, and keeps the keys distinct |
| IniPlusFile.SectionSetAppend | mods/InI++/Inipp.cpp:371-372 | an appended pair is found under its key, hides no other key, and keeps the keys distinct |
| IniPlusFile.HasKey | mods/InI++/Inipp.cpp:123-130 | `has(key)` holds exactly when some section holds the key |
| IniPlusFile.HasKeyIn | mods/InI++/Inipp.cpp:132-139 | `has(key, section)` holds exactly when some section of that name holds the key |
| IniPlusFile.HasSection | mods/InI++/Inipp.cpp:141-148 | `has_section` holds exactly when some section has the name |
| IniPlusFile.FileValue | mods/InI++/Inipp.cpp:275-280 | what `get` finds lies in a section of the name, stored under the key |
| IniPlusFile.Get | mods/InI++/Inipp.cpp:265-285 | for a key that is there, `get` returns an element stored under the key in a section of the name, "" meaning "Main" |
| IniPlusFile.Set | mods/InI++/Inipp.cpp:304-319 | `set` keeps the error state, never removes or renames a section, appends a missing section holding just the pair, and otherwise adds no section |
| IniPlusFile.SetString | mods/InI++/Inipp.cpp:333-335 | a string is stored as a quoted String, and converting it back gives the string |
| IniPlusFile.SetInt | mods/InI++/Inipp.cpp:337-339 | an `int` is stored as an Int holding its decimal text, which `std::stoi` reads back as the number |
| IniPlusFile.SetList | mods/InI++/Inipp.cpp:321-323 | a list is stored as a List holding its text, which `to_list` reads back when the elements classify as themselves |
| IniPlusFile.SetDictionary | mods/InI++/Inipp.cpp:325-327 | a dictionary is stored as a Dictionary holding its text, which `to_dictionary` reads back for sorted well-formed entries |
| IniPlusFile.SetVector | mods/InI++/Inipp.cpp:329-331 | a vector is stored as a Vector holding its text, which `to_vector` reads back for 32-bit components |
| IniPlusFile.ClearErr | mods/InI++/Inipp.cpp:257-262 | `clearerr` reports whether there was no error, then clears the error and its description and keeps the sections |
| IniPlusFile.SetThenGet | mods/InI++/Inipp.cpp:304-319 | after `set`, `get` finds the value under the key in the named section |
| IniPlusFile.SetKeepsOthers | mods/InI++/Inipp.cpp:304-319 | `set` changes what `get` finds for no other key and no other section |
| IniPlusFile.SetUpdates | mods/InI++/Inipp.cpp:310-317 | when the section is there, `set` writes into the first section of the name |
| IniPlusFile.SetKeepsTidy | mods/InI++/Inipp.cpp:304-319 | `set` keeps section names distinct and keys distinct within each section |
| IniPlusFile.TidySetDefined | mods/InI++/Inipp.cpp:304-319 | in a tidy file `set` on a named section never reaches `get`'s undefined fallback |
| IniPlusFile.EmptySectionNameOverwritesMain | mods/InI++/Inipp.cpp:265-319 | `set` takes the section name "" literally but `get` reads it as "Main", so with both sections holding a key, setting it in "" overwrites it in "Main" |
| IniPlusFile.LineStep | mods/InI++/Inipp.cpp:179-232 | reading one line keeps the current section an existing one |
| IniPlusFile.LineStepMeans | mods/InI++/Inipp.cpp:179-232 | a line fails exactly when it is a header without `]` ("Unfinished section in line n") or a non-comment line that does not split into key, `=`, value ("Invalid format in line n"); comments change nothing; sections are only appended and stay tidy |
| IniPlusFile.ParseFromKeeps | mods/InI++/Inipp.cpp:179-233 | reading the lines only appends sections, keeps them tidy, and ends without error or with a syntax error that carries a description |
| IniPlusFile.Parse | mods/InI++/Inipp.cpp:166-240 | blank content is the read error "Empty file"; every result starts with section "Main" and is tidy; other content ends without error or with a syntax error; the description is empty exactly when there is no error |
| IniPlusFile.Construct | mods/InI++/Inipp.hpp:239-241 | the path constructor keeps only the parsed sections, so it reports no error even when parsing failed |
| IniPlusFile.LineSplit | mods/InI++/Inipp.cpp:210 | a key and a value that split whole make the line `key=value` split into key, `=`, value |
| IniPlusFile.KeyValueStep | mods/InI++/Inipp.cpp:207-231 | a line that splits into key, `=`, value stores the classified value under the key in the current section |
| IniPlusFile.PairLineStep | mods/InI++/Inipp.cpp:207-231 | the line written for a well-formed pair stores that pair back in the current section |
| IniPlusFile.HeaderStep | mods/InI++/Inipp.cpp:180-197 | a header selects the first section of its name, or appends an empty one and selects it |
| IniPlusFile.SectionLines | mods/InI++/Inipp.cpp:384-390 | the text of a section splits into its header line and one line per pair |
| IniPlusFile.SectionText | mods/InI++/Inipp.cpp:384-390 | the header line `[name]`, then one `key=value` line per pair; `IniPlusFile.SectionLines` splits the text back into those lines |
| IniPlusFile.FileLinesOf | mods/InI++/Inipp.cpp:150-154 | the text `to_file` writes splits into the header and pair lines of every section, in order |
| IniPlusFile.FeedFile | mods/InI++/Inipp.cpp:179-233 | reading the lines of a writable file from the initial "Main" section rebuilds the file |
| IniPlusFile.RoundTrip | mods/InI++/Inipp.cpp:150-240 | `from_file` reads back exactly the file `to_file` wrote, for files without error whose first section is "Main", whose names and keys are distinct, and whose pairs each fit one line |
| IniPlusFile.SplitDoubled | mods/InI++/Inipp.cpp:210 | the line "k==" splits into "k", "=", "=" because the empty piece between the two `=` is dropped |
| IniPlusFile.DoubledEquals | mods/InI++/Inipp.cpp:207-231 | so "k==" is accepted and stores the string "=" under "k" |
| IniPlusFile.SplitSpaced | mods/InI++/Inipp.cpp:210 | the line "a = 1" splits into "a ", "=", " 1": blanks are not trimmed |
| IniPlusFile.ElemSpaced | mods/InI++/Inipp.cpp:753-797 | " 1" is not all digits and is classified as a string |
| IniPlusFile.UntrimmedPieces | mods/InI++/Inipp.cpp:207-231 | so "a = 1" stores the string " 1" under the key "a " |
| IniPlusFile.UnfinishedExample | mods/InI++/Inipp.cpp:198-201 | "a=1" then "[b" stops at line 2 with "Unfinished section in line 2", keeping the pair read before |
| IniPlusFile.ConstructorForgetsError | mods/InI++/Inipp.cpp:242-244 | that content parses to a syntax error, yet the path constructor reports none |
| IniLexed.BraceLexerBuilt | mods/inipp.hpp:85-95 | the chain of `add_*` calls in `brace_check` builds exactly the bracket-checking configuration: both quotes, the three capsules, blank and tab skipped, newline, `#` comments, empties erased |
| IniLexed.ListLexerBuilt | mods/inipp.hpp:615-628 | the chain of `add_*` calls in `to_list` (and `to_vector`) builds exactly the list configuration, with commas skipped and the four escapes |
| IniLexed.DictLexerBuilt | mods/inipp.hpp:563-579 | the chain of `add_*` calls in `to_dictionary` builds exactly the dictionary configuration, with `,` and `:` as tokens of their own |
| IniLexed.FileLexerBuilt | mods/inipp.hpp:321-338 | the chain of `add_*` calls in `from_file` builds exactly the file configuration, with `=` and `,` as tokens of their own |
| IniLexed.AllNumbers | mods/inipp.hpp:52-61 | the text is accepted exactly when every character is alphanumeric or a dot and there is at most one dot; the dot flag is set exactly when there is one |
| IniLexed.AlnumWordIsInt | mods/inipp.hpp:52-61 | because the test is `isalnum`, any word of letters and digits other than "NULL" is classified as an integer |
| IniLexed.WordsAreInts | mods/inipp.hpp:685-689 | concretely, "true" and "abc" become integers |
| IniLexed.BracedLength | mods/inipp.hpp:84-101 | a text `brace_check` accepts has at least two characters |
| IniLexed.BracedText | mods/inipp.hpp:84-101 | `brace_check` accepts any text made of one capsule's brackets around characters that neither nest, close, comment nor break a line |
| IniLexed.BraceCheck | mods/inipp.hpp:84-101 | the text lexes without failure to one unquoted token that begins with the opening and ends with the closing character; `IniLexed.BracedLength` and `IniLexed.BracedText` state what it accepts |
| IniLexed.Requote | mods/inipp.hpp:631-633 | a quoted token gets its double quotes back around exactly its text; any other token is taken as it is |
| IniLexed.ToElement | mods/inipp.hpp:677-717 | Null exactly for "" and "NULL"; a string is always quoted and is the text or the text in quotes; Int or Float exactly for the alphanumeric-and-dot texts, Float with one dot; the bracket kinds pass `brace_check`; a link is a `$` text; every kind but String and Null keeps the text; the undetermined case only for texts holding a double quote |
| IniLexed.Classify | mods/inipp.hpp:631-634 | one element per token, each the classification of the requoted token, in order |
| IniLexed.ToList | mods/inipp.hpp:609-636 | a text `brace_check` does not accept as a list gives the empty list |
| IniLexed.ListWords | mods/inipp.hpp:615-629 | bare words joined by commas lex to one unquoted token per word, in order |
| IniLexed.ListRoundTrip | mods/inipp.hpp:609-738 | `to_list` reads back the text `to_string(IniList)` writes, element for element, for elements whose bare text classifies as themselves |
| IniLexed.ListTextIsList | mods/inipp.hpp:677-695 | the text of a list of bare elements is classified as a List holding that text |
| IniLexed.ToDictionary | mods/inipp.hpp:556-606 | a text not starting with `{` and ending with `}` gives the empty dictionary; any result is ordered by key, as `std::map` is |
| IniLexed.DictScanSorted | mods/inipp.hpp:586-605 | storing entries through `dic[key]` keeps the dictionary ordered by key |
| IniLexed.ScanEntry | mods/inipp.hpp:586-602 | a key token, a colon and a value token store the classified value under the key |
| IniLexed.DictScanEntries | mods/inipp.hpp:586-605 | the tokens of key:value entries separated by commas read back every entry, in key order |
| IniLexed.DictRoundTrip | mods/inipp.hpp:556-747 | `to_dictionary` reads back the text `to_string(IniDictionary)` writes, for sorted entries with bare keys and values that classify as themselves |
| IniLexed.MissingColon | mods/inipp.hpp:596-597 | two words without a colon between them make the whole dictionary empty |
| IniLexed.ToVector | mods/inipp.hpp:639-674 | a text wrong at both ends gives the zero vector; any result holds 32-bit integers |
| IniLexed.VectorBetween | mods/inipp.hpp:639-674 | three integers joined by commas between two outer characters, one of them a parenthesis, read back as those integers |
| IniLexed.VectorRoundTrip | mods/inipp.hpp:639-674 | `to_vector` reads back the text `IniVector::to_string` writes for every vector of 32-bit integers |
| IniLexed.VectorWrongEnd | mods/inipp.hpp:640 | the shape test joins its two conditions with `&&`, so "(1,2,3]" and "x1,2,3)" are read as the vector (1,2,3) |
| IniLexed.Get | mods/inipp.hpp:420-429 | "" names "Main"; afterwards the section and key exist and hold the returned element, which is the stored one, or Null when the key was missing; a present key leaves the file untouched; the error state is kept |
| IniLexed.Set | mods/inipp.hpp:446-453 | after `set` the key holds the value and a `get` of it returns the value without changing the file |
| IniLexed.SetKeepsOthers | mods/inipp.hpp:446-453 | `set` changes no other key of the section and no other section |
| IniLexed.GetSetKeepTidy | mods/inipp.hpp:420-429 | `get` and `set` keep section names distinct and the keys within each section distinct |
| IniLexed.WithSection | mods/inipp.hpp:423-425 | a missing section is appended empty at the end; an existing one leaves the sections as they were |
| IniLexed.Has | mods/inipp.hpp:284-289 | `has` holds exactly when some section with the name ("" meaning "Main") holds the key |
| IniLexed.HasFinds | mods/inipp.hpp:284-289 | in a tidy file `has` answers whether the key can be found in the section |
| IniLexed.GroupStep | mods/inipp.hpp:358-401 | reading one line group keeps the reading position on an existing section |
| IniLexed.GroupStepMeans | mods/inipp.hpp:358-401 | a header line must be one token, else "Invalid section declaration!"; a first token with empty text, whose first character is read, and a header of fewer than two characters are undefined; any other line must be key, `=`, value, else "Invalid format in line n+1"; a header moves to the named section, a pair stores the classified value; sections are only appended and stay tidy |
| IniLexed.ReadGroupsKeeps | mods/inipp.hpp:358-402 | reading all groups only appends sections, keeps them tidy, and ends without error or with a syntax error that carries a description |
| IniLexed.Parse | mods/inipp.hpp:310-408 | a lexing failure is the read error "Lexing Error"; a result starts with section "Main" and is tidy; the error description is empty exactly when there is no error; a success had tokens and lexed cleanly |
| IniLexed.KeyValueTokens | mods/inipp.hpp:321-339 | a line `key=value` of bare words lexes to the key, `=` and the value, on line 1 |
| IniLexed.ParseOneLine | mods/inipp.hpp:348-356 | content whose tokens share one line is read as that single group |
| IniLexed.KeyValueGroup | mods/inipp.hpp:383-400 | a key, `=` and a value group stores the classified value under the key in "Main" |
| IniLexed.ParseKeyValue | mods/inipp.hpp:310-408 | the content `key=value` of bare words reads as the file whose "Main" holds exactly that pair, without error |
| IniLexed.ParseLoneWord | mods/inipp.hpp:387-390 | a lone word is a format error reported for line 2, because the line counter starts at 1 and the message adds 1 |
| IniLexed.LoneWordGroup | mods/inipp.hpp:387-390 | a group of one plain word stops with "Invalid format in line 2" |
| IniLexed.ParseEscapedBracket | mods/inipp.hpp:360-368 | an escaped `[` alone becomes a one-character section header, and stripping its two brackets is undefined |
| ArgParser.FirstMatch | mods/ArgParser/ArgParser.cpp:96-107 | `find` succeeds exactly when some argument answers to the word by name or alias, and returns the first one that does |
| ArgParser.FirstOpenGet | mods/ArgParser/ArgParser.cpp:115-123 | the scan finds nothing exactly when no get argument is still empty, and otherwise returns an empty get argument |
| ArgParser.NextGet | mods/ArgParser/ArgParser.cpp:109-124 | `find_next_getarg` fails when the counter is zero; a failure leaves the counter alone; a success takes one from the counter and returns an empty get argument; with the counter positive and an empty get argument present it succeeds |
| ArgParser.CountGets | mods/ArgParser/ArgParser.cpp:144-150 | the number of get arguments never exceeds the number of arguments |
| ArgParser.AddArg | mods/ArgParser/ArgParser.cpp:126-129 | `addArg` appends exactly one argument, unset and with the given declaration, and changes nothing else |
| ArgParser.EnableString | mods/ArgParser/ArgParser.cpp:130-133 | `enableString` sets the string symbol and changes nothing else |
| ArgParser.SetBin | mods/ArgParser/ArgParser.cpp:135-138 | `setbin` switches the bin on and changes nothing else |
| ArgParser.AddArgDefaults | mods/ArgParser/ArgParser.h:29-36 | an argument added by `addArg` is OPTIONAL by default while a bare `Arg` starts FORCE; both start unset, with no required position |
| ArgParser.Partition | mods/ArgParser/ArgParser.h:66-83 | the `ParsedArgs` constructor puts exactly the tags, the set arguments and all the rest into the three lists |
| ArgParser.PartitionPermutes | mods/ArgParser/ArgParser.h:66-83 | the three lists together hold exactly the arguments given, none lost or doubled |
| ArgParser.PartitionAppend | mods/ArgParser/ArgParser.h:68-82 | order is kept: a further argument lands at the end of exactly one list |
| ArgParser.MakeParsed | mods/ArgParser/ArgParser.h:64-88 | the result holds the partitioned arguments, the code, the message and the bin, and reports a bin exactly when it is non-empty |
| ArgParser.Tag | mods/ArgParser/ArgParser.cpp:21-28 | `operator[]` is true exactly when the first tag answering to the name, by name or alias, is set |
| ArgParser.Value | mods/ArgParser/ArgParser.cpp:30-48 | `operator()` gives the value of the first set argument answering to the name, else of the first get argument, else "" |
| ArgParser.AnyGiven | mods/ArgParser/ArgParser.cpp:67-83 | one loop of `has` holds exactly when an argument of exactly this name has a value, or is set for a tag |
| ArgParser.Has | mods/ArgParser/ArgParser.cpp:66-86 | `has` holds exactly when a get or set argument of this name has a value or a tag of this name is set; aliases do not count |
| ArgParser.HasIgnoresAliases | mods/ArgParser/ArgParser.cpp:12-86 | a tag given under its alias is seen by `operator[]` under the alias but not by `has` |
| ArgParser.Use | mods/ArgParser/ArgParser.cpp:180-196 | using an argument moves on past the word, and past its value for a set argument, never beyond the words |
| ArgParser.StepAt | mods/ArgParser/ArgParser.cpp:156-197 | one turn of the loop moves on past at least the current word and never beyond the words |
| ArgParser.StepRoutes | mods/ArgParser/ArgParser.cpp:156-178 | a word goes to the first argument answering to it; failing that, into the first empty get argument while the counter allows; failing that, with the rest of the words into the bin when it is on, else UNKNOWN_ARG with the word |
| ArgParser.UseMeans | mods/ArgParser/ArgParser.cpp:180-196 | a required position other than the word's gives POSITION_MISSMATCH; a set argument takes the next word, or gives INVALID_SET with its name when there is none; a tag is switched on; only that argument changes |
| ArgParser.GrowsTransitive | mods/ArgParser/ArgParser.cpp:152-197 | keeping the declarations and only adding findings composes over several turns |
| ArgParser.StepGrows | mods/ArgParser/ArgParser.cpp:156-197 | a turn keeps the declarations, only switches tags on, keeps a value once a get argument has one, and touches the bin only to empty the remaining words into it |
| ArgParser.UseGrows | mods/ArgParser/ArgParser.cpp:180-196 | using an argument keeps the declarations, only adds findings, and never touches the bin |
| ArgParser.UseExplained | mods/ArgParser/ArgParser.cpp:180-188 | a failure when using an argument is a position mismatch or a set argument given as the last word |
| ArgParser.StepExplained | mods/ArgParser/ArgParser.cpp:156-188 | a failing turn names its cause: an unknown word no argument answers to (bin off), a set argument as the last word, or a word at a position its argument forbids |
| ArgParser.LoopMeans | mods/ArgParser/ArgParser.cpp:152-197 | the whole loop keeps the declarations, only adds findings, extends the bin only by a tail of the words and never on failure, and fails only for an explained cause |
| ArgParser.Loop | mods/ArgParser/ArgParser.cpp:152-197 | the word loop of `parse`; `ArgParser.LoopMeans`, `ArgParser.StepAt` and `ArgParser.StepRoutes` state what it keeps, where each word goes and why a turn fails |
| ArgParser.FailureTransfers | mods/ArgParser/ArgParser.cpp:156-188 | whether a failure is explained depends only on the declarations, not on what was found |
| ArgParser.DepCheck | mods/ArgParser/ArgParser.cpp:210-217 | no error exactly when every argument meets its priority (FORCE given, IGNORE not given); otherwise the first argument that does not, with UNMATCHED_DEP_FORCE or UNMATCHED_DEP_IGNORE and its name |
| ArgParser.Cleared | mods/ArgParser/ArgParser.cpp:199-207 | the clearing loop keeps every declaration and forgets every finding |
| ArgParser.CountGetsShape | mods/ArgParser/ArgParser.cpp:200-207 | recounting the get arguments after clearing gives the same count |
| ArgParser.ParseArgv | mods/ArgParser/ArgParser.cpp:223-234 | the program name alone is NO_ARGS and changes nothing; otherwise the words after the program name are parsed |
| ArgParser.ParseEmpty | mods/ArgParser/ArgParser.cpp:141-143 | an empty word list is NO_ARGS with empty lists and no bin, and changes nothing |
| ArgParser.ParseKeeps | mods/ArgParser/ArgParser.cpp:140-221 | a parse keeps the declarations and settings, and the bin only grows, by a tail of the words and only when the bin is on |
| ArgParser.ParseFailure | mods/ArgParser/ArgParser.cpp:156-197 | an error met during the pass comes with empty lists and no bin, names its cause, and leaves the findings so far in the parser, uncleared |
| ArgParser.ParseChecked | mods/ArgParser/ArgParser.cpp:199-220 | a parse that reaches the dependency check reports the partitioned findings, OK exactly when every priority is met, with the bin on OK, and otherwise names the first argument whose priority fails |
| ArgParser.ParseClears | mods/ArgParser/ArgParser.cpp:199-207 | a parse that reaches the dependency check leaves the parser clean: nothing found and the counter equal to the number of get arguments |
| ArgParser.OkMeetsPriorities | mods/ArgParser/ArgParser.cpp:210-220 | every argument of an OK result meets its priority |
| ArgParser.Parse | mods/ArgParser/ArgParser.cpp:140-221 | `parse`; `ArgParser.ParseEmpty`, `ParseKeeps`, `ParseFailure`, `ParseChecked` and `ParseClears` state its empty, failing and checked outcomes |
| ArgParser.StaleFirstPass | mods/ArgParser/ArgParser.cpp:172-173 | concretely, with tags "-v" (FORCE) and "-q", the words "-v x" fail on "x" with "-v" already switched on |
| ArgParser.StaleSecondPass | mods/ArgParser/ArgParser.cpp:194-196 | the words "-q" then switch "-q" on, whatever "-v" held |
| ArgParser.StaleFindingsCarryOver | mods/ArgParser/ArgParser.cpp:172-220 | because an early return skips the clearing loop, the next parse of "-q" is OK on that parser but UNMATCHED_DEP_FORCE on a fresh one |
| Options.OptionOr | src/options.cpp:41-46 | a set option gives its own value; an unset one gives the fallback |
| Options.MakeRedirect | src/options.cpp:7-14 | an existing redirect the user does not confirm replacing stays as it was; otherwise the name now maps to the new path |
| Options.MakeRedirectMeans | src/options.cpp:4-14 | after the call the name is redirected, to the new path or to its old one, and every other name keeps its redirect state and target |
| Options.IsRedirected | src/options.cpp:4-6 | a name is redirected exactly when it has an entry in the redirect table |
| Options.CatcareUser | inc/network.hpp:29 | the default user is the `username` option, or "LabRiceCat" when that is unset (see `Options.OptionOr`) |
| Options.Lower | src/options.cpp:69 | a character is never upper case afterwards; an upper-case letter moves down by 32 code points and every other character is kept |
| Options.ToLower | src/options.cpp:67-71 | the result has the input's length and each position holds the lowered input character |
| Options.ToLowerMeans | src/options.cpp:67-71 | no upper-case letter survives, characters that were not upper case are kept, and lowering twice equals lowering once |
| Options.StripSlashes | src/options.cpp:74 | the result is a prefix of the input that does not end in '/', and everything removed was '/' |
| Options.StripSlashesEmpty | src/options.cpp:74 | stripping leaves nothing exactly when the text is made only of '/' |
| Options.GetUsernameNoSlash | src/options.cpp:73-92 | a text without an inner '/' is all user part and has an empty name |
| Options.GetUsernameSplits | src/options.cpp:73-92 | `user/name` followed by any number of '/' splits into `user/` and `name` |
| Options.GetUsernameDeeper | src/options.cpp:79-91 | the collected name is never reset at a later '/', so `a/b/c` splits into `a/b/` and `bc` |
| Options.UserEmpty | src/options.cpp:73-92 | the user part is empty exactly when the text is made only of '/' |
| Options.GetUsername | src/options.cpp:73-92 | `get_username` after stripping trailing '/'; `Options.GetUsernameNoSlash`, `GetUsernameSplits`, `GetUsernameDeeper` and `UserEmpty` state how it splits |
| Options.AppUsernameAsWrittenKeeps | src/options.cpp:48-54 | as written the text comes back unchanged exactly when it is not all '/', so a bare `repo` never gets the default user |
| Options.AppUsernameMeans | src/options.cpp:48-54 | as intended a bare name gets the lowered default user and a '/' in front, and `user/name` is kept |
| Options.AppUsernameAsWritten | src/options.cpp:48-54 | `app_username` as written, testing the user part; `Options.AppUsernameAsWrittenKeeps` states that it never adds the default user to a bare name |
| Options.AppUsername | src/options.cpp:48-54 | the intended test on the name part; `Options.AppUsernameMeans` states that a bare name gets the lowered default user |
| Options.LastNameAsWritten | src/options.cpp:56-65 | as written the result is the text after the last '/' that comes before the final character |
| Options.LastName | src/options.cpp:56-65 | as intended the result is a non-empty component free of '/', the last one of the path once trailing '/' are stripped |
| Options.LastNameTrailing | src/options.cpp:56-65 | as intended a trailing '/' does not change the last name |
| Options.LastNameKeepsSlash | src/options.cpp:58-62 | as written `a/b/` gives `b/`, where the intended definition gives `b` |
| Configs.ConfigHealthcare | src/configs.cpp:132-146 | the message is empty exactly when the configuration is healthy, and each check's message comes back exactly when every earlier check passed and that one fails, in the order name, dependencies, files, version |
| Configs.ValidConfigs | src/configs.cpp:128-130 | a configuration is valid exactly when the health check gives no message; `Configs.ExtractedValid` relates it to the checklist |
| Configs.ExtractConfigs | src/configs.cpp:105-126 | the extracted dictionary keeps its keys in order, and a checklist that lacks the name or the files entry gives an empty dictionary |
| Configs.ExtractConfigsMeans | src/configs.cpp:115-125 | from a usable checklist the name and version come from section Info, the files and dependencies from section Download, version and dependencies only when present, and no other key appears |
| Configs.ExtractedValid | src/configs.cpp:105-146 | validating what was extracted checks the types of the checklist's own elements, the optional entries only when present |
| Configs.Listed | src/configs.cpp:166-174 | a name is installed exactly when some String element of the list reads as that name |
| Configs.FirstNamed | src/configs.cpp:189-194 | the scan finds nothing exactly when no element names the name, and otherwise the first element that does |
| Configs.StringElement | src/configs.cpp:217-218 | assigning a name makes a String element that reads back as the name |
| Configs.AddToDependencyList | src/configs.cpp:209-222 | the edited dependency list keeps every String element readable |
| Configs.RemoveFirst | src/configs.cpp:227-232 | deleting the first match keeps every String element readable |
| Configs.RegisterLikeDependencyList | src/configs.cpp:176-235 | adding to or removing from the register edits the list exactly as the dependency-list edits do: the quoted name the register appends classifies as the String element that `elm = name` builds (src/configs.cpp:217-218) |
| Configs.AddMeans | src/configs.cpp:209-222 | a listed name leaves the list unchanged, an unlisted one is appended as a String; afterwards the name is listed and no other name's membership changed |
| Configs.RemoveMeans | src/configs.cpp:224-235 | an unlisted name leaves the list unchanged; otherwise exactly the first element naming it is deleted and the others keep their order |
| Configs.RemoveAfterAdd | src/configs.cpp:209-235 | removing a name just added to a list that did not hold it restores the list |
| Configs.AddToRegister | src/configs.cpp:176-183 | `add_to_register` on the installed list; `Configs.RegisterLikeDependencyList` and `Configs.AddMeans` state the edit |
| Configs.RemoveFromRegister | src/configs.cpp:185-197 | `remove_from_register`; `Configs.RegisterLikeDependencyList` and `Configs.RemoveMeans` state the edit |
| Configs.RemoveFromDependencyList | src/configs.cpp:224-235 | `remove_from_dependencylist`; `Configs.RemoveMeans` states that exactly the first element naming the name goes |
| PageLinks.SplitSignsExactly | inc/pagelist.hpp:51-69 | the split signs are exactly the thirteen listed characters, none of them a letter, digit, blank, brace, quote, ';' or backslash |
| PageLinks.IsUrlAsWritten | src/pagelist.cpp:42-52 | as written only a text longer than six characters can count as a URL |
| PageLinks.IsUrlAsWrittenMeans | src/pagelist.cpp:42-52 | as written a text counts as a URL exactly when it starts with one of the seven schemes other than rsync and sftp and has more after it |
| PageLinks.RsyncMissed | src/pagelist.cpp:46 | `rsync://host/path` is no URL as written but is one as intended |
| PageLinks.IsUrl | src/pagelist.cpp:42-52 | as intended a text is a URL exactly when it starts with one of the nine schemes and has more after it |
| PageLinks.IsUrlIntended | src/pagelist.cpp:42-52 | any scheme followed by text is a URL as intended, and the intended test differs from the written one only by the rsync and sftp schemes |
| PageLinks.LinkLexerBuilt | src/pagelist.cpp:55-58 | the link lexer is the lexer with one `{}` capsule that drops empty tokens and keeps backslashes |
| PageLinks.LinkLexed | src/pagelist.cpp:55-60 | every token of a link is a whole `{…}` capsule or brace-free text, and when the braces balance the tokens spell the whole link |
| PageLinks.ParseLink | src/pagelist.cpp:54-71 | the parsed link is made of link pieces whose placeholders are the names inside the `{…}` pieces in order, and with balanced braces the pieces spell the link again |
| PageLinks.PlainLink | src/pagelist.cpp:54-71 | a link without braces or backslashes is one piece and has no placeholders |
| PageFind.SignLexerBuilt | src/pagelist.cpp:76-79 | the message lexer cuts at split signs, drops empty tokens and keeps backslashes |
| PageFind.WovenMessage | src/pagelist.cpp:76-80 | a message written as words joined by single split signs lexes into those words and signs, alternating |
| PageFind.Prefill | src/pagelist.cpp:85-88 | the starting values hold every placeholder and every default; a default gives its value and every other placeholder starts empty |
| PageFind.ScanSucceeds | src/pagelist.cpp:90-98 | the scan of the message fails exactly when some word at an odd index does not start with the next of the rule's signs |
| PageFind.ScanConsumes | src/pagelist.cpp:92-95 | a successful scan uses up one sign per word at an odd index, from the front |
| PageFind.ScanPositions | src/pagelist.cpp:96 | the scan keeps every placed position and files the empty name under each position a word reaches without a placement |
| PageFind.ScanValues | src/pagelist.cpp:91-97 | after the scan every name holds the last word filed under it, or else its starting value |
| PageFind.Substitute | src/pagelist.cpp:107-114 | a link without placeholders is filled into its own text |
| PageFind.FillsBack | src/pagelist.cpp:54-114 | filling each placeholder of a parsed link with its own name in braces gives back the pattern when its braces balance |
| PageFind.TryRule | src/pagelist.cpp:82-116 | a package keeps the rule as it was apart from its consumed signs and its reverse position table |
| PageFind.TryRuleMatches | src/pagelist.cpp:82-106 | a rule matches exactly when the message follows its signs and every value the scan leaves is non-empty |
| PageFind.TryRuleYields | src/pagelist.cpp:90-115 | a matched rule had enough signs, keeps those the message did not use, and gives every placeholder of its link a non-empty value |
| PageFind.Collect | src/pagelist.cpp:82-116 | at most one package is made per rule visited |
| PageFind.CollectFinds | src/pagelist.cpp:82-116 | a package is collected exactly when one of the visited rules yields it |
| PageFind.FindUrl | src/pagelist.cpp:73-118 | a message that passes the URL test as written (seven schemes, longer than the scheme) is its own single package under a default rule named `$empty$`; any other gives at most one package per rule |
| PageFind.FindUrlFinds | src/pagelist.cpp:73-118 | for a message that fails the URL test as written, a package is found exactly when some rule of the list yields it |
| PageFind.RsyncMessageSearched | src/pagelist.cpp:42-80 | `rsync://host/path` is not taken as a URL and is searched against the rules like any message |
| PageList.Merge | inc/pagelist.hpp:34-42 | merging keeps the rule's name and reverse positions and takes every other field from the other rule |
| PageList.MergeLast | inc/pagelist.hpp:34-42 | a later merge overrides an earlier one, and merging a rule with itself changes nothing |
| PageList.RuleCommand | inc/pagelist.hpp:85-91 | RULE needs exactly one unquoted argument, and then makes the named rule current, created fresh when absent, leaving every other rule alone |
| PageList.FromLoop | inc/pagelist.hpp:96-101 | the merges succeed exactly when every argument is an unquoted existing rule name, keep the name, and when the rule itself is not named leave it equal to a merge with the last named rule; a failure names an offending argument |
| PageList.FromCommand | inc/pagelist.hpp:92-103 | FROM needs a current rule and at least one argument, and succeeds exactly when every argument is an unquoted existing rule name |
| PageList.LinkCommand | inc/pagelist.hpp:104-110 | LINK needs a current rule and exactly one quoted argument, and then sets the current rule's link to the parsed pattern |
| PageList.PairMapLast | inc/pagelist.hpp:117-125 | of several pairs naming one placeholder, the last pair's value is the one kept |
| PageList.DefaultPair | inc/pagelist.hpp:118-124 | a pair is accepted exactly when an unquoted placeholder with a position, none later left undefaulted, gets a quoted value, which becomes its default |
| PageList.DefaultLoopMap | inc/pagelist.hpp:117-125 | an accepted DEFAULT adds the pairs to the defaults, later pairs winning, and changes nothing else |
| PageList.DefaultLoopKeeps | inc/pagelist.hpp:117-125 | an accepted DEFAULT keeps the positions and forgets no earlier default |
| PageList.DefaultLoopDefaulted | inc/pagelist.hpp:117-125 | after an accepted DEFAULT every placeholder it named had a position and has only defaulted placeholders after it |
| PageList.DefaultCommand | inc/pagelist.hpp:111-128 | DEFAULT needs a current rule with a link and a non-empty even number of arguments, in that order of checks |
| PageList.Padded | inc/pagelist.hpp:138-140 | padding keeps the signs and repeats the last one up to the length asked for |
| PageList.PadSigns | inc/pagelist.hpp:138-141 | with no placeholder the padding never ends; with no more signs than one fewer than the placeholders they are padded to that count; otherwise too many symbols |
| PageList.SignStep | inc/pagelist.hpp:133-137 | an argument is accepted exactly when the first argument is unquoted and this one is a single split sign, which is appended |
| PageList.SignsLoopMeans | inc/pagelist.hpp:133-141 | accepted SIGNS were all single split signs, fit in one fewer than the placeholders, and leave the old signs plus the new ones, padded |
| PageList.SignsCommand | inc/pagelist.hpp:129-143 | SIGNS needs a current rule with a link and an argument, and can only run forever when the link has no placeholder |
| PageList.WithPair | inc/pagelist.hpp:151-161 | an accepted pair places an unquoted placeholder of the link at a free position one below its positive number, and changes only the position tables without moving an earlier placement |
| PageList.WithLoopFrame | inc/pagelist.hpp:150-165 | an accepted WITH changes only the two position tables |
| PageList.WithLoopKeeps | inc/pagelist.hpp:150-165 | an accepted WITH never reassigns a position nor forgets a placeholder's |
| PageList.WithLoopPlaces | inc/pagelist.hpp:150-165 | after an accepted WITH every pair's placeholder is placed at its position |
| PageList.WithCommand | inc/pagelist.hpp:144-167 | WITH needs a current rule with a link and a non-empty even number of arguments |
| PageList.AttachLoop | inc/pagelist.hpp:172-175 | the scripts are appended exactly when every argument is quoted; otherwise an unquoted one is reported |
| PageList.AttachCommand | inc/pagelist.hpp:168-177 | ATTACH needs a current rule and at least one argument, and succeeds exactly when all are quoted |
| PageList.Handle | inc/pagelist.hpp:183-192 | exactly BEFORE, AFTER and INSTEAD name a script handle, which is 0, 1 or 2 |
| PageList.ScriptsCommand | inc/pagelist.hpp:178-195 | SCRIPTS needs a current rule and one unquoted known handle, which it sets; an unknown word is reported |
| PageList.EmbedCommand | inc/pagelist.hpp:196-220 | EMBED needs a current rule, two unquoted arguments, a known handle and a capsule, and then appends the capsule's inside with the handle |
| PageList.CommandNamed | src/pagelist.cpp:30-31 | exactly the nine command words name a command |
| PageList.Execute | src/pagelist.cpp:30-33 | a command keeps the session valid, and only SIGNS can run into undefined behaviour |
| PageList.ExecuteHealthy | inc/pagelist.hpp:84-221 | every command keeps each rule filed under its own name with split-sign signs, well-formed link pieces, handles 0 to 2, defaults only on placed placeholders and no negative position |
| PageList.RuleLexerBuilt | src/pagelist.cpp:5-16 | the statement lexer is the lexer with a `{}` capsule, blanks ignored, ';' ending a line, split signs extracted, backslashes kept and both quote characters |
| PageList.DropStrings | src/pagelist.cpp:27 | the leading quoted tokens of a statement are dropped and nothing else |
| PageList.RunStatements | src/pagelist.cpp:26-34 | running the statements keeps a healthy rule list healthy |
| PageList.SucceedingRunKeepsRules | src/pagelist.cpp:26-39 | when every statement is blank or names a command that succeeds, the result is the rule list of the last session in that chain of commands |
| PageList.StoppedRunDiscards | src/pagelist.cpp:26-34 | when the statements before one succeed and that one names no command or names a failing command, the result is the empty rule list, whatever was built before and whatever follows |
| PageList.GroupsLexed | src/pagelist.cpp:17-22 | grouping the tokens by line keeps every token's shape |
| PageList.ProcessRulelist | src/pagelist.cpp:4-40 | every rule list read is healthy |

## Left out

- Console and file I/O are not modelled: printing, `confirmation`, `ask_and_default`, reading and writing files, `std::filesystem`, downloads, `dlopen` of extensions and their `dlerror` text. The user's answer to `confirmation` becomes the `confirmed` parameter of `Options.MakeRedirect`. Reading a file becomes the text it would hold.
- The builtins `echo`, `echoln`, `input`, `exec`, `system`, `read`, `write` and `bake` are kept in the default table by name only. Calling one outside a skipped branch stops the run with an `Unmodelled` outcome.
- Extension bundles written in C++ are stood in for by `Native` closures over values. They cannot see the interpreter state.
- The script evaluator carries a `fuel: nat` bound on its recursion depth. Running out of fuel gives `OutOfFuel`, an outcome the C++ (which recurses without bound) has no counterpart for.
- Numbers are exact rationals. `std::stold` follows the `strtold` rules for decimal and hexadecimal numerals with optional exponents. `inf`, `infinity` and `nan` forms are read as `NonFinite`, which the engine turns into an `Unmodelled` outcome. `std::to_string` is modelled as six decimals rounded half away from zero. `std::pow` is modelled for natural exponents only; any other exponent is `Unmodelled`.
- Numerals.ReadNumber: does not model the range of `long double`. `std::stold` throws `out_of_range` when a value overflows or underflows it, and those limits depend on the platform; the model reads such a numeral as its exact value.
- ScriptDefaults.DefaultNumberLiteral: an out-of-range numeral such as `1e99999` is a Number here. The `catch(...)` at carescript/carescript-defaults.hpp:410-417 turns the `out_of_range` into "not a number literal", so the C++ goes on to the next literal kind.
- ScriptDefaults.ToNumberBuiltin: likewise `to_number` of an out-of-range numeral gives a Number here, where the `catch(...)` at carescript/carescript-defaults.hpp:74-81 reports "invalid input".
- ScriptPrecedence.ClimbingEvaluatesTree: covers operand/operator lists whose operators are all resolved as binary. Unary operators, the speculative resolution of `force_parse` and operands that are calls or capsules are stated separately in `ScriptEngineProps`.
- The `ScriptVariable` copy constructor is the identity on immutable values and has no member of its own; copy assignment is `ScriptValues.Assign`.
- `long double` precision and `float` formatting are not modelled. This includes the `Float` element that inipp.hpp builds with `std::to_string(float)`.
- The `uint32_t` counter of unused get arguments in ArgParser is an unbounded `nat`. It would only wrap after 2^32 declarations.
- `ArgParser::enableString` only stores a symbol that `parse` never reads. `ArgParser.EnableString` records it and nothing depends on it.
- The rule list is an `unordered_map`, whose iteration order the language does not fix. `PageFind.FindUrl` takes that order as the `order` parameter, and `PageFind.FindUrlFinds` states the result independently of it.
- The map `UrlPackage` is initialised with is dropped: `find_url` fills it in, but the header's `UrlPackage` has no such member. `Url.args` is kept but never set, as in the source.
- `process_rulelist` prints the message of an unknown or failing command before it returns the empty rule list. The printing is I/O; `PageList.RunStatements` returns the empty list.
- inipp.hpp links (`IniLink`, `make_link`, `to_link`, link resolution through `IniFile::operator[]`) and `IniHelper::set_type` are not modelled. A `$…` value is classified as a `Link` element and kept as text.
- The fallback of `IniFile::section` in InI++ for a missing section is not modelled. `get` and `set` call it only after `has_section` has found the section.
- Configs.ExtractConfigs: models only the selection from a checklist already read. Locating and reading `checklist.ini` under the package directory is I/O.
- Configs.ConfigHealthcare: requires the `name` and `files` entries. The C++ reads their type through `operator[]`, which inserts a fresh element whose type is never initialised, so the outcome without them is undefined.
- ScriptState.AddOperators: requires every operator name already present to be in the argument. `a.at(name)` throws otherwise, and the exception is not modelled.
- Options.LastName: requires a '/' before the last character of the stripped path. Without one the C++ index falls below zero and reads out of bounds.
- PageList.ProcessRulelist: gives `None` when the first token was never stamped with a line (an empty quoted string or a leading backslash). The C++ then indexes an empty vector of groups.
- PageList.SignsCommand: with a link that has no placeholder, the `size_t` subtraction wraps and the padding loop never ends. The model reports `Undefined` instead.
- Windows builds use '\\' as the directory separator. Only the POSIX '/' is modelled.

## Findings

| source | as written | input that shows it | evidently intended | confidence | as-written member | corrected member |
|---|---|---|---|---|---|---|
| carescript/carescript-defaults.hpp:309 | `strmod` errors out when the variable IS a string, and reads any other type as a string | `strmod(SIZE, s)` with `s` set to `"abc"` reports "requires string variable" | refuse variables that are not strings and edit string ones | high, not executed | ScriptDefaults.StrmodAsWrittenRejectsStrings | ScriptDefaults.StrmodEdits |
| src/pagelist.cpp:46-47 | the rsync and sftp tests compare a prefix one character shorter than the scheme, so they never match | `rsync://host/path` is not a URL | all nine schemes are recognised | high, not executed | PageLinks.RsyncMissed | PageLinks.IsUrlIntended |
| src/options.cpp:50 | `app_username` tests the user part of `get_username`, which is non-empty for any text that is not all '/' | `repo` comes back as `repo`, without the default user | a bare name gets the lowered default user and a '/' in front | medium, not executed | Options.AppUsernameAsWrittenKeeps | Options.AppUsernameMeans |
| src/options.cpp:61-62 | the stray `;` after the `else if` makes the insertion unconditional, so a trailing '/' is kept in the name | `a/b/` gives `b/` | `b`, the last component without separators | high, not executed | Options.LastNameKeepsSlash | Options.LastNameTrailing |

The interpreter's builtin dispatch (`ScriptEngine.ExecBuiltin`, which runs
`ScriptDefaults.StrmodAsWritten` for `strmod`) and `PageFind.FindUrl`
(which tests `PageLinks.IsUrlAsWritten`) follow the code as written, so that the model does what
the program does; the corrected definitions stand beside them with their
properties proved.

=== FILE: arg_parser.dfy ===
/** The command-line argument parser: a list of declared arguments, each a
    tag (a switch), a set argument (a switch followed by its value) or a get
    argument (a bare value taken by position), and one pass over the words
    of the command line that fills them in and then checks which required
    arguments are missing and which forbidden ones are present. */
module ArgParser {
  import opened Common

  // ---------------------------------------------------------------------
  // Declared arguments
  // ---------------------------------------------------------------------

  /** The three type codes. Any other code behaves like a get argument
      when results are sorted, but is never filled by position. */
  const ArgTag: int := 0
  const ArgSet: int := 1
  const ArgGet: int := 2

  /** OPTIONAL may be absent, FORCE must be given, IGNORE must not be. */
  datatype Priority = Optional | Force | Ignore

  /** An argument: its declaration (priority, type code, name, aliases,
      required position or -1) and what one pass found (`is` for a tag,
      `val` for the others). */
  datatype Arg = Arg(
    priority: Priority,
    kind: int,
    name: string,
    aliases: seq<string>,
    given: bool,
    fixedPos: int,
    val: string)

  /** An `Arg` built with no initialisers. */
  const DefaultArg: Arg := Arg(Force, 0, "", [], false, -1, "")

  /** `Arg::hasAlias`. */
  predicate HasAlias(a: Arg, name: string) {
    name in a.aliases
  }

  /** The test every lookup by name uses: the name or one of the aliases. */
  predicate Matches(a: Arg, name: string) {
    a.name == name || HasAlias(a, name)
  }

  /** `k` is the first argument answering to `name`. */
  predicate IsFirstMatch(args: seq<Arg>, name: string, k: int) {
    0 <= k < |args| && Matches(args[k], name) && forall j :: 0 <= j < k ==> !Matches(args[j], name)
  }

  predicate NoMatch(args: seq<Arg>, name: string) {
    forall j :: 0 <= j < |args| ==> !Matches(args[j], name)
  }

  /** `ArgParser::find`: the index of the first argument answering to
      `name`, or `None` where the source sets `failed`. */
  function FirstMatch(args: seq<Arg>, name: string): (r: Option<nat>)
    ensures r.Some? <==> !NoMatch(args, name)
    ensures r.Some? ==> IsFirstMatch(args, name, r.value)
  {
    FirstMatchFrom(args, name, 0)
  }

  function FirstMatchFrom(args: seq<Arg>, name: string, i: nat): (r: Option<nat>)
    requires i <= |args|
    requires forall j :: 0 <= j < i ==> !Matches(args[j], name)
    ensures r.Some? <==> !NoMatch(args, name)
    ensures r.Some? ==> IsFirstMatch(args, name, r.value)
    decreases |args| - i
  {
    if i == |args| then None
    else if Matches(args[i], name) then Some(i)
    else FirstMatchFrom(args, name, i + 1)
  }

  /** A get argument still waiting for its value. */
  predicate OpenGet(a: Arg) {
    a.kind == ArgGet && a.val == ""
  }

  /** The scan in `ArgParser::find_next_getarg`: the first open get argument. */
  function FirstOpenGet(args: seq<Arg>, i: nat): (r: Option<nat>)
    requires i <= |args|
    requires forall j :: 0 <= j < i ==> !OpenGet(args[j])
    ensures r.None? <==> forall j :: 0 <= j < |args| ==> !OpenGet(args[j])
    ensures r.Some? ==> r.value < |args| && OpenGet(args[r.value])
                        && forall j :: 0 <= j < r.value ==> !OpenGet(args[j])
    decreases |args| - i
  {
    if i == |args| then None
    else if OpenGet(args[i]) then Some(i)
    else FirstOpenGet(args, i + 1)
  }

  /** `ArgParser::find_next_getarg`: nothing while the counter of unused
      get arguments is 0; otherwise the first open get argument, counting
      it off. */
  function NextGet(args: seq<Arg>, unused: nat): (r: (Option<nat>, nat))
    ensures unused == 0 ==> r.0.None?
    ensures r.0.None? ==> r.1 == unused
    ensures r.0.Some? ==> r.1 + 1 == unused && r.0.value < |args| && OpenGet(args[r.0.value])
    ensures unused > 0 && (exists j :: 0 <= j < |args| && OpenGet(args[j])) ==> r.0.Some?
  {
    if unused == 0 then (None, 0)
    else
      var g := FirstOpenGet(args, 0);
      if g.Some? then (g, unused - 1) else (None, unused)
  }

  /** The number of arguments with the get type code. */
  function CountGets(args: seq<Arg>): (n: nat)
    ensures n <= |args|
  {
    if args == [] then 0
    else CountGets(DropLast(args)) + (if Last(args).kind == ArgGet then 1 else 0)
  }

  // ---------------------------------------------------------------------
  // The parser and its builder calls
  // ---------------------------------------------------------------------

  /** `ArgParser`: the string symbol (kept but never read by a parse), the
      counter of unused get arguments, the declared arguments with what the
      last pass left in them, whether unknown words go to the bin, and the
      bin itself, which no call ever empties. */
  datatype Parser = Parser(strsym: char, unused: nat, args: seq<Arg>, binOn: bool, bin: seq<string>)

  const NewParser: Parser := Parser(' ', 0, [], false, [])

  /** `ArgParser::addArg`, with the declaration's default arguments. */
  function AddArg(p: Parser, name: string, kind: int, aliases: seq<string> := [],
                  fixedPos: int := -1, priority: Priority := Optional): (r: Parser)
    ensures |r.args| == |p.args| + 1 && r.args[..|p.args|] == p.args
    ensures r.args[|p.args|] == Arg(priority, kind, name, aliases, false, fixedPos, "")
    ensures r.(args := p.args) == p
  {
    p.(args := p.args + [Arg(priority, kind, name, aliases, false, fixedPos, "")])
  }

  /** `ArgParser::enableString`. */
  function EnableString(p: Parser, sym: char): (r: Parser)
    ensures r.strsym == sym && r.(strsym := p.strsym) == p
  {
    p.(strsym := sym)
  }

  /** `ArgParser::setbin`. */
  function SetBin(p: Parser): (r: Parser)
    ensures r.binOn && r.(binOn := p.binOn) == p
  {
    p.(binOn := true)
  }

  /** `addArg` defaults the priority to OPTIONAL while a bare `Arg` starts
      out FORCE; both start unset, with no required position. */
  lemma AddArgDefaults(p: Parser, name: string, kind: int)
    ensures AddArg(p, name, kind).args[|p.args|].priority == Optional
    ensures DefaultArg.priority == Force
    ensures var a := AddArg(p, name, kind).args[|p.args|];
            a.fixedPos == DefaultArg.fixedPos == -1 && !a.given && a.val == DefaultArg.val == "" && a.aliases == []
  {
  }

  // ---------------------------------------------------------------------
  // Results
  // ---------------------------------------------------------------------

  datatype ErrorCode = Ok | Unknown | NoArgs | UnknownArg | InvalidSet
                     | UnmatchedDepForce | UnmatchedDepIgnore | PositionMismatch

  /** `ParsedArgs`: the arguments sorted by type, the error code and
      message, and the bin with its `bin_filled` flag. */
  datatype ParsedArgs = ParsedArgs(
    tags: seq<Arg>,
    sets: seq<Arg>,
    gets: seq<Arg>,
    code: ErrorCode,
    msg: string,
    bin: seq<string>,
    binFilled: bool)

  /** The loop of the `ParsedArgs` constructor: each argument is appended,
      in order, to the tag, set or get list by its type code. */
  function Partition(args: seq<Arg>): (r: (seq<Arg>, seq<Arg>, seq<Arg>))
    ensures forall k :: 0 <= k < |r.0| ==> r.0[k].kind == ArgTag
    ensures forall k :: 0 <= k < |r.1| ==> r.1[k].kind == ArgSet
    ensures forall k :: 0 <= k < |r.2| ==> r.2[k].kind != ArgTag && r.2[k].kind != ArgSet
  {
    if args == [] then ([], [], [])
    else
      var r := Partition(DropLast(args));
      var a := Last(args);
      if a.kind == ArgSet then (r.0, r.1 + [a], r.2)
      else if a.kind == ArgTag then (r.0 + [a], r.1, r.2)
      else (r.0, r.1, r.2 + [a])
  }

  /** No argument is lost or doubled: the three lists together hold
      exactly the arguments given. */
  lemma {:induction false} PartitionPermutes(args: seq<Arg>)
    ensures var r := Partition(args);
            multiset(r.0) + multiset(r.1) + multiset(r.2) == multiset(args)
  {
    if args != [] {
      var init := DropLast(args);
      var a := Last(args);
      PartitionPermutes(init);
      var r := Partition(init);
      assert args == init + [a];
      assert multiset(args) == multiset(init) + multiset{a};
      if a.kind == ArgSet {
        assert Partition(args) == (r.0, r.1 + [a], r.2);
        assert multiset(r.1 + [a]) == multiset(r.1) + multiset{a};
      } else if a.kind == ArgTag {
        assert Partition(args) == (r.0 + [a], r.1, r.2);
        assert multiset(r.0 + [a]) == multiset(r.0) + multiset{a};
      } else {
        assert Partition(args) == (r.0, r.1, r.2 + [a]);
        assert multiset(r.2 + [a]) == multiset(r.2) + multiset{a};
      }
    }
  }

  /** Order is kept: appending an argument appends it to exactly one list. */
  lemma PartitionAppend(args: seq<Arg>, a: Arg)
    ensures var (t, s, g) := Partition(args);
            Partition(args + [a]) ==
              if a.kind == ArgSet then (t, s + [a], g)
              else if a.kind == ArgTag then (t + [a], s, g)
              else (t, s, g + [a])
  {
    assert DropLast(args + [a]) == args;
  }

  /** The `ParsedArgs` constructor. */
  function MakeParsed(args: seq<Arg>, code: ErrorCode, msg: string, bin: seq<string>): (r: ParsedArgs)
    ensures (r.tags, r.sets, r.gets) == Partition(args)
    ensures r.code == code && r.msg == msg && r.bin == bin
    ensures r.binFilled <==> |bin| > 0
  {
    var (t, s, g) := Partition(args);
    ParsedArgs(t, s, g, code, msg, bin, bin != [])
  }

  /** `ParsedArgs::operator bool`. */
  predicate Succeeded(pa: ParsedArgs) {
    pa.code == Ok
  }

  /** `ParsedArgs::operator[]`: whether the first tag answering to `name`
      was given; false when none answers. */
  function Tag(pa: ParsedArgs, name: string): (b: bool)
    ensures b <==> exists k :: IsFirstMatch(pa.tags, name, k) && pa.tags[k].given
  {
    var m := FirstMatch(pa.tags, name);
    if m.Some? then pa.tags[m.value].given else false
  }

  /** `ParsedArgs::operator()`: the value of the first set argument
      answering to `name`, else of the first such get argument, else "". */
  function Value(pa: ParsedArgs, name: string): (v: string)
    ensures forall k :: IsFirstMatch(pa.sets, name, k) ==> v == pa.sets[k].val
    ensures NoMatch(pa.sets, name) ==>
              forall k :: IsFirstMatch(pa.gets, name, k) ==> v == pa.gets[k].val
    ensures NoMatch(pa.sets, name) && NoMatch(pa.gets, name) ==> v == ""
  {
    var s := FirstMatch(pa.sets, name);
    if s.Some? then pa.sets[s.value].val
    else
      var g := FirstMatch(pa.gets, name);
      if g.Some? then pa.gets[g.value].val else ""
  }

  /** One loop of `ParsedArgs::has`: some argument with exactly this name
      (aliases do not count) has a value, or is set for a tag. */
  function AnyGiven(args: seq<Arg>, name: string, tag: bool): (b: bool)
    ensures b <==> exists k :: 0 <= k < |args| && args[k].name == name
                              && (if tag then args[k].given else args[k].val != "")
  {
    if args == [] then false
    else
      var a := args[0];
      assert forall k :: 1 <= k < |args| ==> args[k] == args[1..][k - 1];
      (a.name == name && (if tag then a.given else a.val != "")) || AnyGiven(args[1..], name, tag)
  }

  /** `ParsedArgs::has`. */
  function Has(pa: ParsedArgs, name: string): (b: bool)
    ensures b <==> ((exists k :: 0 <= k < |pa.gets| && pa.gets[k].name == name && pa.gets[k].val != "")
                    || (exists k :: 0 <= k < |pa.sets| && pa.sets[k].name == name && pa.sets[k].val != "")
                    || (exists k :: 0 <= k < |pa.tags| && pa.tags[k].name == name && pa.tags[k].given))
  {
    AnyGiven(pa.gets, name, false) || AnyGiven(pa.sets, name, false) || AnyGiven(pa.tags, name, true)
  }

  /** `has` looks at names only, so a tag given by its alias is seen by
      `operator[]` under that alias but not by `has`. */
  lemma HasIgnoresAliases()
    ensures var pa := MakeParsed([Arg(Optional, ArgTag, "--verbose", ["-v"], true, -1, "")], Ok, "", []);
            Tag(pa, "-v") && !Has(pa, "-v") && Has(pa, "--verbose")
  {
    var a := Arg(Optional, ArgTag, "--verbose", ["-v"], true, -1, "");
    var pa := MakeParsed([a], Ok, "", []);
    assert DropLast([a]) == [];
    var none: seq<Arg> := [];
    assert Partition(none) == ([], [], []);
    assert [] + [a] == [a];
    assert Partition([a]) == ([a], [], []);
    assert pa.tags == [a] && pa.sets == [] && pa.gets == [];
    assert IsFirstMatch(pa.tags, "-v", 0);
    assert "-v" != "--verbose";
  }

  // ---------------------------------------------------------------------
  // One pass over the words
  // ---------------------------------------------------------------------

  /** What the pass carries: the arguments, the unused-get counter and the bin. */
  datatype Pass = Pass(args: seq<Arg>, unused: nat, bin: seq<string>)

  /** Where one word leaves the pass: at the next word to read, stopped
      after emptying the rest into the bin, or returned with an error. */
  datatype Step = Next(pass: Pass, i: nat) | Stop(pass: Pass) | Fail(pass: Pass, code: ErrorCode, msg: string)

  /** The word at `i` has been tied to argument `k`: check its position,
      then take the next word as a set value or switch a tag on. */
  function Use(p: Pass, words: seq<string>, i: nat, k: nat): (r: Step)
    requires i < |words| && k < |p.args|
    ensures r.Next? ==> i < r.i <= |words|
  {
    var a := p.args[k];
    if a.fixedPos != -1 && a.fixedPos != i then
      Fail(p, PositionMismatch, words[i] + " not at right position!")
    else if a.kind == ArgSet then
      if i + 1 >= |words| then Fail(p, InvalidSet, a.name)
      else Next(p.(args := p.args[k := a.(val := words[i + 1])]), i + 2)
    else if a.kind == ArgTag then Next(p.(args := p.args[k := a.(given := true)]), i + 1)
    else Next(p, i + 1)
  }

  /** One turn of the loop in `ArgParser::parse`. A word that no argument
      answers to fills the next open get argument; when there is none the
      rest of the words go to the bin if it is on, else the pass fails. */
  function StepAt(p: Pass, binOn: bool, words: seq<string>, i: nat): (r: Step)
    requires i < |words|
    ensures r.Next? ==> i < r.i <= |words|
  {
    var w := words[i];
    var found := FirstMatch(p.args, w);
    if found.Some? then Use(p, words, i, found.value)
    else
      var (g, unused) := NextGet(p.args, p.unused);
      if g.None? then
        if binOn then Stop(p.(bin := p.bin + words[i..]))
        else Fail(p, UnknownArg, w)
      else
        var k := g.value;
        Use(p.(args := p.args[k := p.args[k].(val := w)], unused := unused), words, i, k)
  }

  /** Where a word goes: to the first argument answering to it; failing
      that, into the first open get argument while the counter allows;
      failing that, with the rest of the words into the bin when it is on,
      else the pass fails with the word as UNKNOWN_ARG. */
  lemma StepRoutes(p: Pass, binOn: bool, words: seq<string>, i: nat)
    requires i < |words|
    ensures var w := words[i];
            forall k :: IsFirstMatch(p.args, w, k) ==> StepAt(p, binOn, words, i) == Use(p, words, i, k)
    ensures var w := words[i];
            NoMatch(p.args, w) && p.unused > 0 ==>
              forall k :: 0 <= k < |p.args| && OpenGet(p.args[k]) && (forall j :: 0 <= j < k ==> !OpenGet(p.args[j])) ==>
                StepAt(p, binOn, words, i)
                == Use(p.(args := p.args[k := p.args[k].(val := w)], unused := p.unused - 1), words, i, k)
    ensures var w := words[i];
            NoMatch(p.args, w) && (p.unused == 0 || forall j :: 0 <= j < |p.args| ==> !OpenGet(p.args[j])) ==>
              StepAt(p, binOn, words, i)
              == if binOn then Stop(p.(bin := p.bin + words[i..])) else Fail(p, UnknownArg, w)
  {
    var w := words[i];
    var found := FirstMatch(p.args, w);
    forall k | IsFirstMatch(p.args, w, k)
      ensures found == Some(k)
    {
      assert found.Some?;
      var m := found.value;
      assert !(m < k) && !(k < m);
    }
    if NoMatch(p.args, w) && p.unused > 0 {
      var g := FirstOpenGet(p.args, 0);
      forall k | 0 <= k < |p.args| && OpenGet(p.args[k]) && (forall j :: 0 <= j < k ==> !OpenGet(p.args[j]))
        ensures g == Some(k)
      {
        assert g.Some?;
        var m := g.value;
        assert !(m < k) && !(k < m);
      }
    }
  }

  /** Using the argument a word was tied to: a required position other
      than the word's gives POSITION_MISSMATCH; a set argument takes the
      next word as its value, or gives INVALID_SET when there is none; a tag
      is switched on; anything else is left as it is. Only that argument
      changes. */
  lemma UseMeans(p: Pass, words: seq<string>, i: nat, k: nat)
    requires i < |words| && k < |p.args|
    ensures var a := p.args[k]; var r := Use(p, words, i, k);
            (a.fixedPos != -1 && a.fixedPos != i <==> r.Fail? && r.code == PositionMismatch)
            && (a.fixedPos == -1 || a.fixedPos == i ==>
                  (a.kind == ArgSet ==>
                     (i + 1 == |words| <==> r.Fail?)
                     && (r.Fail? ==> r.code == InvalidSet && r.msg == a.name)
                     && (r.Next? ==> r.i == i + 2 && r.pass.args[k].val == words[i + 1]))
                  && (a.kind != ArgSet ==> r.Next? && r.i == i + 1)
                  && (a.kind == ArgTag ==> r.pass.args[k].given))
            && (r.Next? ==> |r.pass.args| == |p.args| && forall j :: 0 <= j < |p.args| && j != k ==> r.pass.args[j] == p.args[j])
            && r.pass.unused == p.unused && r.pass.bin == p.bin
  {
  }

  datatype Run = Finished(pass: Pass) | Failed(pass: Pass, code: ErrorCode, msg: string)

  /** The loop of `ArgParser::parse` from word `i` on. */
  function Loop(p: Pass, binOn: bool, words: seq<string>, i: nat): (r: Run)
    requires i <= |words|
    decreases |words| - i
  {
    if i == |words| then Finished(p)
    else
      var s := StepAt(p, binOn, words, i);
      match s
      case Next(p', j) => Loop(p', binOn, words, j)
      case Stop(p') => Finished(p')
      case Fail(p', c, m) => Failed(p', c, m)
  }

  /** An argument's declaration, forgetting what a pass found. */
  function Shape(a: Arg): Arg {
    a.(given := false, val := "")
  }

  /** Two argument lists with the same declarations, position by position. */
  predicate SameShape(xs: seq<Arg>, ys: seq<Arg>) {
    |xs| == |ys| && forall k :: 0 <= k < |xs| ==> Shape(xs[k]) == Shape(ys[k])
  }

  /** Only what a pass finds changes: tags are only ever switched on, and a
      get argument that holds a value keeps it. */
  predicate Grows(xs: seq<Arg>, ys: seq<Arg>) {
    SameShape(xs, ys)
    && (forall k :: 0 <= k < |xs| && xs[k].given ==> ys[k].given)
    && (forall k :: 0 <= k < |xs| && xs[k].kind == ArgGet && xs[k].val != "" ==> ys[k].val == xs[k].val)
  }

  lemma GrowsTransitive(xs: seq<Arg>, ys: seq<Arg>, zs: seq<Arg>)
    requires Grows(xs, ys) && Grows(ys, zs)
    ensures Grows(xs, zs)
  {
  }

  /** The pass ends with what it started from plus the words after some
      point, appended to the bin. */
  predicate BinExtended(bin: seq<string>, bin': seq<string>, words: seq<string>) {
    exists j :: 0 <= j <= |words| && bin' == bin + words[j..]
  }

  /** One turn keeps the declarations, only grows what was found, and
      touches the bin only to empty the remaining words into it. */
  lemma StepGrows(p: Pass, binOn: bool, words: seq<string>, i: nat)
    requires i < |words|
    ensures var s := StepAt(p, binOn, words, i);
            Grows(p.args, s.pass.args)
            && (s.Stop? ==> binOn && s.pass.bin == p.bin + words[i..])
            && (!s.Stop? ==> s.pass.bin == p.bin)
  {
    var w := words[i];
    var found := FirstMatch(p.args, w);
    if found.Some? {
      UseGrows(p, words, i, found.value);
    } else {
      var (g, unused) := NextGet(p.args, p.unused);
      if g.Some? {
        var k := g.value;
        var p' := p.(args := p.args[k := p.args[k].(val := w)], unused := unused);
        assert Grows(p.args, p'.args) by {
          assert forall j :: 0 <= j < |p.args| && j != k ==> p'.args[j] == p.args[j];
          assert Shape(p'.args[k]) == Shape(p.args[k]);
        }
        UseGrows(p', words, i, k);
        GrowsTransitive(p.args, p'.args, StepAt(p, binOn, words, i).pass.args);
      }
    }
  }

  lemma UseGrows(p: Pass, words: seq<string>, i: nat, k: nat)
    requires i < |words| && k < |p.args|
    ensures var s := Use(p, words, i, k);
            Grows(p.args, s.pass.args) && s.pass.bin == p.bin && !s.Stop?
  {
    var a := p.args[k];
    var s := Use(p, words, i, k);
    assert forall j :: 0 <= j < |p.args| && j != k ==> s.pass.args[j] == p.args[j];
    assert Shape(s.pass.args[k]) == Shape(a);
  }

  /** A failure names its cause: an unknown word that no argument answers
      to (only with the bin off), a set argument given as the last word, or
      a word found at another position than its argument demands. */
  predicate FailureExplained(args: seq<Arg>, binOn: bool, words: seq<string>, code: ErrorCode, msg: string) {
    match code
    case UnknownArg => !binOn && msg in words && NoMatch(args, msg)
    case InvalidSet =>
      |words| > 0
      && exists k :: 0 <= k < |args| && args[k].kind == ArgSet && args[k].name == msg && Matches(args[k], Last(words))
    case PositionMismatch =>
      exists i, k :: 0 <= i < |words| && 0 <= k < |args| && msg == words[i] + " not at right position!"
                     && args[k].fixedPos != -1 && args[k].fixedPos != i
    case _ => false
  }

  lemma UseExplained(p: Pass, words: seq<string>, i: nat, k: nat, args: seq<Arg>)
    requires i < |words| && k < |p.args| && SameShape(args, p.args)
    requires p.args[k].kind == ArgSet ==> Matches(p.args[k], words[i])
    ensures var s := Use(p, words, i, k);
            s.Fail? ==> FailureExplained(args, false, words, s.code, s.msg)
  {
    var a := p.args[k];
    assert Shape(args[k]) == Shape(a);
    if a.fixedPos != -1 && a.fixedPos != i {
    } else if a.kind == ArgSet && i + 1 >= |words| {
      assert i == |words| - 1;
    }
  }

  lemma StepExplained(p: Pass, binOn: bool, words: seq<string>, i: nat, args: seq<Arg>)
    requires i < |words| && SameShape(args, p.args)
    ensures var s := StepAt(p, binOn, words, i);
            s.Fail? ==> FailureExplained(args, binOn, words, s.code, s.msg)
  {
    var w := words[i];
    var found := FirstMatch(p.args, w);
    if found.Some? {
      UseExplained(p, words, i, found.value, args);
    } else {
      var (g, unused) := NextGet(p.args, p.unused);
      if g.None? {
        if !binOn {
          forall j | 0 <= j < |args|
            ensures !Matches(args[j], w)
          {
            assert Shape(args[j]) == Shape(p.args[j]);
          }
        }
      } else {
        var k := g.value;
        UseExplained(p.(args := p.args[k := p.args[k].(val := w)], unused := unused), words, i, k, args);
      }
    }
  }

  /** The whole loop keeps the declarations, only grows what was found,
      extends the bin only by a tail of the words (never on failure), and
      fails only for an explained cause. */
  lemma {:induction false} LoopMeans(p: Pass, binOn: bool, words: seq<string>, i: nat)
    requires i <= |words|
    ensures var r := Loop(p, binOn, words, i);
            Grows(p.args, r.pass.args)
            && BinExtended(p.bin, r.pass.bin, words)
            && (r.Failed? ==> r.pass.bin == p.bin && FailureExplained(p.args, binOn, words, r.code, r.msg))
            && (!binOn ==> r.pass.bin == p.bin)
    decreases |words| - i
  {
    var r := Loop(p, binOn, words, i);
    if i == |words| {
      assert p.bin == p.bin + words[|words|..];
    } else {
      var s := StepAt(p, binOn, words, i);
      StepGrows(p, binOn, words, i);
      match s
      case Next(p', j) =>
        LoopMeans(p', binOn, words, j);
        assert r == Loop(p', binOn, words, j);
        GrowsTransitive(p.args, p'.args, r.pass.args);
        if r.Failed? {
          assert FailureExplained(p'.args, binOn, words, r.code, r.msg);
          FailureTransfers(p.args, p'.args, binOn, words, r.code, r.msg);
        }
      case Stop(p') =>
        assert r.pass.bin == p.bin + words[i..];
      case Fail(p', c, m) =>
        StepExplained(p, binOn, words, i, p.args);
        assert p.bin == p.bin + words[|words|..];
    }
  }

  lemma FailureTransfers(xs: seq<Arg>, ys: seq<Arg>, binOn: bool, words: seq<string>, code: ErrorCode, msg: string)
    requires SameShape(xs, ys) && FailureExplained(ys, binOn, words, code, msg)
    ensures FailureExplained(xs, binOn, words, code, msg)
  {
    forall k | 0 <= k < |xs|
      ensures Shape(xs[k]) == Shape(ys[k])
    {
    }
    if code == InvalidSet {
      var k :| 0 <= k < |ys| && ys[k].kind == ArgSet && ys[k].name == msg && Matches(ys[k], Last(words));
      assert Shape(xs[k]) == Shape(ys[k]);
    } else if code == PositionMismatch {
      var i, k :| 0 <= i < |words| && 0 <= k < |ys| && msg == words[i] + " not at right position!"
                  && ys[k].fixedPos != -1 && ys[k].fixedPos != i;
      assert Shape(xs[k]) == Shape(ys[k]);
    } else if code == UnknownArg {
      forall j | 0 <= j < |xs|
        ensures !Matches(xs[j], msg)
      {
        assert Shape(xs[j]) == Shape(ys[j]);
      }
    }
  }

  // ---------------------------------------------------------------------
  // After the pass
  // ---------------------------------------------------------------------

  /** Whether the pass gave this argument: a value, or `is` for a tag. */
  predicate Given(a: Arg) {
    if a.kind == ArgTag then a.given else a.val != ""
  }

  /** What the priority demands: FORCE given, IGNORE not given. */
  predicate DepOk(a: Arg) {
    (a.priority == Force ==> Given(a)) && (a.priority == Ignore ==> !Given(a))
  }

  /** The dependency loop of `ArgParser::parse`: the first argument whose
      priority is not met, with the matching error code. */
  function DepCheck(args: seq<Arg>, i: nat): (r: Option<(ErrorCode, string)>)
    requires i <= |args|
    requires forall j :: 0 <= j < i ==> DepOk(args[j])
    ensures r.None? <==> forall j :: 0 <= j < |args| ==> DepOk(args[j])
    ensures r.Some? ==> exists k :: i <= k < |args| && !DepOk(args[k])
                          && (forall j :: 0 <= j < k ==> DepOk(args[j]))
                          && r.value.1 == args[k].name
                          && r.value.0 == (if args[k].priority == Force then UnmatchedDepForce else UnmatchedDepIgnore)
    decreases |args| - i
  {
    if i == |args| then None
    else
      var a := args[i];
      if a.priority == Force && !Given(a) then Some((UnmatchedDepForce, a.name))
      else if a.priority == Ignore && Given(a) then Some((UnmatchedDepIgnore, a.name))
      else DepCheck(args, i + 1)
  }

  /** The clearing loop of `ArgParser::parse`. */
  function Cleared(args: seq<Arg>): (r: seq<Arg>)
    ensures SameShape(args, r)
    ensures forall k :: 0 <= k < |r| ==> r[k] == Shape(args[k])
  {
    seq(|args|, k requires 0 <= k < |args| => Shape(args[k]))
  }

  /** A parser ready for a fresh pass: nothing found, and the counter
      equal to the number of get arguments. */
  predicate Clean(p: Parser) {
    p.unused == CountGets(p.args) && forall k :: 0 <= k < |p.args| ==> !p.args[k].given && p.args[k].val == ""
  }

  lemma CountGetsShape(xs: seq<Arg>, ys: seq<Arg>)
    requires SameShape(xs, ys)
    ensures CountGets(xs) == CountGets(ys)
    decreases |xs|
  {
    if xs != [] {
      assert Shape(Last(xs)) == Shape(Last(ys));
      CountGetsShape(DropLast(xs), DropLast(ys));
    }
  }

  /** `ArgParser::parse` of a vector of words: the result and the parser
      as the call leaves it. */
  function Parse(p: Parser, words: seq<string>): (r: (ParsedArgs, Parser))
  {
    if |words| == 0 then (MakeParsed([], NoArgs, "", []), p)
    else
      var run := Loop(Pass(p.args, CountGets(p.args), p.bin), p.binOn, words, 0);
      if run.Failed? then
        (MakeParsed([], run.code, run.msg, []),
         p.(unused := run.pass.unused, args := run.pass.args, bin := run.pass.bin))
      else
        var found := run.pass.args;
        var p' := p.(unused := CountGets(found), args := Cleared(found), bin := run.pass.bin);
        var dep := DepCheck(found, 0);
        if dep.Some? then (MakeParsed(found, dep.value.0, dep.value.1, []), p')
        else (MakeParsed(found, Ok, "", run.pass.bin), p')
  }

  /** `ArgParser::parse(char**, int)`: the program name is dropped, and a
      command line of the program name alone has no arguments. */
  function ParseArgv(p: Parser, argv: seq<string>): (r: (ParsedArgs, Parser))
    ensures |argv| <= 1 ==> r.0.code == NoArgs && r.1 == p
    ensures |argv| > 1 ==> r == Parse(p, argv[1..])
  {
    if |argv| == 1 then (MakeParsed([], NoArgs, "", []), p)
    else if |argv| == 0 then Parse(p, [])
    else Parse(p, argv[1..])
  }

  /** An empty command line is NO_ARGS and changes nothing. */
  lemma ParseEmpty(p: Parser)
    ensures Parse(p, []).0.code == NoArgs && Parse(p, []).1 == p
    ensures var pa := Parse(p, []).0; pa.tags == pa.sets == pa.gets == [] && !pa.binFilled
  {
  }

  /** A parse of a non-empty command line keeps the parser's declarations
      and settings, and its bin only grows, by a tail of the words when the
      bin is on. */
  lemma ParseKeeps(p: Parser, words: seq<string>)
    requires |words| > 0
    ensures var p' := Parse(p, words).1;
            SameShape(p.args, p'.args)
            && p'.strsym == p.strsym && p'.binOn == p.binOn
            && BinExtended(p.bin, p'.bin, words)
            && (!p.binOn ==> p'.bin == p.bin)
  {
    var pass := Pass(p.args, CountGets(p.args), p.bin);
    LoopMeans(pass, p.binOn, words, 0);
  }

  /** An error met during the pass comes with empty lists and no bin,
      names its cause, and leaves in the parser what the pass had found so
      far (the arguments are not cleared). */
  lemma ParseFailure(p: Parser, words: seq<string>)
    requires |words| > 0
    ensures var r := Parse(p, words); var pa := r.0; var p' := r.1;
            pa.code !in {Ok, UnmatchedDepForce, UnmatchedDepIgnore} ==>
              pa.tags == pa.sets == pa.gets == [] && !pa.binFilled
              && FailureExplained(p.args, p.binOn, words, pa.code, pa.msg)
              && Grows(p.args, p'.args)
  {
    var pass := Pass(p.args, CountGets(p.args), p.bin);
    LoopMeans(pass, p.binOn, words, 0);
  }

  /** A parse that reaches the dependency check clears the parser for the
      next pass, and reports OK exactly when every argument's priority is
      met; otherwise it names the first argument whose priority fails. */
  lemma ParseChecked(p: Parser, words: seq<string>)
    requires |words| > 0
    ensures var r := Parse(p, words); var pa := r.0;
            pa.code in {Ok, UnmatchedDepForce, UnmatchedDepIgnore} ==>
              var found := Loop(Pass(p.args, CountGets(p.args), p.bin), p.binOn, words, 0).pass.args;
                 (pa.tags, pa.sets, pa.gets) == Partition(found)
                 && (pa.code == Ok <==> forall k :: 0 <= k < |found| ==> DepOk(found[k]))
                 && (pa.code == Ok ==> pa.bin == r.1.bin)
                 && (pa.code != Ok ==> exists k :: 0 <= k < |found| && !DepOk(found[k])
                                                   && pa.msg == found[k].name
                                                   && (forall j :: 0 <= j < k ==> DepOk(found[j])))
  {
    var run := Loop(Pass(p.args, CountGets(p.args), p.bin), p.binOn, words, 0);
    if !run.Failed? {
      var found := run.pass.args;
      var p' := p.(unused := CountGets(found), args := Cleared(found), bin := run.pass.bin);
      var dep := DepCheck(found, 0);
      assert Parse(p, words).1 == p';
      if dep.Some? {
        assert Parse(p, words).0 == MakeParsed(found, dep.value.0, dep.value.1, []);
      } else {
        assert Parse(p, words).0 == MakeParsed(found, Ok, "", run.pass.bin);
      }
    } else {
      // an error met during the pass is never one of the checked codes
      LoopMeans(Pass(p.args, CountGets(p.args), p.bin), p.binOn, words, 0);
    }
  }

  /** A parse that reaches the dependency check leaves the parser clean. */
  lemma ParseClears(p: Parser, words: seq<string>)
    requires |words| > 0
    ensures var r := Parse(p, words);
            r.0.code in {Ok, UnmatchedDepForce, UnmatchedDepIgnore} ==> Clean(r.1)
  {
    var run := Loop(Pass(p.args, CountGets(p.args), p.bin), p.binOn, words, 0);
    if !run.Failed? {
      var found := run.pass.args;
      CountGetsShape(found, Cleared(found));
      assert Parse(p, words).1 == p.(unused := CountGets(found), args := Cleared(found), bin := run.pass.bin);
    } else {
      LoopMeans(Pass(p.args, CountGets(p.args), p.bin), p.binOn, words, 0);
    }
  }

  /** The arguments of an OK result all meet their priorities. */
  lemma OkMeetsPriorities(p: Parser, words: seq<string>)
    requires |words| > 0
    ensures var pa := Parse(p, words).0;
            pa.code == Ok ==> forall a :: a in pa.tags || a in pa.sets || a in pa.gets ==> DepOk(a)
  {
    var pa := Parse(p, words).0;
    if pa.code == Ok {
      ParseChecked(p, words);
      var found := Loop(Pass(p.args, CountGets(p.args), p.bin), p.binOn, words, 0).pass.args;
      PartitionPermutes(found);
      forall a | a in pa.tags || a in pa.sets || a in pa.gets
        ensures DepOk(a)
      {
        assert a in multiset(pa.tags) + multiset(pa.sets) + multiset(pa.gets);
        assert a in multiset(found);
        var k :| 0 <= k < |found| && found[k] == a;
      }
    }
  }

  // A concrete run showing that findings survive an early return.

  const StaleV: Arg := Arg(Force, ArgTag, "-v", [], false, -1, "")
  const StaleQ: Arg := Arg(Optional, ArgTag, "-q", [], false, -1, "")

  lemma StaleFirstPass()
    ensures Loop(Pass([StaleV, StaleQ], 0, []), false, ["-v", "x"], 0)
            == Failed(Pass([StaleV.(given := true), StaleQ], 0, []), UnknownArg, "x")
  {
    var args1 := [StaleV.(given := true), StaleQ];
    assert FirstMatchFrom([StaleV, StaleQ], "-v", 0) == Some(0);
    assert StepAt(Pass([StaleV, StaleQ], 0, []), false, ["-v", "x"], 0) == Next(Pass(args1, 0, []), 1);
    assert "x" != "-v" && "x" != "-q";
    assert FirstMatchFrom(args1, "x", 1) == None;
    assert FirstMatchFrom(args1, "x", 0) == None;
    assert StepAt(Pass(args1, 0, []), false, ["-v", "x"], 1) == Fail(Pass(args1, 0, []), UnknownArg, "x");
  }

  lemma StaleSecondPass(v: Arg)
    requires v == StaleV || v == StaleV.(given := true)
    ensures Loop(Pass([v, StaleQ], 0, []), false, ["-q"], 0)
            == Finished(Pass([v, StaleQ.(given := true)], 0, []))
  {
    assert "-q" != "-v";
    assert !Matches(v, "-q");
    assert FirstMatchFrom([v, StaleQ], "-q", 1) == Some(1);
    assert FirstMatchFrom([v, StaleQ], "-q", 0) == Some(1);
    assert StepAt(Pass([v, StaleQ], 0, []), false, ["-q"], 0) == Next(Pass([v, StaleQ.(given := true)], 0, []), 1);
  }

  lemma NoGets(v: Arg, q: Arg)
    requires v.kind == ArgTag && q.kind == ArgTag
    ensures CountGets([v, q]) == 0
  {
    assert DropLast([v, q]) == [v];
    assert DropLast([v]) == [];
  }

  /** Arguments hold stale findings after a parse that returned early: a
      tag given before an unknown word counts as given in the next parse,
      which then passes a FORCE check it would fail on a fresh parser. */
  lemma StaleFindingsCarryOver()
    ensures var p := AddArg(AddArg(NewParser, "-v", ArgTag, [], -1, Force), "-q", ArgTag);
            var p1 := Parse(p, ["-v", "x"]).1;
            Parse(p, ["-v", "x"]).0.code == UnknownArg
            && Parse(p1, ["-q"]).0.code == Ok
            && Parse(p, ["-q"]).0.code == UnmatchedDepForce
  {
    var p := AddArg(AddArg(NewParser, "-v", ArgTag, [], -1, Force), "-q", ArgTag);
    assert p.args == [StaleV, StaleQ];
    NoGets(StaleV, StaleQ);
    StaleFirstPass();
    var p1 := Parse(p, ["-v", "x"]).1;
    assert p1.args == [StaleV.(given := true), StaleQ] && p1.bin == [] && !p1.binOn;
    NoGets(StaleV.(given := true), StaleQ);
    StaleSecondPass(StaleV.(given := true));
    assert DepCheck([StaleV.(given := true), StaleQ.(given := true)], 0) == None;
    StaleSecondPass(StaleV);
    assert DepCheck([StaleV, StaleQ.(given := true)], 0) == Some((UnmatchedDepForce, "-v"));
  }
}

=== FILE: common.dfy ===
/** Small shared vocabulary: an optional value and a few string helpers
    that several components of the system use in the same way. */
module Common {

  /** A value that may be absent. */
  datatype Option<+T> = None | Some(value: T) {
    predicate IsFailure() { None? }

    function PropagateFailure<U>(): Option<U>
      requires None?
    {
      None
    }

    function Extract(): T
      requires Some?
    {
      value
    }

    function GetOr(default: T): T {
      match this
      case Some(v) => v
      case None => default
    }
  }

  /** The last element of a non-empty sequence (`back()` / `top()` in the system). */
  function Last<T>(s: seq<T>): T
    requires |s| > 0
  {
    s[|s| - 1]
  }

  /** `s` without its last element (`pop_back()` / `pop()`). */
  function DropLast<T>(s: seq<T>): seq<T>
    requires |s| > 0
  {
    s[..|s| - 1]
  }

  predicate IsDigit(c: char) { '0' <= c <= '9' }

  predicate IsUpper(c: char) { 'A' <= c <= 'Z' }

  predicate IsLower(c: char) { 'a' <= c <= 'z' }

  /** `isalnum` in the C locale. */
  predicate IsAlnum(c: char) { IsDigit(c) || IsUpper(c) || IsLower(c) }

  /** `isspace` in the C locale. */
  predicate IsSpace(c: char) { c == ' ' || c == '\t' || c == '\n' || c == '\r' || c == 11 as char || c == 12 as char }

  function DigitChar(d: nat): char
    requires d < 10
  {
    ['0', '1', '2', '3', '4', '5', '6', '7', '8', '9'][d]
  }

  function DigitValue(c: char): nat
    requires IsDigit(c)
  {
    (c as int - '0' as int) as nat
  }

  /** Decimal text of a natural number, without leading zeros. */
  function NatToString(n: nat): (s: string)
    ensures |s| > 0 && forall k :: 0 <= k < |s| ==> IsDigit(s[k])
    decreases n
  {
    if n < 10 then [DigitChar(n)] else NatToString(n / 10) + [DigitChar(n % 10)]
  }

  /** Decimal text of an integer as `std::to_string` writes it. */
  function IntToString(i: int): string
  {
    if i < 0 then "-" + NatToString(-i) else NatToString(i)
  }

  /** `src` with its first and last character removed; the caller guarantees
      there are at least two. */
  function StripEnds(s: string): (r: string)
    requires |s| >= 2
    ensures |r| == |s| - 2
    ensures forall k :: 0 <= k < |r| ==> r[k] == s[k + 1]
  {
    s[1..|s| - 1]
  }

  /** The pieces with `sep` between neighbours. */
  function Join(pieces: seq<string>, sep: string): string
  {
    if pieces == [] then "" else if |pieces| == 1 then pieces[0] else pieces[0] + sep + Join(pieces[1..], sep)
  }

  predicate StartsWith(s: string, c: char) { |s| > 0 && s[0] == c }

  predicate EndsWith(s: string, c: char) { |s| > 0 && s[|s| - 1] == c }

  /** Integer part of a real, rounded toward zero (the C++ conversion
      of a floating value to an integer type). */
  function TruncToInt(r: real): (i: int)
    ensures r >= 0.0 ==> i as real <= r < i as real + 1.0
    ensures r < 0.0 ==> i as real - 1.0 < r <= i as real
  {
    if r >= 0.0 then r.Floor else -((-r).Floor)
  }
}

=== FILE: configs.dfy ===
/** Package configuration checks and list edits: the check of a package's
    checklist dictionary, the selection of its entries from the checklist
    file, and the edits of the register of installed packages and of a
    package's dependency list, both lists of INI elements. */
module Configs {
  import opened Common
  import opened IniPlus
  import opened IniPlusFile

  // ---------------------------------------------------------------------
  // config_healthcare / valid_configs
  // ---------------------------------------------------------------------

  const NameMessage: string := "\"name\" must be a string!"
  const DependenciesMessage: string := "\"dependencies\" must be a list!"
  const FilesMessage: string := "\"files\" must be a list!"
  const VersionMessage: string := "\"version\" must be a string!"

  /** `config_healthcare` reads the type of `name` and `files` without
      checking that they are there; a missing one would be a fresh element
      whose type is never initialised. */
  predicate HealthDefined(conf: Dict) {
    Lookup(conf, "name").Some? && Lookup(conf, "files").Some?
  }

  /** The entry is absent or has the type. */
  predicate AbsentOr(conf: Dict, key: string, kind: IniType) {
    Lookup(conf, key).None? || Lookup(conf, key).value.kind == kind
  }

  /** What a healthy configuration is: a String name, a List of files, and
      where present a List of dependencies and a String version. */
  predicate Healthy(conf: Dict)
    requires HealthDefined(conf)
  {
    Lookup(conf, "name").value.kind == String
    && Lookup(conf, "files").value.kind == List
    && AbsentOr(conf, "dependencies", List)
    && AbsentOr(conf, "version", String)
  }

  /** `config_healthcare`: the first failing check's message, checked in
      the order name, dependencies, files, version; "" when all pass. */
  function ConfigHealthcare(conf: Dict): (msg: string)
    requires HealthDefined(conf)
    ensures msg == "" <==> Healthy(conf)
    ensures msg == NameMessage <==> Lookup(conf, "name").value.kind != String
    ensures msg == DependenciesMessage <==>
              Lookup(conf, "name").value.kind == String && !AbsentOr(conf, "dependencies", List)
    ensures msg == FilesMessage <==>
              Lookup(conf, "name").value.kind == String && AbsentOr(conf, "dependencies", List)
              && Lookup(conf, "files").value.kind != List
    ensures msg == VersionMessage <==>
              Lookup(conf, "name").value.kind == String && AbsentOr(conf, "dependencies", List)
              && Lookup(conf, "files").value.kind == List && !AbsentOr(conf, "version", String)
  {
    if Lookup(conf, "name").value.kind != String then NameMessage
    else if Lookup(conf, "dependencies").Some? && Lookup(conf, "dependencies").value.kind != List then DependenciesMessage
    else if Lookup(conf, "files").value.kind != List then FilesMessage
    else if Lookup(conf, "version").Some? && Lookup(conf, "version").value.kind != String then VersionMessage
    else ""
  }

  /** `valid_configs`. */
  predicate ValidConfigs(conf: Dict)
    requires HealthDefined(conf)
  {
    ConfigHealthcare(conf) == ""
  }

  // ---------------------------------------------------------------------
  // extract_configs
  // ---------------------------------------------------------------------

  /** `get` must find what `has` reports for the four keys read. */
  predicate ExtractDefined(f: IniFile) {
    SetDefined(f, "name", "Info") && SetDefined(f, "files", "Download")
    && SetDefined(f, "version", "Info") && SetDefined(f, "dependencies", "Download")
  }

  /** Whether `extract_configs` takes anything from the checklist: it must
      have been read without error and have a name and files. */
  predicate Extractable(f: IniFile) {
    f.err == NoError && HasKeyIn(f.sections, "name", "Info") && HasKeyIn(f.sections, "files", "Download")
  }

  /** The selection of `extract_configs` from the checklist file (the
      reading of the file itself is left out): name and files always,
      version and dependencies only when present. */
  function ExtractConfigs(f: IniFile): (r: Dict)
    requires ExtractDefined(f)
    ensures Sorted(r)
    ensures !Extractable(f) ==> r == []
  {
    if !Extractable(f) then []
    else
      var d1 := Put([], "name", Get(f, "name", "Info"));
      var d2 := Put(d1, "files", Get(f, "files", "Download"));
      var d3 := if HasKeyIn(f.sections, "version", "Info") then Put(d2, "version", Get(f, "version", "Info")) else d2;
      if HasKeyIn(f.sections, "dependencies", "Download") then Put(d3, "dependencies", Get(f, "dependencies", "Download"))
      else d3
  }

  /** One key of the selection: the last of the four puts that wrote it
      decides. */
  lemma ExtractLookup(f: IniFile, j: string)
    requires ExtractDefined(f) && Extractable(f)
    ensures Lookup(ExtractConfigs(f), j)
            == if j == "dependencies" && HasKeyIn(f.sections, "dependencies", "Download") then Some(Get(f, "dependencies", "Download"))
               else if j == "version" && HasKeyIn(f.sections, "version", "Info") then Some(Get(f, "version", "Info"))
               else if j == "files" then Some(Get(f, "files", "Download"))
               else if j == "name" then Some(Get(f, "name", "Info"))
               else None
  {
    var d0: Dict := [];
    var n := Get(f, "name", "Info");
    var fl := Get(f, "files", "Download");
    var d1 := Put(d0, "name", n);
    var d2 := Put(d1, "files", fl);
    var hasV := HasKeyIn(f.sections, "version", "Info");
    var hasD := HasKeyIn(f.sections, "dependencies", "Download");
    var d3 := if hasV then Put(d2, "version", Get(f, "version", "Info")) else d2;
    PutLookup(d0, "name", n, j);
    PutLookup(d1, "files", fl, j);
    if hasV {
      PutLookup(d2, "version", Get(f, "version", "Info"), j);
    }
    if hasD {
      PutLookup(d3, "dependencies", Get(f, "dependencies", "Download"), j);
    }
  }

  /** What the selection holds: each of the four keys maps to the
      checklist's element when the checklist has it, and no other key is
      there. */
  lemma ExtractConfigsMeans(f: IniFile, k: string)
    requires ExtractDefined(f) && Extractable(f)
    ensures Lookup(ExtractConfigs(f), "name") == Some(Get(f, "name", "Info"))
    ensures Lookup(ExtractConfigs(f), "files") == Some(Get(f, "files", "Download"))
    ensures Lookup(ExtractConfigs(f), "version")
            == if HasKeyIn(f.sections, "version", "Info") then Some(Get(f, "version", "Info")) else None
    ensures Lookup(ExtractConfigs(f), "dependencies")
            == if HasKeyIn(f.sections, "dependencies", "Download") then Some(Get(f, "dependencies", "Download")) else None
    ensures k !in {"name", "files", "version", "dependencies"} ==> Lookup(ExtractConfigs(f), k) == None
  {
    assert "name"[0] == 'n' && "files"[0] == 'f' && "version"[0] == 'v' && "dependencies"[0] == 'd';
    ExtractLookup(f, "name");
    ExtractLookup(f, "files");
    ExtractLookup(f, "version");
    ExtractLookup(f, "dependencies");
    ExtractLookup(f, k);
  }

  /** Checking what was extracted from a usable checklist checks the
      checklist's own elements. */
  lemma ExtractedValid(f: IniFile)
    requires ExtractDefined(f) && Extractable(f)
    ensures HealthDefined(ExtractConfigs(f))
    ensures ValidConfigs(ExtractConfigs(f)) <==>
              Get(f, "name", "Info").kind == String && Get(f, "files", "Download").kind == List
              && (HasKeyIn(f.sections, "dependencies", "Download") ==> Get(f, "dependencies", "Download").kind == List)
              && (HasKeyIn(f.sections, "version", "Info") ==> Get(f, "version", "Info").kind == String)
  {
    ExtractConfigsMeans(f, "");
  }

  // ---------------------------------------------------------------------
  // Register and dependency list
  // ---------------------------------------------------------------------

  /** Every String element of the list has its opening quote, as the
      elements of a parsed list do, so its text can be read. */
  predicate Readable(l: seq<Element>) {
    forall k :: 0 <= k < |l| ==> l[k].kind == String ==> |l[k].src| >= 1
  }

  /** The test in `installed`, `is_dependency` and the edit loops: a String
      element whose text is the name. */
  predicate Names(e: Element, name: string)
    requires e.kind == String ==> |e.src| >= 1
  {
    e.kind == String && AsText(e) == name
  }

  /** `installed` / `is_dependency` over the list read from the file. */
  function Listed(l: seq<Element>, name: string): (b: bool)
    requires Readable(l)
    ensures b <==> exists k :: 0 <= k < |l| && Names(l[k], name)
  {
    FirstNamed(l, name, 0).Some?
  }

  /** The scan of the edit loops: the first element naming `name`. */
  function FirstNamed(l: seq<Element>, name: string, i: nat): (r: Option<nat>)
    requires Readable(l) && i <= |l|
    requires forall j :: 0 <= j < i ==> !Names(l[j], name)
    ensures r.None? <==> forall j :: 0 <= j < |l| ==> !Names(l[j], name)
    ensures r.Some? ==> r.value < |l| && Names(l[r.value], name)
                        && forall j :: 0 <= j < r.value ==> !Names(l[j], name)
    decreases |l| - i
  {
    if i == |l| then None
    else if Names(l[i], name) then Some(i)
    else FirstNamed(l, name, i + 1)
  }

  /** The element `operator=(std::string)` makes of a name: a quoted String. */
  function StringElement(name: string): (e: Element)
    ensures e.kind == String && |e.src| >= 1 && Names(e, name)
  {
    QuotedTextIsString(name);
    Element(String, "\"" + name + "\"")
  }

  /** `add_to_register`: unless the name is installed, the quoted name is
      appended as an element classified from its text. */
  function AddToRegister(l: seq<Element>, name: string): (r: seq<Element>)
    requires Readable(l)
  {
    if Listed(l, name) then l else l + [ToElement("\"" + name + "\"")]
  }

  /** `add_to_dependencylist`: unless an element names it, the name is
      appended as a String element. */
  function AddToDependencyList(l: seq<Element>, name: string): (r: seq<Element>)
    requires Readable(l)
    ensures Readable(r)
  {
    var found := FirstNamed(l, name, 0);
    if found.Some? then l else l + [StringElement(name)]
  }

  /** Deleting the first element naming `name`, as both removal loops do. */
  function RemoveFirst(l: seq<Element>, name: string): (r: seq<Element>)
    requires Readable(l)
    ensures Readable(r)
  {
    var found := FirstNamed(l, name, 0);
    if found.Some? then
      var k := found.value;
      assert forall j :: 0 <= j < |l| - 1 ==> (l[..k] + l[k + 1..])[j] == if j < k then l[j] else l[j + 1];
      l[..k] + l[k + 1..]
    else l
  }

  /** `remove_from_register`: nothing when the name is not installed. */
  function RemoveFromRegister(l: seq<Element>, name: string): (r: seq<Element>)
    requires Readable(l)
  {
    if !Listed(l, name) then l else RemoveFirst(l, name)
  }

  /** `remove_from_dependencylist`. */
  function RemoveFromDependencyList(l: seq<Element>, name: string): (r: seq<Element>)
    requires Readable(l)
  {
    RemoveFirst(l, name)
  }

  /** The register and the dependency list are edited the same way: the
      quoted text a register entry is built from classifies as the String
      element a dependency entry is assigned. */
  lemma RegisterLikeDependencyList(l: seq<Element>, name: string)
    requires Readable(l)
    ensures AddToRegister(l, name) == AddToDependencyList(l, name)
    ensures RemoveFromRegister(l, name) == RemoveFromDependencyList(l, name)
  {
    var q := "\"" + name + "\"";
    assert q[0] == '"' && Last(q) == '"';
    assert ToElement(q) == StringElement(name);
  }

  /** Adding: a listed name leaves the list as it is; otherwise the name is
      appended after the unchanged list. Afterwards the name is listed and
      no other name's membership has changed. */
  lemma AddMeans(l: seq<Element>, name: string, other: string)
    requires Readable(l)
    ensures var r := AddToDependencyList(l, name);
            Readable(r)
            && (Listed(l, name) ==> r == l)
            && (!Listed(l, name) ==> r == l + [StringElement(name)])
            && Listed(r, name)
            && (other != name ==> (Listed(r, other) <==> Listed(l, other)))
  {
    var r := AddToDependencyList(l, name);
    if !Listed(l, name) {
      assert r[|l|] == StringElement(name);
      assert forall k :: 0 <= k < |l| ==> r[k] == l[k];
      if other != name {
        assert !Names(r[|l|], other);
      }
    }
  }

  /** Removing: an unlisted name leaves the list as it is; otherwise exactly
      the first element naming it is deleted and the rest keep their order. */
  lemma RemoveMeans(l: seq<Element>, name: string)
    requires Readable(l)
    ensures var r := RemoveFromDependencyList(l, name);
            Readable(r)
            && (!Listed(l, name) ==> r == l)
            && (Listed(l, name) ==>
                  exists k :: 0 <= k < |l| && Names(l[k], name) && (forall j :: 0 <= j < k ==> !Names(l[j], name))
                              && r == l[..k] + l[k + 1..])
  {
    var found := FirstNamed(l, name, 0);
    if found.Some? {
      var k := found.value;
      assert RemoveFromDependencyList(l, name) == l[..k] + l[k + 1..];
      assert 0 <= k < |l| && Names(l[k], name) && (forall j :: 0 <= j < k ==> !Names(l[j], name));
    }
  }

  /** Removing a name just added restores the list. */
  lemma RemoveAfterAdd(l: seq<Element>, name: string)
    requires Readable(l) && !Listed(l, name)
    ensures RemoveFromDependencyList(AddToDependencyList(l, name), name) == l
  {
    var r := l + [StringElement(name)];
    assert forall j :: 0 <= j < |l| ==> r[j] == l[j];
    assert Names(r[|l|], name);
    assert forall j :: 0 <= j < |l| ==> !Names(r[j], name);
    var v := FirstNamed(r, name, 0);
    assert v.Some? && !(v.value < |l|);
    assert r[..|l|] == l && r[|l| + 1..] == [];
  }
}

=== FILE: ini_lexed.dfy ===
/** The second reader of the INI format, the header-only one built on the
    tokenizer. Its values are the elements, lists, dictionaries and vectors
    of the first reader and its files hold the same sections, but it
    classifies with `isalnum`, checks brackets by lexing, reads lists,
    dictionaries and vectors from tokens, lets `get` create what is missing,
    and reads a file's content as groups of tokens sharing a line. */
module IniLexed {
  import opened Common
  import opened Numerals
  import K = KittenLexer
  import opened KittenLexerProps
  import opened IniPlus
  import opened IniPlusFile

  // ---------------------------------------------------------------------
  // The lexers
  // ---------------------------------------------------------------------

  /** Quote characters and bracket pairs every lexer of this reader knows. */
  const Quotes: set<char> := {'"', '\''}
  const Capsules: seq<(char, char)> := [('(', ')'), ('[', ']'), ('{', '}')]

  /** The escapes of the list, vector and dictionary lexers. */
  const ValueEscapes: map<char, char> := map['t' := '\t', 'n' := '\n', 'r' := '\r', '\\' := '\\']

  /** `brace_check`'s lexer. */
  const BraceConfig: K.Config :=
    K.Config(Quotes, Capsules, {' ', '\t'}, {'\n'}, {}, {'#'}, map[], true, false, [], [], [], [], [])

  /** The lexer of `to_list` and `to_vector`: commas are skipped, blanks are not. */
  const ListConfig: K.Config :=
    K.Config(Quotes, Capsules, {','}, {'\n'}, {}, {'#'}, ValueEscapes, true, false, [], [], [], [], [])

  /** The lexer of `to_dictionary`: ',' and ':' are tokens of their own. */
  const DictConfig: K.Config :=
    K.Config(Quotes, Capsules, {' ', '\t'}, {'\n'}, {',', ':'}, {'#'}, ValueEscapes, true, false, [], [], [], [], [])

  /** The lexer of `from_file`: '=' and ',' are tokens of their own, and
      `\"` is an escape too. */
  const FileConfig: K.Config :=
    K.Config(Quotes, Capsules, {' ', '\t'}, {'\n'}, {'=', ','}, {'#'}, ValueEscapes['"' := '"'], true, false, [], [], [], [], [])

  function Tokens(cfg: K.Config, s: string): seq<K.Token> { K.Lex(K.Lexer(cfg, false), s).tokens }

  /** The string quotes and capsules every lexer of this reader starts with. */
  function Base(): (lx: K.Lexer)
    ensures lx == K.Lexer(K.EmptyConfig.(stringqs := Quotes, capsules := Capsules), false)
  {
    var l1 := K.AddStringq(K.AddStringq(K.NewLexer, '"'), '\'');
    CapsuleFresh(l1, '(', ')');
    var l2 := K.AddCapsule(l1, '(', ')');
    CapsuleFresh(l2, '[', ']');
    var l3 := K.AddCapsule(l2, '[', ']');
    CapsuleFresh(l3, '{', '}');
    K.AddCapsule(l3, '{', '}')
  }

  /** The configurations are what the chains of `add_*` calls build. */
  lemma BraceLexerBuilt()
    ensures K.EraseEmpty(K.AddLineskip(K.AddLinebreak(K.AddIgnore(K.AddIgnore(Base(), ' '), '\t'), '\n'), '#'))
            == K.Lexer(BraceConfig, false)
  {
  }

  lemma ListLexerBuilt()
    ensures K.EraseEmpty(K.AddLineskip(K.AddLinebreak(K.AddIgnore(Escapes(Base()), ','), '\n'), '#'))
            == K.Lexer(ListConfig, false)
  {
    assert map[] + ValueEscapes == ValueEscapes;
  }

  lemma DictLexerBuilt()
    ensures K.EraseEmpty(K.AddLineskip(K.AddLinebreak(K.AddExtract(K.AddIgnore(K.AddIgnore(
              K.AddExtract(Escapes(Base()), ','), ' '), '\t'), ':'), '\n'), '#'))
            == K.Lexer(DictConfig, false)
  {
    assert map[] + ValueEscapes == ValueEscapes;
  }

  lemma FileLexerBuilt()
    ensures K.AddLineskip(K.EraseEmpty(K.AddExtract(K.AddExtract(K.AddLinebreak(K.AddIgnore(K.AddIgnore(
              K.AddBackslashOpt(Escapes(Base()), '"', '"'), ' '), '\t'), '\n'), '='), ',')), '#')
            == K.Lexer(FileConfig, false)
  {
    assert map[] + ValueEscapes == ValueEscapes;
  }

  /** The backslash translations `\t`, `\n`, `\r` and `\\`. */
  function Escapes(lx: K.Lexer): (r: K.Lexer)
    ensures r == lx.(cfg := lx.cfg.(backslashOpts := lx.cfg.backslashOpts + ValueEscapes))
  {
    var r := K.AddBackslashOpt(K.AddBackslashOpt(K.AddBackslashOpt(K.AddBackslashOpt(lx, 't', '\t'), 'n', '\n'), 'r', '\r'), '\\', '\\');
    assert r.cfg.backslashOpts == lx.cfg.backslashOpts + ValueEscapes;
    r
  }

  // ---------------------------------------------------------------------
  // all_numbers, brace_check
  // ---------------------------------------------------------------------

  /** Every character is alphanumeric (`isalnum`) or a dot. */
  predicate AlnumsAndDots(s: string) { forall k :: 0 <= k < |s| ==> IsAlnum(s[k]) || s[k] == '.' }

  /** The scan of `all_numbers` from a state where `dot` says whether a dot
      was already seen: the answer and the final dot flag. */
  function AlnumScan(s: string, dot: bool): (r: (bool, bool))
    ensures r.0 <==> AlnumsAndDots(s) && DotCount(s) + (if dot then 1 else 0) <= 1
    ensures r.0 ==> (r.1 <==> dot || DotCount(s) == 1)
    decreases |s|
  {
    if s == [] then (true, dot)
    else if IsAlnum(s[0]) then AlnumScan(s[1..], dot)
    else if s[0] == '.' then (if dot then (false, dot) else AlnumScan(s[1..], true))
    else (false, dot)
  }

  /** `all_numbers`, which despite its name accepts letters: alphanumeric
      characters and at most one dot; the second component says whether
      the dot occurred. */
  function AllNumbers(s: string): (r: (bool, bool))
    ensures r.0 <==> AlnumsAndDots(s) && DotCount(s) <= 1
    ensures r.0 ==> (r.1 <==> DotCount(s) == 1)
  {
    AlnumScan(s, false)
  }

  /** `brace_check`: the lexer succeeds and yields exactly one token, not a
      string, that starts with `o` and ends with `c`. */
  predicate BraceCheck(s: string, o: char, c: char) {
    var out := K.Lex(K.Lexer(BraceConfig, false), s);
    K.Ok(out.lexer) && |out.tokens| == 1 && !out.tokens[0].str
      && StartsWith(out.tokens[0].src, o) && EndsWith(out.tokens[0].src, c)
  }

  /** A text `brace_check` accepts has at least two characters, so its
      first and last can be removed. */
  lemma BracedLength(s: string, o: char, c: char)
    requires o != c && BraceCheck(s, o, c)
    ensures |s| >= 2
  {
    var toks := K.Lex(K.Lexer(BraceConfig, false), s).tokens;
    LexLength(K.Lexer(BraceConfig, false), s);
    assert TextLength(toks) == |toks[0].src| by {
      assert toks == [] + [toks[0]];
      TextLengthAppend([], toks[0]);
    }
  }

  // ---------------------------------------------------------------------
  // to_element
  // ---------------------------------------------------------------------

  /** A string token is put back between double quotes before it is classified. */
  function Requote(t: K.Token): (r: string)
    ensures t.str ==> |r| >= 2 && Quoted(r) && r[1..|r| - 1] == t.src
    ensures !t.str ==> r == t.src
  {
    if t.str then "\"" + t.src + "\"" else t.src
  }

  /** `to_element`: the type guessed from a text, tried in a fixed order. */
  function ToElement(s: string): (r: Element)
    ensures r.kind == Null <==> s == "" || s == "NULL"
    ensures r.kind == Null ==> r.src == "NULL"
    ensures r.kind == String ==> Quoted(r.src) && (r.src == s || r.src == "\"" + s + "\"")
    ensures (r.kind == Int || r.kind == Float) <==> s != "" && s != "NULL" && AlnumsAndDots(s) && DotCount(s) <= 1
    ensures r.kind == Int ==> DotCount(s) == 0
    ensures r.kind == Float ==> DotCount(s) == 1
    ensures r.kind == Dictionary ==> BraceCheck(s, '{', '}')
    ensures r.kind == List ==> BraceCheck(s, '[', ']')
    ensures r.kind == Vector ==> BraceCheck(s, '(', ')')
    ensures r.kind == Link ==> IsLinkText(s)
    ensures r.kind in {Int, Float, List, Dictionary, Vector, Link} ==> r.src == s
    ensures r.kind == Indeterminate ==> r.src == "" && '"' in s
  {
    if s == "" || s == "NULL" then Element(Null, "NULL")
    else if s[0] == '"' && Last(s) == '"' then Element(String, s)
    else
      var (intt, dot) := AllNumbers(s);
      if intt then Element(if dot then Float else Int, s)
      else if BraceCheck(s, '{', '}') then Element(Dictionary, s)
      else if BraceCheck(s, '[', ']') then Element(List, s)
      else if BraceCheck(s, '(', ')') then Element(Vector, s)
      else if IsLinkText(s) then Element(Link, s)
      else if '"' !in s then Element(String, "\"" + s + "\"")
      else Element(Indeterminate, "")
  }

  // ---------------------------------------------------------------------
  // to_list
  // ---------------------------------------------------------------------

  function Classify(toks: seq<K.Token>): (r: seq<Element>)
    ensures |r| == |toks| && forall k :: 0 <= k < |toks| ==> r[k] == ToElement(Requote(toks[k]))
  {
    seq(|toks|, k requires 0 <= k < |toks| => ToElement(Requote(toks[k])))
  }

  /** `to_list`: empty unless `brace_check` accepts the text; then the text
      without its first and last character is lexed with commas as
      separators and every token is classified. */
  function ToList(s: string): (r: seq<Element>)
    ensures !BraceCheck(s, '[', ']') ==> r == []
  {
    if !BraceCheck(s, '[', ']') then []
    else
      BracedLength(s, '[', ']');
      Classify(Tokens(ListConfig, StripEnds(s)))
  }

  // ---------------------------------------------------------------------
  // to_dictionary
  // ---------------------------------------------------------------------

  /** The variables of the loop of `to_dictionary`: the entries so far, the
      pending key and value, whether ':' was seen and whether the value was set. */
  datatype DictState = DictState(d: Dict, key: string, value: Element, gotColon: bool, setValue: bool)

  /** The loop starts with a default-constructed value. */
  const DictStart: DictState := DictState([], "", Element(Indeterminate, ""), false, false)

  /** After ',' the value is reset by assigning it an empty `std::string`. */
  const EmptyString: Element := Element(String, "\"\"")

  predicate IsMark(t: K.Token, m: string) { t.src == m && !t.str }

  /** The loop of `to_dictionary` over the tokens, and the final pair; `None`
      is the early return of an empty dictionary. */
  function DictScan(toks: seq<K.Token>, st: DictState): Option<Dict>
    decreases |toks|
  {
    if toks == [] then Some(if st.setValue then Put(st.d, st.key, st.value) else st.d)
    else
      var t := toks[0];
      if IsMark(t, ":") then
        if st.gotColon || st.setValue then None
        else DictScan(toks[1..], st.(gotColon := true))
      else if IsMark(t, ",") then
        if !st.setValue then None
        else DictScan(toks[1..], DictState(Put(st.d, st.key, st.value), "", EmptyString, false, false))
      else if (st.key != "" && !st.gotColon) || st.setValue then None
      else if st.gotColon then DictScan(toks[1..], st.(value := ToElement(Requote(t)), setValue := true))
      else DictScan(toks[1..], st.(key := Requote(t)))
  }

  /** `to_dictionary`: the text must start with '{' and end with '}'; the
      text between is lexed with ',' and ':' as tokens of their own, and a
      lexing failure goes unnoticed. Reading the first character of an
      empty text is undefined. */
  function ToDictionary(s: string): (r: Dict)
    requires s != ""
    ensures s[0] != '{' || Last(s) != '}' ==> r == []
    ensures Sorted(r)
  {
    if s[0] != '{' || Last(s) != '}' then []
    else
      var inner := StripEnds(s);
      if inner == "" then []
      else
        DictScanSorted(Tokens(DictConfig, inner), DictStart);
        DictScan(Tokens(DictConfig, inner), DictStart).GetOr([])
  }

  lemma {:induction false} DictScanSorted(toks: seq<K.Token>, st: DictState)
    requires Sorted(st.d)
    ensures DictScan(toks, st).Some? ==> Sorted(DictScan(toks, st).value)
    decreases |toks|
  {
    if toks != [] {
      var t := toks[0];
      if IsMark(t, ":") {
        DictScanSorted(toks[1..], st.(gotColon := true));
      } else if IsMark(t, ",") {
        if st.setValue {
          DictScanSorted(toks[1..], DictState(Put(st.d, st.key, st.value), "", EmptyString, false, false));
        }
      } else if st.gotColon {
        DictScanSorted(toks[1..], st.(value := ToElement(Requote(t)), setValue := true));
      } else {
        DictScanSorted(toks[1..], st.(key := Requote(t)));
      }
    }
  }

  // ---------------------------------------------------------------------
  // to_vector
  // ---------------------------------------------------------------------

  /** `to_vector`: the zero vector unless the text between the outer
      characters lexes into exactly three tokens that `std::stoi` reads. */
  function ToVector(s: string): (r: Vec3)
    requires VectorInput(s)
    ensures s[0] != '(' && Last(s) != ')' ==> r == Zero
    ensures IntRange(r)
  {
    if s[0] != '(' && Last(s) != ')' then Zero
    else
      var sp := Tokens(ListConfig, StripEnds(s));
      if |sp| != 3 then Zero
      else match (Stoi(Requote(sp[0])), Stoi(Requote(sp[1])), Stoi(Requote(sp[2])))
        case (Some(x), Some(y), Some(z)) => Vec3(x, y, z)
        case _ => Zero
  }

  // ---------------------------------------------------------------------
  // IniFile::get, IniFile::has
  // ---------------------------------------------------------------------

  /** `IniFile::get`: an empty section name means "Main"; a missing section
      is appended, and the key is looked up in the first section of the
      name, where a missing key is added holding Null. The file afterwards
      and the element. */
  function Get(f: IniFile, key: string, sec: string): (r: (IniFile, Element))
    ensures r.0.err == f.err && r.0.errDesc == f.errDesc
    ensures HasKeyIn(r.0.sections, key, GetName(sec))
    ensures FileValue(r.0.sections, GetName(sec), key) == Some(r.1)
    ensures FileValue(f.sections, GetName(sec), key) == Some(r.1)
         || (FileValue(f.sections, GetName(sec), key).None? && r.1 == NullElement)
    ensures FileValue(f.sections, GetName(sec), key).Some? ==> r.0 == f
  {
    var name := GetName(sec);
    var ss := WithSection(f.sections, name);
    var i := Position(ss, name);
    var (s1, e) := SectionAccess(ss[i], key);
    FileValueUpdate(ss, i, s1, name, key);
    FileValueWith(f.sections, name, name, key);
    var ss1 := ss[i := s1];
    assert ss1[i].name == name && SectionHas(ss1[i], key);
    (f.(sections := ss1), e)
  }

  /** `IniFile::set`: assigns the element `get` hands out. */
  function Set(f: IniFile, key: string, v: Element, sec: string): (r: IniFile)
    ensures r.err == f.err && r.errDesc == f.errDesc
    ensures FileValue(r.sections, GetName(sec), key) == Some(v)
    ensures Get(r, key, sec) == (r, v)
  {
    var name := GetName(sec);
    var ss := WithSection(f.sections, name);
    var i := Position(ss, name);
    FileValueUpdate(ss, i, SectionSet(ss[i], key, v), name, key);
    f.(sections := ss[i := SectionSet(ss[i], key, v)])
  }

  /** The position of the first section of a name that is there. */
  function Position(ss: seq<Section>, name: string): (i: nat)
    requires HasSection(ss, name)
    ensures First(NamesOf(ss), name) == Some(i) && i < |ss|
  {
    First(NamesOf(ss), name).value
  }

  /** Replacing a section by one of the same name changes only what is
      found in that section, and only when it is the first of its name. */
  lemma FileValueUpdate(ss: seq<Section>, i: nat, s: Section, name: string, k: string)
    requires i < |ss| && s.name == ss[i].name
    ensures FileValue(ss[i := s], name, k) == if First(NamesOf(ss), name) == Some(i) then MemberValue(s, k) else FileValue(ss, name, k)
  {
    assert NamesOf(ss[i := s]) == NamesOf(ss);
  }

  /** An appended section of name `n` is empty, and shadows nothing. */
  lemma FileValueWith(ss: seq<Section>, n: string, name: string, k: string)
    ensures FileValue(WithSection(ss, n), name, k) == if !HasSection(ss, n) && name == n then None else FileValue(ss, name, k)
  {
    if !HasSection(ss, n) {
      assert NamesOf(ss + [Section(n, [])]) == NamesOf(ss) + [n];
      FirstAppend(NamesOf(ss), n, name);
    }
  }

  /** `set` changes no other key of the section and no other section. */
  lemma SetKeepsOthers(f: IniFile, key: string, v: Element, sec: string, name: string, k: string)
    requires name != GetName(sec) || k != key
    ensures FileValue(Set(f, key, v, sec).sections, name, k) == FileValue(f.sections, name, k)
  {
    var n := GetName(sec);
    var ss := WithSection(f.sections, n);
    var i := Position(ss, n);
    FileValueUpdate(ss, i, SectionSet(ss[i], key, v), name, k);
    FileValueWith(f.sections, n, name, k);
  }

  /** `get` and `set` keep section names and the keys of each section distinct. */
  lemma GetSetKeepTidy(f: IniFile, key: string, v: Element, sec: string)
    requires Tidy(f.sections)
    ensures Tidy(Get(f, key, sec).0.sections) && Tidy(Set(f, key, v, sec).sections)
  {
    var n := GetName(sec);
    var ss := WithSection(f.sections, n);
    if !HasSection(f.sections, n) {
      AppendTidy(f.sections, Section(n, []));
    }
    var i := First(NamesOf(ss), n).value;
    ReplaceTidy(ss, i, SectionSet(ss[i], key, v));
    var (s1, _) := SectionAccess(ss[i], key);
    if !SectionHas(ss[i], key) {
      FirstAppend(KeysOf(ss[i].members), key, key);
      assert KeysOf(s1.members) == KeysOf(ss[i].members) + [key];
    }
    ReplaceTidy(ss, i, s1);
  }

  /** In a tidy file `has` answers whether `get` finds the key without
      creating it. */
  lemma HasFinds(f: IniFile, key: string, sec: string)
    requires Tidy(f.sections)
    ensures Has(f, key, sec) <==> FileValue(f.sections, GetName(sec), key).Some?
  {
    var n := GetName(sec);
    if Has(f, key, sec) {
      var i :| 0 <= i < |f.sections| && f.sections[i].name == n && SectionHas(f.sections[i], key);
      assert NamesOf(f.sections)[i] == n;
    }
  }

  /** The sections with one of the name appended when there is none. */
  function WithSection(ss: seq<Section>, name: string): (r: seq<Section>)
    ensures HasSection(r, name)
    ensures HasSection(ss, name) ==> r == ss
    ensures !HasSection(ss, name) ==> r == ss + [Section(name, [])]
  {
    if HasSection(ss, name) then ss
    else
      var r := ss + [Section(name, [])];
      assert r[|ss|].name == name;
      r
  }

  /** `IniFile::has(key, section)`: some section of the name, with "" read
      as "Main", has the key. */
  function Has(f: IniFile, key: string, sec: string): (b: bool)
    ensures b <==> exists i :: 0 <= i < |f.sections| && f.sections[i].name == GetName(sec) && SectionHas(f.sections[i], key)
  {
    HasKeyIn(f.sections, key, GetName(sec))
  }

  // ---------------------------------------------------------------------
  // Reading: the content half of `from_file`
  // ---------------------------------------------------------------------

  /** What one line group does: reading goes on, stops with a syntax error
      and its description, or reaches undefined behaviour (a first token
      with empty text, whose first character is read, or a section header
      token of one character, whose brackets cannot both be removed). */
  datatype GroupOutcome = Continue(reading: Reading) | Stop(desc: string) | Undefined

  /** One group of tokens sharing a line. A group whose first token is not
      a string and starts with '[' must be alone on its line and selects the
      first section named by the text between the brackets, or appends one.
      Any other group must be a key, a non-string "=" and a value, and sets
      the key in the current section; its error message numbers the line
      one past the lexer's line, which already counts from 1. */
  function GroupStep(g: seq<K.Token>, r: Reading): (o: GroupOutcome)
    requires g != [] && Open(r)
    ensures o.Continue? ==> Open(o.reading)
  {
    if g[0].src == [] then Undefined
    else if StartsWith(g[0].src, '[') && !g[0].str then
      if |g| != 1 then Stop("Invalid section declaration!\n")
      else if |g[0].src| < 2 then Undefined
      else
        var name := StripEnds(g[0].src);
        match First(NamesOf(r.sections), name)
        case Some(j) => Continue(Reading(r.sections, j))
        case None => Continue(Reading(r.sections + [Section(name, [])], |r.sections|))
    else if |g| != 3 || !IsMark(g[1], "=") then
      Stop("Invalid format in line " + NatToString(g[0].line + 1) + "\n")
    else
      var c := r.current;
      Continue(Reading(r.sections[c := SectionSet(r.sections[c], g[0].src, ToElement(Requote(g[2])))], c))
  }

  predicate NonEmptyGroups(gs: seq<seq<K.Token>>) { forall k :: 0 <= k < |gs| ==> gs[k] != [] }

  /** The loop over the line groups; `None` stands for undefined behaviour. */
  function ReadGroups(gs: seq<seq<K.Token>>, r: Reading): Option<IniFile>
    requires NonEmptyGroups(gs) && Open(r)
    decreases |gs|
  {
    if gs == [] then Some(IniFile(r.sections, NoError, ""))
    else match GroupStep(gs[0], r)
      case Undefined => None
      case Stop(d) => Some(IniFile(r.sections, SyntaxError, d))
      case Continue(r1) => ReadGroups(gs[1..], r1)
  }

  /** What a group does: which groups stop reading and with which
      description, which are undefined, and that sections are only ever
      added and stay tidy. */
  lemma GroupStepMeans(g: seq<K.Token>, r: Reading)
    requires g != [] && Open(r)
    ensures var o := GroupStep(g, r);
      var header := StartsWith(g[0].src, '[') && !g[0].str;
      && (o.Undefined? <==> g[0].src == [] || (header && |g| == 1 && |g[0].src| < 2))
      && (o.Stop? <==> g[0].src != [] && if header then |g| != 1 else |g| != 3 || !IsMark(g[1], "="))
      && (o.Stop? && header ==> o.desc == "Invalid section declaration!\n")
      && (o.Stop? && !header ==> o.desc == "Invalid format in line " + NatToString(g[0].line + 1) + "\n")
      && (o.Continue? && header ==> o.reading.sections[o.reading.current].name == StripEnds(g[0].src))
      && (o.Continue? && !header ==>
            (o.reading.current == r.current && MemberValue(o.reading.sections[r.current], g[0].src) == Some(ToElement(Requote(g[2])))))
      && (o.Continue? ==> |o.reading.sections| >= |r.sections|)
      && (o.Continue? ==> forall i :: 0 <= i < |r.sections| ==> o.reading.sections[i].name == r.sections[i].name)
      && (o.Continue? && Tidy(r.sections) ==> Tidy(o.reading.sections))
  {
    var o := GroupStep(g, r);
    if o.Continue? && StartsWith(g[0].src, '[') && !g[0].str {
      var name := StripEnds(g[0].src);
      if name !in NamesOf(r.sections) && Tidy(r.sections) {
        AppendTidy(r.sections, Section(name, []));
      }
    } else if o.Continue? {
      var c := r.current;
      if Tidy(r.sections) {
        ReplaceTidy(r.sections, c, SectionSet(r.sections[c], g[0].src, ToElement(Requote(g[2]))));
      }
    }
  }

  /** Reading only adds sections, keeps them tidy, and ends without an
      error or with a syntax error that has a description. */
  lemma {:induction false} ReadGroupsKeeps(gs: seq<seq<K.Token>>, r: Reading)
    requires NonEmptyGroups(gs) && Open(r)
    ensures var f := ReadGroups(gs, r);
      f.Some? ==>
      && |f.value.sections| >= |r.sections|
      && (forall i :: 0 <= i < |r.sections| ==> f.value.sections[i].name == r.sections[i].name)
      && (Tidy(r.sections) ==> Tidy(f.value.sections))
      && (f.value.err == NoError || f.value.err == SyntaxError)
      && (f.value.err == NoError <==> f.value.errDesc == "")
    decreases |gs|
  {
    if gs != [] {
      GroupStepMeans(gs[0], r);
      match GroupStep(gs[0], r)
      case Undefined =>
      case Stop(d) =>
        assert d != "" by { assert d[0] == "I"[0]; }
      case Continue(r1) =>
        assert NonEmptyGroups(gs[1..]) by { assert forall k :: 0 <= k < |gs[1..]| ==> gs[1..][k] == gs[k + 1]; }
        ReadGroupsKeeps(gs[1..], r1);
    }
  }

  /** `from_file` after reading the content: a lexing failure or content
      without tokens is a read error; otherwise the line groups are read
      from the implicit section "Main". The check for a file without
      sections that follows can never fire. `None` stands for undefined
      behaviour. */
  function Parse(content: string): (r: Option<IniFile>)
    ensures K.LexFails(FileConfig, content) ==> r == Some(IniFile([Section("Main", [])], ReadError, "Lexing Error\n"))
    ensures r.Some? ==> |r.value.sections| >= 1 && r.value.sections[0].name == "Main" && Tidy(r.value.sections)
    ensures r.Some? ==> (r.value.err == NoError <==> r.value.errDesc == "")
    ensures r.Some? && r.value.err == NoError ==> Tokens(FileConfig, content) != [] && !K.LexFails(FileConfig, content)
  {
    var out := K.Lex(K.Lexer(FileConfig, false), content);
    if !K.Ok(out.lexer) then Some(IniFile([Section("Main", [])], ReadError, "Lexing Error\n"))
    else if out.tokens == [] then Some(IniFile([Section("Main", [])], ReadError, "Empty file\n"))
    else
      var gs := K.Lines(out.tokens);
      assert NonEmptyGroups(gs) by { assert forall k :: 0 <= k < |gs| ==> gs[k] in gs; }
      ReadGroupsKeeps(gs, Start);
      ReadGroups(gs, Start)
  }

  // ---------------------------------------------------------------------
  // Words every lexer of this reader passes through whole
  // ---------------------------------------------------------------------

  /** The characters some lexer of this reader treats specially. */
  const Specials: set<char> := {' ', '\t', '\n', ',', ':', '=', '(', ')', '[', ']', '{', '}', '"', '\'', '#', '\\'}

  /** A non-empty word free of blanks, separators, brackets, quotes,
      comment marks and backslashes. */
  predicate Bare(s: string) { s != "" && forall k :: 0 <= k < |s| ==> s[k] !in Specials }

  /** A configuration whose special characters are among `Specials`, with
      this reader's capsules and no conditional classes. */
  predicate Tame(cfg: K.Config) {
    && cfg.capsules == Capsules
    && cfg.stringqs + cfg.ignores + cfg.newlines + cfg.extracts + cfg.lineskips <= Specials
    && cfg.conStringqs == [] && cfg.conIgnores == [] && cfg.conNewlines == []
    && cfg.conExtracts == [] && cfg.conLineskips == []
  }

  lemma CapsuleChars(cfg: K.Config, c: char)
    requires cfg.capsules == Capsules
    ensures K.IsCapsuleOpen(cfg, c) <==> c == '(' || c == '[' || c == '{'
    ensures K.IsCapsuleClose(cfg, c) <==> c == ')' || c == ']' || c == '}'
  {
    if c == '(' { assert cfg.capsules[0].0 == c; }
    if c == '[' { assert cfg.capsules[1].0 == c; }
    if c == '{' { assert cfg.capsules[2].0 == c; }
    if c == ')' { assert cfg.capsules[0].1 == c; }
    if c == ']' { assert cfg.capsules[1].1 == c; }
    if c == '}' { assert cfg.capsules[2].1 == c; }
  }

  lemma BarePlain(cfg: K.Config, s: string)
    requires Tame(cfg) && Bare(s)
    ensures forall k :: 0 <= k < |s| ==> Plain(cfg, s[k])
  {
    forall k | 0 <= k < |s| ensures Plain(cfg, s[k]) {
      CapsuleChars(cfg, s[k]);
    }
  }

  lemma TameConfigs()
    ensures Tame(BraceConfig) && Tame(ListConfig) && Tame(DictConfig) && Tame(FileConfig)
  {
  }

  /** The decimal text of an integer is a bare word. */
  lemma IntTextBare(i: int)
    ensures Bare(IntToString(i))
  {
    var d := NatToString(if i < 0 then -i else i);
    assert forall k :: 0 <= k < |d| ==> d[k] !in Specials;
    if i < 0 {
      var s := IntToString(i);
      assert s == "-" + d;
      forall k | 0 <= k < |s| ensures s[k] !in Specials {
        if k > 0 { assert s[k] == d[k - 1]; }
      }
    }
  }

  // ---------------------------------------------------------------------
  // Joined words
  // ---------------------------------------------------------------------

  /** Words joined by one character are the words woven with copies of it. */
  lemma {:induction false} JoinWeave(ws: seq<string>, c: char)
    requires ws != []
    ensures Join(ws, [c]) == Weave(ws, seq(|ws| - 1, _ => c))
    decreases |ws|
  {
    if |ws| > 1 {
      JoinWeave(ws[1..], c);
      var cs := seq(|ws| - 1, _ => c);
      assert cs[0] == c && cs[1..] == seq(|ws| - 2, _ => c);
    }
  }

  /** When every separator is skipped, the woven words are the tokens. */
  lemma {:induction false} SkippedWoven(cfg: K.Config, ws: seq<string>, cs: seq<char>, line: nat)
    requires |ws| == |cs| + 1 && forall k :: 0 <= k < |cs| ==> K.IsIgnore(cfg, cs[k])
    ensures WovenTokens(cfg, ws, cs, line) == seq(|ws|, k requires 0 <= k < |ws| => K.Token(ws[k], false, line))
    decreases |cs|
  {
    if cs != [] {
      SkippedWoven(cfg, ws[1..], cs[1..], line);
    }
  }

  /** A character of a woven text comes from a word or is a separator. */
  lemma {:induction false} WeaveAvoids(ws: seq<string>, cs: seq<char>, bad: set<char>)
    requires |ws| == |cs| + 1
    requires forall k, j :: 0 <= k < |ws| && 0 <= j < |ws[k]| ==> ws[k][j] !in bad
    requires forall k :: 0 <= k < |cs| ==> cs[k] !in bad
    ensures forall j :: 0 <= j < |Weave(ws, cs)| ==> Weave(ws, cs)[j] !in bad
    decreases |cs|
  {
    if cs != [] {
      WeaveAvoids(ws[1..], cs[1..], bad);
      var w, r := ws[0] + [cs[0]], Weave(ws[1..], cs[1..]);
      forall j | 0 <= j < |w + r| ensures (w + r)[j] !in bad {
        if j < |ws[0]| { assert (w + r)[j] == ws[0][j]; }
        else if j > |ws[0]| { assert (w + r)[j] == r[j - |w|]; }
      }
    }
  }

  // ---------------------------------------------------------------------
  // Vectors through the lexer
  // ---------------------------------------------------------------------

  /** Three integers between any two outer characters of which one is
      the right bracket are read back; the other end is not checked. */
  lemma VectorBetween(v: Vec3, a: char, b: char)
    requires IntRange(v) && (a == '(' || b == ')')
    ensures ToVector([a] + Join([IntToString(v.x), IntToString(v.y), IntToString(v.z)], ",") + [b]) == v
  {
    var ws := [IntToString(v.x), IntToString(v.y), IntToString(v.z)];
    var j := Join(ws, ",");
    var s := [a] + j + [b];
    assert StripEnds(s) == j;
    IntTextBare(v.x);
    IntTextBare(v.y);
    IntTextBare(v.z);
    var sp := ListWords(ws);
    assert |sp| == 3 && Requote(sp[0]) == ws[0] && Requote(sp[1]) == ws[1] && Requote(sp[2]) == ws[2];
    StoiOfText(v.x);
    StoiOfText(v.y);
    StoiOfText(v.z);
  }

  /** Bare words joined by commas lex into one plain token each with the
      lexer of lists and vectors. */
  lemma ListWords(ws: seq<string>) returns (toks: seq<K.Token>)
    requires ws != [] && forall k :: 0 <= k < |ws| ==> Bare(ws[k])
    ensures toks == Tokens(ListConfig, Join(ws, ","))
    ensures |toks| == |ws| && forall k :: 0 <= k < |ws| ==> toks[k] == K.Token(ws[k], false, 1)
  {
    var cs := seq(|ws| - 1, _ => ',');
    JoinWeave(ws, ',');
    forall k | 0 <= k < |ws| ensures forall j :: 0 <= j < |ws[k]| ==> Plain(ListConfig, ws[k][j]) {
      BarePlain(ListConfig, ws[k]);
    }
    WovenLex(K.Lexer(ListConfig, false), ws, cs);
    SkippedWoven(ListConfig, ws, cs, 1);
    toks := Tokens(ListConfig, Join(ws, ","));
  }

  /** `to_vector` reads back what `IniVector::to_string` writes. */
  lemma VectorRoundTrip(v: Vec3)
    requires IntRange(v)
    ensures ToVector(VectorText(v)) == v
  {
    VectorBetween(v, '(', ')');
  }

  /** The shape test rejects only a text wrong at both ends: "(1,2,3]"
      and "x1,2,3)" are read like "(1,2,3)". */
  lemma VectorWrongEnd(s: string)
    requires s == "(1,2,3]" || s == "x1,2,3)"
    ensures ToVector(s) == Vec3(1, 2, 3)
  {
    OneTwoThreeText();
    if s == "(1,2,3]" {
      assert s == ['('] + "1,2,3" + [']'];
      VectorBetween(Vec3(1, 2, 3), '(', ']');
    } else {
      assert s == ['x'] + "1,2,3" + [')'];
      VectorBetween(Vec3(1, 2, 3), 'x', ')');
    }
  }

  lemma OneTwoThreeText()
    ensures Join([IntToString(1), IntToString(2), IntToString(3)], ",") == "1,2,3"
  {
    var ps := ["1", "2", "3"];
    assert IntToString(1) == "1" && IntToString(2) == "2" && IntToString(3) == "3";
    assert ps[1..] == ["2", "3"] && ps[1..][1..] == ["3"];
  }

  // ---------------------------------------------------------------------
  // Lists through the lexer
  // ---------------------------------------------------------------------

  /** The characters that end or nest a capsule for `brace_check`. */
  const Structural: set<char> := {'(', ')', '[', ']', '{', '}', '#', '\n'}

  /** `brace_check` accepts a text between the brackets of a capsule when
      nothing inside opens or closes a capsule, starts a comment or breaks
      a line; blanks, quotes and backslashes inside are taken literally. */
  lemma BracedText(i: nat, inner: string)
    requires i < |Capsules|
    requires forall k :: 0 <= k < |inner| ==> inner[k] !in Structural
    ensures BraceCheck([Capsules[i].0] + inner + [Capsules[i].1], Capsules[i].0, Capsules[i].1)
  {
    var (o, c) := Capsules[i];
    var lx := K.Lexer(BraceConfig, false);
    assert BraceConfig.capsules[i] == (o, c);
    CapsuleChars(BraceConfig, c);
    forall k | 0 <= k < |inner| ensures Inner(BraceConfig, inner[k]) {
      CapsuleChars(BraceConfig, inner[k]);
    }
    CapsuleLex(lx, o, inner, c);
  }

  /** The text of a list keeps its inside clear of `Structural` characters
      when its elements are bare. */
  lemma ListInside(l: seq<Element>)
    requires forall k :: 0 <= k < |l| ==> Bare(l[k].src)
    ensures forall j :: 0 <= j < |Join(Srcs(l), ",")| ==> Join(Srcs(l), ",")[j] !in Structural
  {
    var ws := Srcs(l);
    if ws != [] {
      JoinWeave(ws, ',');
      WeaveAvoids(ws, seq(|ws| - 1, _ => ','), Structural);
    }
  }

  /** Elements `to_list` reads back from their own text: bare texts that
      `to_element` classifies as the element itself. */
  predicate Listed(e: Element) { Bare(e.src) && ToElement(e.src) == e }

  /** `to_list` reads back what `to_string(IniList)` writes, for elements
      whose texts are bare and classified as themselves. */
  lemma ListRoundTrip(l: seq<Element>)
    requires forall k :: 0 <= k < |l| ==> Listed(l[k])
    ensures ToList(ListText(l)) == l
  {
    var inner := Join(Srcs(l), ",");
    var s := ListText(l);
    assert s == [Capsules[1].0] + inner + [Capsules[1].1];
    ListInside(l);
    BracedText(1, inner);
    assert StripEnds(s) == inner;
    if l == [] {
      assert inner == "";
      assert Tokens(ListConfig, inner) == [];
    } else {
      var toks := ListWords(Srcs(l));
      assert forall k :: 0 <= k < |l| ==> Requote(toks[k]) == l[k].src;
    }
  }

  /** The text of such a list is classified as a list. */
  lemma ListTextIsList(l: seq<Element>)
    requires forall k :: 0 <= k < |l| ==> Bare(l[k].src)
    ensures ToElement(ListText(l)) == Element(List, ListText(l))
  {
    var s := ListText(l);
    ListInside(l);
    BracedText(1, Join(Srcs(l), ","));
    assert s[0] == '[' && !IsAlnum(s[0]);
  }

  // ---------------------------------------------------------------------
  // Dictionaries through the lexer
  // ---------------------------------------------------------------------

  /** Entries `to_dictionary` reads back from their text: a bare key and a
      bare value text that `to_element` classifies as the value itself. */
  predicate Entry(e: (string, Element)) { Bare(e.0) && Listed(e.1) }

  /** Keys and value texts in order, and the separators between them. */
  function EntryWords(d: Dict): (ws: seq<string>)
    ensures |ws| == 2 * |d|
  {
    if d == [] then [] else [d[0].0, d[0].1.src] + EntryWords(d[1..])
  }

  function EntrySeparators(n: nat): (cs: seq<char>)
    requires n >= 1
    ensures |cs| == 2 * n - 1 && forall k :: 0 <= k < |cs| ==> cs[k] == ':' || cs[k] == ','
  {
    if n == 1 then [':'] else [':', ','] + EntrySeparators(n - 1)
  }

  /** The text between the braces of a dictionary is its words woven with
      its separators. */
  lemma {:induction false} DictTextWoven(d: Dict)
    requires d != []
    ensures Join(PairTexts(d), ",") == Weave(EntryWords(d), EntrySeparators(|d|))
    decreases |d|
  {
    var k, v := d[0].0, d[0].1.src;
    var ws, cs := EntryWords(d), EntrySeparators(|d|);
    if |d| == 1 {
      assert ws == [k, v] && cs == [':'];
      assert Weave(ws[1..], cs[1..]) == v;
    } else {
      DictTextWoven(d[1..]);
      var ws', cs' := EntryWords(d[1..]), EntrySeparators(|d| - 1);
      assert ws[1..] == [v] + ws' && cs[1..] == [','] + cs';
      assert ([v] + ws')[1..] == ws' && ([','] + cs')[1..] == cs';
      assert Weave(ws[1..], cs[1..]) == v + [','] + Weave(ws', cs');
      ScanEntriesJoin(d);
    }
  }

  lemma EntriesTail(d: Dict)
    requires d != [] && forall k :: 0 <= k < |d| ==> Entry(d[k])
    ensures forall k :: 0 <= k < |d[1..]| ==> Entry(d[1..][k])
  {
    forall k | 0 <= k < |d[1..]| ensures Entry(d[1..][k]) { assert d[1..][k] == d[k + 1]; }
  }

  lemma {:induction false} EntryWordsBare(d: Dict)
    requires forall k :: 0 <= k < |d| ==> Entry(d[k])
    ensures forall j :: 0 <= j < |EntryWords(d)| ==> Bare(EntryWords(d)[j])
    decreases |d|
  {
    if d != [] {
      EntriesTail(d);
      EntryWordsBare(d[1..]);
      var ws, tail := EntryWords(d), EntryWords(d[1..]);
      forall j | 2 <= j < |ws| ensures Bare(ws[j]) { assert ws[j] == tail[j - 2]; }
      assert Entry(d[0]);
    }
  }

  /** A separator the dictionary lexer keeps becomes a token after the word before it. */
  lemma WovenKept(ws: seq<string>, cs: seq<char>)
    requires |ws| == |cs| + 1 && cs != [] && !K.IsIgnore(DictConfig, cs[0])
    ensures WovenTokens(DictConfig, ws, cs, 1)
      == [K.Token(ws[0], false, 1), K.Token([cs[0]], false, 1)] + WovenTokens(DictConfig, ws[1..], cs[1..], 1)
  {
    var rest := WovenTokens(DictConfig, ws[1..], cs[1..], 1);
    assert WovenTokens(DictConfig, ws, cs, 1) == [K.Token(ws[0], false, 1)] + ([K.Token([cs[0]], false, 1)] + rest);
  }

  /** The tokens the dictionary lexer makes of one entry and, when more
      follow, the comma after it. */
  lemma EntryTokens(d: Dict) returns (rest: seq<K.Token>)
    requires d != []
    ensures |d| == 1 ==> rest == []
    ensures |d| > 1 ==> rest == [K.Token(",", false, 1)] + WovenTokens(DictConfig, EntryWords(d[1..]), EntrySeparators(|d| - 1), 1)
    ensures WovenTokens(DictConfig, EntryWords(d), EntrySeparators(|d|), 1)
      == [K.Token(d[0].0, false, 1), K.Token(":", false, 1), K.Token(d[0].1.src, false, 1)] + rest
  {
    var ws, cs := EntryWords(d), EntrySeparators(|d|);
    var ws1, cs1 := ws[1..], cs[1..];
    assert ws1 == [d[0].1.src] + EntryWords(d[1..]);
    WovenKept(ws, cs);
    assert [cs[0]] == ":";
    if |d| == 1 {
      rest := [];
      assert cs1 == [] && ws1 == [d[0].1.src];
    } else {
      rest := [K.Token(",", false, 1)] + WovenTokens(DictConfig, EntryWords(d[1..]), EntrySeparators(|d| - 1), 1);
      assert cs1 == [','] + EntrySeparators(|d| - 1);
      assert ws1[1..] == EntryWords(d[1..]) && cs1[1..] == EntrySeparators(|d| - 1);
      WovenKept(ws1, cs1);
      assert [cs1[0]] == ",";
    }
  }

  /** Reading an entry's key, colon and value. */
  lemma ScanEntry(e: (string, Element), rest: seq<K.Token>, acc: Dict, val: Element)
    requires Entry(e)
    ensures DictScan([K.Token(e.0, false, 1), K.Token(":", false, 1), K.Token(e.1.src, false, 1)] + rest, DictState(acc, "", val, false, false))
         == DictScan(rest, DictState(acc, e.0, e.1, true, true))
  {
    var ts := [K.Token(e.0, false, 1), K.Token(":", false, 1), K.Token(e.1.src, false, 1)] + rest;
    NotMark(e.0);
    NotMark(e.1.src);
    var st0 := DictState(acc, "", val, false, false);
    var st1 := st0.(key := e.0);
    var st2 := st1.(gotColon := true);
    assert DictScan(ts, st0) == DictScan(ts[1..], st1);
    assert ts[1..] == [K.Token(":", false, 1), K.Token(e.1.src, false, 1)] + rest;
    assert DictScan(ts[1..], st1) == DictScan(ts[2..], st2);
    assert ts[2..] == [K.Token(e.1.src, false, 1)] + rest;
    assert DictScan(ts[2..], st2) == DictScan(ts[3..], st2.(value := e.1, setValue := true));
    assert ts[3..] == rest;
  }

  /** A bare word is neither of the dictionary's marks. */
  lemma NotMark(w: string)
    requires Bare(w)
    ensures w != ":" && w != ","
  {
    assert w[0] !in Specials;
  }

  lemma {:induction false} DictScanEntries(d: Dict, acc: Dict, val: Element)
    requires d != [] && Sorted(acc + d) && forall k :: 0 <= k < |d| ==> Entry(d[k])
    ensures DictScan(WovenTokens(DictConfig, EntryWords(d), EntrySeparators(|d|), 1), DictState(acc, "", val, false, false)) == Some(acc + d)
    decreases |d|
  {
    var rest := EntryTokens(d);
    SortedShift(acc, d);
    PutAbove(acc, d[0].0, d[0].1);
    ScanEntry(d[0], rest, acc, val);
    if |d| == 1 {
      assert acc + d == acc + [d[0]];
    } else {
      assert rest[1..] == WovenTokens(DictConfig, EntryWords(d[1..]), EntrySeparators(|d| - 1), 1);
      EntriesTail(d);
      DictScanEntries(d[1..], acc + [d[0]], EmptyString);
    }
  }

  /** The text between the braces of such a dictionary is not empty and
      lexes into its words and separators. */
  lemma DictInside(d: Dict)
    requires d != [] && forall k :: 0 <= k < |d| ==> Entry(d[k])
    ensures Join(PairTexts(d), ",") != ""
    ensures Tokens(DictConfig, Join(PairTexts(d), ",")) == WovenTokens(DictConfig, EntryWords(d), EntrySeparators(|d|), 1)
  {
    var ws, cs := EntryWords(d), EntrySeparators(|d|);
    DictTextWoven(d);
    WeaveLonger(ws, cs);
    EntryWordsBare(d);
    TameConfigs();
    BareWords(DictConfig, ws);
    DictSeparators(cs);
    WovenLex(K.Lexer(DictConfig, false), ws, cs);
  }

  lemma WeaveLonger(ws: seq<string>, cs: seq<char>)
    requires |ws| == |cs| + 1 && cs != []
    ensures Weave(ws, cs) != ""
  {
    assert |Weave(ws, cs)| >= |ws[0]| + 1;
  }

  lemma BareWords(cfg: K.Config, ws: seq<string>)
    requires Tame(cfg) && forall k :: 0 <= k < |ws| ==> Bare(ws[k])
    ensures Words(cfg, ws)
  {
    forall k | 0 <= k < |ws| ensures forall i :: 0 <= i < |ws[k]| ==> Plain(cfg, ws[k][i]) {
      BarePlain(cfg, ws[k]);
    }
  }

  /** The dictionary lexer makes a token of each ':' and ','. */
  lemma DictSeparators(cs: seq<char>)
    requires forall k :: 0 <= k < |cs| ==> cs[k] == ':' || cs[k] == ','
    ensures Separators(DictConfig, cs)
  {
    CapsuleChars(DictConfig, ':');
    CapsuleChars(DictConfig, ',');
  }

  /** `to_dictionary` reads back what `to_string(IniDictionary)` writes,
      for a sorted dictionary whose keys and value texts are bare and whose
      values are classified as themselves. */
  lemma DictRoundTrip(d: Dict)
    requires Sorted(d) && forall k :: 0 <= k < |d| ==> Entry(d[k])
    ensures ToDictionary(DictText(d)) == d
  {
    var j := Join(PairTexts(d), ",");
    var t := DictText(d);
    assert t == "{" + j + "}" && t[0] == '{' && Last(t) == '}';
    assert StripEnds(t) == j;
    if d != [] {
      DictInside(d);
      DictScanEntries(d, [], Element(Indeterminate, ""));
      assert [] + d == d;
    }
  }

  /** Two words without a colon between them make the whole text an
      empty dictionary. */
  lemma MissingColon(k: string, v: string)
    requires Bare(k) && Bare(v)
    ensures ToDictionary("{" + k + " " + v + "}") == []
  {
    var t := "{" + k + " " + v + "}";
    var inner := k + " " + v;
    assert StripEnds(t) == inner && t[0] == '{' && Last(t) == '}';
    assert inner == Weave([k, v], [' ']);
    BarePlain(DictConfig, k);
    BarePlain(DictConfig, v);
    WovenLex(K.Lexer(DictConfig, false), [k, v], [' ']);
    var toks := [K.Token(k, false, 1), K.Token(v, false, 1)];
    assert WovenTokens(DictConfig, [k, v], [' '], 1) == toks;
    NotMark(k);
    NotMark(v);
    assert DictScan(toks, DictStart) == DictScan(toks[1..], DictStart.(key := k));
    assert DictScan(toks[1..], DictStart.(key := k)) == None;
  }

  // ---------------------------------------------------------------------
  // Reading small files
  // ---------------------------------------------------------------------

  /** The file lexer makes a token of '='. */
  lemma FileSeparators()
    ensures Separators(FileConfig, ['='])
  {
    CapsuleChars(FileConfig, '=');
  }

  /** The tokens of one line of bare words separated by '='. */
  lemma KeyValueTokens(k: string, v: string)
    requires Bare(k) && Bare(v)
    ensures K.Lex(K.Lexer(FileConfig, false), k + "=" + v)
         == K.LexOutput(K.Lexer(FileConfig, false), [K.Token(k, false, 1), K.Token("=", false, 1), K.Token(v, false, 1)])
  {
    assert k + "=" + v == Weave([k, v], ['=']);
    TameConfigs();
    BareWords(FileConfig, [k, v]);
    FileSeparators();
    WovenLex(K.Lexer(FileConfig, false), [k, v], ['=']);
  }

  /** What reading a single group gives. */
  function ReadOne(g: seq<K.Token>): Option<IniFile>
    requires g != []
  {
    match GroupStep(g, Start)
    case Undefined => None
    case Stop(d) => Some(IniFile(Start.sections, SyntaxError, d))
    case Continue(r1) => Some(IniFile(r1.sections, NoError, ""))
  }

  lemma ReadGroupsOne(g: seq<K.Token>)
    requires g != []
    ensures ReadGroups([g], Start) == ReadOne(g)
  {
    assert [g][1..] == [];
  }

  /** Content whose tokens share one line is read as that one group. */
  lemma ParseOneLine(content: string, toks: seq<K.Token>)
    requires K.Lex(K.Lexer(FileConfig, false), content) == K.LexOutput(K.Lexer(FileConfig, false), toks)
    requires toks != [] && forall k :: 0 <= k < |toks| ==> toks[k].line == toks[0].line
    ensures Parse(content) == ReadOne(toks)
  {
    OneLine(toks);
    ReadGroupsOne(toks);
  }

  /** A key, "=" and a value set the key in "Main". */
  lemma KeyValueGroup(k: string, v: string)
    requires Bare(k) && Bare(v)
    ensures ReadOne([K.Token(k, false, 1), K.Token("=", false, 1), K.Token(v, false, 1)])
         == Some(IniFile([Section("Main", [Pair(k, ToElement(v))])], NoError, ""))
  {
    var toks := [K.Token(k, false, 1), K.Token("=", false, 1), K.Token(v, false, 1)];
    assert k[0] != '[';
    var main := SectionSet(Section("Main", []), k, ToElement(v));
    assert main == Section("Main", [Pair(k, ToElement(v))]);
    assert GroupStep(toks, Start) == Continue(Reading([main], 0));
  }

  /** A line `key=value` of bare words stores the classified value under
      the key in "Main". */
  lemma ParseKeyValue(k: string, v: string)
    requires Bare(k) && Bare(v)
    ensures Parse(k + "=" + v) == Some(IniFile([Section("Main", [Pair(k, ToElement(v))])], NoError, ""))
  {
    KeyValueTokens(k, v);
    ParseOneLine(k + "=" + v, [K.Token(k, false, 1), K.Token("=", false, 1), K.Token(v, false, 1)]);
    KeyValueGroup(k, v);
  }

  /** A lone word is a format error, reported for line 2 although the
      lexer puts it on line 1. */
  lemma ParseLoneWord(w: string)
    requires Bare(w)
    ensures Parse(w) == Some(IniFile([Section("Main", [])], SyntaxError, "Invalid format in line 2\n"))
  {
    assert w == Weave([w], []);
    TameConfigs();
    BareWords(FileConfig, [w]);
    WovenLex(K.Lexer(FileConfig, false), [w], []);
    ParseOneLine(w, [K.Token(w, false, 1)]);
    LoneWordGroup(w);
  }

  lemma LoneWordGroup(w: string)
    requires Bare(w)
    ensures ReadOne([K.Token(w, false, 1)]) == Some(IniFile([Section("Main", [])], SyntaxError, "Invalid format in line 2\n"))
  {
    var g := [K.Token(w, false, 1)];
    assert w[0] != '[';
    assert GroupStep(g, Start) == Stop("Invalid format in line " + NatToString(2) + "\n");
    assert NatToString(2) == "2";
    assert "Invalid format in line " + "2" + "\n" == "Invalid format in line 2\n";
  }

  /** An escaped '[' alone is a section header of one character: removing
      both of its brackets is undefined. */
  lemma ParseEscapedBracket()
    ensures Parse("\\[") == None
  {
    var src := "\\[";
    var tok := K.Token("[", false, 0);
    var st := K.Start.(tok := tok);
    CapsuleChars(FileConfig, '\\');
    assert K.Step(FileConfig, src, 0, K.Start) == K.Next(2, st);
    assert K.Run(FileConfig, src, 0, K.Start) == (st, false);
    ParseOneLine(src, [tok]);
  }

  /** `isalnum` lets letters through: a word of letters and digits other
      than "NULL" is classified as an integer. */
  lemma AlnumWordIsInt(s: string)
    requires s != "" && s != "NULL" && forall k :: 0 <= k < |s| ==> IsAlnum(s[k])
    ensures ToElement(s) == Element(Int, s)
  {
    NoDots(s);
  }

  lemma {:induction false} NoDots(s: string)
    requires forall k :: 0 <= k < |s| ==> s[k] != '.'
    ensures DotCount(s) == 0
    decreases |s|
  {
    if s != [] {
      NoDots(s[1..]);
    }
  }

  /** So "true" and "abc" are integers. */
  lemma WordsAreInts()
    ensures ToElement("true") == Element(Int, "true")
    ensures ToElement("abc") == Element(Int, "abc")
  {
    AlnumWordIsInt("true");
    AlnumWordIsInt("abc");
  }
}

=== FILE: ini_plus.dfy ===
/** The value codec of InI++, the INI library the application is built
    with. A value is stored as its source text together with a type that
    is guessed from that text; lists, dictionaries and three-component
    vectors are written as bracketed text and read back by splitting it. */
module IniPlus {
  import opened Common
  import opened Numerals

  /** `IniType`, plus `Indeterminate` for the type member that the default
      constructor `IniElement()` leaves uninitialised. */
  datatype IniType = Null | String | List | Int | Float | Vector | Dictionary | Link | Indeterminate

  /** `IniElement`: a type and the source text. */
  datatype Element = Element(kind: IniType, src: string)

  /** A text in double quotes at both ends (a single quote character counts). */
  predicate Quoted(s: string) { |s| >= 1 && s[0] == '"' && Last(s) == '"' }

  // ---------------------------------------------------------------------
  // all_numbers
  // ---------------------------------------------------------------------

  function DotCount(s: string): nat
  {
    if s == [] then 0 else (if s[0] == '.' then 1 else 0) + DotCount(s[1..])
  }

  predicate DigitsAndDots(s: string) { forall k :: 0 <= k < |s| ==> IsDigit(s[k]) || s[k] == '.' }

  /** The scan of `all_numbers` from a state where `dot` says whether a dot
      was already seen: the answer and the final dot flag. */
  function AllNumbersFrom(s: string, dot: bool): (r: (bool, bool))
    ensures r.0 <==> DigitsAndDots(s) && DotCount(s) + (if dot then 1 else 0) <= 1
    ensures r.0 ==> (r.1 <==> dot || DotCount(s) == 1)
    decreases |s|
  {
    if s == [] then (true, dot)
    else if IsDigit(s[0]) then AllNumbersFrom(s[1..], dot)
    else if s[0] == '.' then (if dot then (false, dot) else AllNumbersFrom(s[1..], true))
    else (false, dot)
  }

  /** `all_numbers`: only digits and at most one dot; the second component
      says whether the dot occurred. */
  function AllNumbers(s: string): (r: (bool, bool))
    ensures r.0 <==> DigitsAndDots(s) && DotCount(s) <= 1
    ensures r.0 ==> (r.1 <==> DotCount(s) == 1)
  {
    AllNumbersFrom(s, false)
  }

  // ---------------------------------------------------------------------
  // br_check
  // ---------------------------------------------------------------------

  /** How one character changes a nesting counter. */
  function Delta(c: char, opens: set<char>, closes: set<char>): int
  {
    (if c in opens then 1 else 0) - (if c in closes then 1 else 0)
  }

  /** The nesting counter after the first `i` characters. */
  function Depth(s: string, i: nat, opens: set<char>, closes: set<char>): int
    requires i <= |s|
  {
    if i == 0 then 0 else Depth(s, i - 1, opens, closes) + Delta(s[i - 1], opens, closes)
  }

  /** The whole text is one bracket group: the counter first comes back to
      zero at the last character. */
  predicate Enclosed(s: string, o: char, c: char) {
    |s| >= 2 && Depth(s, |s|, {o}, {c}) == 0 &&
    forall i :: 1 <= i < |s| ==> Depth(s, i, {o}, {c}) != 0
  }

  /** The loop of `br_check` from index `i` with the counter at `count`. */
  function BrScan(s: string, o: char, c: char, i: nat, count: int): bool
    requires i <= |s|
    decreases |s| - i
  {
    if i == |s| then count == 0
    else
      var n := count + (if s[i] == o then 1 else 0) - (if s[i] == c then 1 else 0);
      if n == 0 && i + 1 != |s| then false else BrScan(s, o, c, i + 1, n)
  }

  lemma {:induction false} BrScanMeans(s: string, o: char, c: char, i: nat, count: int)
    requires i <= |s| && count == Depth(s, i, {o}, {c})
    ensures BrScan(s, o, c, i, count) <==>
      Depth(s, |s|, {o}, {c}) == 0 && forall j :: i + 1 <= j < |s| ==> Depth(s, j, {o}, {c}) != 0
    decreases |s| - i
  {
    if i < |s| {
      var n := count + (if s[i] == o then 1 else 0) - (if s[i] == c then 1 else 0);
      assert n == Depth(s, i + 1, {o}, {c});
      BrScanMeans(s, o, c, i + 1, n);
    }
  }

  /** `br_check`. */
  function BrCheck(s: string, o: char, c: char): (b: bool)
    ensures b <==> Enclosed(s, o, c)
  {
    if |s| < 2 then false
    else
      BrScanMeans(s, o, c, 0, 0);
      assert BrScan(s, o, c, 0, 0) <==>
        Depth(s, |s|, {o}, {c}) == 0 && forall j :: 1 <= j < |s| ==> Depth(s, j, {o}, {c}) != 0;
      BrScan(s, o, c, 0, 0)
  }

  // ---------------------------------------------------------------------
  // is_empty, to_lines, split_by
  // ---------------------------------------------------------------------

  /** `is_empty`: nothing but spaces, tabs, carriage returns and newlines. */
  predicate IsBlank(s: string) {
    forall k :: 0 <= k < |s| ==> s[k] == ' ' || s[k] == '\t' || s[k] == '\r' || s[k] == '\n'
  }

  /** `to_lines` continued with the pending line `tmp`. */
  function LinesFrom(s: string, tmp: string): (r: seq<string>)
    requires '\n' !in tmp
    ensures forall k :: 0 <= k < |r| ==> r[k] != "" && '\n' !in r[k]
    decreases |s|
  {
    if s == [] then (if tmp != "" then [tmp] else [])
    else if s[0] == '\n' then (if tmp != "" then [tmp] else []) + LinesFrom(s[1..], "")
    else LinesFrom(s[1..], tmp + [s[0]])
  }

  /** `to_lines`: the lines between newlines, empty ones dropped. */
  function ToLines(s: string): (r: seq<string>)
    ensures forall k :: 0 <= k < |r| ==> r[k] != "" && '\n' !in r[k]
  {
    LinesFrom(s, "")
  }

  /** The arguments of `split_by`: characters that end a piece and are
      dropped, that end a piece and stay attached, that become pieces of
      their own, whether brackets suspend splitting, and whether blank
      pieces are deleted. */
  datatype Splitter = Splitter(erase: set<char>, keep: set<char>, extract: set<char>, braces: bool, deleteEmpty: bool)

  const Opens: set<char> := {'[', '{', '('}
  const Closes: set<char> := {']', '}', ')'}

  /** The finished pieces, the piece being collected and the bracket counter. */
  datatype SplitState = SplitState(pieces: seq<string>, tmp: string, ignore: int)

  const SplitStart: SplitState := SplitState([], "", 0)

  function SplitStep(sp: Splitter, st: SplitState, c: char): SplitState
  {
    var ig := if sp.braces then st.ignore + Delta(c, Opens, Closes) else st.ignore;
    if c in sp.erase && ig == 0 then SplitState(st.pieces + [st.tmp], "", ig)
    else if c in sp.keep && ig == 0 then SplitState(st.pieces + [st.tmp + [c]], "", ig)
    else if c in sp.extract && ig == 0 then SplitState(st.pieces + [st.tmp, [c]], "", ig)
    else SplitState(st.pieces, st.tmp + [c], ig)
  }

  function SplitRun(sp: Splitter, st: SplitState, s: string): SplitState
    decreases |s|
  {
    if s == [] then st else SplitRun(sp, SplitStep(sp, st, s[0]), s[1..])
  }

  /** The pieces that are not blank, in order. */
  function DropBlank(ps: seq<string>): (r: seq<string>)
    ensures forall k :: 0 <= k < |r| ==> !IsBlank(r[k]) && r[k] in ps
    ensures (forall k :: 0 <= k < |ps| ==> !IsBlank(ps[k])) ==> r == ps
  {
    if ps == [] then [] else (if IsBlank(ps[0]) then [] else [ps[0]]) + DropBlank(ps[1..])
  }

  /** `split_by`. */
  function SplitBy(sp: Splitter, s: string): (r: seq<string>)
    ensures sp.deleteEmpty ==> forall k :: 0 <= k < |r| ==> !IsBlank(r[k])
  {
    var st := SplitRun(sp, SplitStart, s);
    var ps := if st.tmp != "" then st.pieces + [st.tmp] else st.pieces;
    if sp.deleteEmpty then DropBlank(ps) else ps
  }

  // ---------------------------------------------------------------------
  // to_element
  // ---------------------------------------------------------------------

  /** `IniLink::valid`: longer than two characters and starting with '$'. */
  predicate IsLinkText(s: string) { |s| > 2 && s[0] == '$' }

  /** `to_element`: the type guessed from a text, tried in a fixed order. */
  function ToElement(s: string): (r: Element)
    ensures r.kind == Null <==> s == "" || s == "NULL"
    ensures r.kind == Null ==> r.src == "NULL"
    ensures r.kind == String ==> Quoted(r.src) && (r.src == s || r.src == "\"" + s + "\"")
    ensures (r.kind == Int || r.kind == Float) <==> s != "" && AllNumbers(s).0
    ensures r.kind == Float ==> DotCount(s) == 1
    ensures r.kind in {Int, Float, List, Dictionary, Vector, Link} ==> r.src == s
    ensures r.kind == Indeterminate ==> r.src == "" && '"' in s
  {
    if s == "" || s == "NULL" then Element(Null, "NULL")
    else if s[0] == '"' && Last(s) == '"' then Element(String, s)
    else
      var (intt, dot) := AllNumbers(s);
      if intt && !dot then Element(Int, s)
      else if intt && dot then Element(Float, s)
      else if BrCheck(s, '{', '}') then Element(Dictionary, s)
      else if BrCheck(s, '[', ']') then Element(List, s)
      else if BrCheck(s, '(', ')') then Element(Vector, s)
      else if IsLinkText(s) then Element(Link, s)
      else if '"' !in s then Element(String, "\"" + s + "\"")
      else Element(Indeterminate, "")
  }

  /** Classifying the text of a classified element changes nothing, unless
      the first classification failed. */
  lemma ToElementIdempotent(s: string)
    requires ToElement(s).kind != Indeterminate
    ensures ToElement(ToElement(s).src) == ToElement(s)
  {
    var r := ToElement(s);
    if r.kind == String && r.src != s {
      assert r.src[0] == '"' && Last(r.src) == '"';
    }
  }

  /** `operator std::string`: a String without its quotes
      (`substr(1, size() - 2)`), any other type as its text. */
  function AsText(e: Element): (t: string)
    requires e.kind == String ==> |e.src| >= 1
    ensures e.kind == String && |e.src| >= 2 && Quoted(e.src) ==> "\"" + t + "\"" == e.src
    ensures e.kind != String ==> t == e.src
  {
    if e.kind != String then e.src
    else if |e.src| >= 2 then e.src[1..|e.src| - 1]
    else ""
  }

  /** Quoting a text and classifying it gives a String that reads back as
      the text (`operator=(std::string)`). */
  lemma QuotedTextIsString(t: string)
    ensures ToElement("\"" + t + "\"") == Element(String, "\"" + t + "\"")
    ensures AsText(ToElement("\"" + t + "\"")) == t
  {
    var q := "\"" + t + "\"";
    assert q[0] == '"' && Last(q) == '"';
    assert q[1..|q| - 1] == t;
  }

  // ---------------------------------------------------------------------
  // Lists
  // ---------------------------------------------------------------------

  function Srcs(l: seq<Element>): (r: seq<string>)
    ensures |r| == |l| && forall k :: 0 <= k < |l| ==> r[k] == l[k].src
  {
    seq(|l|, k requires 0 <= k < |l| => l[k].src)
  }

  /** `to_string(IniList)`: the element texts between brackets, separated by commas. */
  function ListText(l: seq<Element>): string
  {
    "[" + Join(Srcs(l), ",") + "]"
  }

  const ListSplitter: Splitter := Splitter({','}, {}, {}, true, true)

  function Classify(ps: seq<string>): (r: seq<Element>)
    ensures |r| == |ps| && forall k :: 0 <= k < |ps| ==> r[k] == ToElement(ps[k])
  {
    seq(|ps|, k requires 0 <= k < |ps| => ToElement(ps[k]))
  }

  /** `to_list`. */
  function ToList(s: string): (r: seq<Element>)
    ensures s == "" ==> r == []
    ensures r != [] ==> Enclosed(s, '[', ']')
  {
    if s == "" then []
    else if s[0] != '[' && Last(s) != ']' then []
    else if !BrCheck(s, '[', ']') then []
    else Classify(SplitBy(ListSplitter, StripEnds(s)))
  }

  // ---------------------------------------------------------------------
  // Dictionaries: `std::map`, kept as a list of entries sorted by key
  // ---------------------------------------------------------------------

  /** `std::string`'s `<`: lexicographic by character code. */
  predicate Less(a: string, b: string)
    decreases |a|
  {
    if a == [] then b != []
    else if b == [] then false
    else if a[0] != b[0] then a[0] < b[0]
    else Less(a[1..], b[1..])
  }

  lemma {:induction false} LessIrreflexive(a: string)
    ensures !Less(a, a)
    decreases |a|
  {
    if a != [] {
      LessIrreflexive(a[1..]);
    }
  }

  lemma {:induction false} LessTotal(a: string, b: string)
    ensures a == b || Less(a, b) || Less(b, a)
    decreases |a|
  {
    if a != [] && b != [] && a[0] == b[0] {
      LessTotal(a[1..], b[1..]);
      if a[1..] == b[1..] {
        assert a == [a[0]] + a[1..] && b == [b[0]] + b[1..];
      }
    }
  }

  lemma {:induction false} LessTransitive(a: string, b: string, c: string)
    requires Less(a, b) && Less(b, c)
    ensures Less(a, c)
    decreases |a|
  {
    if a != [] && b != [] && c != [] && a[0] == b[0] && b[0] == c[0] {
      LessTransitive(a[1..], b[1..], c[1..]);
    }
  }

  type Dict = seq<(string, Element)>

  /** Keys strictly increase, as in a `std::map`. */
  predicate Sorted(d: Dict) {
    forall i :: 0 <= i < |d| - 1 ==> Less(d[i].0, d[i + 1].0)
  }

  function Keys(d: Dict): set<string>
  {
    set i | 0 <= i < |d| :: d[i].0
  }

  /** `operator[]` for reading: the element stored under a key. */
  function Lookup(d: Dict, k: string): Option<Element>
  {
    if d == [] then None else if d[0].0 == k then Some(d[0].1) else Lookup(d[1..], k)
  }

  lemma {:induction false} SortedBelowLast(d: Dict)
    requires Sorted(d) && |d| > 0
    ensures forall i :: 0 <= i < |d| - 1 ==> Less(d[i].0, Last(d).0)
    decreases |d|
  {
    if |d| > 1 {
      SortedBelowLast(DropLast(d));
      forall i | 0 <= i < |d| - 1
        ensures Less(d[i].0, Last(d).0)
      {
        if i < |d| - 2 {
          assert DropLast(d)[i] == d[i] && Last(DropLast(d)) == d[|d| - 2];
          LessTransitive(d[i].0, d[|d| - 2].0, Last(d).0);
        }
      }
    }
  }

  lemma {:induction false} LookupAppend(d: Dict, e: (string, Element), k: string)
    ensures Lookup(d + [e], k) == if Lookup(d, k).Some? then Lookup(d, k) else if e.0 == k then Some(e.1) else None
    decreases |d|
  {
    if d != [] {
      assert (d + [e])[1..] == d[1..] + [e];
      LookupAppend(d[1..], e, k);
    } else {
      assert (d + [e])[1..] == [];
    }
  }

  lemma {:induction false} LookupAbsent(d: Dict, k: string)
    requires forall i :: 0 <= i < |d| ==> d[i].0 != k
    ensures Lookup(d, k) == None
    decreases |d|
  {
    if d != [] {
      LookupAbsent(d[1..], k);
    }
  }

  lemma KeysAppend(d: Dict, e: (string, Element))
    ensures Keys(d + [e]) == Keys(d) + {e.0}
  {
    var r := d + [e];
    assert forall i :: 0 <= i < |d| ==> r[i] == d[i];
    assert r[|d|] == e;
  }

  /** `dic[k] = v` on a `std::map`. */
  function Put(d: Dict, k: string, v: Element): (r: Dict)
    ensures Keys(r) == Keys(d) + {k}
    ensures Last(r) == (k, v) || (d != [] && Last(r) == Last(d) && Less(k, Last(d).0))
    ensures Sorted(d) ==> Sorted(r)
    decreases |d|
  {
    if d == [] then KeysAppend([], (k, v)); [(k, v)]
    else
      KeysAppend(DropLast(d), Last(d));
      assert d == DropLast(d) + [Last(d)];
      if Last(d).0 == k then KeysAppend(DropLast(d), (k, v)); DropLast(d) + [(k, v)]
      else if Less(Last(d).0, k) then KeysAppend(d, (k, v)); d + [(k, v)]
      else
        LessTotal(k, Last(d).0);
        var p := Put(DropLast(d), k, v);
        KeysAppend(p, Last(d));
        p + [Last(d)]
  }

  /** After `Put`, the key holds the new element and every other key its old one. */
  lemma {:induction false} PutLookup(d: Dict, k: string, v: Element, j: string)
    requires Sorted(d)
    ensures Lookup(Put(d, k, v), j) == if j == k then Some(v) else Lookup(d, j)
    decreases |d|
  {
    if d == [] {
    } else if Last(d).0 == k {
      SortedBelowLast(d);
      var dl := DropLast(d);
      assert d == dl + [Last(d)];
      forall i | 0 <= i < |dl| ensures dl[i].0 != k {
        assert Less(d[i].0, k);
        LessIrreflexive(k);
      }
      LookupAbsent(dl, k);
      LookupAppend(dl, (k, v), j);
      LookupAppend(dl, Last(d), j);
    } else if Less(Last(d).0, k) {
      SortedBelowLast(d);
      forall i | 0 <= i < |d| ensures d[i].0 != k {
        if i < |d| - 1 {
          LessTransitive(d[i].0, Last(d).0, k);
        }
        LessIrreflexive(k);
      }
      LookupAbsent(d, k);
      LookupAppend(d, (k, v), j);
    } else {
      var dl := DropLast(d);
      assert d == dl + [Last(d)];
      assert Sorted(dl);
      PutLookup(dl, k, v, j);
      LookupAppend(Put(dl, k, v), Last(d), j);
      LookupAppend(dl, Last(d), j);
      if j == Last(d).0 {
        LessTotal(k, Last(d).0);
      }
    }
  }

  function PairTexts(d: Dict): (r: seq<string>)
    ensures |r| == |d| && forall k :: 0 <= k < |d| ==> r[k] == d[k].0 + ":" + d[k].1.src
  {
    seq(|d|, k requires 0 <= k < |d| => d[k].0 + ":" + d[k].1.src)
  }

  /** `to_string(IniDictionary)`: "key:value" entries in key order,
      separated by commas, between braces. */
  function DictText(d: Dict): string
  {
    "{" + Join(PairTexts(d), ",") + "}"
  }

  const DictSplitter: Splitter := Splitter({','}, {}, {':'}, true, true)

  /** The loop of `to_dictionary` over the pieces: `kp` is the pending key
      and `gotColon` whether its ':' was seen. `None` is the early return
      of an empty dictionary. */
  function DictRun(ps: seq<string>, d: Dict, kp: string, gotColon: bool): Option<Dict>
    decreases |ps|
  {
    if ps == [] then Some(d)
    else if ps[0] != ":" then
      if kp != "" && !gotColon then None
      else if gotColon then DictRun(ps[1..], Put(d, kp, ToElement(ps[0])), "", false)
      else DictRun(ps[1..], d, ps[0], false)
    else if gotColon then None
    else DictRun(ps[1..], d, kp, true)
  }

  /** `to_dictionary`; reading the first character of an empty text is
      undefined. */
  function ToDictionary(s: string): (r: Dict)
    requires s != ""
    ensures s[0] != '{' || Last(s) != '}' ==> r == []
    ensures Sorted(r)
  {
    if s[0] != '{' || Last(s) != '}' then []
    else
      var inner := StripEnds(s);
      if inner == "" then []
      else DictRunSorted(SplitBy(DictSplitter, inner), [], "", false);
           DictRun(SplitBy(DictSplitter, inner), [], "", false).GetOr([])
  }

  lemma {:induction false} DictRunSorted(ps: seq<string>, d: Dict, kp: string, gotColon: bool)
    requires Sorted(d)
    ensures DictRun(ps, d, kp, gotColon).Some? ==> Sorted(DictRun(ps, d, kp, gotColon).value)
    decreases |ps|
  {
    if ps != [] {
      if ps[0] != ":" {
        if gotColon {
          DictRunSorted(ps[1..], Put(d, kp, ToElement(ps[0])), "", false);
        } else {
          DictRunSorted(ps[1..], d, ps[0], false);
        }
      } else {
        DictRunSorted(ps[1..], d, kp, true);
      }
    }
  }

  // ---------------------------------------------------------------------
  // Vectors
  // ---------------------------------------------------------------------

  /** `IniVector`: three `int`s, zero by default. */
  datatype Vec3 = Vec3(x: int, y: int, z: int)

  const Zero: Vec3 := Vec3(0, 0, 0)

  predicate IntRange(v: Vec3) {
    IntMin <= v.x <= IntMax && IntMin <= v.y <= IntMax && IntMin <= v.z <= IntMax
  }

  /** `IniVector::to_string`. */
  function VectorText(v: Vec3): string
  {
    "(" + Join([IntToString(v.x), IntToString(v.y), IntToString(v.z)], ",") + ")"
  }

  const VectorSplitter: Splitter := Splitter({','}, {}, {}, false, true)

  /** The inputs `to_vector` handles: the shape test lets a one-character
      text through only when it is neither '(' nor ')', and stripping two
      characters off a shorter text is undefined. */
  predicate VectorInput(s: string) {
    |s| >= 2 || (|s| == 1 && s[0] != '(' && s[0] != ')')
  }

  /** `to_vector`: the zero vector unless the text between the outer
      characters has exactly three comma-separated numerals. */
  function ToVector(s: string): (r: Vec3)
    requires VectorInput(s)
    ensures s[0] != '(' && Last(s) != ')' ==> r == Zero
    ensures IntRange(r)
  {
    if s[0] != '(' && Last(s) != ')' then Zero
    else
      var sp := SplitBy(VectorSplitter, StripEnds(s));
      if |sp| != 3 then Zero
      else match (Stoi(sp[0]), Stoi(sp[1]), Stoi(sp[2]))
        case (Some(x), Some(y), Some(z)) => Vec3(x, y, z)
        case _ => Zero
  }

  /** The shape test only rejects a text that is wrong at both ends:
      "(1,2,3]" is read like "(1,2,3)". */
  lemma VectorShapeNeedsOneEnd()
    ensures ToVector("(1,2,3]") == Vec3(1, 2, 3)
  {
    assert StripEnds("(1,2,3]") == "1,2,3";
    OneTwoThreePieces();
    OneTwoThreeNumerals();
  }

  lemma OneTwoThreeNumerals()
    ensures Stoi("1") == Some(1) && Stoi("2") == Some(2) && Stoi("3") == Some(3)
  {
    StoiOfText(1);
    StoiOfText(2);
    StoiOfText(3);
    assert IntToString(1) == "1" && IntToString(2) == "2" && IntToString(3) == "3";
  }

  lemma OneTwoThreePieces()
    ensures SplitBy(VectorSplitter, "1,2,3") == ["1", "2", "3"]
  {
    var ps := ["1", "2", "3"];
    assert Join(ps, [',']) == "1,2,3" by {
      assert ps[1..] == ["2", "3"] && ps[1..][1..] == ["3"];
    }
    assert IntToString(1) == "1" && IntToString(2) == "2" && IntToString(3) == "3";
    IntTextHasNoComma("1");
    IntTextHasNoComma("2");
    IntTextHasNoComma("3");
    SplitJoined(VectorSplitter, ps, ',');
  }

  // ---------------------------------------------------------------------
  // Splitting joined pieces
  // ---------------------------------------------------------------------

  lemma {:induction false} SplitRunAppend(sp: Splitter, st: SplitState, a: string, b: string)
    ensures SplitRun(sp, st, a + b) == SplitRun(sp, SplitRun(sp, st, a), b)
    decreases |a|
  {
    if a == [] {
      assert a + b == b;
    } else {
      assert (a + b)[0] == a[0] && (a + b)[1..] == a[1..] + b;
      SplitRunAppend(sp, SplitStep(sp, st, a[0]), a[1..], b);
    }
  }

  /** The bracket counter of the splitter after `i` characters of `s`. */
  function IgnoreAt(sp: Splitter, s: string, i: nat): int
    requires i <= |s|
  {
    if sp.braces then Depth(s, i, Opens, Closes) else 0
  }

  predicate Separates(sp: Splitter, c: char) { c in sp.erase || c in sp.keep || c in sp.extract }

  /** Every separator character of `s` sits inside brackets. */
  predicate SeparatorsNested(sp: Splitter, s: string) {
    forall k :: 0 <= k < |s| && Separates(sp, s[k]) ==> IgnoreAt(sp, s, k + 1) != 0
  }

  /** `s` comes out of the splitter as exactly one piece: it is not blank,
      its brackets close, and its separators are all inside brackets. */
  predicate WholePiece(sp: Splitter, s: string) {
    !IsBlank(s) && IgnoreAt(sp, s, |s|) == 0 && SeparatorsNested(sp, s)
  }

  lemma {:induction false} ScanPrefix(sp: Splitter, ps: seq<string>, s: string, i: nat)
    requires i <= |s| && SeparatorsNested(sp, s)
    ensures SplitRun(sp, SplitState(ps, "", 0), s[..i]) == SplitState(ps, s[..i], IgnoreAt(sp, s, i))
    decreases i
  {
    if i > 0 {
      ScanPrefix(sp, ps, s, i - 1);
      assert s[..i] == s[..i - 1] + [s[i - 1]];
      SplitRunAppend(sp, SplitState(ps, "", 0), s[..i - 1], [s[i - 1]]);
      assert [s[i - 1]][1..] == [];
    }
  }

  lemma ScanPiece(sp: Splitter, ps: seq<string>, s: string)
    requires WholePiece(sp, s)
    ensures SplitRun(sp, SplitState(ps, "", 0), s) == SplitState(ps, s, 0)
  {
    ScanPrefix(sp, ps, s, |s|);
    assert s[..|s|] == s;
  }

  /** Pieces joined by an erase character, none of them containing one
      outside brackets, split back into the same pieces. */
  lemma {:induction false} ScanJoined(sp: Splitter, ps: seq<string>, pieces: seq<string>, sep: char)
    requires |pieces| >= 1
    requires sep in sp.erase && sep !in Opens && sep !in Closes
    requires forall k :: 0 <= k < |pieces| ==> WholePiece(sp, pieces[k])
    ensures SplitRun(sp, SplitState(ps, "", 0), Join(pieces, [sep])) == SplitState(ps + DropLast(pieces), Last(pieces), 0)
    decreases |pieces|
  {
    ScanPiece(sp, ps, pieces[0]);
    if |pieces| > 1 {
      var rest := Join(pieces[1..], [sep]);
      assert Join(pieces, [sep]) == pieces[0] + ([sep] + rest);
      SplitRunAppend(sp, SplitState(ps, "", 0), pieces[0], [sep] + rest);
      SplitRunAppend(sp, SplitState(ps, pieces[0], 0), [sep], rest);
      assert ([sep] + rest)[1..] == rest;
      assert SplitRun(sp, SplitState(ps, pieces[0], 0), [sep]) == SplitState(ps + [pieces[0]], "", 0);
      ScanJoined(sp, ps + [pieces[0]], pieces[1..], sep);
      assert ps + [pieces[0]] + DropLast(pieces[1..]) == ps + DropLast(pieces);
    }
  }

  /** Splitting pieces joined by an erase character gives the pieces back. */
  lemma SplitJoined(sp: Splitter, pieces: seq<string>, sep: char)
    requires sp.deleteEmpty
    requires sep in sp.erase && sep !in Opens && sep !in Closes
    requires forall k :: 0 <= k < |pieces| ==> WholePiece(sp, pieces[k])
    ensures SplitBy(sp, Join(pieces, [sep])) == pieces
  {
    var s := Join(pieces, [sep]);
    if pieces == [] {
      assert SplitRun(sp, SplitStart, s) == SplitStart;
    } else {
      ScanJoined(sp, [], pieces, sep);
      WholeNotBlank(sp, pieces);
      SplitByFinish(sp, s, pieces);
    }
  }

  lemma WholeNotBlank(sp: Splitter, pieces: seq<string>)
    requires forall k :: 0 <= k < |pieces| ==> WholePiece(sp, pieces[k])
    ensures forall k :: 0 <= k < |pieces| ==> !IsBlank(pieces[k])
  {
    forall k | 0 <= k < |pieces| ensures !IsBlank(pieces[k]) { assert WholePiece(sp, pieces[k]); }
  }

  lemma SplitByFinish(sp: Splitter, s: string, pieces: seq<string>)
    requires sp.deleteEmpty && pieces != []
    requires SplitRun(sp, SplitState([], "", 0), s) == SplitState([] + DropLast(pieces), Last(pieces), 0)
    requires forall k :: 0 <= k < |pieces| ==> !IsBlank(pieces[k])
    ensures SplitBy(sp, s) == pieces
  {
    assert [] + DropLast(pieces) == DropLast(pieces);
    assert !IsBlank(pieces[|pieces| - 1]);
    assert DropLast(pieces) + [Last(pieces)] == pieces;
  }

  // ---------------------------------------------------------------------
  // Round trips
  // ---------------------------------------------------------------------

  lemma {:induction false} DepthPrefix(a: string, b: string, i: nat, opens: set<char>, closes: set<char>)
    requires i <= |a|
    ensures Depth(a + b, i, opens, closes) == Depth(a, i, opens, closes)
    decreases i
  {
    if i > 0 {
      DepthPrefix(a, b, i - 1, opens, closes);
    }
  }

  lemma {:induction false} DepthAppend(a: string, b: string, j: nat, opens: set<char>, closes: set<char>)
    requires j <= |b|
    ensures Depth(a + b, |a| + j, opens, closes) == Depth(a, |a|, opens, closes) + Depth(b, j, opens, closes)
    decreases j
  {
    if j == 0 {
      DepthPrefix(a, b, |a|, opens, closes);
    } else {
      DepthAppend(a, b, j - 1, opens, closes);
      assert (a + b)[|a| + j - 1] == b[j - 1];
    }
  }

  /** Square brackets in `s` never close more than they opened, and all close. */
  predicate SquareBalanced(s: string) {
    Depth(s, |s|, {'['}, {']'}) == 0 && forall i :: 0 <= i <= |s| ==> Depth(s, i, {'['}, {']'}) >= 0
  }

  lemma {:induction false} JoinSquareBalanced(pieces: seq<string>)
    requires forall k :: 0 <= k < |pieces| ==> SquareBalanced(pieces[k])
    ensures SquareBalanced(Join(pieces, ","))
    decreases |pieces|
  {
    var o, c := {'['}, {']'};
    if |pieces| == 1 {
      assert Join(pieces, ",") == pieces[0];
    } else if |pieces| > 1 {
      var p := pieces[0];
      var rest := Join(pieces[1..], ",");
      JoinSquareBalanced(pieces[1..]);
      var j := Join(pieces, ",");
      assert j == p + ("," + rest);
      forall i | 0 <= i <= |j| ensures Depth(j, i, o, c) >= 0 {
        if i <= |p| {
          DepthPrefix(p, "," + rest, i, o, c);
        } else {
          DepthAppend(p, "," + rest, i - |p|, o, c);
          assert "," + rest == [','] + rest;
          DepthAppend([','], rest, i - |p| - 1, o, c);
        }
      }
      DepthAppend(p, "," + rest, |rest| + 1, o, c);
      DepthAppend([','], rest, |rest|, o, c);
    }
  }

  lemma ListTextEnclosed(l: seq<Element>)
    requires forall k :: 0 <= k < |l| ==> SquareBalanced(l[k].src)
    ensures Enclosed(ListText(l), '[', ']')
  {
    var ps := Srcs(l);
    var j := Join(ps, ",");
    var t := ListText(l);
    var o, c := {'['}, {']'};
    JoinSquareBalanced(ps);
    assert t == "[" + j + "]";
    forall i | 1 <= i < |t| ensures Depth(t, i, o, c) != 0 {
      DepthPrefix("[" + j, "]", i, o, c);
      DepthAppend("[", j, i - 1, o, c);
    }
    DepthAppend("[" + j, "]", 1, o, c);
    DepthAppend("[", j, |j|, o, c);
  }

  /** A list whose elements are each classified as themselves, go through
      the splitter as one piece, and balance their square brackets, is
      read back from its text unchanged. */
  lemma ListRoundTrip(l: seq<Element>)
    requires forall k :: 0 <= k < |l| ==>
      ToElement(l[k].src) == l[k] && WholePiece(ListSplitter, l[k].src) && SquareBalanced(l[k].src)
    ensures ToList(ListText(l)) == l
  {
    var ps := Srcs(l);
    var j := Join(ps, ",");
    var t := ListText(l);
    ListTextEnclosed(l);
    assert t == "[" + j + "]";
    assert StripEnds(t) == j;
    SplitJoined(ListSplitter, ps, ',');
    assert Classify(ps) == l;
  }

  /** The text of such a list is itself classified as that list. */
  lemma ListTextIsList(l: seq<Element>)
    requires forall k :: 0 <= k < |l| ==>
      ToElement(l[k].src) == l[k] && WholePiece(ListSplitter, l[k].src) && SquareBalanced(l[k].src)
    ensures ToElement(ListText(l)) == Element(List, ListText(l))
  {
    ListTextEnclosed(l);
    var t := ListText(l);
    assert t[0] == '[';
    assert Depth(t, 1, {'{'}, {'}'}) == 0;
    assert !AllNumbers(t).0 by { assert !IsDigit(t[0]) && t[0] != '.'; }
  }

  /** The parts of one dictionary entry: a key and a value that go through
      the splitter as one piece each. */
  predicate GoodEntry(e: (string, Element)) {
    WholePiece(DictSplitter, e.0) && WholePiece(DictSplitter, e.1.src) && ToElement(e.1.src) == e.1
  }

  function EntryPieces(d: Dict): (r: seq<string>)
  {
    if d == [] then [] else [d[0].0, ":", d[0].1.src] + EntryPieces(d[1..])
  }

  /** One character that the splitter handles outside any brackets. */
  lemma SplitOne(sp: Splitter, st: SplitState, c: char)
    requires st.ignore == 0 && (sp.braces ==> c !in Opens && c !in Closes)
    ensures SplitRun(sp, st, [c]) == SplitStep(sp, st, c)
    ensures SplitStep(sp, st, c).ignore == 0
  {
    assert [c][1..] == [];
  }

  lemma {:induction false} ScanEntry(ps: seq<string>, e: (string, Element))
    requires GoodEntry(e)
    ensures SplitRun(DictSplitter, SplitState(ps, "", 0), e.0 + ":" + e.1.src) == SplitState(ps + [e.0, ":"], e.1.src, 0)
  {
    var sp, k, v := DictSplitter, e.0, e.1.src;
    ScanPiece(sp, ps, k);
    SplitOne(sp, SplitState(ps, k, 0), ':');
    ScanPiece(sp, ps + [k, ":"], v);
    SplitRunAppend(sp, SplitState(ps, "", 0), k, [':']);
    SplitRunAppend(sp, SplitState(ps, "", 0), k + [':'], v);
  }

  lemma {:induction false} ScanEntries(ps: seq<string>, d: Dict)
    requires |d| >= 1 && forall k :: 0 <= k < |d| ==> GoodEntry(d[k])
    ensures SplitRun(DictSplitter, SplitState(ps, "", 0), Join(PairTexts(d), ",")) ==
      SplitState(ps + DropLast(EntryPieces(d)), Last(d).1.src, 0)
    decreases |d|
  {
    var sp, pt := DictSplitter, PairTexts(d);
    ScanEntry(ps, d[0]);
    if |d| == 1 {
      assert Join(pt, ",") == pt[0];
      assert EntryPieces(d) == [d[0].0, ":", d[0].1.src];
    } else {
      var k, v := d[0].0, d[0].1.src;
      var rest := Join(PairTexts(d[1..]), ",");
      var start, mid, ps' := SplitState(ps, "", 0), SplitState(ps + [k, ":"], v, 0), ps + [k, ":", v];
      assert pt[0] == k + ":" + v;
      assert SplitRun(sp, start, pt[0]) == mid;
      SplitOne(sp, mid, ',');
      assert ps + [k, ":"] + [v] == ps';
      assert SplitRun(sp, mid, [',']) == SplitState(ps', "", 0);
      SplitRunAppend(sp, start, pt[0], [',']);
      assert SplitRun(sp, start, pt[0] + [',']) == SplitState(ps', "", 0);
      ScanEntriesJoin(d);
      SplitRunAppend(sp, start, pt[0] + [','], rest);
      assert SplitRun(sp, start, Join(pt, ",")) == SplitRun(sp, SplitState(ps', "", 0), rest);
      ScanEntries(ps', d[1..]);
      ScanEntriesPieces(ps, d);
    }
  }

  lemma ScanEntriesJoin(d: Dict)
    requires |d| >= 2
    ensures Join(PairTexts(d), ",") == PairTexts(d)[0] + [','] + Join(PairTexts(d[1..]), ",")
  {
    assert PairTexts(d)[1..] == PairTexts(d[1..]);
  }

  lemma ScanEntriesPieces(ps: seq<string>, d: Dict)
    requires |d| >= 2
    ensures ps + [d[0].0, ":", d[0].1.src] + DropLast(EntryPieces(d[1..])) == ps + DropLast(EntryPieces(d))
    ensures Last(d[1..]) == Last(d)
  {
    assert EntryPieces(d) == [d[0].0, ":", d[0].1.src] + EntryPieces(d[1..]);
    assert EntryPieces(d[1..]) != [];
  }

  /** A piece that survives the dictionary splitter whole is neither empty
      nor the colon the splitter extracts. */
  lemma WholeDictPiece(s: string)
    requires WholePiece(DictSplitter, s)
    ensures s != "" && s != ":"
  {
    assert !IsBlank(s);
    assert |s| > 0;
    assert Depth(s, 1, Opens, Closes) == Depth(s, 0, Opens, Closes) + Delta(s[0], Opens, Closes);
    assert IgnoreAt(DictSplitter, s, 1) == Delta(s[0], Opens, Closes);
    assert s[0] != ':' by { assert Delta(':', Opens, Closes) == 0; }
  }

  /** A key above every key of the dictionary goes to its end. */
  lemma PutAbove(acc: Dict, k: string, v: Element)
    requires acc == [] || Less(Last(acc).0, k)
    ensures Put(acc, k, v) == acc + [(k, v)]
  {
    if acc != [] && Last(acc).0 == k {
      LessIrreflexive(k);
    }
  }

  /** The first entry's three pieces store its value under its key. */
  lemma DictRunFirst(d: Dict, acc: Dict)
    requires d != [] && GoodEntry(d[0])
    ensures DictRun(EntryPieces(d), acc, "", false) == DictRun(EntryPieces(d[1..]), Put(acc, d[0].0, d[0].1), "", false)
  {
    var k, v := d[0].0, d[0].1.src;
    WholeDictPiece(k);
    WholeDictPiece(v);
    var ps := EntryPieces(d);
    var rest := EntryPieces(d[1..]);
    assert ps == [k, ":", v] + rest;
    assert ps[1..] == [":", v] + rest && ps[1..][1..] == [v] + rest && ps[1..][1..][1..] == rest;
    assert DictRun(ps, acc, "", false) == DictRun(ps[1..], acc, k, false);
    assert DictRun(ps[1..], acc, k, false) == DictRun(ps[1..][1..], acc, k, true);
  }

  /** Moving the first entry of `d` to the end of `acc` keeps the whole sorted. */
  lemma SortedShift(acc: Dict, d: Dict)
    requires d != [] && Sorted(acc + d)
    ensures acc == [] || Less(Last(acc).0, d[0].0)
    ensures Sorted(acc + [d[0]] + d[1..]) && acc + [d[0]] + d[1..] == acc + d
  {
    if acc != [] {
      assert (acc + d)[|acc| - 1] == Last(acc) && (acc + d)[|acc|] == d[0];
    }
    assert acc + [d[0]] + d[1..] == acc + d;
  }

  /** Reading the first entry appends it to the accumulated dictionary. */
  lemma DictRunStep(d: Dict, acc: Dict)
    requires d != [] && GoodEntry(d[0]) && Sorted(acc + d)
    ensures DictRun(EntryPieces(d), acc, "", false) == DictRun(EntryPieces(d[1..]), acc + [d[0]], "", false)
    ensures Sorted(acc + [d[0]] + d[1..]) && acc + [d[0]] + d[1..] == acc + d
  {
    DictRunFirst(d, acc);
    SortedShift(acc, d);
    PutAbove(acc, d[0].0, d[0].1);
  }

  lemma {:induction false} DictRunEntries(d: Dict, acc: Dict)
    requires forall k :: 0 <= k < |d| ==> GoodEntry(d[k])
    requires Sorted(acc + d)
    ensures DictRun(EntryPieces(d), acc, "", false) == Some(acc + d)
    decreases |d|
  {
    if d == [] {
      assert acc + d == acc;
    } else {
      DictRunStep(d, acc);
      DictRunEntries(d[1..], acc + [d[0]]);
    }
  }

  /** The text between the braces splits into the entries' pieces. */
  lemma SplitDictText(d: Dict)
    requires d != []
    requires forall k :: 0 <= k < |d| ==> GoodEntry(d[k])
    ensures SplitBy(DictSplitter, Join(PairTexts(d), ",")) == EntryPieces(d)
  {
    var ep, j := EntryPieces(d), Join(PairTexts(d), ",");
    ScanEntries([], d);
    EntryPiecesLast(d);
    EntryPiecesNotBlank(d);
    SplitByFinish(DictSplitter, j, ep);
    assert SplitBy(DictSplitter, j) == ep;
  }

  /** A sorted dictionary whose keys and values each go through the
      splitter as one piece, and whose values are classified as
      themselves, is read back from its text unchanged. */
  lemma DictRoundTrip(d: Dict)
    requires Sorted(d)
    requires forall k :: 0 <= k < |d| ==> GoodEntry(d[k])
    ensures ToDictionary(DictText(d)) == d
  {
    var t := DictText(d);
    var j := Join(PairTexts(d), ",");
    assert t == "{" + j + "}";
    assert StripEnds(t) == j;
    if d != [] {
      SplitDictText(d);
      assert j != "" by { assert EntryPieces(d) != []; }
      DictRunEntries(d, []);
      assert [] + d == d;
    }
  }

  lemma {:induction false} EntryPiecesLast(d: Dict)
    requires d != []
    ensures EntryPieces(d) != [] && Last(EntryPieces(d)) == Last(d).1.src
    decreases |d|
  {
    if |d| > 1 {
      EntryPiecesLast(d[1..]);
    }
  }

  lemma {:induction false} EntryPiecesNotBlank(d: Dict)
    requires forall k :: 0 <= k < |d| ==> GoodEntry(d[k])
    ensures forall k :: 0 <= k < |EntryPieces(d)| ==> !IsBlank(EntryPieces(d)[k])
    decreases |d|
  {
    if d != [] {
      var ps, tail := EntryPieces(d), EntryPieces(d[1..]);
      assert forall k :: 0 <= k < |d[1..]| ==> GoodEntry(d[1..][k]) by {
        forall k | 0 <= k < |d[1..]| ensures GoodEntry(d[1..][k]) { assert d[1..][k] == d[k + 1]; }
      }
      EntryPiecesNotBlank(d[1..]);
      assert ps == [d[0].0, ":", d[0].1.src] + tail;
      assert GoodEntry(d[0]);
      assert !IsBlank(":") by { assert ":"[0] == ':'; }
      forall k | 0 <= k < |ps| ensures !IsBlank(ps[k]) {
        if k >= 3 {
          assert ps[k] == tail[k - 3];
        }
      }
    }
  }

  /** `to_vector` reads back what `IniVector::to_string` writes. */
  lemma VectorRoundTrip(v: Vec3)
    requires IntRange(v)
    ensures ToVector(VectorText(v)) == v
  {
    var tx, ty, tz := IntToString(v.x), IntToString(v.y), IntToString(v.z);
    var ps := [tx, ty, tz];
    assert StripEnds(VectorText(v)) == Join(ps, ",");
    IntTextHasNoComma(tx);
    IntTextHasNoComma(ty);
    IntTextHasNoComma(tz);
    SplitJoined(VectorSplitter, ps, ',');
    StoiOfText(v.x);
    StoiOfText(v.y);
    StoiOfText(v.z);
  }

  lemma IntTextHasNoComma(s: string)
    requires exists i :: s == IntToString(i)
    ensures WholePiece(VectorSplitter, s)
  {
    var i :| s == IntToString(i);
    var d := NatToString(if i < 0 then -i else i);
    assert s[|s| - 1] == d[|d| - 1];
    assert !IsBlank(s);
  }
}

=== FILE: ini_plus_file.dfy ===
/** The file layer of InI++: named sections of key/element pairs, looking
    values up and setting them, the text a file is written as, and the
    parser for the content of a file. Reading and writing the file itself
    is outside the model: the parser takes the content as a string. */
module IniPlusFile {
  import opened Common
  import opened Numerals
  import opened IniPlus

  /** `IniPair`. */
  datatype Pair = Pair(key: string, element: Element)

  /** `IniSection`: a name and its pairs in insertion order. */
  datatype Section = Section(name: string, members: seq<Pair>)

  /** `IniError`. */
  datatype IniError = NoError | ReadError | WriteError | SyntaxError

  /** `IniFile`: the sections, and the error state with its description. */
  datatype IniFile = IniFile(sections: seq<Section>, err: IniError, errDesc: string)

  /** The element a new key starts with (`IniElement(IniType::Null)`). */
  const NullElement: Element := Element(Null, "NULL")

  // ---------------------------------------------------------------------
  // Names and keys
  // ---------------------------------------------------------------------

  function KeysOf(ms: seq<Pair>): (r: seq<string>)
    ensures |r| == |ms| && forall j :: 0 <= j < |ms| ==> r[j] == ms[j].key
  {
    seq(|ms|, j requires 0 <= j < |ms| => ms[j].key)
  }

  function NamesOf(ss: seq<Section>): (r: seq<string>)
    ensures |r| == |ss| && forall i :: 0 <= i < |ss| ==> r[i] == ss[i].name
  {
    seq(|ss|, i requires 0 <= i < |ss| => ss[i].name)
  }

  /** No text occurs twice. */
  predicate Distinct(xs: seq<string>) {
    forall i, j :: 0 <= i < j < |xs| ==> xs[i] != xs[j]
  }

  /** The position of the first occurrence of `x`: the linear searches of
      `has`, `has_section`, `section`, `get` and `operator[]`. */
  function First(xs: seq<string>, x: string): (r: Option<nat>)
    ensures r.None? <==> x !in xs
    ensures r.Some? ==> r.value < |xs| && xs[r.value] == x
    ensures r.Some? ==> forall j :: 0 <= j < r.value ==> xs[j] != x
  {
    if xs == [] then None
    else if xs[0] == x then Some(0)
    else match First(xs[1..], x)
      case None => None
      case Some(j) => Some(j + 1)
  }

  /** A file whose section names are distinct and whose sections each have
      distinct keys, as the parser and `set` produce. */
  predicate Tidy(ss: seq<Section>) {
    Distinct(NamesOf(ss)) && forall i :: 0 <= i < |ss| ==> Distinct(KeysOf(ss[i].members))
  }

  // ---------------------------------------------------------------------
  // IniSection
  // ---------------------------------------------------------------------

  /** `IniSection::has`. */
  function SectionHas(s: Section, key: string): (b: bool)
    ensures b <==> exists j :: 0 <= j < |s.members| && s.members[j].key == key
  {
    First(KeysOf(s.members), key).Some?
  }

  /** The element of the first pair with `key`, if there is one. */
  function MemberValue(s: Section, key: string): (r: Option<Element>)
    ensures r.Some? <==> SectionHas(s, key)
    ensures r.Some? ==> exists j :: 0 <= j < |s.members| && s.members[j] == Pair(key, r.value)
  {
    match First(KeysOf(s.members), key)
    case Some(j) => Some(s.members[j].element)
    case None => None
  }

  /** `IniSection::operator[]`: the element of the key and the section
      afterwards; a missing key is appended with a Null element. */
  function SectionAccess(s: Section, key: string): (r: (Section, Element))
    ensures MemberValue(r.0, key) == Some(r.1)
    ensures SectionHas(s, key) ==> r.0 == s
    ensures !SectionHas(s, key) ==> r.0 == s.(members := s.members + [Pair(key, NullElement)]) && r.1 == NullElement
  {
    match First(KeysOf(s.members), key)
    case Some(j) => (s, s.members[j].element)
    case None =>
      var s1 := s.(members := s.members + [Pair(key, NullElement)]);
      FirstAppend(KeysOf(s.members), key, key);
      assert KeysOf(s1.members) == KeysOf(s.members) + [key];
      (s1, NullElement)
  }

  /** `section[key] = value`: the first pair with the key gets the element,
      or a new pair is appended. */
  function SectionSet(s: Section, key: string, e: Element): (r: Section)
    ensures r.name == s.name
    ensures MemberValue(r, key) == Some(e)
    ensures forall k :: k != key ==> MemberValue(r, k) == MemberValue(s, k)
    ensures !SectionHas(s, key) ==> r.members == s.members + [Pair(key, e)]
    ensures Distinct(KeysOf(s.members)) ==> Distinct(KeysOf(r.members))
  {
    match First(KeysOf(s.members), key)
    case Some(j) =>
      var r := s.(members := s.members[j := Pair(key, e)]);
      assert KeysOf(r.members) == KeysOf(s.members);
      r
    case None =>
      var r := s.(members := s.members + [Pair(key, e)]);
      assert KeysOf(r.members) == KeysOf(s.members) + [key];
      SectionSetAppend(s, key, e);
      r
  }

  lemma SectionSetAppend(s: Section, key: string, e: Element)
    requires !SectionHas(s, key)
    ensures MemberValue(s.(members := s.members + [Pair(key, e)]), key) == Some(e)
    ensures forall k :: k != key ==> MemberValue(s.(members := s.members + [Pair(key, e)]), k) == MemberValue(s, k)
    ensures Distinct(KeysOf(s.members)) ==> Distinct(KeysOf(s.members + [Pair(key, e)]))
  {
    var ms := s.members + [Pair(key, e)];
    assert KeysOf(ms) == KeysOf(s.members) + [key];
    FirstAppend(KeysOf(s.members), key, key);
    forall k | k != key ensures MemberValue(s.(members := ms), k) == MemberValue(s, k) {
      FirstAppend(KeysOf(s.members), key, k);
    }
  }

  /** Appending a text leaves the first occurrence of every other text, and
      of the text itself when it was there already. */
  lemma {:induction false} FirstAppend(xs: seq<string>, y: string, x: string)
    ensures First(xs + [y], x) == if x in xs then First(xs, x) else if x == y then Some(|xs|) else None
    decreases |xs|
  {
    if xs != [] {
      assert (xs + [y])[1..] == xs[1..] + [y];
      FirstAppend(xs[1..], y, x);
    }
  }

  /** `IniSection::to_string`: the header line, then one line per pair. */
  function SectionText(s: Section): string
  {
    "[" + s.name + "]\n" + MembersText(s.members)
  }

  function MembersText(ms: seq<Pair>): string
  {
    if ms == [] then "" else ms[0].key + "=" + ms[0].element.src + "\n" + MembersText(ms[1..])
  }

  // ---------------------------------------------------------------------
  // IniFile: has, get, set
  // ---------------------------------------------------------------------

  /** `IniFile::has(key)`: some section has the key. */
  function HasKey(ss: seq<Section>, key: string): (b: bool)
    ensures b <==> exists i :: 0 <= i < |ss| && SectionHas(ss[i], key)
  {
    ss != [] && (SectionHas(ss[0], key) || HasKey(ss[1..], key))
  }

  /** `IniFile::has(key, section)`: some section of that name has the key. */
  function HasKeyIn(ss: seq<Section>, key: string, name: string): (b: bool)
    ensures b <==> exists i :: 0 <= i < |ss| && ss[i].name == name && SectionHas(ss[i], key)
  {
    ss != [] && ((SectionHas(ss[0], key) && ss[0].name == name) || HasKeyIn(ss[1..], key, name))
  }

  /** `IniFile::has_section`. */
  function HasSection(ss: seq<Section>, name: string): (b: bool)
    ensures b <==> exists i :: 0 <= i < |ss| && ss[i].name == name
  {
    First(NamesOf(ss), name).Some?
  }

  /** `get` reads an empty section name as "Main". */
  function GetName(sec: string): string { if sec == "" then "Main" else sec }

  /** The element `get` finds: the first pair with the key in the first
      section with the name. */
  function FileValue(ss: seq<Section>, name: string, key: string): (r: Option<Element>)
    ensures r.Some? ==> exists i :: 0 <= i < |ss| && ss[i].name == name && MemberValue(ss[i], key) == r
  {
    match First(NamesOf(ss), name)
    case Some(i) => MemberValue(ss[i], key)
    case None => None
  }

  /** `get` finds the key; on a miss it would hand out the first element of
      the first section, which does not exist in general. */
  predicate GetDefined(f: IniFile, key: string, sec: string) {
    FileValue(f.sections, GetName(sec), key).Some?
  }

  /** `IniFile::get` on a key that is there. */
  function Get(f: IniFile, key: string, sec: string): (e: Element)
    requires GetDefined(f, key, sec)
    ensures exists i, j ::
      && 0 <= i < |f.sections| && 0 <= j < |f.sections[i].members|
      && f.sections[i].name == GetName(sec) && f.sections[i].members[j] == Pair(key, e)
  {
    var e := FileValue(f.sections, GetName(sec), key).value;
    var i :| 0 <= i < |f.sections| && f.sections[i].name == GetName(sec) && MemberValue(f.sections[i], key) == Some(e);
    e
  }

  /** `set` overwrites through `get` when `has(key, section)` holds, so it
      needs `get` to find the key then. */
  predicate SetDefined(f: IniFile, key: string, sec: string) {
    HasKeyIn(f.sections, key, sec) ==> GetDefined(f, key, sec)
  }

  /** `IniFile::set(key, IniElement, section)`: a missing section is
      appended holding the pair, a missing key is added to the first section
      of the name, and an existing key is overwritten where `get` finds it. */
  function Set(f: IniFile, key: string, v: Element, sec: string): (r: IniFile)
    requires SetDefined(f, key, sec)
    ensures r.err == f.err && r.errDesc == f.errDesc
    ensures |r.sections| >= |f.sections| && NamesOf(r.sections)[..|f.sections|] == NamesOf(f.sections)
    ensures !HasSection(f.sections, sec) ==> r.sections == f.sections + [Section(sec, [Pair(key, v)])]
    ensures HasSection(f.sections, sec) ==> |r.sections| == |f.sections|
  {
    var ss := f.sections;
    match First(NamesOf(ss), sec)
    case None => f.(sections := ss + [Section(sec, [Pair(key, v)])])
    case Some(i) =>
      if !HasKeyIn(ss, key, sec) then
        var r := f.(sections := ss[i := SectionSet(ss[i], key, v)]);
        assert NamesOf(r.sections) == NamesOf(ss);
        r
      else
        var i' := First(NamesOf(ss), GetName(sec)).value;
        var r := f.(sections := ss[i' := SectionSet(ss[i'], key, v)]);
        assert NamesOf(r.sections) == NamesOf(ss);
        r
  }

  /** `set` with a `std::string`: stored as a quoted String that reads back
      as the text. */
  function SetString(f: IniFile, key: string, value: string, sec: string): (r: IniFile)
    requires SetDefined(f, key, sec)
    ensures sec != "" ==> FileValue(r.sections, sec, key) == Some(Element(String, "\"" + value + "\""))
    ensures sec != "" ==> AsText(FileValue(r.sections, sec, key).value) == value
  {
    var e := Element(String, "\"" + value + "\"");
    if sec == "" then Set(f, key, e, sec)
    else
      QuotedTextIsString(value);
      SetThenGet(f, key, e, sec);
      Set(f, key, e, sec)
  }

  /** `set` with an `int`: stored as an Int whose text `stoi` reads back. */
  function SetInt(f: IniFile, key: string, value: int, sec: string): (r: IniFile)
    requires SetDefined(f, key, sec) && IntMin <= value <= IntMax
    ensures sec != "" ==> FileValue(r.sections, sec, key) == Some(Element(Int, IntToString(value)))
    ensures sec != "" ==> Stoi(FileValue(r.sections, sec, key).value.src) == Some(value)
  {
    var e := Element(Int, IntToString(value));
    if sec == "" then Set(f, key, e, sec)
    else
      StoiOfText(value);
      SetThenGet(f, key, e, sec);
      Set(f, key, e, sec)
  }

  /** The elements of a list that `to_list` reads back from the list's text. */
  predicate ListReadable(l: seq<Element>) {
    forall k :: 0 <= k < |l| ==> ToElement(l[k].src) == l[k] && WholePiece(ListSplitter, l[k].src) && SquareBalanced(l[k].src)
  }

  /** The entries of a dictionary that `to_dictionary` reads back from its text. */
  predicate DictReadable(d: Dict) {
    Sorted(d) && forall k :: 0 <= k < |d| ==> GoodEntry(d[k])
  }

  /** `set` with an `IniList`: stored as a List whose text `to_list` reads
      back when the elements classify as themselves. */
  function SetList(f: IniFile, key: string, l: seq<Element>, sec: string): (r: IniFile)
    requires SetDefined(f, key, sec)
    ensures sec != "" ==> FileValue(r.sections, sec, key) == Some(Element(List, ListText(l)))
    ensures sec != "" && ListReadable(l) ==> ToList(FileValue(r.sections, sec, key).value.src) == l
  {
    var e := Element(List, ListText(l));
    if sec == "" then Set(f, key, e, sec)
    else
      SetThenGet(f, key, e, sec);
      if ListReadable(l) then ListRoundTrip(l); Set(f, key, e, sec) else Set(f, key, e, sec)
  }

  /** `set` with an `IniDictionary`: stored as a Dictionary whose text
      `to_dictionary` reads back when keys and values split cleanly. */
  function SetDictionary(f: IniFile, key: string, d: Dict, sec: string): (r: IniFile)
    requires SetDefined(f, key, sec)
    ensures sec != "" ==> FileValue(r.sections, sec, key) == Some(Element(Dictionary, DictText(d)))
    ensures sec != "" && DictReadable(d) ==> ToDictionary(FileValue(r.sections, sec, key).value.src) == d
  {
    var e := Element(Dictionary, DictText(d));
    if sec == "" then Set(f, key, e, sec)
    else
      SetThenGet(f, key, e, sec);
      if DictReadable(d) then DictRoundTrip(d); Set(f, key, e, sec) else Set(f, key, e, sec)
  }

  /** `set` with an `IniVector`: stored as a Vector that `to_vector` reads back. */
  function SetVector(f: IniFile, key: string, v: Vec3, sec: string): (r: IniFile)
    requires SetDefined(f, key, sec)
    ensures sec != "" ==> FileValue(r.sections, sec, key) == Some(Element(Vector, VectorText(v)))
    ensures sec != "" && IntRange(v) ==> ToVector(FileValue(r.sections, sec, key).value.src) == v
  {
    var e := Element(Vector, VectorText(v));
    if sec == "" then Set(f, key, e, sec)
    else
      SetThenGet(f, key, e, sec);
      assert VectorInput(e.src) by { assert |VectorText(v)| >= 2; }
      if IntRange(v) then VectorRoundTrip(v); Set(f, key, e, sec) else Set(f, key, e, sec)
  }

  /** `clearerr`: whether the file was fine, and the file with its error cleared. */
  function ClearErr(f: IniFile): (r: (bool, IniFile))
    ensures r.0 <==> f.err == NoError
    ensures r.1.sections == f.sections && r.1.err == NoError && r.1.errDesc == ""
  {
    (f.err == NoError, f.(err := NoError, errDesc := ""))
  }

  // ---------------------------------------------------------------------
  // Properties of set
  // ---------------------------------------------------------------------

  /** After `set`, the key reads back as the element set, in any file. */
  lemma SetThenGet(f: IniFile, key: string, v: Element, sec: string)
    requires SetDefined(f, key, sec) && sec != ""
    ensures FileValue(Set(f, key, v, sec).sections, sec, key) == Some(v)
  {
    var ss, r := f.sections, Set(f, key, v, sec).sections;
    if !HasSection(ss, sec) {
      assert NamesOf(r) == NamesOf(ss) + [sec];
      FirstAppend(NamesOf(ss), sec, sec);
      assert KeysOf(r[|ss|].members) == [key];
    } else {
      assert NamesOf(r) == NamesOf(ss);
    }
  }

  /** `set` changes no other key of the section and nothing in other sections. */
  lemma SetKeepsOthers(f: IniFile, key: string, v: Element, sec: string, k: string, name: string)
    requires SetDefined(f, key, sec) && sec != ""
    requires k != key || name != sec
    ensures FileValue(Set(f, key, v, sec).sections, name, k) == FileValue(f.sections, name, k)
  {
    var ss, r := f.sections, Set(f, key, v, sec).sections;
    if !HasSection(ss, sec) {
      assert NamesOf(r) == NamesOf(ss) + [sec];
      FirstAppend(NamesOf(ss), sec, name);
    } else {
      var i := First(NamesOf(ss), sec).value;
      SetUpdates(f, key, v, sec);
      UpdateKeepsOthers(ss, i, SectionSet(ss[i], key, v), name, k);
    }
  }

  /** Where `set` writes when the section is there: its first section. */
  lemma SetUpdates(f: IniFile, key: string, v: Element, sec: string)
    requires SetDefined(f, key, sec) && sec != "" && HasSection(f.sections, sec)
    ensures var i := First(NamesOf(f.sections), sec).value;
      Set(f, key, v, sec).sections == f.sections[i := SectionSet(f.sections[i], key, v)]
  {
  }

  /** Replacing a section by one of the same name that agrees on `k` keeps
      what `get` finds for `k`. */
  lemma UpdateKeepsOthers(ss: seq<Section>, i: nat, s: Section, name: string, k: string)
    requires i < |ss| && s.name == ss[i].name
    requires name == s.name ==> MemberValue(s, k) == MemberValue(ss[i], k)
    ensures FileValue(ss[i := s], name, k) == FileValue(ss, name, k)
  {
    assert NamesOf(ss[i := s]) == NamesOf(ss);
  }

  /** `set` keeps section names and the keys of each section distinct. */
  lemma SetKeepsTidy(f: IniFile, key: string, v: Element, sec: string)
    requires SetDefined(f, key, sec) && Tidy(f.sections)
    ensures Tidy(Set(f, key, v, sec).sections)
  {
    var ss, r := f.sections, Set(f, key, v, sec).sections;
    if !HasSection(ss, sec) {
      assert NamesOf(r) == NamesOf(ss) + [sec];
      assert KeysOf(r[|ss|].members) == [key];
    } else {
      assert NamesOf(r) == NamesOf(ss);
    }
  }

  /** In a tidy file, `set` in a named section never reaches the missing-key
      path of `get`. */
  lemma TidySetDefined(f: IniFile, key: string, sec: string)
    requires Tidy(f.sections) && sec != ""
    ensures SetDefined(f, key, sec)
  {
    if HasKeyIn(f.sections, key, sec) {
      var i :| 0 <= i < |f.sections| && f.sections[i].name == sec && SectionHas(f.sections[i], key);
      var j := First(NamesOf(f.sections), sec).value;
      assert NamesOf(f.sections)[i] == sec;
    }
  }

  /** `set` takes an empty section name literally while `get` reads it as
      "Main": with a section "" next to "Main", both holding "a", setting
      "a" in section "" overwrites "a" in "Main". */
  lemma EmptySectionNameOverwritesMain(x: Element, y: Element, v: Element)
    ensures var f := IniFile([Section("Main", [Pair("a", x)]), Section("", [Pair("a", y)])], NoError, "");
      && Tidy(f.sections) && SetDefined(f, "a", "")
      && FileValue(Set(f, "a", v, "").sections, "Main", "a") == Some(v)
      && FileValue(Set(f, "a", v, "").sections, "", "a") == Some(y)
  {
    var f := IniFile([Section("Main", [Pair("a", x)]), Section("", [Pair("a", y)])], NoError, "");
    assert NamesOf(f.sections) == ["Main", ""];
    assert KeysOf(f.sections[0].members) == ["a"];
    assert KeysOf(f.sections[1].members) == ["a"];
    assert HasKeyIn(f.sections, "a", "");
    var r := Set(f, "a", v, "").sections;
    assert NamesOf(r) == ["Main", ""];
    assert KeysOf(r[0].members) == ["a"];
  }

  // ---------------------------------------------------------------------
  // Writing
  // ---------------------------------------------------------------------

  /** The text `to_file` writes: each section's text followed by an empty line. */
  function FileText(ss: seq<Section>): string
  {
    if ss == [] then "" else SectionText(ss[0]) + "\n" + FileText(ss[1..])
  }

  // ---------------------------------------------------------------------
  // Reading: the content half of `from_file`
  // ---------------------------------------------------------------------

  /** `split_by(line, {}, {}, {'='}, true, true)`. */
  const LineSplitter: Splitter := Splitter({}, {}, {'='}, true, true)

  /** The sections read so far and the index of the current one. */
  datatype Reading = Reading(sections: seq<Section>, current: nat)

  predicate Open(r: Reading) { r.current < |r.sections| }

  /** What one line does: the reading goes on, or parsing stops with a
      syntax error and its description. */
  datatype LineOutcome = Next(reading: Reading) | Fail(desc: string)

  /** The pieces of a key/value line: a key, "=" and a value. */
  predicate PairShape(ps: seq<string>) { |ps| == 3 && ps[1] == "=" }

  /** One line of the content, numbered `n` from 1. A line starting with
      '[' must end with ']' and selects the first section of that name, or
      appends a new one; a line starting with '#' is a comment; any other
      line must split into exactly a key, "=" and a value, and sets the key
      in the current section. */
  function LineStep(line: string, n: nat, r: Reading): (o: LineOutcome)
    requires line != "" && Open(r)
    ensures o.Next? ==> Open(o.reading)
  {
    if line[0] == '[' then
      if Last(line) == ']' then
        var name := line[1..|line| - 1];
        match First(NamesOf(r.sections), name)
        case Some(j) => Next(Reading(r.sections, j))
        case None => Next(Reading(r.sections + [Section(name, [])], |r.sections|))
      else Fail("Unfinished section in line " + NatToString(n) + "\n")
    else if line[0] == '#' then Next(r)
    else
      var ps := SplitBy(LineSplitter, line);
      if !PairShape(ps) then Fail("Invalid format in line " + NatToString(n) + "\n")
      else
        var c := r.current;
        Next(Reading(r.sections[c := SectionSet(r.sections[c], ps[0], ToElement(ps[2]))], c))
  }

  /** What a line does: which lines fail and with which description,
      that comments change nothing, and that sections are only ever added
      and stay tidy. */
  lemma LineStepMeans(line: string, n: nat, r: Reading)
    requires line != "" && Open(r)
    ensures var o := LineStep(line, n, r);
      && (o.Fail? <==>
        || (line[0] == '[' && Last(line) != ']')
        || (line[0] != '[' && line[0] != '#' && !PairShape(SplitBy(LineSplitter, line))))
      && (o.Fail? && line[0] == '[' ==> o.desc == "Unfinished section in line " + NatToString(n) + "\n")
      && (o.Fail? && line[0] != '[' ==> o.desc == "Invalid format in line " + NatToString(n) + "\n")
      && (line[0] == '#' ==> o == Next(r))
      && (o.Next? ==> |o.reading.sections| >= |r.sections|)
      && (o.Next? ==> forall i :: 0 <= i < |r.sections| ==> o.reading.sections[i].name == r.sections[i].name)
      && (o.Next? && Tidy(r.sections) ==> Tidy(o.reading.sections))
  {
    var o := LineStep(line, n, r);
    if o.Next? && line[0] == '[' {
      var name := line[1..|line| - 1];
      if name !in NamesOf(r.sections) && Tidy(r.sections) {
        AppendTidy(r.sections, Section(name, []));
      }
    } else if o.Next? && line[0] != '#' {
      var ps := SplitBy(LineSplitter, line);
      var c := r.current;
      if Tidy(r.sections) {
        ReplaceTidy(r.sections, c, SectionSet(r.sections[c], ps[0], ToElement(ps[2])));
      }
    }
  }

  lemma AppendTidy(ss: seq<Section>, s: Section)
    requires Tidy(ss) && s.name !in NamesOf(ss) && Distinct(KeysOf(s.members))
    ensures Tidy(ss + [s])
  {
    assert NamesOf(ss + [s]) == NamesOf(ss) + [s.name];
  }

  lemma ReplaceTidy(ss: seq<Section>, i: nat, s: Section)
    requires Tidy(ss) && i < |ss| && s.name == ss[i].name && Distinct(KeysOf(s.members))
    ensures Tidy(ss[i := s])
  {
    assert NamesOf(ss[i := s]) == NamesOf(ss);
  }

  predicate AllNonEmpty(lines: seq<string>) { forall k :: 0 <= k < |lines| ==> lines[k] != "" }

  /** The remaining lines, the first of them numbered `n`; a failing line
      ends parsing with the sections read so far. */
  function ParseFrom(lines: seq<string>, n: nat, r: Reading): IniFile
    requires AllNonEmpty(lines) && Open(r)
    decreases |lines|, 1
  {
    if lines == [] then IniFile(r.sections, NoError, "") else ParseLine(lines, n, r)
  }

  /** One turn of the loop over the lines: the first line, then the rest. */
  function ParseLine(lines: seq<string>, n: nat, r: Reading): IniFile
    requires lines != [] && AllNonEmpty(lines) && Open(r)
    decreases |lines|, 0
  {
    match LineStep(lines[0], n, r)
    case Fail(d) => IniFile(r.sections, SyntaxError, d)
    case Next(r1) => ParseFrom(lines[1..], n + 1, r1)
  }

  lemma ParseFromStep(lines: seq<string>, n: nat, r: Reading)
    requires lines != [] && AllNonEmpty(lines) && Open(r)
    ensures ParseFrom(lines, n, r) == match LineStep(lines[0], n, r)
      case Fail(d) => IniFile(r.sections, SyntaxError, d)
      case Next(r1) => ParseFrom(lines[1..], n + 1, r1)
  {
    assert ParseFrom(lines, n, r) == ParseLine(lines, n, r);
  }

  /** Parsing only adds sections, keeps them tidy, and ends either without
      an error or with a syntax error that has a description. */
  lemma {:induction false} ParseFromKeeps(lines: seq<string>, n: nat, r: Reading)
    requires AllNonEmpty(lines) && Open(r)
    ensures var f := ParseFrom(lines, n, r);
      && |f.sections| >= |r.sections|
      && (forall i :: 0 <= i < |r.sections| ==> f.sections[i].name == r.sections[i].name)
      && (Tidy(r.sections) ==> Tidy(f.sections))
      && (f.err == NoError || f.err == SyntaxError)
      && (f.err == NoError <==> f.errDesc == "")
    decreases |lines|
  {
    if lines != [] {
      ParseFromStep(lines, n, r);
      LineStepMeans(lines[0], n, r);
      match LineStep(lines[0], n, r)
      case Fail(d) =>
        assert d != "" by { assert d[0] == "U"[0] || d[0] == "I"[0]; }
      case Next(r1) =>
        ParseFromKeeps(lines[1..], n + 1, r1);
    }
  }

  /** The parser starts with an empty section "Main". */
  const Start: Reading := Reading([Section("Main", [])], 0)

  /** `from_file` after reading the content: blank content is a read error;
      otherwise the lines are parsed in order, numbered from 1. The check for
      a file without sections that follows can never fire. */
  function Parse(content: string): (f: IniFile)
    ensures IsBlank(content) ==> f == IniFile([Section("Main", [])], ReadError, "Empty file\n")
    ensures |f.sections| >= 1 && f.sections[0].name == "Main" && Tidy(f.sections)
    ensures !IsBlank(content) ==> f.err == NoError || f.err == SyntaxError
    ensures f.err == NoError <==> f.errDesc == ""
  {
    if IsBlank(content) then IniFile([Section("Main", [])], ReadError, "Empty file\n")
    else
      assert Tidy(Start.sections) by { assert NamesOf(Start.sections) == ["Main"]; }
      ParseFromKeeps(ToLines(content), 1, Start);
      ParseFrom(ToLines(content), 1, Start)
  }

  /** The constructor `IniFile(path)` copies only the sections of the parsed
      file (`operator=`), so it reports no error even when parsing failed. */
  function Construct(content: string): (f: IniFile)
    ensures f.sections == Parse(content).sections
    ensures f.err == NoError && f.errDesc == ""
  {
    IniFile(Parse(content).sections, NoError, "")
  }

  // ---------------------------------------------------------------------
  // Properties of the parser
  // ---------------------------------------------------------------------

  /** A key and a value that go through the line splitter as one piece
      each come back as exactly the three pieces. */
  lemma LineSplit(k: string, v: string)
    requires WholePiece(LineSplitter, k) && WholePiece(LineSplitter, v)
    ensures SplitBy(LineSplitter, k + "=" + v) == [k, "=", v]
  {
    var sp := LineSplitter;
    ScanPiece(sp, [], k);
    SplitOne(sp, SplitState([], k, 0), '=');
    assert SplitStep(sp, SplitState([], k, 0), '=') == SplitState([k, "="], "", 0);
    ScanPiece(sp, [k, "="], v);
    SplitRunAppend(sp, SplitState([], "", 0), k, ['=']);
    assert SplitRun(sp, SplitState([], "", 0), k + ['=']) == SplitState([k, "="], "", 0);
    SplitRunAppend(sp, SplitState([], "", 0), k + ['='], v);
    assert k + "=" + v == k + ['='] + v;
    assert SplitRun(sp, SplitStart, k + "=" + v) == SplitState([k, "="], v, 0);
    assert !IsBlank("=") by { assert "="[0] == '='; }
  }

  /** A pair that is written as one line and read back as itself. */
  predicate GoodLine(p: Pair) {
    && |p.key| > 0 && p.key[0] != '[' && p.key[0] != '#'
    && '\n' !in p.key && '\n' !in p.element.src
    && WholePiece(LineSplitter, p.key) && WholePiece(LineSplitter, p.element.src)
    && ToElement(p.element.src) == p.element
  }

  function PairLine(p: Pair): string { p.key + "=" + p.element.src }

  /** A key/value line sets its key in the current section. */
  lemma PairLineStep(p: Pair, n: nat, r: Reading)
    requires GoodLine(p) && Open(r)
    ensures LineStep(PairLine(p), n, r) ==
      Next(Reading(r.sections[r.current := SectionSet(r.sections[r.current], p.key, p.element)], r.current))
  {
    LineSplit(p.key, p.element.src);
    assert PairLine(p)[0] == p.key[0];
  }

  /** The lines the parser sees in a written file. */
  function Header(name: string): string { "[" + name + "]" }

  function PairLines(ms: seq<Pair>): (r: seq<string>)
    ensures |r| == |ms| && forall j :: 0 <= j < |ms| ==> r[j] == PairLine(ms[j])
  {
    seq(|ms|, j requires 0 <= j < |ms| => PairLine(ms[j]))
  }

  function FileLines(ss: seq<Section>): seq<string>
  {
    if ss == [] then [] else [Header(ss[0].name)] + PairLines(ss[0].members) + FileLines(ss[1..])
  }

  /** A header line selects the first section of its name, or appends one. */
  lemma HeaderStep(name: string, n: nat, r: Reading)
    requires Open(r)
    ensures name in NamesOf(r.sections) ==>
      LineStep(Header(name), n, r) == Next(Reading(r.sections, First(NamesOf(r.sections), name).value))
    ensures name !in NamesOf(r.sections) ==>
      LineStep(Header(name), n, r) == Next(Reading(r.sections + [Section(name, [])], |r.sections|))
  {
    var h := Header(name);
    assert h[0] == '[' && Last(h) == ']' && h[1..|h| - 1] == name;
  }

  /** `ParseFrom` on non-empty lines from an open reading gives `f`. */
  predicate ParsesTo(lines: seq<string>, n: nat, r: Reading, f: IniFile) {
    AllNonEmpty(lines) && Open(r) && ParseFrom(lines, n, r) == f
  }

  lemma ParseCons(line: string, lines: seq<string>, all: seq<string>, n: nat, r: Reading, r1: Reading, f: IniFile)
    requires line != "" && Open(r) && LineStep(line, n, r) == Next(r1)
    requires ParsesTo(lines, n + 1, r1, f) && all == [line] + lines
    ensures ParsesTo(all, n, r, f)
  {
    assert all[0] == line && all[1..] == lines;
    forall k | 0 <= k < |all| ensures all[k] != "" {
      if k > 0 { assert all[k] == lines[k - 1]; }
    }
    ParseFromStep(all, n, r);
  }

  /** The pair lines of a section are appended to the current section, in
      order, when their keys are new. */
  lemma {:induction false} FeedPairs(ms: seq<Pair>, rest: seq<string>, n: nat, r: Reading, m: nat, done: Reading, f: IniFile)
    requires Open(r) && GoodLines(ms)
    requires Distinct(KeysOf(r.sections[r.current].members + ms))
    requires done == Filled(r, ms) && m == n + |ms| && ParsesTo(rest, m, done, f)
    ensures ParsesTo(PairLines(ms) + rest, n, r, f)
    decreases |ms|
  {
    if ms == [] {
      assert PairLines(ms) + rest == rest;
      FilledNothing(r);
    } else {
      var r1 := Filled(r, [ms[0]]);
      FirstPairStep(ms, n, r);
      FilledTwice(r, ms);
      PairLinesCons(ms, rest);
      FeedPairs(ms[1..], rest, n + 1, r1, m, done, f);
      ParseCons(PairLine(ms[0]), PairLines(ms[1..]) + rest, PairLines(ms) + rest, n, r, r1, f);
    }
  }

  /** Every pair is a good line (stated pair by pair, first to last). */
  predicate GoodLines(ms: seq<Pair>) { ms == [] || (GoodLine(ms[0]) && GoodLines(ms[1..])) }

  lemma PairLinesCons(ms: seq<Pair>, rest: seq<string>)
    requires ms != []
    ensures PairLines(ms) + rest == [PairLine(ms[0])] + (PairLines(ms[1..]) + rest)
  {
    assert PairLines(ms) == [PairLine(ms[0])] + PairLines(ms[1..]);
  }

  /** The reading with `ms` appended to the current section. */
  function Filled(r: Reading, ms: seq<Pair>): (r1: Reading)
    requires Open(r)
    ensures Open(r1)
  {
    var s := r.sections[r.current];
    Reading(r.sections[r.current := Section(s.name, s.members + ms)], r.current)
  }

  lemma FilledNothing(r: Reading)
    requires Open(r)
    ensures Filled(r, []) == r
  {
    var s := r.sections[r.current];
    assert s.members + [] == s.members;
  }

  lemma FilledTwice(r: Reading, ms: seq<Pair>)
    requires Open(r) && ms != []
    ensures Filled(Filled(r, [ms[0]]), ms[1..]) == Filled(r, ms)
    ensures Filled(r, [ms[0]]).sections[r.current].members + ms[1..] == r.sections[r.current].members + ms
  {
    var s := r.sections[r.current];
    assert (s.members + [ms[0]]) + ms[1..] == s.members + ms;
  }

  lemma FirstPairStep(ms: seq<Pair>, n: nat, r: Reading)
    requires Open(r) && ms != [] && GoodLine(ms[0])
    requires Distinct(KeysOf(r.sections[r.current].members + ms))
    ensures LineStep(PairLine(ms[0]), n, r) == Next(Filled(r, [ms[0]]))
  {
    var s := r.sections[r.current];
    assert KeysOf(s.members + ms)[|s.members|] == ms[0].key;
    assert !SectionHas(s, ms[0].key) by {
      forall j | 0 <= j < |s.members| ensures s.members[j].key != ms[0].key {
        assert KeysOf(s.members + ms)[j] == s.members[j].key;
      }
    }
    PairLineStep(ms[0], n, r);
  }

  /** A section that can be written as lines and read back. */
  predicate SectionWritable(s: Section) {
    '\n' !in s.name && GoodLines(s.members)
  }

  /** Every section can be written and read back. */
  predicate AllWritable(ss: seq<Section>) {
    ss == [] || (SectionWritable(ss[0]) && AllWritable(ss[1..]))
  }

  lemma TidyHead(all: seq<Section>, acc: seq<Section>, ss: seq<Section>)
    requires all == acc + ss && Tidy(all) && ss != []
    ensures ss[0].name !in NamesOf(acc) && Distinct(KeysOf(ss[0].members))
    ensures all == (acc + [ss[0]]) + ss[1..]
  {
    assert all[|acc|] == ss[0];
    forall i | 0 <= i < |acc| ensures NamesOf(acc)[i] != ss[0].name {
      assert NamesOf(all)[i] == acc[i].name;
      assert NamesOf(all)[|acc|] == ss[0].name;
    }
  }

  /** Reading the lines of `ss` after the sections `acc`, with section `c`
      current, ends with all of `all == acc + ss` and no error. */
  lemma {:induction false} FeedSections(ss: seq<Section>, n: nat, acc: seq<Section>, c: nat, all: seq<Section>, f: IniFile)
    requires c < |acc| && all == acc + ss && Tidy(all) && AllWritable(ss)
    requires f == IniFile(all, NoError, "")
    ensures ParsesTo(FileLines(ss), n, Reading(acc, c), f)
    decreases |ss|
  {
    if ss == [] {
      assert acc + ss == acc;
    } else {
      var s := ss[0];
      TidyHead(all, acc, ss);
      var m := n + 1 + |s.members|;
      FeedSections(ss[1..], m, acc + [s], |acc|, all, f);
      FeedSection(s, FileLines(ss[1..]), n, acc, c, m, f);
    }
  }

  /** One section's header and pairs, read after `acc`, lead to the reading
      that has the section appended and current. */
  lemma FeedSection(s: Section, rest: seq<string>, n: nat, acc: seq<Section>, c: nat, m: nat, f: IniFile)
    requires c < |acc| && s.name !in NamesOf(acc) && SectionWritable(s)
    requires Distinct(KeysOf(s.members))
    requires m == n + 1 + |s.members| && ParsesTo(rest, m, Reading(acc + [s], |acc|), f)
    ensures ParsesTo([Header(s.name)] + PairLines(s.members) + rest, n, Reading(acc, c), f)
  {
    HeaderStep(s.name, n, Reading(acc, c));
    var r1 := Reading(acc + [Section(s.name, [])], |acc|);
    FilledNew(acc, s);
    FeedPairs(s.members, rest, n + 1, r1, m, Reading(acc + [s], |acc|), f);
    ConsAssoc(Header(s.name), PairLines(s.members), rest);
    ParseCons(Header(s.name), PairLines(s.members) + rest, [Header(s.name)] + PairLines(s.members) + rest, n, Reading(acc, c), r1, f);
  }

  lemma FilledNew(acc: seq<Section>, s: Section)
    ensures Filled(Reading(acc + [Section(s.name, [])], |acc|), s.members) == Reading(acc + [s], |acc|)
    ensures (acc + [Section(s.name, [])])[|acc|].members + s.members == s.members
  {
    assert [] + s.members == s.members;
  }

  // ---------------------------------------------------------------------
  // From the written text to the lines the parser sees
  // ---------------------------------------------------------------------

  /** Characters other than a newline just extend the pending line. */
  lemma {:induction false} LinesCarry(x: string, s: string, tmp: string)
    requires '\n' !in x && '\n' !in tmp
    ensures LinesFrom(x + s, tmp) == LinesFrom(s, tmp + x)
    decreases |x|
  {
    if x != [] {
      assert (x + s)[0] == x[0] && (x + s)[1..] == x[1..] + s;
      assert tmp + [x[0]] + x[1..] == tmp + x;
      LinesCarry(x[1..], s, tmp + [x[0]]);
    } else {
      assert x + s == s && tmp + x == tmp;
    }
  }

  /** A non-empty line ended by a newline becomes one line. */
  lemma LineThen(x: string, s: string)
    requires x != "" && '\n' !in x
    ensures LinesFrom(x + "\n" + s, "") == [x] + LinesFrom(s, "")
  {
    LinesCarry(x, "\n" + s, "");
    assert x + "\n" + s == x + ("\n" + s) && "" + x == x;
    var t := "\n" + s;
    assert t[0] == '\n' && t[1..] == s;
  }

  /** An empty line is dropped. */
  lemma EmptyLineThen(s: string)
    ensures LinesFrom("\n" + s, "") == LinesFrom(s, "")
  {
    var t := "\n" + s;
    assert t[0] == '\n' && t[1..] == s;
  }

  /** Keys and values with no newline, keys non-empty: what the text
      lemmas below need of the pairs. */
  predicate PlainPairs(ms: seq<Pair>) {
    ms == [] || (|ms[0].key| > 0 && '\n' !in ms[0].key && '\n' !in ms[0].element.src && PlainPairs(ms[1..]))
  }

  predicate PlainSections(ss: seq<Section>) {
    ss == [] || ('\n' !in ss[0].name && PlainPairs(ss[0].members) && PlainSections(ss[1..]))
  }

  lemma {:induction false} GoodLinesPlain(ms: seq<Pair>)
    requires GoodLines(ms)
    ensures PlainPairs(ms)
    decreases |ms|
  {
    if ms != [] { GoodLinesPlain(ms[1..]); }
  }

  lemma {:induction false} WritablePlain(ss: seq<Section>)
    requires AllWritable(ss)
    ensures PlainSections(ss)
    decreases |ss|
  {
    if ss != [] {
      GoodLinesPlain(ss[0].members);
      WritablePlain(ss[1..]);
    }
  }

  /** The member lines of a section come back one per pair. */
  lemma {:induction false} MembersLines(ms: seq<Pair>, rest: string)
    requires PlainPairs(ms)
    ensures LinesFrom(MembersText(ms) + rest, "") == PairLines(ms) + LinesFrom(rest, "")
    decreases |ms|
  {
    if ms == [] {
      assert MembersText(ms) + rest == rest && PairLines(ms) == [];
    } else {
      var p := ms[0];
      assert MembersText(ms) + rest == PairLine(p) + "\n" + (MembersText(ms[1..]) + rest);
      LineThen(PairLine(p), MembersText(ms[1..]) + rest);
      MembersLines(ms[1..], rest);
      assert PairLines(ms) == [PairLine(p)] + PairLines(ms[1..]);
    }
  }

  /** A written section, then the blank line after it. */
  lemma SectionLines(s: Section, rest: string)
    requires '\n' !in s.name && PlainPairs(s.members)
    ensures LinesFrom(SectionText(s) + "\n" + rest, "") == [Header(s.name)] + PairLines(s.members) + LinesFrom(rest, "")
  {
    var h := Header(s.name);
    var tail := MembersText(s.members) + ("\n" + rest);
    SectionTextSplit(s, rest);
    HeaderIsLine(s.name);
    LineThen(h, tail);
    MembersLines(s.members, "\n" + rest);
    EmptyLineThen(rest);
    ConsAssoc(h, PairLines(s.members), LinesFrom(rest, ""));
  }

  lemma SectionTextSplit(s: Section, rest: string)
    ensures SectionText(s) + "\n" + rest == Header(s.name) + "\n" + (MembersText(s.members) + ("\n" + rest))
  {
    assert "]\n" == "]" + "\n";
  }

  lemma HeaderIsLine(name: string)
    requires '\n' !in name
    ensures Header(name) != "" && '\n' !in Header(name)
  {
    assert Header(name)[0] == '[';
  }

  /** `to_lines` of what `to_file` writes is exactly the header and pair lines. */
  lemma {:induction false} FileLinesOf(ss: seq<Section>)
    requires PlainSections(ss)
    ensures ToLines(FileText(ss)) == FileLines(ss)
    decreases |ss|
  {
    if ss != [] {
      SectionLines(ss[0], FileText(ss[1..]));
      FileLinesOf(ss[1..]);
    }
  }

  // ---------------------------------------------------------------------
  // The round trip
  // ---------------------------------------------------------------------

  /** A file that `to_file` can write faithfully: no error, "Main" first,
      names and keys distinct, and every line of it one that `from_file`
      reads back as the same pair. */
  predicate Writable(f: IniFile) {
    && f.err == NoError && f.errDesc == ""
    && |f.sections| >= 1 && f.sections[0].name == "Main"
    && Tidy(f.sections) && AllWritable(f.sections)
  }

  /** The "Main" header selects the first section, and its pairs fill it. */
  lemma FeedMain(main: Section, rest: seq<string>, all: seq<string>, m: nat, f: IniFile)
    requires main.name == "Main" && GoodLines(main.members) && Distinct(KeysOf(main.members))
    requires m == 2 + |main.members| && ParsesTo(rest, m, Reading([main], 0), f)
    requires all == [Header("Main")] + PairLines(main.members) + rest
    ensures ParsesTo(all, 1, Start, f)
  {
    MainHeader();
    MainFilled(main);
    FeedPairs(main.members, rest, 2, Start, m, Reading([main], 0), f);
    ConsAssoc(Header("Main"), PairLines(main.members), rest);
    ParseCons(Header("Main"), PairLines(main.members) + rest, all, 1, Start, Start, f);
  }

  lemma ConsAssoc<T>(x: T, a: seq<T>, b: seq<T>)
    ensures [x] + a + b == [x] + (a + b)
  {
  }

  lemma MainHeader()
    ensures LineStep(Header("Main"), 1, Start) == Next(Start)
  {
    HeaderStep("Main", 1, Start);
    assert NamesOf(Start.sections) == ["Main"];
  }

  lemma MainFilled(main: Section)
    requires main.name == "Main"
    ensures Filled(Start, main.members) == Reading([main], 0)
    ensures Start.sections[Start.current].members + main.members == main.members
  {
    assert [] + main.members == main.members;
  }

  /** The lines of a writable file, read from the start, give it back. */
  lemma FeedFile(f: IniFile)
    requires Writable(f)
    ensures ParsesTo(FileLines(f.sections), 1, Start, f)
  {
    var ss := f.sections;
    var main := ss[0];
    var m := 2 + |main.members|;
    assert ss == [main] + ss[1..];
    assert Distinct(KeysOf(ss[0].members));
    FeedSections(ss[1..], m, [main], 0, ss, f);
    FeedMain(main, FileLines(ss[1..]), FileLines(ss), m, f);
  }

  /** Reading what `to_file` wrote gives back the same file. */
  lemma RoundTrip(f: IniFile)
    requires Writable(f)
    ensures Parse(FileText(f.sections)) == f
  {
    WritablePlain(f.sections);
    FileLinesOf(f.sections);
    FeedFile(f);
    assert FileText(f.sections)[0] == '[';
  }

  // ---------------------------------------------------------------------
  // What `from_file` does with some lines
  // ---------------------------------------------------------------------

  lemma RunDoubled()
    ensures SplitRun(LineSplitter, SplitStart, "k==") == SplitState(["k", "=", "", "="], "", 0)
  {
    var sp := LineSplitter;
    var s1 := SplitStep(sp, SplitStart, 'k');
    assert s1 == SplitState([], "k", 0);
    var s2 := SplitStep(sp, s1, '=');
    assert s2 == SplitState(["k", "="], "", 0);
    var s3 := SplitStep(sp, s2, '=');
    assert s3 == SplitState(["k", "=", "", "="], "", 0);
    assert "k=="[1..] == "==" && "=="[1..] == "=" && "="[1..] == "";
    assert SplitRun(sp, s3, "") == s3;
    assert SplitRun(sp, s2, "=") == s3;
    assert SplitRun(sp, s1, "==") == s3;
  }

  lemma DropDoubled()
    ensures DropBlank(["k", "=", "", "="]) == ["k", "=", "="]
  {
    assert !IsBlank("k") by { assert "k"[0] == 'k'; }
    assert !IsBlank("=") by { assert "="[0] == '='; }
    assert ["k", "=", "", "="][1..] == ["=", "", "="];
    assert ["=", "", "="][1..] == ["", "="];
    assert ["", "="][1..] == ["="];
  }

  lemma ElemDoubled()
    ensures ToElement("=") == Element(String, "\"=\"")
  {
  }

  lemma SplitDoubled()
    ensures SplitBy(LineSplitter, "k==") == ["k", "=", "="]
  {
    RunDoubled();
    DropDoubled();
  }

  /** A line that splits into a key, "=" and a value sets the key in the
      current section. */
  lemma KeyValueStep(line: string, k: string, v: string, n: nat, r: Reading)
    requires line != "" && line[0] != '[' && line[0] != '#' && Open(r)
    requires SplitBy(LineSplitter, line) == [k, "=", v]
    ensures LineStep(line, n, r) == Next(Reading(r.sections[r.current := SectionSet(r.sections[r.current], k, ToElement(v))], r.current))
  {
  }

  /** A second '=' right after the first is kept as the value: "k=="
      stores the String "=" under "k". */
  lemma DoubledEquals(r: Reading, n: nat)
    requires Open(r)
    ensures LineStep("k==", n, r) == Next(Reading(r.sections[r.current := SectionSet(r.sections[r.current], "k", Element(String, "\"=\""))], r.current))
  {
    SplitDoubled();
    ElemDoubled();
    KeyValueStep("k==", "k", "=", n, r);
  }

  lemma RunSpaced()
    ensures SplitRun(LineSplitter, SplitStart, "a = 1") == SplitState(["a ", "="], " 1", 0)
  {
    var sp := LineSplitter;
    var s1 := SplitStep(sp, SplitStart, 'a');
    var s2 := SplitStep(sp, s1, ' ');
    assert s2 == SplitState([], "a ", 0);
    var s3 := SplitStep(sp, s2, '=');
    assert s3 == SplitState(["a ", "="], "", 0);
    var s4 := SplitStep(sp, s3, ' ');
    var s5 := SplitStep(sp, s4, '1');
    assert s5 == SplitState(["a ", "="], " 1", 0);
    var t := "a = 1";
    assert t[1..] == " = 1" && t[2..] == "= 1" && t[3..] == " 1" && t[4..] == "1" && t[5..] == "";
    assert SplitRun(sp, s5, "") == s5;
    assert SplitRun(sp, s4, "1") == s5;
    assert SplitRun(sp, s3, " 1") == s5;
    assert SplitRun(sp, s2, "= 1") == s5;
    assert SplitRun(sp, s1, " = 1") == s5;
  }

  lemma SplitSpaced()
    ensures SplitBy(LineSplitter, "a = 1") == ["a ", "=", " 1"]
  {
    RunSpaced();
    assert !IsBlank("a ") by { assert "a "[0] == 'a'; }
    assert !IsBlank("=") by { assert "="[0] == '='; }
    assert !IsBlank(" 1") by { assert " 1"[1] == '1'; }
  }

  lemma ElemSpaced()
    ensures ToElement(" 1") == Element(String, "\" 1\"")
  {
    assert !AllNumbers(" 1").0;
  }

  /** Nothing is trimmed: "a = 1" stores the String " 1" under "a ". */
  lemma UntrimmedPieces(r: Reading, n: nat)
    requires Open(r)
    ensures LineStep("a = 1", n, r) == Next(Reading(r.sections[r.current := SectionSet(r.sections[r.current], "a ", Element(String, "\" 1\""))], r.current))
  {
    SplitSpaced();
    ElemSpaced();
    KeyValueStep("a = 1", "a ", " 1", n, r);
  }

  lemma LinesOfUnfinished()
    ensures ToLines("a=1\n[b") == ["a=1", "[b"]
  {
    LineThen("a=1", "[b");
    assert "a=1\n[b" == "a=1" + "\n" + "[b";
    LinesCarry("[b", "", "");
    assert "[b" + "" == "[b" && "" + "[b" == "[b";
  }

  lemma RunA1()
    ensures SplitRun(LineSplitter, SplitStart, "a=1") == SplitState(["a", "="], "1", 0)
  {
    var sp := LineSplitter;
    var s1 := SplitStep(sp, SplitStart, 'a');
    assert s1 == SplitState([], "a", 0);
    var s2 := SplitStep(sp, s1, '=');
    assert s2 == SplitState(["a", "="], "", 0);
    var s3 := SplitStep(sp, s2, '1');
    assert s3 == SplitState(["a", "="], "1", 0);
    assert "a=1"[1..] == "=1" && "=1"[1..] == "1" && "1"[1..] == "";
    assert SplitRun(sp, s3, "") == s3;
    assert SplitRun(sp, s2, "1") == s3;
    assert SplitRun(sp, s1, "=1") == s3;
  }

  lemma SplitA1()
    ensures SplitBy(LineSplitter, "a=1") == ["a", "=", "1"]
  {
    RunA1();
    assert !IsBlank("a") by { assert "a"[0] == 'a'; }
    assert !IsBlank("=") by { assert "="[0] == '='; }
    assert !IsBlank("1") by { assert "1"[0] == '1'; }
  }

  const OneInt: Section := Section("Main", [Pair("a", Element(Int, "1"))])

  lemma StepA1()
    ensures LineStep("a=1", 1, Start) == Next(Reading([OneInt], 0))
  {
    SplitA1();
    KeyValueStep("a=1", "a", "1", 1, Start);
    ElemOne();
    SetIntoMain();
    assert Start.sections[0 := OneInt] == [OneInt];
  }

  lemma ElemOne()
    ensures ToElement("1") == Element(Int, "1")
  {
    assert AllNumbers("1") == (true, false);
  }

  lemma SetIntoMain()
    ensures SectionSet(Section("Main", []), "a", Element(Int, "1")) == OneInt
  {
  }

  lemma StepUnfinished()
    ensures LineStep("[b", 2, Reading([OneInt], 0)) == Fail("Unfinished section in line 2\n")
  {
    assert NatToString(2) == "2";
  }

  /** An unfinished section header ends reading with the pairs read so
      far, a syntax error and the line number of the header. */
  lemma UnfinishedExample()
    ensures Parse("a=1\n[b") == IniFile([OneInt], SyntaxError, "Unfinished section in line 2\n")
  {
    LinesOfUnfinished();
    StepA1();
    StepUnfinished();
    var lines := ["a=1", "[b"];
    assert !IsBlank("a=1\n[b") by { assert "a=1\n[b"[0] == 'a'; }
    ParseFromStep(lines, 1, Start);
    assert lines[1..] == ["[b"];
    ParseFromStep(["[b"], 2, Reading([OneInt], 0));
  }

  /** The constructor from a file keeps what was read but drops the error
      that `from_file` reported. */
  lemma ConstructorForgetsError()
    ensures Parse("a=1\n[b").err == SyntaxError
    ensures Construct("a=1\n[b") == IniFile([OneInt], NoError, "")
  {
    UnfinishedExample();
  }
}

=== FILE: kitten_lexer.dfy ===
/** The configurable tokenizer every other component of the system builds on.
    A lexer is a configuration (quote characters, bracket pairs called
    capsules, ignored characters, linebreaks, characters extracted as tokens
    of their own, comment starters, backslash translations and two flags)
    plus a sticky failure flag. Lexing walks the source once, left to right. */
module KittenLexer {
  import opened Common

  /** A lexed token: its text, whether it was a quoted string, and the line
      it was stamped with (0 means the lexer never stamped it). */
  datatype Token = Token(src: string, str: bool, line: nat)

  const Blank: Token := Token("", false, 0)

  /** The configuration. Predicate lists are the "conditional" variants:
      a character belongs to the class when any of the predicates holds. */
  datatype Config = Config(
    stringqs: set<char>,
    capsules: seq<(char, char)>,
    ignores: set<char>,
    newlines: set<char>,
    extracts: set<char>,
    lineskips: set<char>,
    backslashOpts: map<char, char>,
    eraseEmpty: bool,
    ignoreBackslash: bool,
    conIgnores: seq<char -> bool>,
    conNewlines: seq<char -> bool>,
    conExtracts: seq<char -> bool>,
    conLineskips: seq<char -> bool>,
    conStringqs: seq<char -> bool>)

  /** A lexer object: its configuration and the failure flag, which only
      ever goes from false to true. */
  datatype Lexer = Lexer(cfg: Config, failbit: bool)

  const EmptyConfig: Config := Config({}, [], {}, {}, {}, {}, map[], false, false, [], [], [], [], [])

  const NewLexer: Lexer := Lexer(EmptyConfig, false)

  /** `operator bool`: the lexer has not failed yet. */
  predicate Ok(lx: Lexer) { !lx.failbit }

  predicate MatchAny(fs: seq<char -> bool>, c: char) {
    exists k :: 0 <= k < |fs| && fs[k](c)
  }

  predicate IsQuote(cfg: Config, c: char) { c in cfg.stringqs || MatchAny(cfg.conStringqs, c) }

  predicate IsIgnore(cfg: Config, c: char) { c in cfg.ignores || MatchAny(cfg.conIgnores, c) }

  predicate IsNewline(cfg: Config, c: char) { c in cfg.newlines || MatchAny(cfg.conNewlines, c) }

  predicate IsExtract(cfg: Config, c: char) { c in cfg.extracts || MatchAny(cfg.conExtracts, c) }

  predicate IsLineskip(cfg: Config, c: char) { c in cfg.lineskips || MatchAny(cfg.conLineskips, c) }

  predicate IsCapsuleOpen(cfg: Config, c: char) {
    exists k :: 0 <= k < |cfg.capsules| && cfg.capsules[k].0 == c
  }

  predicate IsCapsuleClose(cfg: Config, c: char) {
    exists k :: 0 <= k < |cfg.capsules| && cfg.capsules[k].1 == c
  }

  /** Some registered capsule opens with `o` and closes with `c`. */
  predicate MatchClosure(cfg: Config, o: char, c: char) {
    exists k :: 0 <= k < |cfg.capsules| && cfg.capsules[k] == (o, c)
  }

  /** One of the characters is already a delimiter of a registered capsule. */
  predicate UsesDelimiter(cfg: Config, o: char, c: char) {
    exists k :: 0 <= k < |cfg.capsules| &&
      (cfg.capsules[k].0 == o || cfg.capsules[k].0 == c || cfg.capsules[k].1 == o || cfg.capsules[k].1 == c)
  }

  /** No character is used by two different capsules, and no capsule uses a
      character both as another capsule's opener and as a closer. */
  predicate DistinctDelimiters(caps: seq<(char, char)>) {
    forall j, k :: 0 <= j < k < |caps| ==>
      caps[j].0 != caps[k].0 && caps[j].0 != caps[k].1 && caps[j].1 != caps[k].0 && caps[j].1 != caps[k].1
  }

  /** `add_capsule`: registers the pair unless one of its characters is
      already a delimiter of a registered capsule. */
  function AddCapsule(lx: Lexer, o: char, c: char): (r: Lexer)
    ensures r.failbit == lx.failbit
    ensures UsesDelimiter(lx.cfg, o, c) ==> r == lx
    ensures !UsesDelimiter(lx.cfg, o, c) ==> MatchClosure(r.cfg, o, c)
    ensures forall k :: 0 <= k < |lx.cfg.capsules| ==> MatchClosure(r.cfg, lx.cfg.capsules[k].0, lx.cfg.capsules[k].1)
    ensures DistinctDelimiters(lx.cfg.capsules) ==> DistinctDelimiters(r.cfg.capsules)
  {
    if UsesDelimiter(lx.cfg, o, c) then lx
    else
      var r := lx.(cfg := lx.cfg.(capsules := lx.cfg.capsules + [(o, c)]));
      assert r.cfg.capsules[|lx.cfg.capsules|] == (o, c);
      assert forall k :: 0 <= k < |lx.cfg.capsules| ==> r.cfg.capsules[k] == lx.cfg.capsules[k];
      r
  }

  function AddStringq(lx: Lexer, c: char): Lexer { lx.(cfg := lx.cfg.(stringqs := lx.cfg.stringqs + {c})) }

  function AddIgnore(lx: Lexer, c: char): Lexer { lx.(cfg := lx.cfg.(ignores := lx.cfg.ignores + {c})) }

  function AddExtract(lx: Lexer, c: char): Lexer { lx.(cfg := lx.cfg.(extracts := lx.cfg.extracts + {c})) }

  function AddLineskip(lx: Lexer, c: char): Lexer { lx.(cfg := lx.cfg.(lineskips := lx.cfg.lineskips + {c})) }

  function AddLinebreak(lx: Lexer, c: char): Lexer { lx.(cfg := lx.cfg.(newlines := lx.cfg.newlines + {c})) }

  /** `add_backslashopt`: a later translation of the same character replaces the earlier one. */
  function AddBackslashOpt(lx: Lexer, c: char, to: char): Lexer {
    lx.(cfg := lx.cfg.(backslashOpts := lx.cfg.backslashOpts[c := to]))
  }

  function EraseEmpty(lx: Lexer): Lexer { lx.(cfg := lx.cfg.(eraseEmpty := true)) }

  function IgnoreBackslashOpts(lx: Lexer): Lexer { lx.(cfg := lx.cfg.(ignoreBackslash := true)) }

  function AddConStringq(lx: Lexer, f: char -> bool): Lexer { lx.(cfg := lx.cfg.(conStringqs := lx.cfg.conStringqs + [f])) }

  function AddConExtract(lx: Lexer, f: char -> bool): Lexer { lx.(cfg := lx.cfg.(conExtracts := lx.cfg.conExtracts + [f])) }

  function AddConIgnore(lx: Lexer, f: char -> bool): Lexer { lx.(cfg := lx.cfg.(conIgnores := lx.cfg.conIgnores + [f])) }

  function AddConNewline(lx: Lexer, f: char -> bool): Lexer { lx.(cfg := lx.cfg.(conNewlines := lx.cfg.conNewlines + [f])) }

  function AddConLineskip(lx: Lexer, f: char -> bool): Lexer { lx.(cfg := lx.cfg.(conLineskips := lx.cfg.conLineskips + [f])) }

  /** The state of one lexing run: tokens emitted so far, the stack of open
      capsule characters, the open quote character (the system keeps a stack
      but only pushes when it is empty, so it never holds more than one),
      whether a comment is being skipped, the line counter and the pending token. */
  datatype LexState = LexState(
    ret: seq<Token>,
    opens: seq<char>,
    quote: Option<char>,
    skipping: bool,
    line: nat,
    tok: Token)

  const Start: LexState := LexState([], [], None, false, 1, Blank)

  datatype StepResult = Next(next: nat, st: LexState) | Fail

  /** Gives a token that has no text yet the current line. */
  function Stamp(t: Token, line: nat): Token {
    if t.src == "" then t.(line := line) else t
  }

  function Append(t: Token, c: char): Token { t.(src := t.src + [c]) }

  /** The character an escaped `n` stands for: its `add_backslashopt`
      translation, or `n` itself. */
  function Escaped(cfg: Config, n: char): char {
    if n in cfg.backslashOpts then cfg.backslashOpts[n] else n
  }

  /** The pending token is emitted when it has text or empty tokens are kept. */
  predicate Emits(cfg: Config, t: Token) { t.src != "" || !cfg.eraseEmpty }

  /** What the lexer does with the character at `i`; a backslash escape
      consumes the following character as well. */
  function Step(cfg: Config, src: string, i: nat, st: LexState): (r: StepResult)
    requires i < |src|
    ensures r.Next? ==> i < r.next <= |src|
    ensures r.Next? && r.next != i + 1 ==>
      && r.next == i + 2 && src[i] == '\\' && st.opens == [] && !cfg.ignoreBackslash
      && r.st.tok.src == st.tok.src + [Escaped(cfg, src[i + 1])]
    ensures src[i] == '\\' && st.opens == [] && !cfg.ignoreBackslash && i + 1 < |src| &&
            !IsIgnore(cfg, '\\') && !IsNewline(cfg, '\\') && !IsCapsuleOpen(cfg, '\\') &&
            !IsCapsuleClose(cfg, '\\') && !IsQuote(cfg, '\\') && !IsExtract(cfg, '\\') && !IsLineskip(cfg, '\\') ==>
      r.Next? && r.next == i + 2
    ensures r.Fail? ==>
      || (src[i] == '\\' && i + 1 == |src| && st.opens == [] && !cfg.ignoreBackslash)
      || (IsCapsuleClose(cfg, src[i]) && st.quote.None? && !st.skipping)
  {
    var c := src[i];
    var nl := IsNewline(cfg, c);
    var line := if nl then st.line + 1 else st.line;
    var tok := st.tok;
    if st.quote.None? && st.opens == [] && (IsIgnore(cfg, c) || nl) then
      var skipping := if nl then false else st.skipping;
      if IsIgnore(cfg, c) && skipping then
        Next(i + 1, st.(line := line, skipping := skipping))
      else if Emits(cfg, tok) then
        Next(i + 1, st.(line := line, skipping := skipping, ret := st.ret + [tok], tok := Blank))
      else
        Next(i + 1, st.(line := line, skipping := skipping))
    else if st.quote.None? && IsCapsuleOpen(cfg, c) && !st.skipping then
      var ret := if st.opens == [] && Emits(cfg, tok) then st.ret + [Stamp(tok, line)] else st.ret;
      var tok := if st.opens == [] && Emits(cfg, tok) then Token("", false, line) else tok;
      Next(i + 1, st.(line := line, ret := ret, opens := st.opens + [c], tok := Append(Stamp(tok, line), c)))
    else if st.quote.None? && IsCapsuleClose(cfg, c) && !st.skipping then
      if st.opens == [] || !MatchClosure(cfg, Last(st.opens), c) then Fail
      else if |st.opens| == 1 then
        Next(i + 1, st.(line := line, opens := [], ret := st.ret + [Append(tok, c)], tok := Token("", false, line)))
      else
        Next(i + 1, st.(line := line, opens := DropLast(st.opens), tok := Append(tok, c)))
    else if st.opens == [] && IsQuote(cfg, c) && !st.skipping then
      if st.quote.None? then
        var ret := if Emits(cfg, tok) then st.ret + [Stamp(tok, line)] else st.ret;
        var tok := if Emits(cfg, tok) then Blank else tok;
        Next(i + 1, st.(line := line, ret := ret, tok := tok, quote := Some(c)))
      else if st.quote.value == c then
        Next(i + 1, st.(line := line, quote := None, ret := st.ret + [tok.(str := true)], tok := Blank))
      else
        Next(i + 1, st.(line := line, tok := Append(tok, c)))
    else if st.opens == [] && st.quote.None? && IsExtract(cfg, c) && !st.skipping then
      var ret := if Emits(cfg, tok) then st.ret + [Token(tok.src, false, line)] else st.ret;
      Next(i + 1, st.(line := line, ret := ret + [Token([c], false, line)], tok := Blank))
    else if st.quote.None? && IsLineskip(cfg, c) then
      Next(i + 1, st.(line := line, skipping := true))
    else if nl && st.quote.None? && st.skipping then
      Next(i + 1, st.(line := line, skipping := false))
    else if st.opens == [] && c == '\\' then
      if cfg.ignoreBackslash then
        Next(i + 1, st.(line := line, tok := Append(tok, c)))
      else if i + 1 != |src| then
        var n := src[i + 1];
        Next(i + 2, st.(line := line, tok := Append(tok, Escaped(cfg, n))))
      else
        Fail
    else if !st.skipping then
      Next(i + 1, st.(line := line, tok := Append(Stamp(tok, line), c)))
    else
      Next(i + 1, st.(line := line))
  }

  /** Runs the lexer from position `i`; the flag tells whether a step failed
      (a closer that matches no open capsule, or a trailing backslash), in
      which case the state is the one just before the failing step. */
  function Run(cfg: Config, src: string, i: nat, st: LexState): (LexState, bool)
    requires i <= |src|
    decreases |src| - i
  {
    if i == |src| then (st, false)
    else match Step(cfg, src, i, st)
      case Fail => (st, true)
      case Next(j, st') => Run(cfg, src, j, st')
  }

  datatype LexOutput = LexOutput(lexer: Lexer, tokens: seq<Token>)

  /** `lex`: the tokens of `src` and the lexer with its failure flag updated.
      A failed run still returns the tokens emitted before the failure. */
  function Lex(lx: Lexer, src: string): (out: LexOutput)
    ensures out.lexer.cfg == lx.cfg
    ensures Ok(out.lexer) ==> Ok(lx)
    ensures lx.failbit ==> out.lexer.failbit
  {
    var (st, failed) := Run(lx.cfg, src, 0, Start);
    if failed || st.opens != [] || st.quote.Some? then LexOutput(lx.(failbit := true), st.ret)
    else LexOutput(lx, if st.tok.src != "" then st.ret + [st.tok] else st.ret)
  }

  /** Whether lexing `src` by itself fails (the lexer's own flag aside). */
  predicate LexFails(cfg: Config, src: string) {
    var (st, failed) := Run(cfg, src, 0, Start);
    failed || st.opens != [] || st.quote.Some?
  }

  /** Splits tokens into runs of consecutive tokens stamped with the same
      line: the grouping every client performs after lexing. `last` is the
      line of the group being filled (-1 before the first token); a token
      whose line differs from it starts a new group. */
  function GroupByLine(toks: seq<Token>, last: int, acc: seq<seq<Token>>): (groups: seq<seq<Token>>)
    requires forall g :: g in acc ==> |g| > 0
    requires acc == [] ==> last == -1
    ensures forall g :: g in groups ==> |g| > 0
    ensures |groups| >= |acc|
    ensures |toks| > 0 ==> |groups| > 0
    decreases |toks|
  {
    if toks == [] then acc
    else if toks[0].line as int != last then GroupByLine(toks[1..], toks[0].line, acc + [[toks[0]]])
    else GroupByLine(toks[1..], last, DropLast(acc) + [Last(acc) + [toks[0]]])
  }

  /** The line groups of a token list. */
  function Lines(toks: seq<Token>): seq<seq<Token>> { GroupByLine(toks, -1, []) }
}

=== FILE: kitten_lexer_props.dfy ===
/** Properties of the tokenizer: how the line counter advances, that the
    failure flag is sticky, that capsule tokens carry both delimiters, and
    that erasing empties leaves no empty unquoted token. */
module KittenLexerProps {
  import opened Common
  import opened KittenLexer

  /** How many characters of `s` the configuration treats as linebreaks. */
  function NewlineCount(cfg: Config, s: string): nat
    decreases |s|
  {
    if s == [] then 0 else (if IsNewline(cfg, s[0]) then 1 else 0) + NewlineCount(cfg, s[1..])
  }

  /** No backslash escape can consume a character: either backslashes are
      kept verbatim or there are none. */
  predicate NoEscapes(cfg: Config, src: string) {
    cfg.ignoreBackslash || forall k :: 0 <= k < |src| ==> src[k] != '\\'
  }

  /** Every token seen so far, and the pending one, is stamped with a line
      no later than the counter. */
  predicate LinesBounded(st: LexState) {
    (forall t :: t in st.ret ==> t.line <= st.line) && st.tok.line <= st.line
  }

  lemma StepLines(cfg: Config, src: string, i: nat, st: LexState)
    requires i < |src|
    requires LinesBounded(st)
    ensures Step(cfg, src, i, st).Next? ==> LinesBounded(Step(cfg, src, i, st).st)
    ensures Step(cfg, src, i, st).Next? ==>
      Step(cfg, src, i, st).st.line == st.line + (if IsNewline(cfg, src[i]) then 1 else 0)
    ensures Step(cfg, src, i, st).Next? && NoEscapes(cfg, src) ==> Step(cfg, src, i, st).next == i + 1
  {
    StepKeepsBound(cfg, src, i, st);
    StepCounts(cfg, src, i, st);
    if NoEscapes(cfg, src) {
      StepAdvances(cfg, src, i, st);
    }
  }

  lemma StepKeepsBound(cfg: Config, src: string, i: nat, st: LexState)
    requires i < |src| && LinesBounded(st)
    ensures Step(cfg, src, i, st).Next? ==> LinesBounded(Step(cfg, src, i, st).st)
  {
    var r := Step(cfg, src, i, st);
    if r.Next? {
      var extra := StepEmits(cfg, src, i, st);
      StepCounts(cfg, src, i, st);
      assert forall t :: t in r.st.ret ==> t in st.ret || t in extra;
    }
  }

  /** A step appends some tokens, stamped no later than the new counter, and
      leaves a pending token that is stamped no later either. */
  lemma StepEmits(cfg: Config, src: string, i: nat, st: LexState) returns (extra: seq<Token>)
    requires i < |src| && st.tok.line <= st.line
    ensures Step(cfg, src, i, st).Next? ==> Step(cfg, src, i, st).st.ret == st.ret + extra
    ensures Step(cfg, src, i, st).Next? ==> forall t :: t in extra ==> t.line <= Step(cfg, src, i, st).st.line
    ensures Step(cfg, src, i, st).Next? ==> Step(cfg, src, i, st).st.tok.line <= Step(cfg, src, i, st).st.line
  {
    var c := src[i];
    var nl := IsNewline(cfg, c);
    var line := if nl then st.line + 1 else st.line;
    var tok := st.tok;
    var r := Step(cfg, src, i, st);
    if st.quote.None? && st.opens == [] && (IsIgnore(cfg, c) || nl) {
      extra := if r.st.ret == st.ret then [] else [tok];
    } else if st.quote.None? && IsCapsuleOpen(cfg, c) && !st.skipping {
      extra := if st.opens == [] && Emits(cfg, tok) then [Stamp(tok, line)] else [];
    } else if st.quote.None? && IsCapsuleClose(cfg, c) && !st.skipping {
      extra := if r.Next? && |st.opens| == 1 then [Append(tok, c)] else [];
    } else if st.opens == [] && IsQuote(cfg, c) && !st.skipping {
      extra := if st.quote.None? then (if Emits(cfg, tok) then [Stamp(tok, line)] else [])
               else if st.quote.value == c then [tok.(str := true)] else [];
    } else if st.opens == [] && st.quote.None? && IsExtract(cfg, c) && !st.skipping {
      extra := (if Emits(cfg, tok) then [Token(tok.src, false, line)] else []) + [Token([c], false, line)];
    } else {
      extra := [];
    }
  }

  lemma StepCounts(cfg: Config, src: string, i: nat, st: LexState)
    requires i < |src|
    ensures Step(cfg, src, i, st).Next? ==>
      Step(cfg, src, i, st).st.line == st.line + (if IsNewline(cfg, src[i]) then 1 else 0)
  {
  }

  lemma StepAdvances(cfg: Config, src: string, i: nat, st: LexState)
    requires i < |src| && NoEscapes(cfg, src)
    ensures Step(cfg, src, i, st).Next? ==> Step(cfg, src, i, st).next == i + 1
  {
  }

  /** The line counter starts where it is and grows by one for every
      linebreak character the run examines, inside quotes and capsules as
      well; a character consumed by a backslash escape is not examined. */
  lemma {:induction false} RunLines(cfg: Config, src: string, i: nat, st: LexState)
    requires i <= |src|
    requires LinesBounded(st)
    ensures LinesBounded(Run(cfg, src, i, st).0)
    ensures Run(cfg, src, i, st).0.line <= st.line + NewlineCount(cfg, src[i..])
    ensures NoEscapes(cfg, src) && !Run(cfg, src, i, st).1 ==>
      Run(cfg, src, i, st).0.line == st.line + NewlineCount(cfg, src[i..])
    decreases |src| - i
  {
    if i < |src| {
      StepLines(cfg, src, i, st);
      assert src[i..][1..] == src[i + 1..];
      match Step(cfg, src, i, st)
      case Fail =>
      case Next(j, st') =>
        RunLines(cfg, src, j, st');
        if j == i + 2 {
          assert src[i + 1..][1..] == src[i + 2..];
        }
    }
  }

  /** Every token of a lexing run is stamped with a line no later than one
      plus the number of linebreak characters in the source. */
  lemma TokenLinesBounded(lx: Lexer, src: string)
    ensures forall t :: t in Lex(lx, src).tokens ==> t.line <= 1 + NewlineCount(lx.cfg, src)
  {
    RunLines(lx.cfg, src, 0, Start);
    assert src[0..] == src;
  }

  /** Without escapes, a run that does not fail ends with the counter at one
      plus the number of linebreaks of the whole source. */
  lemma FinalLine(cfg: Config, src: string)
    requires NoEscapes(cfg, src)
    ensures !Run(cfg, src, 0, Start).1 ==> Run(cfg, src, 0, Start).0.line == 1 + NewlineCount(cfg, src)
  {
    RunLines(cfg, src, 0, Start);
    assert src[0..] == src;
  }

  /** A closing delimiter met outside strings, capsules and comments, that
      is not also an ignored, linebreak or opening character, fails the run
      at once: nothing has been emitted and the failure flag is raised. */
  lemma StrayCloserFails(lx: Lexer, src: string)
    requires |src| > 0
    requires IsCapsuleClose(lx.cfg, src[0])
    requires !IsIgnore(lx.cfg, src[0]) && !IsNewline(lx.cfg, src[0]) && !IsCapsuleOpen(lx.cfg, src[0])
    ensures Lex(lx, src).lexer.failbit
    ensures Lex(lx, src).tokens == []
  {
    assert Step(lx.cfg, src, 0, Start) == Fail;
  }

  /** A lone backslash at the very end fails the run when escapes are active. */
  lemma TrailingBackslashFails(lx: Lexer)
    requires !lx.cfg.ignoreBackslash
    requires !IsIgnore(lx.cfg, '\\') && !IsNewline(lx.cfg, '\\') && !IsCapsuleOpen(lx.cfg, '\\')
    requires !IsCapsuleClose(lx.cfg, '\\') && !IsQuote(lx.cfg, '\\')
    requires !IsExtract(lx.cfg, '\\') && !IsLineskip(lx.cfg, '\\')
    ensures Lex(lx, "\\").lexer.failbit
  {
    assert Step(lx.cfg, "\\", 0, Start) == Fail;
  }

  /** A token that starts with an opening delimiter and is not a quoted
      string holds a whole capsule: it is at least two characters long and
      ends with a matching closer. */
  predicate WellCapsuled(cfg: Config, t: Token) {
    !t.str && |t.src| > 0 && IsCapsuleOpen(cfg, t.src[0]) ==>
      |t.src| >= 2 && MatchClosure(cfg, t.src[0], Last(t.src))
  }

  predicate CapsuleInv(cfg: Config, st: LexState) {
    (forall t :: t in st.ret ==> WellCapsuled(cfg, t)) &&
    (forall k :: 0 <= k < |st.opens| ==> IsCapsuleOpen(cfg, st.opens[k])) &&
    !st.tok.str &&
    (st.opens != [] ==> st.quote.None? && |st.tok.src| > 0 && st.tok.src[0] == st.opens[0]) &&
    (st.opens == [] && st.quote.None? && |st.tok.src| > 0 ==> !IsCapsuleOpen(cfg, st.tok.src[0]))
  }

  lemma StepCapsules(cfg: Config, src: string, i: nat, st: LexState)
    requires i < |src|
    requires NoEscapes(cfg, src) && !IsCapsuleOpen(cfg, '\\')
    requires CapsuleInv(cfg, st)
    ensures Step(cfg, src, i, st).Next? ==> CapsuleInv(cfg, Step(cfg, src, i, st).st)
  {
    var c := src[i];
    var r := Step(cfg, src, i, st);
    if r.Next? {
      var st' := r.st;
      if st.quote.None? && st.opens == [] && (IsIgnore(cfg, c) || IsNewline(cfg, c)) {
      } else if st.quote.None? && IsCapsuleOpen(cfg, c) && !st.skipping {
        assert st'.opens[0] == (st.opens + [c])[0];
        assert forall k :: 0 <= k < |st.opens| ==> st'.opens[k] == st.opens[k];
      } else if st.quote.None? && IsCapsuleClose(cfg, c) && !st.skipping {
        if |st.opens| == 1 {
          assert MatchClosure(cfg, st.opens[0], c);
          assert Last(st'.ret) == Append(st.tok, c);
        }
      } else if st.opens == [] && IsQuote(cfg, c) && !st.skipping {
      } else if st.opens == [] && st.quote.None? && IsExtract(cfg, c) && !st.skipping {
      } else if st.quote.None? && IsLineskip(cfg, c) {
      } else if IsNewline(cfg, c) && st.quote.None? && st.skipping {
      } else if st.opens == [] && c == '\\' {
      } else if !st.skipping {
      }
    }
  }

  lemma {:induction false} RunCapsules(cfg: Config, src: string, i: nat, st: LexState)
    requires i <= |src|
    requires NoEscapes(cfg, src) && !IsCapsuleOpen(cfg, '\\')
    requires CapsuleInv(cfg, st)
    ensures CapsuleInv(cfg, Run(cfg, src, i, st).0)
    decreases |src| - i
  {
    if i < |src| {
      StepCapsules(cfg, src, i, st);
      match Step(cfg, src, i, st)
      case Fail =>
      case Next(j, st') => RunCapsules(cfg, src, j, st');
    }
  }

  /** When no escape can forge an opening character, every unquoted token
      that begins with an opening delimiter is a complete capsule: the
      opener, its contents and a matching closer. */
  lemma CapsuleTokensClosed(lx: Lexer, src: string)
    requires NoEscapes(lx.cfg, src) && !IsCapsuleOpen(lx.cfg, '\\')
    ensures forall t :: t in Lex(lx, src).tokens ==> WellCapsuled(lx.cfg, t)
  {
    RunCapsules(lx.cfg, src, 0, Start);
  }

  /** With empty tokens erased, only a quoted string can be empty. */
  predicate NoEmptyWords(st: LexState) {
    forall t :: t in st.ret ==> t.str || t.src != ""
  }

  lemma {:induction false} RunNoEmptyWords(cfg: Config, src: string, i: nat, st: LexState)
    requires i <= |src|
    requires cfg.eraseEmpty
    requires NoEmptyWords(st)
    ensures NoEmptyWords(Run(cfg, src, i, st).0)
    decreases |src| - i
  {
    if i < |src| {
      match Step(cfg, src, i, st)
      case Fail =>
      case Next(j, st') => RunNoEmptyWords(cfg, src, j, st');
    }
  }

  /** `erase_empty` keeps every unquoted token non-empty. */
  lemma ErasedLexHasNoEmptyWords(lx: Lexer, src: string)
    requires lx.cfg.eraseEmpty
    ensures forall t :: t in Lex(lx, src).tokens ==> t.str || t.src != ""
  {
    RunNoEmptyWords(lx.cfg, src, 0, Start);
  }

  /** Grouping by line loses and reorders nothing. */
  lemma {:induction false} GroupByLineFlattens(toks: seq<Token>, last: int, acc: seq<seq<Token>>)
    requires forall g :: g in acc ==> |g| > 0
    requires acc == [] ==> last == -1
    ensures Flatten(GroupByLine(toks, last, acc)) == Flatten(acc) + toks
    decreases |toks|
  {
    if toks != [] {
      if toks[0].line as int != last {
        FlattenNewGroup(acc, toks);
        GroupByLineFlattens(toks[1..], toks[0].line, acc + [[toks[0]]]);
      } else {
        FlattenExtendGroup(acc, toks);
        assert forall g :: g in DropLast(acc) ==> g in acc;
        GroupByLineFlattens(toks[1..], last, DropLast(acc) + [Last(acc) + [toks[0]]]);
      }
    }
  }

  lemma FlattenNewGroup(acc: seq<seq<Token>>, toks: seq<Token>)
    requires toks != []
    ensures Flatten(acc + [[toks[0]]]) + toks[1..] == Flatten(acc) + toks
  {
    FlattenAppend(acc, [toks[0]]);
    assert [toks[0]] + toks[1..] == toks;
  }

  lemma FlattenExtendGroup(acc: seq<seq<Token>>, toks: seq<Token>)
    requires toks != [] && acc != []
    ensures Flatten(DropLast(acc) + [Last(acc) + [toks[0]]]) + toks[1..] == Flatten(acc) + toks
  {
    var front, g, t, rest := DropLast(acc), Last(acc), toks[0], toks[1..];
    FlattenAppend(front, g + [t]);
    Regroup(Flatten(front + [g + [t]]), Flatten(front), g, t, rest);
    assert Flatten(acc) == Flatten(front) + g;
    assert toks == [t] + rest;
  }

  lemma Regroup<T>(x: seq<T>, f: seq<T>, g: seq<T>, t: T, rest: seq<T>)
    requires x == f + (g + [t])
    ensures x + rest == (f + g) + ([t] + rest)
  {
  }

  function Flatten(gs: seq<seq<Token>>): seq<Token>
    decreases |gs|
  {
    if gs == [] then [] else Flatten(DropLast(gs)) + Last(gs)
  }

  lemma FlattenAppend(gs: seq<seq<Token>>, g: seq<Token>)
    ensures Flatten(gs + [g]) == Flatten(gs) + g
  {
    assert DropLast(gs + [g]) == gs;
  }

  /** Inside one group every token carries the same line. */
  lemma {:induction false} GroupsShareLine(toks: seq<Token>, last: int, acc: seq<seq<Token>>)
    requires forall g :: g in acc ==> |g| > 0
    requires acc == [] ==> last == -1
    requires forall g :: g in acc ==> forall t :: t in g ==> t.line == g[0].line
    requires acc != [] ==> Last(acc)[0].line as int == last
    ensures forall g :: g in GroupByLine(toks, last, acc) ==> forall t :: t in g ==> t.line == g[0].line
    decreases |toks|
  {
    if toks != [] {
      if toks[0].line as int != last {
        GroupsShareLine(toks[1..], toks[0].line, acc + [[toks[0]]]);
      } else {
        var acc' := DropLast(acc) + [Last(acc) + [toks[0]]];
        assert forall g :: g in acc' ==> g in DropLast(acc) || g == Last(acc) + [toks[0]];
        GroupsShareLine(toks[1..], last, acc');
      }
    }
  }

  // ---------------------------------------------------------------------
  // Words and separators at the top level
  // ---------------------------------------------------------------------

  /** A character the configuration gives no role: it only extends the
      pending token. */
  predicate Plain(cfg: Config, c: char) {
    && !IsIgnore(cfg, c) && !IsNewline(cfg, c) && !IsCapsuleOpen(cfg, c) && !IsCapsuleClose(cfg, c)
    && !IsQuote(cfg, c) && !IsExtract(cfg, c) && !IsLineskip(cfg, c) && c != '\\'
  }

  /** Outside quotes, capsules and comments. */
  predicate AtTop(st: LexState) { st.quote.None? && st.opens == [] && !st.skipping }

  /** The pending token after a word: the word is appended, and the token
      takes the current line if it had no text yet. */
  function WithWord(t: Token, line: nat, w: string): Token {
    if w == [] then t else Token(t.src + w, t.str, if t.src == "" then line else t.line)
  }

  lemma PlainStep(cfg: Config, src: string, i: nat, st: LexState)
    requires i < |src| && Plain(cfg, src[i]) && AtTop(st)
    ensures Step(cfg, src, i, st) == Next(i + 1, st.(tok := WithWord(st.tok, st.line, [src[i]])))
  {
  }

  /** A run of plain characters only extends the pending token. */
  lemma {:induction false} PlainRun(cfg: Config, src: string, i: nat, j: nat, st: LexState)
    requires i <= j <= |src| && AtTop(st)
    requires forall k :: i <= k < j ==> Plain(cfg, src[k])
    ensures Run(cfg, src, i, st) == Run(cfg, src, j, st.(tok := WithWord(st.tok, st.line, src[i..j])))
    decreases j - i
  {
    if i == j {
      assert src[i..j] == [];
    } else {
      PlainStep(cfg, src, i, st);
      var st1 := st.(tok := WithWord(st.tok, st.line, [src[i]]));
      assert Run(cfg, src, i, st) == Run(cfg, src, i + 1, st1);
      PlainRun(cfg, src, i + 1, j, st1);
      assert [src[i]] + src[i + 1..j] == src[i..j];
      WithWordAppend(st.tok, st.line, [src[i]], src[i + 1..j]);
    }
  }

  /** Appending two words one after the other appends their concatenation. */
  lemma WithWordAppend(t: Token, line: nat, a: string, b: string)
    requires a != []
    ensures WithWord(WithWord(t, line, a), line, b) == WithWord(t, line, a + b)
  {
    if b == [] {
      assert a + b == a;
    } else {
      assert t.src + a + b == t.src + (a + b);
    }
  }

  /** An ignored character that is not a linebreak ends the pending token:
      it is emitted when it has text or empty tokens are kept. */
  lemma IgnoreStep(cfg: Config, src: string, i: nat, st: LexState)
    requires i < |src| && IsIgnore(cfg, src[i]) && !IsNewline(cfg, src[i]) && AtTop(st)
    ensures Emits(cfg, st.tok) ==> Step(cfg, src, i, st) == Next(i + 1, st.(ret := st.ret + [st.tok], tok := Blank))
    ensures !Emits(cfg, st.tok) ==> Step(cfg, src, i, st) == Next(i + 1, st)
  {
  }

  // ---------------------------------------------------------------------
  // Lexing never writes more text than it reads
  // ---------------------------------------------------------------------

  /** The total length of the tokens' texts. */
  function TextLength(ts: seq<Token>): nat
    decreases |ts|
  {
    if ts == [] then 0 else TextLength(DropLast(ts)) + |Last(ts).src|
  }

  lemma TextLengthAppend(ts: seq<Token>, t: Token)
    ensures TextLength(ts + [t]) == TextLength(ts) + |t.src|
  {
    assert DropLast(ts + [t]) == ts;
  }

  /** Every step adds at most one character of text per character it reads. */
  lemma StepLength(cfg: Config, src: string, i: nat, st: LexState)
    requires i < |src| && Step(cfg, src, i, st).Next?
    ensures var r := Step(cfg, src, i, st);
      TextLength(r.st.ret) + |r.st.tok.src| <= TextLength(st.ret) + |st.tok.src| + (r.next - i)
  {
    var c := src[i];
    var nl := IsNewline(cfg, c);
    var line := if nl then st.line + 1 else st.line;
    var tok := st.tok;
    if st.quote.None? && st.opens == [] && (IsIgnore(cfg, c) || nl) {
      TextLengthAppend(st.ret, tok);
    } else if st.quote.None? && IsCapsuleOpen(cfg, c) && !st.skipping {
      TextLengthAppend(st.ret, Stamp(tok, line));
    } else if st.quote.None? && IsCapsuleClose(cfg, c) && !st.skipping {
      TextLengthAppend(st.ret, Append(tok, c));
    } else if st.opens == [] && IsQuote(cfg, c) && !st.skipping {
      TextLengthAppend(st.ret, Stamp(tok, line));
      TextLengthAppend(st.ret, tok.(str := true));
    } else if st.opens == [] && st.quote.None? && IsExtract(cfg, c) && !st.skipping {
      TextLengthAppend(st.ret, Token(tok.src, false, line));
      var ret := if Emits(cfg, tok) then st.ret + [Token(tok.src, false, line)] else st.ret;
      TextLengthAppend(ret, Token([c], false, line));
    }
  }

  lemma {:induction false} RunLength(cfg: Config, src: string, i: nat, st: LexState)
    requires i <= |src| && TextLength(st.ret) + |st.tok.src| <= i
    ensures TextLength(Run(cfg, src, i, st).0.ret) + |Run(cfg, src, i, st).0.tok.src| <= |src|
    decreases |src| - i
  {
    if i < |src| {
      match Step(cfg, src, i, st)
      case Fail =>
      case Next(j, st1) =>
        StepLength(cfg, src, i, st);
        RunLength(cfg, src, j, st1);
    }
  }

  /** The tokens of a text hold no more characters than the text. */
  lemma LexLength(lx: Lexer, src: string)
    ensures TextLength(Lex(lx, src).tokens) <= |src|
  {
    RunLength(lx.cfg, src, 0, Start);
    var st := Run(lx.cfg, src, 0, Start).0;
    TextLengthAppend(st.ret, st.tok);
  }

  /** `add_capsule` with characters no registered capsule uses appends the pair. */
  lemma CapsuleFresh(lx: Lexer, o: char, c: char)
    requires forall k :: 0 <= k < |lx.cfg.capsules| ==> lx.cfg.capsules[k].0 !in {o, c} && lx.cfg.capsules[k].1 !in {o, c}
    ensures AddCapsule(lx, o, c) == lx.(cfg := lx.cfg.(capsules := lx.cfg.capsules + [(o, c)]))
  {
  }

  /** An extract character that has no other role at the top level ends
      the pending token and becomes a token of its own. */
  lemma ExtractStep(cfg: Config, src: string, i: nat, st: LexState)
    requires i < |src| && AtTop(st) && Extracting(cfg, src[i])
    ensures Step(cfg, src, i, st) == Next(i + 1, st.(
      ret := (if Emits(cfg, st.tok) then st.ret + [Token(st.tok.src, false, st.line)] else st.ret) + [Token([src[i]], false, st.line)],
      tok := Blank))
  {
  }

  predicate Extracting(cfg: Config, c: char) {
    && IsExtract(cfg, c) && !IsIgnore(cfg, c) && !IsNewline(cfg, c)
    && !IsCapsuleOpen(cfg, c) && !IsCapsuleClose(cfg, c) && !IsQuote(cfg, c)
  }

  /** A character that separates words: skipped, or extracted as a token. */
  predicate Separator(cfg: Config, c: char) {
    (IsIgnore(cfg, c) && !IsNewline(cfg, c)) || Extracting(cfg, c)
  }

  /** Non-empty words of plain characters. */
  predicate Words(cfg: Config, ws: seq<string>) {
    forall k :: 0 <= k < |ws| ==> ws[k] != [] && forall j :: 0 <= j < |ws[k]| ==> Plain(cfg, ws[k][j])
  }

  predicate Separators(cfg: Config, cs: seq<char>) {
    forall k :: 0 <= k < |cs| ==> Separator(cfg, cs[k])
  }

  /** The words with one separator character between neighbours. */
  function Weave(ws: seq<string>, cs: seq<char>): string
    requires |ws| == |cs| + 1
    decreases |cs|
  {
    if cs == [] then ws[0] else ws[0] + [cs[0]] + Weave(ws[1..], cs[1..])
  }

  /** The tokens of woven words: every word, and every separator that is
      extracted rather than skipped. */
  function WovenTokens(cfg: Config, ws: seq<string>, cs: seq<char>, line: nat): seq<Token>
    requires |ws| == |cs| + 1
    decreases |cs|
  {
    [Token(ws[0], false, line)]
      + if cs == [] then []
        else (if IsIgnore(cfg, cs[0]) then [] else [Token([cs[0]], false, line)]) + WovenTokens(cfg, ws[1..], cs[1..], line)
  }

  /** Lexing words and separators at the top level emits every word but
      the last, which stays pending, and never leaves the top level. */
  lemma {:induction false} WovenRun(cfg: Config, src: string, i: nat, ws: seq<string>, cs: seq<char>, st: LexState)
    requires |ws| == |cs| + 1 && i <= |src| && src[i..] == Weave(ws, cs)
    requires AtTop(st) && st.tok == Blank && Words(cfg, ws) && Separators(cfg, cs)
    ensures Pending(Run(cfg, src, i, st), st.ret + WovenTokens(cfg, ws, cs, st.line))
    decreases |cs|
  {
    if cs == [] {
      var st1 := FirstWord(cfg, src, i, ws, cs, st);
    } else {
      var st2 := WordAndSeparator(cfg, src, i, ws, cs, st);
      WovenRun(cfg, src, i + |ws[0]| + 1, ws[1..], cs[1..], st2);
      WovenCons(cfg, ws, cs, st.line, st.ret, st2.ret);
    }
  }

  /** The first word and the separator after it. */
  lemma WordAndSeparator(cfg: Config, src: string, i: nat, ws: seq<string>, cs: seq<char>, st: LexState) returns (st2: LexState)
    requires |ws| == |cs| + 1 && cs != [] && i <= |src| && src[i..] == Weave(ws, cs)
    requires AtTop(st) && st.tok == Blank && Words(cfg, ws) && Separators(cfg, cs)
    ensures i + |ws[0]| < |src| && src[i + |ws[0]| + 1..] == Weave(ws[1..], cs[1..])
    ensures Run(cfg, src, i, st) == Run(cfg, src, i + |ws[0]| + 1, st2)
    ensures AtTop(st2) && st2.tok == Blank && st2.line == st.line
    ensures st2.ret == st.ret + [Token(ws[0], false, st.line)]
      + (if IsIgnore(cfg, cs[0]) then [] else [Token([cs[0]], false, st.line)])
  {
    var j := i + |ws[0]|;
    var st1 := FirstWord(cfg, src, i, ws, cs, st);
    st2 := NextSeparator(cfg, src, j, ws, cs, st1);
    RunNext(cfg, src, j, st1, j + 1, st2);
  }

  /** A run that did not fail, ended at the top level with a pending word,
      and whose tokens with that word are `toks`. */
  predicate Pending(res: (LexState, bool), toks: seq<Token>) {
    !res.1 && AtTop(res.0) && res.0.tok.src != "" && res.0.ret + [res.0.tok] == toks
  }

  /** The first word only extends the pending token. */
  lemma FirstWord(cfg: Config, src: string, i: nat, ws: seq<string>, cs: seq<char>, st: LexState) returns (st1: LexState)
    requires |ws| == |cs| + 1 && i <= |src| && src[i..] == Weave(ws, cs)
    requires AtTop(st) && st.tok == Blank && Words(cfg, ws)
    ensures st1 == st.(tok := Token(ws[0], false, st.line))
    ensures i + |ws[0]| <= |src| && Run(cfg, src, i, st) == Run(cfg, src, i + |ws[0]|, st1)
    ensures cs != [] ==> i + |ws[0]| < |src| && src[i + |ws[0]|] == cs[0] && src[i + |ws[0]| + 1..] == Weave(ws[1..], cs[1..])
    ensures cs == [] ==> i + |ws[0]| == |src|
  {
    var w := ws[0];
    var j := i + |w|;
    WeaveParts(ws, cs);
    Within(src, i, Weave(ws, cs), |w|);
    PlainWord(cfg, src, i, w);
    PlainRun(cfg, src, i, j, st);
    st1 := st.(tok := Token(w, false, st.line));
    assert WithWord(st.tok, st.line, src[i..j]) == st1.tok;
  }

  lemma {:induction false} WeaveParts(ws: seq<string>, cs: seq<char>)
    requires |ws| == |cs| + 1
    ensures |Weave(ws, cs)| >= |ws[0]| && Weave(ws, cs)[..|ws[0]|] == ws[0]
    ensures cs == [] ==> Weave(ws, cs) == ws[0]
    ensures cs != [] ==> (|Weave(ws, cs)| > |ws[0]| && Weave(ws, cs)[|ws[0]|] == cs[0]
      && Weave(ws, cs)[|ws[0]| + 1..] == Weave(ws[1..], cs[1..]))
  {
    if cs != [] {
      var rest := Weave(ws[1..], cs[1..]);
      var t := ws[0] + ([cs[0]] + rest);
      assert Weave(ws, cs) == t;
      assert t[..|ws[0]|] == ws[0];
      assert t[|ws[0]| + 1..] == rest;
    }
  }

  /** The parts of a suffix are parts of the text. */
  lemma Within(src: string, i: nat, t: string, a: nat)
    requires i <= |src| && src[i..] == t && a <= |t|
    ensures i + a <= |src| && src[i..i + a] == t[..a] && src[i + a..] == t[a..]
    ensures a < |t| ==> src[i + a] == t[a]
  {
  }

  lemma PlainWord(cfg: Config, src: string, i: nat, w: string)
    requires i + |w| <= |src| && src[i..i + |w|] == w
    requires forall j :: 0 <= j < |w| ==> Plain(cfg, w[j])
    ensures forall k :: i <= k < i + |w| ==> Plain(cfg, src[k])
  {
    forall k | i <= k < i + |w| ensures Plain(cfg, src[k]) {
      assert src[k] == w[k - i];
    }
  }

  /** A separator emits the pending word, and itself when it is extracted. */
  lemma NextSeparator(cfg: Config, src: string, j: nat, ws: seq<string>, cs: seq<char>, st1: LexState) returns (st2: LexState)
    requires |ws| == |cs| + 1 && cs != [] && j < |src| && src[j] == cs[0] && Separators(cfg, cs)
    requires AtTop(st1) && st1.tok == Token(ws[0], false, st1.line) && ws[0] != []
    ensures Step(cfg, src, j, st1) == Next(j + 1, st2)
    ensures AtTop(st2) && st2.tok == Blank && st2.line == st1.line
    ensures st2.ret == st1.ret + [Token(ws[0], false, st1.line)]
      + (if IsIgnore(cfg, cs[0]) then [] else [Token([cs[0]], false, st1.line)])
  {
    var c := cs[0];
    assert Separator(cfg, c);
    if IsIgnore(cfg, c) {
      IgnoreStep(cfg, src, j, st1);
      st2 := st1.(ret := st1.ret + [st1.tok], tok := Blank);
    } else {
      ExtractStep(cfg, src, j, st1);
      st2 := st1.(ret := st1.ret + [Token(ws[0], false, st1.line)] + [Token([c], false, st1.line)], tok := Blank);
    }
  }

  lemma RunNext(cfg: Config, src: string, i: nat, st: LexState, j: nat, st1: LexState)
    requires i < |src| && Step(cfg, src, i, st) == Next(j, st1)
    ensures Run(cfg, src, i, st) == Run(cfg, src, j, st1)
  {
  }

  lemma WovenCons(cfg: Config, ws: seq<string>, cs: seq<char>, line: nat, ret: seq<Token>, ret2: seq<Token>)
    requires |ws| == |cs| + 1 && cs != []
    requires ret2 == ret + [Token(ws[0], false, line)] + (if IsIgnore(cfg, cs[0]) then [] else [Token([cs[0]], false, line)])
    ensures ret2 + WovenTokens(cfg, ws[1..], cs[1..], line) == ret + WovenTokens(cfg, ws, cs, line)
  {
  }

  /** The tokens of a text of words and separators. */
  lemma WovenLex(lx: Lexer, ws: seq<string>, cs: seq<char>)
    requires |ws| == |cs| + 1 && Words(lx.cfg, ws) && Separators(lx.cfg, cs)
    ensures Lex(lx, Weave(ws, cs)) == LexOutput(lx, WovenTokens(lx.cfg, ws, cs, 1))
  {
    var src := Weave(ws, cs);
    assert src[0..] == src;
    WovenRun(lx.cfg, src, 0, ws, cs, Start);
  }

  // ---------------------------------------------------------------------
  // One capsule
  // ---------------------------------------------------------------------

  /** A character that only extends the token inside a capsule: it neither
      opens nor closes one, starts no comment and breaks no line. */
  predicate Inner(cfg: Config, c: char) {
    !IsCapsuleOpen(cfg, c) && !IsCapsuleClose(cfg, c) && !IsLineskip(cfg, c) && !IsNewline(cfg, c)
  }

  predicate InCapsule(st: LexState) { st.quote.None? && !st.skipping && st.opens != [] && st.tok.src != "" }

  lemma InnerStep(cfg: Config, src: string, i: nat, st: LexState)
    requires i < |src| && Inner(cfg, src[i]) && InCapsule(st)
    ensures Step(cfg, src, i, st) == Next(i + 1, st.(tok := Append(st.tok, src[i])))
  {
  }

  /** Inside a capsule, such characters are taken literally, quotes,
      blanks and backslashes included. */
  lemma {:induction false} InnerRun(cfg: Config, src: string, i: nat, j: nat, st: LexState)
    requires i <= j <= |src| && InCapsule(st)
    requires forall k :: i <= k < j ==> Inner(cfg, src[k])
    ensures Run(cfg, src, i, st) == Run(cfg, src, j, st.(tok := st.tok.(src := st.tok.src + src[i..j])))
    decreases j - i
  {
    if i == j {
      assert st.tok.src + src[i..j] == st.tok.src;
    } else {
      InnerStep(cfg, src, i, st);
      var st1 := st.(tok := Append(st.tok, src[i]));
      RunNext(cfg, src, i, st, i + 1, st1);
      InnerRun(cfg, src, i + 1, j, st1);
      assert st1.tok.src + src[i + 1..j] == st.tok.src + src[i..j];
    }
  }

  /** A text that is one capsule lexes into one token holding all of it,
      when empty tokens are erased. */
  lemma CapsuleLex(lx: Lexer, o: char, inner: string, c: char)
    requires lx.cfg.eraseEmpty && MatchClosure(lx.cfg, o, c) && !IsCapsuleOpen(lx.cfg, c)
    requires !IsIgnore(lx.cfg, o) && !IsNewline(lx.cfg, o) && !IsNewline(lx.cfg, c)
    requires forall k :: 0 <= k < |inner| ==> Inner(lx.cfg, inner[k])
    ensures Lex(lx, [o] + inner + [c]) == LexOutput(lx, [Token([o] + inner + [c], false, 1)])
  {
    var cfg, src := lx.cfg, [o] + inner + [c];
    var k :| 0 <= k < |cfg.capsules| && cfg.capsules[k] == (o, c);
    assert cfg.capsules[k].0 == o && cfg.capsules[k].1 == c;
    var st1 := Start.(opens := [o], tok := Token([o], false, 1));
    assert Step(cfg, src, 0, Start) == Next(1, st1);
    RunNext(cfg, src, 0, Start, 1, st1);
    var n := |inner| + 1;
    assert forall j :: 1 <= j < n ==> src[j] == inner[j - 1];
    InnerRun(cfg, src, 1, n, st1);
    var st2 := st1.(tok := Token([o] + inner, false, 1));
    assert src[1..n] == inner;
    assert src[n] == c && Last(st2.opens) == o && st2.tok == Token([o] + inner, false, 1);
    assert Append(st2.tok, c) == Token([o] + inner + [c], false, 1);
    var st3 := st2.(opens := [], ret := [Token([o] + inner + [c], false, 1)], tok := Token("", false, 1));
    assert Step(cfg, src, n, st2) == Next(n + 1, st3);
    RunNext(cfg, src, n, st2, n + 1, st3);
  }

  /** Tokens that share a line extend the group being filled. */
  lemma {:induction false} SameLineGroups(toks: seq<Token>, line: nat, acc: seq<seq<Token>>, g: seq<Token>)
    requires g != [] && forall h :: h in acc ==> |h| > 0
    requires forall k :: 0 <= k < |toks| ==> toks[k].line == line
    ensures GroupByLine(toks, line, acc + [g]) == acc + [g + toks]
    decreases |toks|
  {
    if toks == [] {
      assert g + toks == g;
    } else {
      assert DropLast(acc + [g]) == acc && Last(acc + [g]) == g;
      SameLineGroups(toks[1..], line, acc, g + [toks[0]]);
      assert g + [toks[0]] + toks[1..] == g + toks;
    }
  }

  /** Tokens of one line form one group. */
  lemma OneLine(toks: seq<Token>)
    requires toks != [] && forall k :: 0 <= k < |toks| ==> toks[k].line == toks[0].line
    ensures Lines(toks) == [toks]
  {
    assert GroupByLine(toks, -1, []) == GroupByLine(toks[1..], toks[0].line, [] + [[toks[0]]]);
    SameLineGroups(toks[1..], toks[0].line, [], [toks[0]]);
    assert [toks[0]] + toks[1..] == toks;
  }
}

=== FILE: numerals.dfy ===
/** Numbers as the script engine reads and writes them. A number is an
    exact rational here; reading follows the C library's `strtold` rules
    for decimal and hexadecimal numerals, and writing follows the `%Lf`
    conversion of `std::to_string` (six decimals). */
module Numerals {
  import opened Common

  /** What `std::stold` makes of a text: nothing, a finite number together
      with how many characters it consumed, or an infinity/NaN (which the
      model does not represent) with its length. */
  datatype NumRead = NoNumber | Finite(value: real, len: nat) | NonFinite(len: nat)

  function Pow10(k: nat): (r: real)
    ensures r >= 1.0
  {
    if k == 0 then 1.0 else 10.0 * Pow10(k - 1)
  }

  predicate IsHexDigit(c: char) { IsDigit(c) || 'a' <= c <= 'f' || 'A' <= c <= 'F' }

  function HexValue(c: char): nat
    requires IsHexDigit(c)
  {
    if IsDigit(c) then DigitValue(c)
    else if 'a' <= c <= 'f' then (c as int - 'a' as int + 10) as nat
    else (c as int - 'A' as int + 10) as nat
  }

  /** Index of the first character at or after `i` that fails `p`. */
  function Span(s: string, i: nat, p: char -> bool): (j: nat)
    requires i <= |s|
    ensures i <= j <= |s|
    ensures forall k :: i <= k < j ==> p(s[k])
    ensures j < |s| ==> !p(s[j])
    decreases |s| - i
  {
    if i == |s| || !p(s[i]) then i else Span(s, i + 1, p)
  }

  /** Index of the first non-blank character at or after `i`. */
  function SpanSpaces(s: string, i: nat): (j: nat)
    requires i <= |s|
    ensures i <= j <= |s|
    ensures j < |s| ==> !IsSpace(s[j])
    decreases |s| - i
  {
    if i == |s| || !IsSpace(s[i]) then i else SpanSpaces(s, i + 1)
  }

  /** Index of the first non-digit at or after `i`. */
  function SpanDigits(s: string, i: nat): (j: nat)
    requires i <= |s|
    ensures i <= j <= |s|
    ensures forall k :: i <= k < j ==> IsDigit(s[k])
    ensures j < |s| ==> !IsDigit(s[j])
    decreases |s| - i
  {
    if i == |s| || !IsDigit(s[i]) then i else SpanDigits(s, i + 1)
  }

  /** Value of a string of decimal digits. */
  function DecimalValue(s: string): nat
    requires forall k :: 0 <= k < |s| ==> IsDigit(s[k])
    decreases |s|
  {
    if s == [] then 0 else 10 * DecimalValue(DropLast(s)) + DigitValue(Last(s))
  }

  /** Value of a string of hexadecimal digits. */
  function HexDigitsValue(s: string): nat
    requires forall k :: 0 <= k < |s| ==> IsHexDigit(s[k])
    decreases |s|
  {
    if s == [] then 0 else 16 * HexDigitsValue(DropLast(s)) + HexValue(Last(s))
  }

  function Lower(c: char): char {
    if IsUpper(c) then (c as int + 32) as char else c
  }

  /** `s` continues at `i` with `w` (lower case), ignoring case. */
  predicate HasWordAt(s: string, i: nat, w: string) {
    i + |w| <= |s| && forall k :: 0 <= k < |w| ==> Lower(s[i + k]) == w[k]
  }

  /** Length of "inf"/"infinity" or "nan"/"nan(...)" at `i`, 0 if neither. */
  function NonFiniteLength(s: string, i: nat): nat
    requires i <= |s|
  {
    if HasWordAt(s, i, "infinity") then 8
    else if HasWordAt(s, i, "inf") then 3
    else if HasWordAt(s, i, "nan") then
      var j := Span(s, i + 3 + (if i + 3 < |s| && s[i + 3] == '(' then 1 else 0), (c: char) => IsAlnum(c) || c == '_');
      if i + 3 < |s| && s[i + 3] == '(' && j < |s| && s[j] == ')' then j + 1 - i else 3
    else 0
  }

  /** A decimal exponent `e[+-]digits` at `i`: its value and where it ends;
      without at least one digit nothing is consumed. */
  function Exponent(s: string, i: nat, marks: set<char>): (int, nat)
    requires i <= |s|
    ensures i <= Exponent(s, i, marks).1 <= |s|
  {
    if i < |s| && s[i] in marks then
      var j := if i + 1 < |s| && (s[i + 1] == '+' || s[i + 1] == '-') then i + 2 else i + 1;
      var e := Span(s, j, IsDigit);
      if e > j then
        var v: int := DecimalValue(s[j..e]);
        (if s[i + 1] == '-' then -v else v, e)
      else (0, i)
    else (0, i)
  }

  function Scale(m: real, base: real, e: int): real
    requires base > 0.0
  {
    if e >= 0 then m * PowOf(base, e) else m / PowOf(base, -e)
  }

  function PowOf(base: real, k: nat): (r: real)
    requires base > 0.0
    ensures r > 0.0
  {
    if k == 0 then 1.0 else base * PowOf(base, k - 1)
  }

  /** The magnitude part after an optional sign, starting at `j`. */
  function ReadUnsigned(s: string, j: nat): NumRead
    requires j <= |s|
  {
    var nf := NonFiniteLength(s, j);
    if nf > 0 then NonFinite(j + nf)
    else if j + 2 < |s| && s[j] == '0' && (s[j + 1] == 'x' || s[j + 1] == 'X')
         && (IsHexDigit(s[j + 2]) || (s[j + 2] == '.' && j + 3 < |s| && IsHexDigit(s[j + 3]))) then
      var k := Span(s, j + 2, IsHexDigit);
      var k2 := if k < |s| && s[k] == '.' then Span(s, k + 1, IsHexDigit) else k;
      var frac := if k2 > k then s[k + 1..k2] else "";
      var mant := HexDigitsValue(s[j + 2..k]) as real + HexDigitsValue(frac) as real / PowOf(16.0, |frac|);
      var (e, end) := Exponent(s, k2, {'p', 'P'});
      Finite(Scale(mant, 2.0, e), end)
    else
      var k := Span(s, j, IsDigit);
      var k2 := if k < |s| && s[k] == '.' then Span(s, k + 1, IsDigit) else k;
      var frac := if k2 > k then s[k + 1..k2] else "";
      if k == j && frac == "" then NoNumber
      else
        var mant := DecimalValue(s[j..k]) as real + DecimalValue(frac) as real / Pow10(|frac|);
        var (e, end) := Exponent(s, k2, {'e', 'E'});
        Finite(Scale(mant, 10.0, e), end)
  }

  /** `std::stold`: leading white space is skipped, a sign is optional, and
      the longest numeral prefix is read. */
  function ReadNumber(s: string): (r: NumRead)
    ensures r.Finite? ==> 0 < r.len <= |s|
  {
    var i := Span(s, 0, IsSpace);
    var neg := i < |s| && s[i] == '-';
    var j := if i < |s| && (s[i] == '+' || s[i] == '-') then i + 1 else i;
    match ReadUnsigned(s, j)
    case Finite(v, end) => if end > j then Finite(if neg then -v else v, end) else NoNumber
    case other => other
  }

  /** Six-digit decimal text of a fraction in [0, 1000000). */
  function SixDigits(n: nat): (s: string)
    requires n < 1000000
    ensures |s| == 6
  {
    var d := NatToString(n);
    DigitsBound(n, 6);
    seq(6 - |d|, _ => '0') + d
  }

  function IntPow10(k: nat): nat
  {
    if k == 0 then 1 else 10 * IntPow10(k - 1)
  }

  lemma {:induction false} DigitsBound(n: nat, k: nat)
    requires n < IntPow10(k)
    ensures |NatToString(n)| <= k || (n == 0 && k == 0)
    decreases k
  {
    if k > 0 && n >= 10 {
      DigitsBound(n / 10, k - 1);
    }
  }

  /** `std::to_string` of a number: `%Lf`, six decimals, rounding half away
      from zero. */
  function Render(r: real): string {
    var m := if r < 0.0 then -r else r;
    var scaled := (m * 1000000.0 + 0.5).Floor;
    var whole := scaled / 1000000;
    var frac := scaled % 1000000;
    (if r < 0.0 then "-" else "") + NatToString(whole) + "." + SixDigits(frac)
  }

  /** `s` without the trailing run of `c` (erasing from `find_last_not_of(c) + 1`;
      when every character is `c` nothing remains). */
  function DropTrailing(s: string, c: char): (r: string)
    ensures |r| <= |s| && r == s[..|r|]
    ensures r == [] || Last(r) != c
    ensures forall k :: |r| <= k < |s| ==> s[k] == c
    decreases |s|
  {
    if s != [] && Last(s) == c then DropTrailing(DropLast(s), c) else s
  }

  /** The printable form of a number: its `std::to_string` text with the
      trailing zeros and then the trailing dots removed. */
  function NumberText(r: real): string {
    DropTrailing(DropTrailing(Render(r), '0'), '.')
  }

  lemma {:induction false} DropTrailingRun(a: string, b: string, c: char)
    requires a == [] || Last(a) != c
    requires forall k :: 0 <= k < |b| ==> b[k] == c
    ensures DropTrailing(a + b, c) == a
    decreases |b|
  {
    if b == [] {
      assert a + b == a;
    } else {
      assert DropLast(a + b) == a + DropLast(b);
      DropTrailingRun(a, DropLast(b), c);
    }
  }

  lemma ScaledWhole(a: nat)
    ensures ((a as real) * 1000000.0 + 0.5).Floor == a * 1000000
    ensures (a * 1000000) / 1000000 == a && (a * 1000000) % 1000000 == 0
  {
    var x := (a as real) * 1000000.0 + 0.5;
    assert (a * 1000000) as real == (a as real) * 1000000.0;
    assert (a * 1000000) as real <= x < (a * 1000000) as real + 1.0;
  }

  lemma RenderWhole(i: int)
    ensures Render(i as real) == (if i < 0 then "-" else "") + NatToString(if i < 0 then -i else i) + "." + SixDigits(0)
  {
    var a: nat := if i < 0 then -i else i;
    var m := if (i as real) < 0.0 then -(i as real) else i as real;
    assert m == a as real;
    ScaledWhole(a);
  }

  /** A whole number prints as its integer text: no decimal point and no
      fractional zeros (`std::to_string(14.0)` is "14.000000", printed "14"). */
  lemma WholeNumberText(i: int)
    ensures NumberText(i as real) == IntToString(i)
  {
    var sign := if i < 0 then "-" else "";
    var digits := NatToString(if i < 0 then -i else i);
    var zeros := SixDigits(0);
    RenderWhole(i);
    assert forall k :: 0 <= k < |zeros| ==> zeros[k] == '0';
    DropTrailingRun(sign + digits + ".", zeros, '0');
    DropTrailingRun(sign + digits, ".", '.');
  }

  // ---------------------------------------------------------------------
  // `std::stoi`
  // ---------------------------------------------------------------------

  const IntMin: int := -0x8000_0000
  const IntMax: int := 0x7FFF_FFFF

  /** `std::stoi`: white space is skipped, a sign is optional, and the
      longest run of decimal digits is read; `None` stands for the
      exceptions it throws when there are no digits or the value does not
      fit a 32-bit `int`. */
  function Stoi(s: string): (r: Option<int>)
    ensures r.Some? ==> IntMin <= r.value <= IntMax
  {
    var i := SpanSpaces(s, 0);
    var neg := i < |s| && s[i] == '-';
    var j := if i < |s| && (s[i] == '+' || s[i] == '-') then i + 1 else i;
    var k := SpanDigits(s, j);
    if k == j then None
    else
      var v := if neg then -(DecimalValue(s[j..k]) as int) else DecimalValue(s[j..k]) as int;
      if IntMin <= v <= IntMax then Some(v) else None
  }

  lemma DigitRoundTrip(d: nat)
    requires d < 10
    ensures IsDigit(DigitChar(d)) && DigitValue(DigitChar(d)) == d
  {
  }

  /** Reading back the decimal text of a natural number gives the number. */
  lemma {:induction false} DecimalValueOfText(n: nat)
    ensures DecimalValue(NatToString(n)) == n
    decreases n
  {
    DigitRoundTrip(n % 10);
    if n >= 10 {
      DecimalValueOfText(n / 10);
      var s := NatToString(n);
      assert DropLast(s) == NatToString(n / 10);
    }
  }

  /** `std::stoi` reads back what `std::to_string` writes for every `int`. */
  lemma StoiOfText(x: int)
    requires IntMin <= x <= IntMax
    ensures Stoi(IntToString(x)) == Some(x)
  {
    if x < 0 {
      StoiOfNegative(-x);
    } else {
      StoiOfNat(x);
    }
  }

  lemma StoiOfNat(a: nat)
    requires a <= IntMax
    ensures Stoi(NatToString(a)) == Some(a)
  {
    var d := NatToString(a);
    DecimalValueOfText(a);
    assert SpanSpaces(d, 0) == 0;
    DigitsToEnd(d, 0);
    assert d[0..|d|] == d;
  }

  lemma StoiOfNegative(a: nat)
    requires 0 < a <= -IntMin
    ensures Stoi("-" + NatToString(a)) == Some(-(a as int))
  {
    var d := NatToString(a);
    var s := "-" + d;
    DecimalValueOfText(a);
    assert s[0] == '-' && !IsSpace(s[0]);
    assert SpanSpaces(s, 0) == 0;
    assert s[1..] == d;
    assert forall k :: 1 <= k < |s| ==> IsDigit(s[k]) by {
      forall k | 1 <= k < |s| ensures IsDigit(s[k]) { assert s[k] == d[k - 1]; }
    }
    DigitsToEnd(s, 1);
    assert s[1..|s|] == d;
    assert DecimalValue(s[1..|s|]) == a;
  }

  lemma {:induction false} DigitsToEnd(s: string, i: nat)
    requires i <= |s|
    requires forall k :: i <= k < |s| ==> IsDigit(s[k])
    ensures SpanDigits(s, i) == |s|
    decreases |s| - i
  {
    if i < |s| {
      DigitsToEnd(s, i + 1);
    }
  }
}

=== FILE: options.dfy ===
/** String helpers of the application: the user-option table, repository
    names of the form `user/repo`, and the last component of a path. The
    directory separator is the POSIX '/'. */
module Options {
  import opened Common

  // ---------------------------------------------------------------------
  // Option and redirect tables
  // ---------------------------------------------------------------------

  /** The option table, and the table of repositories redirected to a
      local path. */
  type Table = map<string, string>

  /** `option_or`: the option's value when it is set, else the fallback. */
  function OptionOr(options: Table, key: string, fallback: string): (r: string)
    ensures key in options ==> r == options[key]
    ensures key !in options ==> r == fallback
  {
    if key in options then options[key] else fallback
  }

  /** `is_redirected`. */
  predicate IsRedirected(redirects: Table, name: string) {
    name in redirects
  }

  /** `make_redirect`: an existing redirect is replaced only when the user
      confirms; the answer is a parameter here. */
  function MakeRedirect(redirects: Table, name: string, path: string, confirmed: bool): (r: Table)
    ensures IsRedirected(redirects, name) && !confirmed ==> r == redirects
    ensures !IsRedirected(redirects, name) || confirmed ==> r == redirects[name := path]
  {
    if IsRedirected(redirects, name) && !confirmed then redirects else redirects[name := path]
  }

  /** After a redirect is made the name is redirected, to the path unless
      the user declined to replace an older one, and no other name moves. */
  lemma MakeRedirectMeans(redirects: Table, name: string, path: string, confirmed: bool, other: string)
    requires other != name
    ensures var r := MakeRedirect(redirects, name, path, confirmed);
            IsRedirected(r, name)
            && (r[name] == path || r[name] == redirects[name])
            && (IsRedirected(r, other) <==> IsRedirected(redirects, other))
            && OptionOr(r, other, "") == OptionOr(redirects, other, "")
  {
  }

  /** The default user name, `CATCARE_USER`. */
  function CatcareUser(options: Table): string {
    OptionOr(options, "username", "LabRiceCat")
  }

  // ---------------------------------------------------------------------
  // to_lowercase
  // ---------------------------------------------------------------------

  /** `tolower` in the C locale. */
  function Lower(c: char): (d: char)
    ensures !IsUpper(d)
    ensures IsUpper(c) ==> d as int == c as int + 32
    ensures !IsUpper(c) ==> d == c
  {
    if IsUpper(c) then (c as int + 32) as char else c
  }

  /** `to_lowercase`: the text with each capital letter lowered. */
  function ToLower(s: string): (r: string)
    ensures |r| == |s|
    ensures forall k :: 0 <= k < |s| ==> r[k] == Lower(s[k])
  {
    if s == [] then [] else ToLower(DropLast(s)) + [Lower(Last(s))]
  }

  /** Lowering leaves no capital letter, changes no other character, and
      lowering twice is lowering once. */
  lemma ToLowerMeans(s: string)
    ensures forall k :: 0 <= k < |s| ==> !IsUpper(ToLower(s)[k])
    ensures forall k :: 0 <= k < |s| && !IsUpper(s[k]) ==> ToLower(s)[k] == s[k]
    ensures ToLower(ToLower(s)) == ToLower(s)
  {
  }

  // ---------------------------------------------------------------------
  // get_username
  // ---------------------------------------------------------------------

  /** The text without its trailing '/' characters. */
  function StripSlashes(s: string): (r: string)
    ensures |r| <= |s| && r == s[..|r|]
    ensures r == [] || Last(r) != '/'
    ensures forall k :: |r| <= k < |s| ==> s[k] == '/'
  {
    if s != [] && Last(s) == '/' then StripSlashes(DropLast(s)) else s
  }

  /** Stripping removes exactly the trailing '/' characters. */
  lemma {:induction false} StripTrail(t: string, n: nat)
    requires t == [] || Last(t) != '/'
    ensures StripSlashes(t + seq(n, _ => '/')) == t
  {
    if n == 0 {
      assert t + seq(n, _ => '/') == t;
    } else {
      assert DropLast(t + seq(n, _ => '/')) == t + seq(n - 1, _ => '/');
      StripTrail(t, n - 1);
    }
  }

  /** `s` consists of '/' characters only. */
  predicate AllSlashes(s: string) {
    forall k :: 0 <= k < |s| ==> s[k] == '/'
  }

  /** Stripping removes everything exactly when everything is a '/'. */
  lemma StripSlashesEmpty(s: string)
    ensures StripSlashes(s) == [] <==> AllSlashes(s)
  {
  }

  /** The state of the scan in `get_username`: the user part, the name part
      and whether a '/' has been seen. */
  datatype UserScan = UserScan(user: string, name: string, seen: bool)

  /** One character of the scan: a '/' appends the name part so far and
      the '/' to the user part; other characters go to the name part after
      the first '/' and to the user part before it. */
  function ScanStep(st: UserScan, c: char): UserScan {
    if c == '/' then UserScan(st.user + st.name + "/", st.name, true)
    else if st.seen then st.(name := st.name + [c])
    else st.(user := st.user + [c])
  }

  function Scan(st: UserScan, s: string): UserScan
    decreases |s|
  {
    if s == [] then st else Scan(ScanStep(st, s[0]), s[1..])
  }

  /** `get_username`: the user part and the name part of a text. */
  function GetUsername(s: string): (r: (string, string))
  {
    var st := Scan(UserScan("", "", false), StripSlashes(s));
    (st.user, st.name)
  }

  lemma {:induction false} ScanAppend(st: UserScan, a: string, b: string)
    ensures Scan(st, a + b) == Scan(Scan(st, a), b)
    decreases |a|
  {
    if a == [] {
      assert a + b == b;
    } else {
      assert (a + b)[0] == a[0] && (a + b)[1..] == a[1..] + b;
      assert Scan(st, a + b) == Scan(ScanStep(st, a[0]), a[1..] + b);
      assert Scan(st, a) == Scan(ScanStep(st, a[0]), a[1..]);
      ScanAppend(ScanStep(st, a[0]), a[1..], b);
    }
  }

  /** Before any '/', the characters go to the user part. */
  lemma {:induction false} ScanPlainUser(st: UserScan, s: string)
    requires !st.seen && '/' !in s
    ensures Scan(st, s) == st.(user := st.user + s)
    decreases |s|
  {
    if s != [] {
      assert s == [s[0]] + s[1..];
      ScanPlainUser(ScanStep(st, s[0]), s[1..]);
    }
  }

  /** After a '/', the characters go to the name part. */
  lemma {:induction false} ScanPlainName(st: UserScan, s: string)
    requires st.seen && '/' !in s
    ensures Scan(st, s) == st.(name := st.name + s)
    decreases |s|
  {
    if s != [] {
      assert s == [s[0]] + s[1..];
      ScanPlainName(ScanStep(st, s[0]), s[1..]);
    }
  }

  /** A text without '/' (after trailing ones are stripped) is all user. */
  lemma GetUsernameNoSlash(s: string)
    requires '/' !in StripSlashes(s)
    ensures GetUsername(s) == (StripSlashes(s), "")
  {
    ScanPlainUser(UserScan("", "", false), StripSlashes(s));
    assert "" + StripSlashes(s) == StripSlashes(s);
  }

  /** `user/name` splits into `user/` and `name`, whatever trailing '/'
      characters follow. */
  lemma GetUsernameSplits(user: string, name: string, trail: nat)
    requires '/' !in user && '/' !in name && name != ""
    ensures GetUsername(user + "/" + name + seq(trail, _ => '/')) == (user + "/", name)
  {
    var s := user + "/" + name + seq(trail, _ => '/');
    var t := user + "/" + name;
    assert Last(t) == Last(name) && Last(name) in name;
    StripTrail(t, trail);
    var st0 := UserScan("", "", false);
    ScanAppend(st0, user, "/" + name);
    assert t == user + ("/" + name);
    ScanPlainUser(st0, user);
    assert "" + user == user && "" + name == name;
    var st1 := st0.(user := user);
    assert Scan(st0, user) == st1;
    ScanAppend(st1, "/", name);
    assert Scan(st1, "/") == UserScan(user + "/", "", true);
    ScanPlainName(UserScan(user + "/", "", true), name);
    assert Scan(st0, t) == UserScan(user + "/", name, true);
  }

  /** The name part collects every non-'/' character after the first '/',
      so a deeper path runs its later components together. */
  lemma GetUsernameDeeper()
    ensures GetUsername("a/b/c") == ("a/b/", "bc")
  {
    var st := UserScan("", "", false);
    assert StripSlashes("a/b/c") == "a/b/c";
    assert "a/b/c" == "a/b" + "/c";
    ScanAppend(st, "a/b", "/c");
    assert "a/b" == "a" + "/b";
    ScanAppend(st, "a", "/b");
    assert Scan(st, "a") == UserScan("a", "", false);
    assert "/b" == "/" + "b";
    ScanAppend(UserScan("a", "", false), "/", "b");
    assert Scan(UserScan("a", "", false), "/") == UserScan("a/", "", true);
    assert Scan(UserScan("a/", "", true), "b") == UserScan("a/", "b", true);
    assert "/c" == "/" + "c";
    ScanAppend(UserScan("a/", "b", true), "/", "c");
    assert Scan(UserScan("a/", "b", true), "/") == UserScan("a/b/", "b", true);
    assert Scan(UserScan("a/b/", "b", true), "c") == UserScan("a/b/", "bc", true);
  }

  /** The user part is empty exactly when the text is made of '/' only:
      every character the scan reads adds to it. */
  lemma {:induction false} ScanUserGrows(st: UserScan, s: string)
    requires st.seen ==> st.user != []
    ensures |Scan(st, s).user| >= |st.user|
    ensures s != [] ==> Scan(st, s).user != []
    decreases |s|
  {
    if s != [] {
      ScanUserGrows(ScanStep(st, s[0]), s[1..]);
    }
  }

  lemma UserEmpty(s: string)
    ensures GetUsername(s).0 == "" <==> AllSlashes(s)
  {
    StripSlashesEmpty(s);
    ScanUserGrows(UserScan("", "", false), StripSlashes(s));
    if StripSlashes(s) != [] {
      var t := StripSlashes(s);
      var st := ScanStep(UserScan("", "", false), t[0]);
      assert st.user != [];
      ScanUserGrows(st, t[1..]);
    }
  }

  // ---------------------------------------------------------------------
  // app_username
  // ---------------------------------------------------------------------

  /** `app_username` as written: the text is kept whenever the user part of
      `get_username` is non-empty, else the lowered default user and a '/'
      are put in front. */
  function AppUsernameAsWritten(options: Table, s: string): (r: string)
  {
    var (user, name) := GetUsername(s);
    if user != "" then s else ToLower(CatcareUser(options)) + "/" + s
  }

  /** As written, only a text made of '/' characters gets the default user;
      a bare repository name is returned unchanged. */
  lemma AppUsernameAsWrittenKeeps(options: Table, s: string)
    ensures AppUsernameAsWritten(options, s) == s <==> !AllSlashes(s)
    ensures AppUsernameAsWritten(options, "repo") == "repo"
  {
    UserEmpty(s);
    UserEmpty("repo");
    assert !AllSlashes("repo") by {
      assert "repo"[0] == 'r';
    }
  }

  /** `app_username` as evidently intended: a text that already names a
      repository under a user is kept, any other gets the default user. */
  function AppUsername(options: Table, s: string): (r: string)
  {
    var (user, name) := GetUsername(s);
    if name != "" then s else ToLower(CatcareUser(options)) + "/" + s
  }

  /** A bare name is put under the default user, lowered; `user/name` is
      kept. */
  lemma AppUsernameMeans(options: Table, user: string, name: string)
    requires '/' !in user && '/' !in name && name != ""
    ensures AppUsername(options, name) == ToLower(CatcareUser(options)) + "/" + name
    ensures AppUsername(options, user + "/" + name) == user + "/" + name
  {
    GetUsernameNoSlash(name);
    GetUsernameSplits(user, name, 0);
    assert user + "/" + name + seq(0, _ => '/') == user + "/" + name;
  }

  // ---------------------------------------------------------------------
  // last_name
  // ---------------------------------------------------------------------

  /** `last_name` needs a '/' before the final character; without one the
      index runs below 0. */
  predicate HasInnerSlash(s: string) {
    exists j :: 0 <= j < |s| - 1 && s[j] == '/'
  }

  /** The backward loop of `last_name` as written: the stray `;` after the
      `else if` leaves the insertion unconditional, so every character read
      is kept until a '/' is met with something already collected. */
  function LastNameAsWrittenFrom(s: string, i: nat, ret: string): (r: string)
    requires i < |s| && ret == s[i + 1..]
    requires exists j :: 0 <= j <= i && j < |s| - 1 && s[j] == '/'
    ensures exists j :: 0 <= j <= i && j < |s| - 1 && s[j] == '/' && r == s[j + 1..]
                        && forall m :: j < m <= i && m < |s| - 1 ==> s[m] != '/'
    decreases i
  {
    if s[i] == '/' && ret != "" then ret
    else
      var j :| 0 <= j <= i && j < |s| - 1 && s[j] == '/';
      assert j < i;
      LastNameAsWrittenFrom(s, i - 1, [s[i]] + ret)
  }

  /** `last_name` as written: the text after the last '/' before the final
      character, so a trailing '/' is kept. */
  function LastNameAsWritten(s: string): (r: string)
    requires HasInnerSlash(s)
    ensures exists j :: 0 <= j < |s| - 1 && s[j] == '/' && r == s[j + 1..]
                        && forall m :: j < m < |s| - 1 ==> s[m] != '/'
  {
    LastNameAsWrittenFrom(s, |s| - 1, "")
  }

  /** `last_name` as evidently intended: trailing '/' characters are
      skipped before the last component is collected. */
  function LastName(s: string): (r: string)
    requires HasInnerSlash(StripSlashes(s))
    ensures r != "" && '/' !in r
    ensures exists j :: 0 <= j < |StripSlashes(s)| - 1 && StripSlashes(s)[j] == '/' && r == StripSlashes(s)[j + 1..]
  {
    var t := StripSlashes(s);
    var r := LastNameAsWritten(t);
    ComponentHasNoSlash(t, r);
    r
  }

  lemma ComponentHasNoSlash(t: string, r: string)
    requires t != [] && Last(t) != '/'
    requires exists j :: 0 <= j < |t| - 1 && t[j] == '/' && r == t[j + 1..]
                         && forall m :: j < m < |t| - 1 ==> t[m] != '/'
    ensures r != "" && '/' !in r
  {
    var j :| 0 <= j < |t| - 1 && t[j] == '/' && r == t[j + 1..] && forall m :: j < m < |t| - 1 ==> t[m] != '/';
    assert forall k :: 0 <= k < |r| ==> r[k] == t[j + 1 + k];
  }

  /** A trailing '/' changes nothing, as intended. */
  lemma LastNameTrailing(s: string)
    requires HasInnerSlash(StripSlashes(s))
    ensures StripSlashes(s + "/") == StripSlashes(s)
    ensures LastName(s + "/") == LastName(s)
  {
    assert DropLast(s + "/") == s;
  }

  /** The stray `;` keeps a trailing '/' in the name: `a/b/` gives `b/`
      where `b` is meant. */
  lemma LastNameKeepsSlash()
    ensures HasInnerSlash("a/b/") && LastNameAsWritten("a/b/") == "b/"
    ensures HasInnerSlash(StripSlashes("a/b/")) && LastName("a/b/") == "b"
  {
    var s := "a/b/";
    assert s[1] == '/' && s[2] == 'b' && s[3] == '/';
    assert s[2..] == "b/" && s[3..] == "/" && s[4..] == "";
    assert LastNameAsWrittenFrom(s, 1, "b/") == "b/";
    assert LastNameAsWrittenFrom(s, 2, "/") == LastNameAsWrittenFrom(s, 1, "b/");
    assert LastNameAsWrittenFrom(s, 3, "") == LastNameAsWrittenFrom(s, 2, "/");
    var t := "a/b";
    assert StripSlashes(s) == t by {
      assert DropLast(s) == t;
    }
    assert t[1] == '/' && t[2] == 'b' && t[2..] == "b" && t[3..] == "";
    assert LastNameAsWrittenFrom(t, 1, "b") == "b";
    assert LastNameAsWrittenFrom(t, 2, "") == LastNameAsWrittenFrom(t, 1, "b");
  }
}

=== FILE: page_find.dfy ===
/** Finding the download links for a message: the message is cut into
    words at split signs, and every rule whose signs the message follows
    and whose placeholders all get a value yields its link with the
    placeholders filled in. A message that already is a link is taken as
    it is. */
module PageFind {
  import opened Common
  import K = KittenLexer
  import opened KittenLexerProps
  import opened PageLinks
  import opened PageList

  // ---------------------------------------------------------------------
  // Cutting a message into words
  // ---------------------------------------------------------------------

  /** `find_url`'s lexer: split signs are tokens of their own, empty
      tokens are dropped and backslashes kept; blanks belong to words. */
  const SignConfig: K.Config := K.Config({}, [], {}, {}, {}, {}, map[], true, true, [], [], [IsSplitSign], [], [])

  lemma SignLexerBuilt()
    ensures K.IgnoreBackslashOpts(K.EraseEmpty(K.AddConExtract(K.NewLexer, IsSplitSign))) == K.Lexer(SignConfig, false)
  {
  }

  /** The texts of a message's tokens. */
  function MessageWords(source: string): (ws: seq<string>)
    ensures |ws| == |K.Lex(K.Lexer(SignConfig, false), source).tokens|
  {
    TokenTexts(K.Lex(K.Lexer(SignConfig, false), source).tokens)
  }

  /** Words and the signs between them, alternating: word, sign, word… */
  function Alternate(ws: seq<string>, cs: seq<char>): (r: seq<string>)
    requires |ws| == |cs| + 1
    ensures |r| == 2 * |cs| + 1
    ensures forall j :: 0 <= j < |r| && j % 2 == 0 ==> r[j] == ws[j / 2]
    ensures forall j :: 0 <= j < |r| && j % 2 == 1 ==> r[j] == [cs[j / 2]]
    decreases |cs|
  {
    if cs == [] then [ws[0]]
    else
      var rest := Alternate(ws[1..], cs[1..]);
      assert forall j :: 2 <= j < 2 * |cs| + 1 ==> ([ws[0], [cs[0]]] + rest)[j] == rest[j - 2];
      [ws[0], [cs[0]]] + rest
  }

  /** A character of a word: neither a split sign nor a backslash. */
  predicate WordChar(c: char) { !IsSplitSign(c) && c != '\\' }

  lemma SignRoles(c: char)
    ensures Plain(SignConfig, c) <==> WordChar(c)
    ensures IsSplitSign(c) ==> Separator(SignConfig, c) && !K.IsIgnore(SignConfig, c)
  {
    var fs := SignConfig.conExtracts;
    assert |fs| == 1 && fs[0] == IsSplitSign;
    if IsSplitSign(c) {
      assert fs[0](c);
    }
    assert K.MatchAny(fs, c) <==> IsSplitSign(c);
  }

  lemma {:induction false} WovenSigns(ws: seq<string>, cs: seq<char>, line: nat)
    requires |ws| == |cs| + 1
    requires forall k :: 0 <= k < |cs| ==> IsSplitSign(cs[k])
    ensures TokenTexts(WovenTokens(SignConfig, ws, cs, line)) == Alternate(ws, cs)
    decreases |cs|
  {
    if cs != [] {
      SignRoles(cs[0]);
      WovenSigns(ws[1..], cs[1..], line);
      var t := WovenTokens(SignConfig, ws[1..], cs[1..], line);
      var head := [K.Token(ws[0], false, line), K.Token([cs[0]], false, line)];
      assert WovenTokens(SignConfig, ws, cs, line) == head + t;
      TokenTextsAppend(head, t);
      assert TokenTexts(head) == [ws[0], [cs[0]]];
    }
  }

  lemma TokenTextsAppend(a: seq<K.Token>, b: seq<K.Token>)
    ensures TokenTexts(a + b) == TokenTexts(a) + TokenTexts(b)
  {
  }

  /** A message of words separated by single split signs is cut into
      exactly those words and signs. */
  lemma WovenMessage(ws: seq<string>, cs: seq<char>)
    requires |ws| == |cs| + 1
    requires forall k :: 0 <= k < |ws| ==> ws[k] != [] && forall j :: 0 <= j < |ws[k]| ==> WordChar(ws[k][j])
    requires forall k :: 0 <= k < |cs| ==> IsSplitSign(cs[k])
    ensures MessageWords(Weave(ws, cs)) == Alternate(ws, cs)
  {
    forall c ensures Plain(SignConfig, c) <==> WordChar(c) {
      SignRoles(c);
    }
    forall c | IsSplitSign(c) ensures Separator(SignConfig, c) {
      SignRoles(c);
    }
    WovenLex(K.Lexer(SignConfig, false), ws, cs);
    WovenSigns(ws, cs, 1);
  }

  // ---------------------------------------------------------------------
  // Matching a rule
  // ---------------------------------------------------------------------

  /** `args[j].src[0]`: the first character, or the terminating NUL of an
      empty string. */
  function FirstChar(w: string): char { if w == [] then '\0' else w[0] }

  /** What a match yields: the rule, its signs consumed, and the link. */
  datatype Package = Package(rule: Rule, link: string)

  /** The placeholder the word at even index `k` fills: the one placed at
      position `k / 2`, or the empty name when none is. */
  function Slot(rv: map<int, string>, k: nat): string { if k / 2 in rv then rv[k / 2] else "" }

  /** The state of the scan over a message. */
  datatype Scan = Scan(symbols: seq<char>, rvpositions: map<int, string>, values: map<string, string>)

  /** Every placeholder starts empty unless it has a default. */
  function Prefill(rule: Rule): (m: map<string, string>)
    ensures m.Keys == (set p | p in rule.link.placeholders) + rule.defaults.Keys
    ensures forall n :: n in rule.defaults ==> m[n] == rule.defaults[n]
    ensures forall n :: n in m && n !in rule.defaults ==> m[n] == ""
  {
    (map p | p in rule.link.placeholders :: "") + rule.defaults
  }

  /** The scan from word `j` on: a word at an odd index must start with the
      next sign, which it consumes; a word at an even index becomes the
      value of its slot, and looking the slot up files the empty name
      under a position nobody placed. */
  function ScanFrom(words: seq<string>, j: nat, sc: Scan): (r: Option<Scan>)
    requires j <= |words|
    decreases |words| - j
  {
    if j == |words| then Some(sc)
    else if j % 2 == 1 then
      if sc.symbols == [] || sc.symbols[0] != FirstChar(words[j]) then None
      else ScanFrom(words, j + 1, sc.(symbols := sc.symbols[1..]))
    else
      var name := Slot(sc.rvpositions, j);
      ScanFrom(words, j + 1, sc.(rvpositions := sc.rvpositions[j / 2 := name], values := sc.values[name := words[j]]))
  }

  /** The words at odd indexes from `j` on start with the signs, in order. */
  predicate SignsAgree(words: seq<string>, j: nat, symbols: seq<char>) {
    forall k :: j <= k < |words| && k % 2 == 1 ==> k / 2 - j / 2 < |symbols| && symbols[k / 2 - j / 2] == FirstChar(words[k])
  }

  /** The scan succeeds exactly when the message follows the signs. */
  lemma {:induction false} ScanSucceeds(words: seq<string>, j: nat, sc: Scan)
    requires j <= |words|
    ensures ScanFrom(words, j, sc).Some? <==> SignsAgree(words, j, sc.symbols)
    decreases |words| - j
  {
    if j < |words| {
      if j % 2 == 1 {
        if sc.symbols != [] && sc.symbols[0] == FirstChar(words[j]) {
          var rest := sc.symbols[1..];
          ScanSucceeds(words, j + 1, sc.(symbols := rest));
          forall k | j < k < |words| && k % 2 == 1
            ensures k / 2 - (j + 1) / 2 == k / 2 - j / 2 - 1
          {
          }
        }
      } else {
        var name := Slot(sc.rvpositions, j);
        ScanSucceeds(words, j + 1, sc.(rvpositions := sc.rvpositions[j / 2 := name], values := sc.values[name := words[j]]));
        assert (j + 1) / 2 == j / 2;
      }
    }
  }

  /** A successful scan consumes one sign per word at an odd index. */
  lemma {:induction false} ScanConsumes(words: seq<string>, j: nat, sc: Scan)
    requires j <= |words|
    ensures ScanFrom(words, j, sc).Some? ==>
      |words| / 2 - j / 2 <= |sc.symbols| && ScanFrom(words, j, sc).value.symbols == sc.symbols[|words| / 2 - j / 2..]
    decreases |words| - j
  {
    if j < |words| {
      if j % 2 == 1 {
        if sc.symbols != [] && sc.symbols[0] == FirstChar(words[j]) {
          ScanConsumes(words, j + 1, sc.(symbols := sc.symbols[1..]));
        }
      } else {
        var name := Slot(sc.rvpositions, j);
        ScanConsumes(words, j + 1, sc.(rvpositions := sc.rvpositions[j / 2 := name], values := sc.values[name := words[j]]));
      }
    }
  }

  /** Looking up a slot never changes what any slot names. */
  lemma SlotKept(rv: map<int, string>, j: nat, k: nat)
    ensures Slot(rv[j / 2 := Slot(rv, j)], k) == Slot(rv, k)
  {
  }

  /** The scan keeps every placed position and files the empty name under
      each position a word at an even index reached without a placement. */
  lemma {:induction false} ScanPositions(words: seq<string>, j: nat, sc: Scan)
    requires j <= |words|
    ensures ScanFrom(words, j, sc).Some? ==>
      forall p :: (p in ScanFrom(words, j, sc).value.rvpositions <==> p in sc.rvpositions || (0 <= p && j <= 2 * p < |words|))
          && (p in ScanFrom(words, j, sc).value.rvpositions ==>
                ScanFrom(words, j, sc).value.rvpositions[p] == if p in sc.rvpositions then sc.rvpositions[p] else "")
    decreases |words| - j
  {
    if j < |words| {
      if j % 2 == 1 {
        if sc.symbols != [] && sc.symbols[0] == FirstChar(words[j]) {
          ScanPositions(words, j + 1, sc.(symbols := sc.symbols[1..]));
        }
      } else {
        var name := Slot(sc.rvpositions, j);
        ScanPositions(words, j + 1, sc.(rvpositions := sc.rvpositions[j / 2 := name], values := sc.values[name := words[j]]));
      }
    }
  }

  // ---------------------------------------------------------------------
  // The values the placeholders get
  // ---------------------------------------------------------------------

  /** The last even index in `lo..hi` whose slot is `n`, if any. */
  function LastFill(rv: map<int, string>, lo: nat, hi: nat, n: string): (r: Option<nat>)
    requires lo <= hi
    ensures r.Some? ==> lo <= r.value < hi && r.value % 2 == 0 && Slot(rv, r.value) == n
    ensures r.Some? ==> forall k :: r.value < k < hi && k % 2 == 0 ==> Slot(rv, k) != n
    ensures r.None? ==> forall k :: lo <= k < hi && k % 2 == 0 ==> Slot(rv, k) != n
    decreases hi - lo
  {
    if hi == lo then None
    else if (hi - 1) % 2 == 0 && Slot(rv, hi - 1) == n then Some(hi - 1)
    else LastFill(rv, lo, hi - 1, n)
  }

  /** Scanning upward agrees with searching downward: without a later
      fill, the fill at `lo` is the last one. */
  lemma {:induction false} LastFillFrom(rv: map<int, string>, lo: nat, hi: nat, n: string)
    requires lo < hi
    ensures LastFill(rv, lo, hi, n) ==
      if LastFill(rv, lo + 1, hi, n).Some? then LastFill(rv, lo + 1, hi, n)
      else if lo % 2 == 0 && Slot(rv, lo) == n then Some(lo)
      else None
    decreases hi - lo
  {
    if hi - 1 > lo && !((hi - 1) % 2 == 0 && Slot(rv, hi - 1) == n) {
      LastFillFrom(rv, lo, hi - 1, n);
    }
  }

  /** The search only depends on what the slots name. */
  lemma {:induction false} LastFillSlots(rv: map<int, string>, rv2: map<int, string>, lo: nat, hi: nat, n: string)
    requires lo <= hi
    requires forall k: nat :: Slot(rv2, k) == Slot(rv, k)
    ensures LastFill(rv2, lo, hi, n) == LastFill(rv, lo, hi, n)
    decreases hi - lo
  {
    if hi > lo {
      LastFillSlots(rv, rv2, lo, hi - 1, n);
    }
  }

  /** The value `n` ends with after scanning from `lo`: the last word filed
      under it, or else the value it started with. */
  function Resolved(words: seq<string>, rv: map<int, string>, lo: nat, start: map<string, string>, n: string): Option<string>
    requires lo <= |words|
  {
    match LastFill(rv, lo, |words|, n)
    case Some(k) => Some(words[k])
    case None => if n in start then Some(start[n]) else None
  }

  /** The scan gives every name the value of its last word, and leaves the
      other values as they were. */
  lemma {:induction false} ScanValues(words: seq<string>, j: nat, sc: Scan, n: string)
    requires j <= |words|
    ensures ScanFrom(words, j, sc).Some? ==>
      && (n in ScanFrom(words, j, sc).value.values <==> Resolved(words, sc.rvpositions, j, sc.values, n).Some?)
      && (n in ScanFrom(words, j, sc).value.values ==>
            ScanFrom(words, j, sc).value.values[n] == Resolved(words, sc.rvpositions, j, sc.values, n).value)
    decreases |words| - j
  {
    if j < |words| {
      LastFillFrom(sc.rvpositions, j, |words|, n);
      if j % 2 == 1 {
        if sc.symbols != [] && sc.symbols[0] == FirstChar(words[j]) {
          ScanValues(words, j + 1, sc.(symbols := sc.symbols[1..]), n);
        }
      } else {
        var name := Slot(sc.rvpositions, j);
        var rv2 := sc.rvpositions[j / 2 := name];
        forall k: nat ensures Slot(rv2, k) == Slot(sc.rvpositions, k) {
          SlotKept(sc.rvpositions, j, k);
        }
        LastFillSlots(sc.rvpositions, rv2, j + 1, |words|, n);
        ScanValues(words, j + 1, sc.(rvpositions := rv2, values := sc.values[name := words[j]]), n);
      }
    }
  }

  // ---------------------------------------------------------------------
  // Filling in a link
  // ---------------------------------------------------------------------

  /** A piece of the link with its placeholder replaced; a placeholder
      without a value reads as empty. */
  function Fill(piece: string, values: map<string, string>): string
    requires LinkPiece(piece)
  {
    if piece[0] == '{' then (if Inside(piece) in values then values[Inside(piece)] else "") else piece
  }

  /** The link with every placeholder replaced by its value. */
  function Substitute(url: seq<string>, values: map<string, string>): (s: string)
    requires LinkPieces(url)
    ensures Placeholders(url) == [] ==> s == Concat(url)
  {
    if url == [] then "" else Fill(url[0], values) + Substitute(url[1..], values)
  }

  /** Each placeholder written back in braces. */
  function Braced(ps: seq<string>): map<string, string> {
    map p | p in ps :: "{" + p + "}"
  }

  lemma {:induction false} SubstituteBraced(url: seq<string>, ps: seq<string>)
    requires LinkPieces(url)
    requires forall k :: 0 <= k < |Placeholders(url)| ==> Placeholders(url)[k] in ps
    ensures Substitute(url, Braced(ps)) == Concat(url)
    decreases |url|
  {
    if url != [] {
      var u := url[0];
      assert LinkPieces(url[1..]) by {
        assert forall k :: 0 <= k < |url| - 1 ==> url[1..][k] == url[k + 1];
      }
      var rest := Placeholders(url[1..]);
      assert Placeholders(url) == (if u[0] == '{' then [Inside(u)] else []) + rest;
      assert forall k :: 0 <= k < |rest| ==> rest[k] in ps by {
        var off := if u[0] == '{' then 1 else 0;
        forall k | 0 <= k < |rest| ensures rest[k] in ps {
          assert rest[k] == Placeholders(url)[k + off];
        }
      }
      SubstituteBraced(url[1..], ps);
      if u[0] == '{' {
        assert Placeholders(url)[0] == Inside(u);
        assert u == "{" + Inside(u) + "}";
      }
    }
  }

  /** Filling every placeholder of a parsed link with its own name in
      braces gives back the pattern, when its braces balance. */
  lemma FillsBack(source: string)
    requires !LinkFails(source)
    ensures Substitute(ParseLink(source).url, Braced(ParseLink(source).placeholders)) == source
  {
    var u := ParseLink(source);
    SubstituteBraced(u.url, u.placeholders);
  }

  // ---------------------------------------------------------------------
  // Trying a rule and finding the links
  // ---------------------------------------------------------------------

  /** Tries a rule on the words of a message: the message must follow the
      rule's signs and leave no value empty. */
  function TryRule(rule: Rule, words: seq<string>): (r: Option<Package>)
    requires LinkPieces(rule.link.url)
    ensures r.Some? ==> r.value.rule == rule.(symbols := r.value.rule.symbols, rvpositions := r.value.rule.rvpositions)
  {
    match ScanFrom(words, 0, Scan(rule.symbols, rule.rvpositions, Prefill(rule)))
    case None => None
    case Some(sc) =>
      if "" in sc.values.Values then None
      else Some(Package(rule.(symbols := sc.symbols, rvpositions := sc.rvpositions), Substitute(rule.link.url, sc.values)))
  }

  /** Every name the scan can leave a value for has a non-empty one. */
  ghost predicate Complete(rule: Rule, words: seq<string>) {
    forall n :: Resolved(words, rule.rvpositions, 0, Prefill(rule), n).Some? ==> Resolved(words, rule.rvpositions, 0, Prefill(rule), n).value != ""
  }

  /** A rule matches exactly when the message follows its signs and every
      placeholder, default and filled slot ends with a non-empty value. */
  lemma TryRuleMatches(rule: Rule, words: seq<string>)
    requires LinkPieces(rule.link.url)
    ensures TryRule(rule, words).Some? <==> SignsAgree(words, 0, rule.symbols) && Complete(rule, words)
  {
    var sc0 := Scan(rule.symbols, rule.rvpositions, Prefill(rule));
    ScanSucceeds(words, 0, sc0);
    var r := ScanFrom(words, 0, sc0);
    if r.Some? {
      forall n ensures
        && (n in r.value.values <==> Resolved(words, rule.rvpositions, 0, Prefill(rule), n).Some?)
        && (n in r.value.values ==> r.value.values[n] == Resolved(words, rule.rvpositions, 0, Prefill(rule), n).value)
      {
        ScanValues(words, 0, sc0, n);
      }
      if "" in r.value.values.Values {
        var n :| n in r.value.values && r.value.values[n] == "";
        assert !Complete(rule, words);
      }
    }
  }

  /** A matched rule yields its link filled with the resolved values and
      the signs the message did not use. */
  lemma TryRuleYields(rule: Rule, words: seq<string>, n: string)
    requires LinkPieces(rule.link.url)
    requires TryRule(rule, words).Some?
    ensures |words| / 2 <= |rule.symbols| && TryRule(rule, words).value.rule.symbols == rule.symbols[|words| / 2..]
    ensures n in rule.link.placeholders ==>
      Resolved(words, rule.rvpositions, 0, Prefill(rule), n).Some? && Resolved(words, rule.rvpositions, 0, Prefill(rule), n).value != ""
  {
    var sc0 := Scan(rule.symbols, rule.rvpositions, Prefill(rule));
    ScanConsumes(words, 0, sc0);
    ScanValues(words, 0, sc0, n);
    TryRuleMatches(rule, words);
    if n in rule.link.placeholders {
      assert n in Prefill(rule);
      assert LastFill(rule.rvpositions, 0, |words|, n).None? ==> Resolved(words, rule.rvpositions, 0, Prefill(rule), n).Some?;
    }
  }

  /** Every rule named in `order` is in the list and has a well-formed link. */
  predicate Listed(list: RuleList, order: seq<string>) {
    forall k :: 0 <= k < |order| ==> order[k] in list && LinkPieces(list[order[k]].link.url)
  }

  /** The packages of the rules that match, in the order the rules are
      visited. */
  function Collect(list: RuleList, order: seq<string>, words: seq<string>): (ps: seq<Package>)
    requires Listed(list, order)
    ensures |ps| <= |order|
  {
    if order == [] then []
    else
      var p := TryRule(list[order[0]], words);
      (if p.Some? then [p.value] else []) + Collect(list, order[1..], words)
  }

  lemma {:induction false} CollectFinds(list: RuleList, order: seq<string>, words: seq<string>, p: Package)
    requires Listed(list, order)
    ensures p in Collect(list, order, words) <==> exists k :: 0 <= k < |order| && TryRule(list[order[k]], words) == Some(p)
  {
    if order != [] {
      assert Listed(list, order[1..]) by {
        assert forall k :: 0 <= k < |order| - 1 ==> order[1..][k] == order[k + 1];
      }
      CollectFinds(list, order[1..], words, p);
      if exists k :: 0 <= k < |order| && TryRule(list[order[k]], words) == Some(p) {
        var k :| 0 <= k < |order| && TryRule(list[order[k]], words) == Some(p);
        if k > 0 {
          assert order[1..][k - 1] == order[k];
        }
      }
      if exists k :: 0 <= k < |order| - 1 && TryRule(list[order[1..][k]], words) == Some(p) {
        var k :| 0 <= k < |order| - 1 && TryRule(list[order[1..][k]], words) == Some(p);
        assert order[1..][k] == order[k + 1];
      }
    }
  }

  /** `order` visits every rule of the list once: the iteration order of
      the system's hash map, which the model leaves open. */
  ghost predicate Enumerates(list: RuleList, order: seq<string>) {
    && (forall n :: n in list <==> n in order)
    && (forall a, b :: 0 <= a < b < |order| ==> order[a] != order[b])
  }

  /** `find_url`: a message that is a link, by the link test as written
      (which misses `rsync://` and `sftp://`), is its own single package,
      under a default rule named `$empty$`; otherwise every matching rule yields
      one package, in the order the rules are visited. */
  function FindUrl(list: RuleList, order: seq<string>, source: string): (ps: seq<Package>)
    requires Enumerates(list, order)
    requires forall n :: n in list ==> LinkPieces(list[n].link.url)
    ensures IsUrlAsWritten(source) ==> ps == [Package(NoRule.(name := "$empty$"), source)]
    ensures !IsUrlAsWritten(source) ==> |ps| <= |order|
  {
    if IsUrlAsWritten(source) then [Package(NoRule.(name := "$empty$"), source)]
    else Collect(list, order, MessageWords(source))
  }

  /** Apart from a message that is a link, a package is found exactly when
      some rule of the list yields it. */
  lemma FindUrlFinds(list: RuleList, order: seq<string>, source: string, p: Package)
    requires Enumerates(list, order)
    requires forall n :: n in list ==> LinkPieces(list[n].link.url)
    requires !IsUrlAsWritten(source)
    ensures p in FindUrl(list, order, source) <==> exists n :: n in list && TryRule(list[n], MessageWords(source)) == Some(p)
  {
    var words := MessageWords(source);
    CollectFinds(list, order, words, p);
    if exists n :: n in list && TryRule(list[n], words) == Some(p) {
      var n :| n in list && TryRule(list[n], words) == Some(p);
      var k :| 0 <= k < |order| && order[k] == n;
    }
  }

  /** As written, an `rsync://` message is not taken as a link: it goes
      through the rule search like any other message. */
  lemma RsyncMessageSearched(list: RuleList, order: seq<string>, source: string)
    requires Enumerates(list, order)
    requires forall n :: n in list ==> LinkPieces(list[n].link.url)
    requires source == "rsync://host/path"
    ensures FindUrl(list, order, source) == Collect(list, order, MessageWords(source))
  {
    RsyncMissed(source);
  }
}

=== FILE: page_links.dfy ===
/** The pieces of the URL-rule language that work on single texts: the
    split signs that separate the words of a message, the recognition of a
    text that already is a URL, and the reading of a link pattern such as
    `https://github.com/{user}/{repo}` into literal pieces and
    `{placeholder}` pieces. */
module PageLinks {
  import opened Common
  import K = KittenLexer
  import opened KittenLexerProps

  // ---------------------------------------------------------------------
  // Split signs
  // ---------------------------------------------------------------------

  /** `is_message_split_sign`: the characters that separate the words of a
      message and that a rule may list as its signs. */
  predicate IsSplitSign(c: char) {
    match c
    case '!' => true
    case '/' => true
    case '@' => true
    case '?' => true
    case '&' => true
    case '%' => true
    case '$' => true
    case '#' => true
    case '*' => true
    case '~' => true
    case '<' => true
    case '>' => true
    case ':' => true
    case _ => false
  }

  const SplitSigns: string := "!/@?&%$#*~<>:"

  /** The split signs are exactly the thirteen characters listed, and none
      of them is a letter, a digit, a blank, a brace, a quote, the
      statement separator ';' or a backslash. */
  lemma SplitSignsExactly(c: char)
    ensures IsSplitSign(c) <==> c in SplitSigns
    ensures IsSplitSign(c) ==> !IsAlnum(c) && c !in {' ', '\t', '\n', '{', '}', '"', '\'', ';', '\\', '_'}
  {
    assert IsSplitSign(c) <==> c in {'!', '/', '@', '?', '&', '%', '$', '#', '*', '~', '<', '>', ':'};
    assert c in SplitSigns <==> c in {'!', '/', '@', '?', '&', '%', '$', '#', '*', '~', '<', '>', ':'};
  }

  // ---------------------------------------------------------------------
  // URLs
  // ---------------------------------------------------------------------

  /** `s` starts with `p` and has at least one character after it. */
  predicate Prefixed(s: string, p: string) { |s| > |p| && s[..|p|] == p }

  /** The schemes a text may start with to count as a URL. */
  const Schemes: seq<string> := ["https://", "http://", "ftp://", "rsync://", "sftp://", "ipfs://", "samba://", "gemini://", "irc://"]

  /** `is_url` as the source writes it: every test compares a prefix of the
      length it checks with a scheme, and for "rsync://" and "sftp://" that
      length is one short of the scheme. */
  function IsUrlAsWritten(check: string): (b: bool)
    ensures b ==> |check| > 6
  {
    (|check| > 8 && check[..8] == "https://")
    || (|check| > 7 && check[..7] == "http://")
    || (|check| > 6 && check[..6] == "ftp://")
    || (|check| > 7 && check[..7] == "rsync://")
    || (|check| > 6 && check[..6] == "sftp://")
    || (|check| > 7 && check[..7] == "ipfs://")
    || (|check| > 8 && check[..8] == "samba://")
    || (|check| > 9 && check[..9] == "gemini://")
    || (|check| > 6 && check[..6] == "irc://")
  }

  /** The seven schemes the written test can recognise. */
  const ReachableSchemes: seq<string> := ["https://", "http://", "ftp://", "ipfs://", "samba://", "gemini://", "irc://"]

  /** The written test accepts exactly the texts that extend one of seven
      schemes: a prefix of seven or six characters never equals the eight-
      or seven-character "rsync://" or "sftp://". */
  lemma IsUrlAsWrittenMeans(check: string)
    ensures IsUrlAsWritten(check) <==> exists k :: 0 <= k < |ReachableSchemes| && Prefixed(check, ReachableSchemes[k])
  {
    var rs := ReachableSchemes;
    assert |rs[0]| == 8 && |rs[1]| == 7 && |rs[2]| == 6 && |rs[3]| == 7 && |rs[4]| == 8 && |rs[5]| == 9 && |rs[6]| == 6;
    if IsUrlAsWritten(check) {
      if |check| > 8 && check[..8] == "https://" {
        assert Prefixed(check, rs[0]);
      } else if |check| > 7 && check[..7] == "http://" {
        assert Prefixed(check, rs[1]);
      } else if |check| > 6 && check[..6] == "ftp://" {
        assert Prefixed(check, rs[2]);
      } else if |check| > 7 && check[..7] == "ipfs://" {
        assert Prefixed(check, rs[3]);
      } else if |check| > 8 && check[..8] == "samba://" {
        assert Prefixed(check, rs[4]);
      } else if |check| > 9 && check[..9] == "gemini://" {
        assert Prefixed(check, rs[5]);
      } else {
        assert Prefixed(check, rs[6]);
      }
    }
  }

  /** A link to an rsync server is not recognised by the written test. */
  lemma RsyncMissed(check: string)
    requires check == "rsync://host/path"
    ensures !IsUrlAsWritten(check) && IsUrl(check)
  {
    assert check[..8] == Schemes[3];
    assert Prefixed(check, Schemes[3]);
    IsUrlAsWrittenMeans(check);
    forall k | 0 <= k < |ReachableSchemes|
      ensures !Prefixed(check, ReachableSchemes[k])
    {
      assert check[1] == 's' && check[0] == 'r';
    }
  }

  /** `is_url` as intended: the text extends one of the nine schemes. */
  function IsUrl(check: string): (b: bool)
    ensures b <==> exists k :: 0 <= k < |Schemes| && Prefixed(check, Schemes[k])
  {
    assert Schemes[0] == "https://" && Schemes[1] == "http://" && Schemes[2] == "ftp://";
    assert Schemes[3] == "rsync://" && Schemes[4] == "sftp://" && Schemes[5] == "ipfs://";
    assert Schemes[6] == "samba://" && Schemes[7] == "gemini://" && Schemes[8] == "irc://";
    Prefixed(check, "https://") || Prefixed(check, "http://") || Prefixed(check, "ftp://")
    || Prefixed(check, "rsync://") || Prefixed(check, "sftp://") || Prefixed(check, "ipfs://")
    || Prefixed(check, "samba://") || Prefixed(check, "gemini://") || Prefixed(check, "irc://")
  }

  /** Every scheme followed by anything non-empty is a URL, and the
      intended test agrees with the written one except on rsync and sftp
      links. */
  lemma IsUrlIntended(k: nat, rest: string, check: string)
    requires k < |Schemes| && rest != ""
    ensures IsUrl(Schemes[k] + rest)
    ensures IsUrl(check) <==> IsUrlAsWritten(check) || Prefixed(check, "rsync://") || Prefixed(check, "sftp://")
  {
    var s := Schemes[k] + rest;
    assert s[..|Schemes[k]|] == Schemes[k];
    assert Prefixed(s, Schemes[k]);
    IsUrlAsWrittenMeans(check);
    var rs := ReachableSchemes;
    assert rs[0] == Schemes[0] && rs[1] == Schemes[1] && rs[2] == Schemes[2];
    assert rs[3] == Schemes[5] && rs[4] == Schemes[6] && rs[5] == Schemes[7] && rs[6] == Schemes[8];
  }

  // ---------------------------------------------------------------------
  // Link patterns
  // ---------------------------------------------------------------------

  /** `parse_link`'s lexer: `{…}` capsules, empty tokens erased, backslashes
      kept. */
  const LinkConfig: K.Config := K.Config({}, [('{', '}')], {}, {}, {}, {}, map[], true, true, [], [], [], [], [])

  lemma LinkLexerBuilt()
    ensures K.IgnoreBackslashOpts(K.EraseEmpty(K.AddCapsule(K.NewLexer, '{', '}'))) == K.Lexer(LinkConfig, false)
  {
    CapsuleFresh(K.NewLexer, '{', '}');
  }

  /** A parsed link: its pieces in order, of which those in braces are
      placeholders, and the placeholder names in order. `args` is never
      set by the system. */
  datatype Url = Url(args: int, placeholders: seq<string>, url: seq<string>)

  const NoUrl: Url := Url(0, [], [])

  predicate Braceless(s: string) { forall k :: 0 <= k < |s| ==> s[k] != '{' && s[k] != '}' }

  /** A piece of a link: `{…}` with at least the two braces, or non-empty
      text without braces. */
  predicate LinkPiece(s: string) {
    s != "" && if s[0] == '{' then |s| >= 2 && Last(s) == '}' else Braceless(s)
  }

  predicate LinkPieces(url: seq<string>) { forall k :: 0 <= k < |url| ==> LinkPiece(url[k]) }

  /** The name inside a `{…}` piece. */
  function Inside(piece: string): string
    requires LinkPiece(piece) && piece[0] == '{'
  {
    StripEnds(piece)
  }

  /** The names of the placeholder pieces, in order. */
  function Placeholders(url: seq<string>): (ps: seq<string>)
    requires LinkPieces(url)
    ensures |ps| <= |url|
  {
    if url == [] then []
    else (if url[0][0] == '{' then [Inside(url[0])] else []) + Placeholders(url[1..])
  }

  function Concat(pieces: seq<string>): string {
    if pieces == [] then "" else pieces[0] + Concat(pieces[1..])
  }

  lemma {:induction false} ConcatSnoc(pieces: seq<string>, p: string)
    ensures Concat(pieces + [p]) == Concat(pieces) + p
    decreases |pieces|
  {
    if pieces == [] {
      assert Concat([p]) == p + Concat([]);
    } else {
      assert (pieces + [p])[1..] == pieces[1..] + [p];
      ConcatSnoc(pieces[1..], p);
    }
  }

  /** The texts of the tokens, in order. */
  function TokenTexts(ts: seq<K.Token>): (ss: seq<string>)
    ensures |ss| == |ts| && forall k :: 0 <= k < |ts| ==> ss[k] == ts[k].src
  {
    seq(|ts|, k requires 0 <= k < |ts| => ts[k].src)
  }

  /** The facts about the link lexer one lexing step needs. */
  lemma LinkRoles()
    ensures forall c :: !K.IsQuote(LinkConfig, c) && !K.IsIgnore(LinkConfig, c) && !K.IsNewline(LinkConfig, c)
    ensures forall c :: !K.IsExtract(LinkConfig, c) && !K.IsLineskip(LinkConfig, c)
    ensures forall c :: K.IsCapsuleOpen(LinkConfig, c) <==> c == '{'
    ensures forall c :: K.IsCapsuleClose(LinkConfig, c) <==> c == '}'
    ensures K.MatchClosure(LinkConfig, '{', '}')
  {
    assert LinkConfig.capsules[0] == ('{', '}');
  }

  /** What lexing a link keeps true: the text read so far is the emitted
      pieces followed by the pending token; emitted pieces are link pieces;
      only '{' is ever open; outside a capsule the pending text has no
      braces and inside one it starts with '{'. */
  predicate LinkInv(src: string, i: nat, st: K.LexState) {
    && i <= |src| && Concat(TokenTexts(st.ret)) + st.tok.src == src[..i]
    && (forall k :: 0 <= k < |st.ret| ==> LinkPiece(st.ret[k].src) && !st.ret[k].str)
    && st.quote.None? && !st.skipping && !st.tok.str
    && (forall k :: 0 <= k < |st.opens| ==> st.opens[k] == '{')
    && (st.opens == [] ==> Braceless(st.tok.src))
    && (st.opens != [] ==> st.tok.src != "" && st.tok.src[0] == '{')
  }

  lemma EmitPiece(src: string, i: nat, st: K.LexState, t: K.Token)
    requires LinkInv(src, i, st) && LinkPiece(t.src) && !t.str
    ensures Concat(TokenTexts(st.ret + [t])) == Concat(TokenTexts(st.ret)) + t.src
    ensures forall k :: 0 <= k < |st.ret + [t]| ==> LinkPiece((st.ret + [t])[k].src) && !(st.ret + [t])[k].str
  {
    assert TokenTexts(st.ret + [t]) == TokenTexts(st.ret) + [t.src];
    ConcatSnoc(TokenTexts(st.ret), t.src);
  }

  lemma LinkStepOpen(src: string, i: nat, st: K.LexState)
    requires LinkInv(src, i, st) && i < |src| && src[i] == '{'
    ensures K.Step(LinkConfig, src, i, st).Next?
    ensures K.Step(LinkConfig, src, i, st).next == i + 1 && LinkInv(src, i + 1, K.Step(LinkConfig, src, i, st).st)
  {
    LinkRoles();
    assert src[..i + 1] == src[..i] + ['{'];
    var st' := K.Step(LinkConfig, src, i, st).st;
    if st.opens == [] && st.tok.src != "" {
      EmitPiece(src, i, st, K.Stamp(st.tok, st.line));
    }
    assert st'.opens == st.opens + ['{'];
  }

  lemma LinkStepClose(src: string, i: nat, st: K.LexState)
    requires LinkInv(src, i, st) && i < |src| && src[i] == '}'
    ensures K.Step(LinkConfig, src, i, st).Next? ==>
      K.Step(LinkConfig, src, i, st).next == i + 1 && LinkInv(src, i + 1, K.Step(LinkConfig, src, i, st).st)
  {
    LinkRoles();
    assert src[..i + 1] == src[..i] + ['}'];
    if st.opens != [] {
      assert Last(st.opens) == '{';
      if |st.opens| == 1 {
        EmitPiece(src, i, st, K.Append(st.tok, '}'));
      }
    }
  }

  lemma LinkStepOther(src: string, i: nat, st: K.LexState)
    requires LinkInv(src, i, st) && i < |src| && src[i] != '{' && src[i] != '}'
    ensures K.Step(LinkConfig, src, i, st).Next? && K.Step(LinkConfig, src, i, st).next == i + 1
    ensures LinkInv(src, i + 1, K.Step(LinkConfig, src, i, st).st)
  {
    LinkRoles();
    assert src[..i + 1] == src[..i] + [src[i]];
  }

  lemma LinkStep(src: string, i: nat, st: K.LexState)
    requires LinkInv(src, i, st) && i < |src|
    ensures K.Step(LinkConfig, src, i, st).Next? ==>
      K.Step(LinkConfig, src, i, st).next == i + 1 && LinkInv(src, i + 1, K.Step(LinkConfig, src, i, st).st)
  {
    if src[i] == '{' {
      LinkStepOpen(src, i, st);
    } else if src[i] == '}' {
      LinkStepClose(src, i, st);
    } else {
      LinkStepOther(src, i, st);
    }
  }

  lemma {:induction false} LinkRun(src: string, i: nat, st: K.LexState)
    requires LinkInv(src, i, st)
    ensures var (st', failed) := K.Run(LinkConfig, src, i, st);
      (forall k :: 0 <= k < |st'.ret| ==> LinkPiece(st'.ret[k].src) && !st'.ret[k].str) &&
      (!failed ==> LinkInv(src, |src|, st'))
    decreases |src| - i
  {
    if i < |src| {
      LinkStep(src, i, st);
      match K.Step(LinkConfig, src, i, st)
      case Fail =>
      case Next(j, st') => LinkRun(src, j, st');
    }
  }

  function LinkTokens(source: string): seq<K.Token> { K.Lex(K.Lexer(LinkConfig, false), source).tokens }

  predicate LinkFails(source: string) { K.LexFails(LinkConfig, source) }

  /** Every token of a link is a link piece, and when the braces balance
      the pieces spell the whole link. */
  lemma LinkLexed(source: string)
    ensures forall k :: 0 <= k < |LinkTokens(source)| ==> LinkPiece(LinkTokens(source)[k].src)
    ensures !LinkFails(source) ==> Concat(TokenTexts(LinkTokens(source))) == source
  {
    assert source[..0] == "";
    assert LinkInv(source, 0, K.Start);
    LinkRun(source, 0, K.Start);
    var (st, failed) := K.Run(LinkConfig, source, 0, K.Start);
    if !LinkFails(source) {
      assert source[..|source|] == source;
      if st.tok.src != "" {
        assert TokenTexts(st.ret + [st.tok]) == TokenTexts(st.ret) + [st.tok.src];
        ConcatSnoc(TokenTexts(st.ret), st.tok.src);
      }
    }
  }

  /** `parse_link`: the pieces of the link in order, and the names of the
      `{…}` pieces in order. Pieces are whole capsules or brace-free
      text, and when the braces balance they spell the link again. */
  function ParseLink(source: string): (u: Url)
    ensures LinkPieces(u.url) && u.placeholders == Placeholders(u.url)
    ensures !LinkFails(source) ==> Concat(u.url) == source
  {
    LinkLexed(source);
    var url := TokenTexts(LinkTokens(source));
    Url(0, Placeholders(url), url)
  }

  /** A link without braces is a single piece and has no placeholders. */
  lemma PlainLink(source: string)
    requires source != "" && Braceless(source) && '\\' !in source
    ensures ParseLink(source) == Url(0, [], [source])
  {
    LinkRoles();
    var st := K.Start;
    assert source[..0] == "";
    assert forall k :: 0 <= k < |source| ==> Plain(LinkConfig, source[k]);
    PlainRun(LinkConfig, source, 0, |source|, st);
    assert source[0..|source|] == source;
    var st1 := st.(tok := WithWord(st.tok, st.line, source));
    assert K.Run(LinkConfig, source, |source|, st1) == (st1, false);
    assert LinkTokens(source) == [st1.tok];
  }
}

=== FILE: page_list.dfy ===
/** The rule-list language: statements separated by ';', each a command
    name followed by its arguments, that define named rules. A rule holds a
    link pattern, the split signs expected between the words of a message,
    the position in the message of each placeholder, defaults for trailing
    placeholders, and the scripts to run around a download. */
module PageList {
  import opened Common
  import opened Numerals
  import K = KittenLexer
  import opened KittenLexerProps
  import opened PageLinks

  // ---------------------------------------------------------------------
  // Rules
  // ---------------------------------------------------------------------

  /** A rule. `positions` maps a placeholder to its 0-based word position
      and `rvpositions` maps back; `scriptHandle` is 0 to run the scripts
      before the download, 1 after it and 2 instead of it; `embedded` holds
      inline script texts with the same handle. */
  datatype Rule = Rule(
    name: string,
    symbols: seq<char>,
    link: Url,
    positions: map<string, int>,
    rvpositions: map<int, string>,
    defaults: map<string, string>,
    scripts: seq<string>,
    scriptHandle: int,
    embedded: seq<(string, int)>)

  /** A default-constructed rule. */
  const NoRule: Rule := Rule("", [], NoUrl, map[], map[], map[], [], 1, [])

  type RuleList = map<string, Rule>

  /** `Rule::merge`: the rule takes over everything from `from` except its
      own name and its reverse position table. */
  function Merge(into: Rule, from: Rule): (r: Rule)
    ensures r.name == into.name && r.rvpositions == into.rvpositions
    ensures r.(name := from.name, rvpositions := from.rvpositions) == from
  {
    from.(name := into.name, rvpositions := into.rvpositions)
  }

  /** Merging is overwriting: a later merge undoes an earlier one, and a
      rule merged with itself is unchanged. */
  lemma MergeLast(a: Rule, b: Rule, c: Rule)
    ensures Merge(Merge(a, b), c) == Merge(a, c)
    ensures Merge(a, a) == a
  {
  }

  /** What every rule the language builds satisfies: its signs are split
      signs, its link is made of link pieces, its script handles are 0, 1
      or 2, only placeholders with a position have a default, and positions
      are not negative. */
  predicate RuleHealthy(r: Rule) {
    && (forall k :: 0 <= k < |r.symbols| ==> IsSplitSign(r.symbols[k]))
    && LinkPieces(r.link.url)
    && 0 <= r.scriptHandle <= 2
    && (forall k :: 0 <= k < |r.embedded| ==> 0 <= r.embedded[k].1 <= 2)
    && r.defaults.Keys <= r.positions.Keys
    && (forall n :: n in r.positions ==> r.positions[n] >= 0)
    && (forall p :: p in r.rvpositions ==> p >= 0)
  }

  /** Every rule is filed under its own name and is healthy. */
  predicate Healthy(rules: RuleList) {
    forall n :: n in rules ==> rules[n].name == n && RuleHealthy(rules[n])
  }


  // ---------------------------------------------------------------------
  // Commands
  // ---------------------------------------------------------------------

  /** The state the commands share: the rule being defined, if any, and
      the rules so far. */
  datatype Session = Session(current: Option<string>, rules: RuleList)

  const NoSession: Session := Session(None, map[])

  /** The current rule is one of the rules. */
  predicate Valid(s: Session) { s.current.Some? ==> s.current.value in s.rules }

  /** A command either succeeds, fails with a message, or runs into
      behaviour the language leaves undefined. */
  datatype Outcome = Done(session: Session) | Failed(err: Error) | Undefined

  /** What a command does to the current rule: changes it, rejects the
      arguments, or never finishes. */
  datatype Edit = Edited(rule: Rule) | Rejected(err: Error) | Unending

  function Current(s: Session): Rule
    requires Valid(s) && s.current.Some?
  {
    s.rules[s.current.value]
  }

  /** Replaces the current rule. */
  function Update(s: Session, r: Rule): (t: Session)
    requires Valid(s) && s.current.Some?
    ensures Valid(t) && t.current == s.current && t.rules.Keys == s.rules.Keys
  {
    s.(rules := s.rules[s.current.value := r])
  }

  /** The outcome of an edit of the current rule. */
  function Apply(s: Session, e: Edit): (o: Outcome)
    requires Valid(s) && s.current.Some?
    ensures o.Done? <==> e.Edited?
    ensures o.Done? ==> o.session == Update(s, e.rule)
    ensures e.Rejected? ==> o == Failed(e.err)
  {
    match e
    case Edited(r) => Done(Update(s, r))
    case Rejected(m) => Failed(m)
    case Unending => Undefined
  }

  /** What the statement lexer guarantees of every unquoted argument: it is
      non-empty, and when it starts a capsule it is a whole one. */
  predicate Lexed(args: seq<K.Token>) {
    forall t :: t in args ==> t.str || (t.src != "" && (t.src[0] == '{' ==> |t.src| >= 2))
  }

  /** The ways a command can fail; `Message` gives the text the system
      reports for each. */
  datatype Error =
    | NeedArgs(n: nat)
    | NoStringAt(a: nat)
    | MustStringAt(a: nat)
    | NeedsRule
    | NeedsLink
    | NeedsOne
    | NeedsEven
    | NoSuchRule(rule: string)
    | NoSuchDefault(placeholder: string)
    | BeforeUndefaulted
    | UnexpectedCharacter
    | TooManySymbols
    | NoSuchPlaceholder(placeholder: string)
    | NotANumber(text: string)
    | InvalidPosition(text: string)
    | TakenPosition(text: string)
    | UnknownOption(word: string)
    | ExpectedCapsule

  /** The message of an error; parameters are counted from 1. */
  function Message(e: Error): string {
    match e
    case NeedArgs(n) => "command needs " + NatToString(n) + " argument(s)"
    case NoStringAt(a) => "command's parameter " + NatToString(a + 1) + " is not allowed to be a string"
    case MustStringAt(a) => "command's parameter " + NatToString(a + 1) + " must be a string"
    case NeedsRule => "command needs to belong to a rule"
    case NeedsLink => "command requires a link to be set"
    case NeedsOne => "command needs at least one argument"
    case NeedsEven => "command needs even ammount of parameters"
    case NoSuchRule(n) => "no such rule: " + n
    case NoSuchDefault(n) => "no such placeholder to default: " + n
    case BeforeUndefaulted => "not allowed to default a placeholder before a undefaulted one"
    case UnexpectedCharacter => "unexpected character"
    case TooManySymbols => "too many symbols for this link"
    case NoSuchPlaceholder(n) => "no such placeholder: " + n
    case NotANumber(t) => "command needs number value as position (got: " + t + ")"
    case InvalidPosition(t) => "invalid placeholder position: " + t
    case TakenPosition(t) => "already taken position: " + t
    case UnknownOption(w) => "unknown option: " + w
    case ExpectedCapsule => "expected {capsule}"
  }

  /** `t` has `n` as its current rule, named `n`: the rule filed under `n`
      before, or a default one; the other rules are those of `s`. */
  predicate Selected(s: Session, n: string, t: Session) {
    && t.current == Some(n)
    && t.rules.Keys == s.rules.Keys + {n}
    && (n in s.rules ==> t.rules[n] == s.rules[n].(name := n))
    && (n !in s.rules ==> t.rules[n] == NoRule.(name := n))
    && (forall m :: m in s.rules && m != n ==> t.rules[m] == s.rules[m])
  }

  /** RULE name: selects the rule, creating a default one if there is none,
      and gives it the name. */
  function RuleCommand(args: seq<K.Token>, s: Session): (o: Outcome)
    ensures !o.Undefined? && (o.Done? ==> Valid(o.session))
    ensures |args| != 1 ==> o == Failed(NeedArgs(1))
    ensures |args| == 1 && args[0].str ==> o == Failed(NoStringAt(0))
    ensures o.Done? <==> |args| == 1 && !args[0].str
    ensures o.Done? ==> Selected(s, args[0].src, o.session)
  {
    if |args| != 1 then Failed(NeedArgs(1))
    else if args[0].str then Failed(NoStringAt(0))
    else
      var n := args[0].src;
      var r := if n in s.rules then s.rules[n] else NoRule;
      Done(Session(Some(n), s.rules[n := r.(name := n)]))
  }

  /** The loop of FROM from argument `i` on, merging into `r`, the rule
      filed under `self`; the other rules do not change meanwhile. */
  function FromLoop(args: seq<K.Token>, i: nat, rules: RuleList, self: string, r: Rule): (e: Edit)
    requires i <= |args|
    ensures !e.Unending?
    ensures e.Edited? <==> forall k :: i <= k < |args| ==> !args[k].str && args[k].src in rules
    ensures e.Edited? ==> e.rule.name == r.name
    ensures e.Edited? && i < |args| && (forall k :: i <= k < |args| ==> args[k].src != self) ==>
      e.rule == Merge(r, rules[Last(args).src])
    ensures e.Rejected? ==>
      exists k :: i <= k < |args| &&
        ((args[k].str && e.err == NoStringAt(k)) || (!args[k].str && args[k].src !in rules && e.err == NoSuchRule(args[k].src)))
    decreases |args| - i
  {
    if i == |args| then Edited(r)
    else if args[i].str then Rejected(NoStringAt(i))
    else if args[i].src !in rules then Rejected(NoSuchRule(args[i].src))
    else FromLoop(args, i + 1, rules, self, Merge(r, if args[i].src == self then r else rules[args[i].src]))
  }

  /** FROM name…: merges the named rules into the current one, in order,
      so that the last one named decides everything but the name. */
  function FromCommand(args: seq<K.Token>, s: Session): (o: Outcome)
    requires Valid(s)
    ensures !o.Undefined?
    ensures s.current.None? ==> o == Failed(NeedsRule)
    ensures s.current.Some? && args == [] ==> o == Failed(NeedsOne)
    ensures o.Done? <==> s.current.Some? && args != [] && forall k :: 0 <= k < |args| ==> !args[k].str && args[k].src in s.rules
  {
    if s.current.None? then Failed(NeedsRule)
    else if args == [] then Failed(NeedsOne)
    else Apply(s, FromLoop(args, 0, s.rules, s.current.value, Current(s)))
  }

  /** LINK "pattern": the current rule gets the parsed link. */
  function LinkCommand(args: seq<K.Token>, s: Session): (o: Outcome)
    requires Valid(s)
    ensures !o.Undefined?
    ensures s.current.None? ==> o == Failed(NeedsRule)
    ensures s.current.Some? && |args| != 1 ==> o == Failed(NeedArgs(1))
    ensures s.current.Some? && |args| == 1 && !args[0].str ==> o == Failed(MustStringAt(0))
    ensures o.Done? <==> s.current.Some? && |args| == 1 && args[0].str
    ensures o.Done? ==> o.session == Update(s, Current(s).(link := ParseLink(args[0].src)))
  {
    if s.current.None? then Failed(NeedsRule)
    else if |args| != 1 then Failed(NeedArgs(1))
    else if !args[0].str then Failed(MustStringAt(0))
    else Done(Update(s, Current(s).(link := ParseLink(args[0].src))))
  }

  /** Every placeholder at a later position than `name` has a default. */
  predicate LaterDefaulted(r: Rule, name: string)
    requires name in r.positions
  {
    forall q :: q in r.positions && r.positions[q] > r.positions[name] ==> q in r.defaults
  }

  /** The pair at `k` is the last to name its placeholder. */
  predicate LastMention(args: seq<K.Token>, k: nat) {
    forall j :: k < j < |args| && j % 2 == 0 ==> args[j].src != args[k].src
  }

  /** The pairs from `i` on as a map, a later pair overriding an earlier
      one. */
  function PairMap(args: seq<K.Token>, i: nat): (m: map<string, string>)
    requires i <= |args| && i % 2 == 0 && |args| % 2 == 0
    ensures forall k :: i <= k < |args| && k % 2 == 0 ==> args[k].src in m
    decreases |args| - i
  {
    if i == |args| then map[] else map[args[i].src := args[i + 1].src] + PairMap(args, i + 2)
  }

  /** The value a placeholder gets is that of the last pair naming it. */
  lemma {:induction false} PairMapLast(args: seq<K.Token>, i: nat, k: nat)
    requires i <= k < |args| && i % 2 == 0 && k % 2 == 0 && |args| % 2 == 0
    requires LastMention(args, k)
    ensures PairMap(args, i)[args[k].src] == args[k + 1].src
    decreases |args| - i
  {
    var rest := PairMap(args, i + 2);
    assert PairMap(args, i) == map[args[i].src := args[i + 1].src] + rest;
    if i < k {
      PairMapLast(args, i + 2, k);
      assert args[k].src in rest;
    } else {
      NotInPairMap(args, i + 2, args[k].src);
    }
  }

  lemma {:induction false} NotInPairMap(args: seq<K.Token>, i: nat, n: string)
    requires i <= |args| && i % 2 == 0 && |args| % 2 == 0
    requires forall j :: i <= j < |args| && j % 2 == 0 ==> args[j].src != n
    ensures n !in PairMap(args, i)
    decreases |args| - i
  {
    if i < |args| {
      NotInPairMap(args, i + 2, n);
    }
  }

  /** Every placeholder a pair from `i` on names has a position in `r`, and
      in `r2` every placeholder after it has a default. */
  predicate Defaulted(args: seq<K.Token>, i: nat, r: Rule, r2: Rule)
    requires |args| % 2 == 0
  {
    forall k :: i <= k < |args| && k % 2 == 0 ==> args[k].src in r.positions && args[k].src in r2.positions && LaterDefaulted(r2, args[k].src)
  }

  /** One pair of DEFAULT: a placeholder with a position, none after it
      left without a default, gets the quoted value as its default. */
  function DefaultPair(args: seq<K.Token>, i: nat, r: Rule): (e: Edit)
    requires i + 1 < |args|
    ensures !e.Unending?
    ensures e.Edited? <==>
      !args[i].str && args[i + 1].str && args[i].src in r.positions && LaterDefaulted(r, args[i].src)
    ensures e.Edited? ==> e.rule == r.(defaults := r.defaults + map[args[i].src := args[i + 1].src])
  {
    if args[i].str then Rejected(NoStringAt(i))
    else if !args[i + 1].str then Rejected(MustStringAt(i + 1))
    else if args[i].src !in r.positions then Rejected(NoSuchDefault(args[i].src))
    else if !LaterDefaulted(r, args[i].src) then Rejected(BeforeUndefaulted)
    else Edited(r.(defaults := r.defaults[args[i].src := args[i + 1].src]))
  }

  /** The loop of DEFAULT from the pair at `i` on. */
  function DefaultLoop(args: seq<K.Token>, i: nat, r: Rule): (e: Edit)
    requires i <= |args| && i % 2 == 0 && |args| % 2 == 0
    ensures !e.Unending?
    decreases |args| - i
  {
    if i == |args| then Edited(r)
    else
      var e := DefaultPair(args, i, r);
      if e.Edited? then DefaultLoop(args, i + 2, e.rule) else e
  }

  /** DEFAULT adds the pairs to the defaults, the last pair naming a
      placeholder deciding its value, and changes nothing else. */
  lemma {:induction false} DefaultLoopMap(args: seq<K.Token>, i: nat, r: Rule)
    requires i <= |args| && i % 2 == 0 && |args| % 2 == 0
    ensures DefaultLoop(args, i, r).Edited? ==> DefaultLoop(args, i, r).rule == r.(defaults := r.defaults + PairMap(args, i))
    decreases |args| - i
  {
    if i == |args| {
      assert r.defaults + PairMap(args, i) == r.defaults;
    } else if DefaultPair(args, i, r).Edited? {
      var r' := DefaultPair(args, i, r).rule;
      DefaultLoopMap(args, i + 2, r');
      assert r'.defaults + PairMap(args, i + 2) == r.defaults + PairMap(args, i);
    }
  }

  /** DEFAULT leaves the positions alone and forgets no default. */
  lemma {:induction false} DefaultLoopKeeps(args: seq<K.Token>, i: nat, r: Rule)
    requires i <= |args| && i % 2 == 0 && |args| % 2 == 0
    ensures DefaultLoop(args, i, r).Edited? ==>
      DefaultLoop(args, i, r).rule.positions == r.positions && r.defaults.Keys <= DefaultLoop(args, i, r).rule.defaults.Keys
    decreases |args| - i
  {
    if i < |args| && DefaultPair(args, i, r).Edited? {
      DefaultLoopKeeps(args, i + 2, DefaultPair(args, i, r).rule);
    }
  }

  /** More defaults keep a placeholder's later placeholders defaulted. */
  lemma LaterDefaultedGrows(r: Rule, r2: Rule, name: string)
    requires name in r.positions && r2.positions == r.positions && r.defaults.Keys <= r2.defaults.Keys
    requires LaterDefaulted(r, name)
    ensures LaterDefaulted(r2, name)
  {
  }

  /** DEFAULT only defaults placeholders with a position whose later
      placeholders all have defaults. */
  lemma {:induction false} DefaultLoopDefaulted(args: seq<K.Token>, i: nat, r: Rule)
    requires i <= |args| && i % 2 == 0 && |args| % 2 == 0
    ensures DefaultLoop(args, i, r).Edited? ==> Defaulted(args, i, r, DefaultLoop(args, i, r).rule)
    decreases |args| - i
  {
    if i < |args| && DefaultPair(args, i, r).Edited? {
      var r' := DefaultPair(args, i, r).rule;
      DefaultLoopDefaulted(args, i + 2, r');
      DefaultLoopKeeps(args, i + 2, r');
      var e := DefaultLoop(args, i + 2, r');
      if e.Edited? {
        var r2 := e.rule;
        LaterDefaultedGrows(r, r2, args[i].src);
        forall k | i <= k < |args| && k % 2 == 0
          ensures args[k].src in r.positions && args[k].src in r2.positions && LaterDefaulted(r2, args[k].src)
        {
          if k > i {
            assert Defaulted(args, i + 2, r', r2);
          }
        }
      }
    }
  }

  /** The current rule has a link. */
  predicate HasLink(s: Session) { Valid(s) && s.current.Some? && |Current(s).link.url| > 0 }

  /** DEFAULT placeholder "value"…: gives trailing placeholders default
      values; a placeholder may only be defaulted when every placeholder
      after it already is. */
  function DefaultCommand(args: seq<K.Token>, s: Session): (o: Outcome)
    requires Valid(s)
    ensures !o.Undefined?
    ensures s.current.None? ==> o == Failed(NeedsRule)
    ensures s.current.Some? && !HasLink(s) ==> o == Failed(NeedsLink)
    ensures HasLink(s) && args == [] ==> o == Failed(NeedsOne)
    ensures HasLink(s) && |args| % 2 == 1 ==> o == Failed(NeedsEven)
    ensures o.Done? ==> HasLink(s) && |args| > 0 && |args| % 2 == 0
  {
    if s.current.None? then Failed(NeedsRule)
    else if !HasLink(s) then Failed(NeedsLink)
    else if args == [] then Failed(NeedsOne)
    else if |args| % 2 == 1 then Failed(NeedsEven)
    else Apply(s, DefaultLoop(args, 0, Current(s)))
  }

  /** The signs padded with copies of the last one up to `n`. */
  function Padded(signs: seq<char>, n: nat): (r: seq<char>)
    requires |signs| > 0 && |signs| <= n
    ensures |r| == n && r[..|signs|] == signs
    ensures forall k :: |signs| <= k < n ==> r[k] == Last(signs)
  {
    signs + seq(n - |signs|, _ => Last(signs))
  }

  /** The end of SIGNS: pads the signs to one fewer than the placeholders,
      or rejects too many; with no placeholder at all the padding never
      ends. */
  function PadSigns(r: Rule): (e: Edit)
    requires |r.symbols| > 0
    ensures e.Unending? <==> |r.link.placeholders| == 0
    ensures e.Rejected? <==> 0 < |r.link.placeholders| <= |r.symbols|
    ensures e.Rejected? ==> e.err == TooManySymbols
    ensures e.Edited? ==> e.rule == r.(symbols := Padded(r.symbols, |r.link.placeholders| - 1))
  {
    var n := |r.link.placeholders|;
    if n == 0 then Unending
    else if |r.symbols| > n - 1 then Rejected(TooManySymbols)
    else Edited(r.(symbols := Padded(r.symbols, n - 1)))
  }

  /** The signs the arguments name, one character each. */
  function SignChars(args: seq<K.Token>): (cs: seq<char>)
    requires forall k :: 0 <= k < |args| ==> |args[k].src| == 1
    ensures |cs| == |args| && forall k :: 0 <= k < |args| ==> cs[k] == args[k].src[0]
  {
    seq(|args|, k requires 0 <= k < |args| => args[k].src[0])
  }

  /** Each argument from `i` on is one split sign. */
  predicate SignArgs(args: seq<K.Token>, i: nat) {
    forall k :: i <= k < |args| ==> |args[k].src| == 1 && IsSplitSign(args[k].src[0])
  }

  /** One argument of SIGNS: a single split sign, appended to the signs;
      only the first argument is checked for being a string. */
  function SignStep(args: seq<K.Token>, i: nat, r: Rule): (e: Edit)
    requires i < |args|
    ensures !e.Unending?
    ensures e.Edited? <==> !args[0].str && |args[i].src| == 1 && IsSplitSign(args[i].src[0])
    ensures e.Rejected? && !args[0].str ==> e.err == UnexpectedCharacter
    ensures e.Edited? ==> e.rule == r.(symbols := r.symbols + args[i].src)
  {
    if args[0].str then Rejected(NoStringAt(0))
    else if |args[i].src| != 1 || !IsSplitSign(args[i].src[0]) then Rejected(UnexpectedCharacter)
    else Edited(r.(symbols := r.symbols + [args[i].src[0]]))
  }

  /** The loop of SIGNS from argument `i` on, then the padding. */
  function SignsLoop(args: seq<K.Token>, i: nat, r: Rule): (e: Edit)
    requires 0 < |args| && i <= |args|
    requires i == |args| ==> |r.symbols| > 0
    ensures e.Unending? ==> |r.link.placeholders| == 0
    decreases |args| - i
  {
    if i == |args| then PadSigns(r)
    else
      var e := SignStep(args, i, r);
      if e.Edited? then SignsLoop(args, i + 1, e.rule) else e
  }

  /** SIGNS accepts only single split signs, appends them all, and then pads
      them to one fewer than the placeholders. */
  lemma {:induction false} SignsLoopMeans(args: seq<K.Token>, i: nat, r: Rule)
    requires 0 < |args| && i <= |args|
    requires i == |args| ==> |r.symbols| > 0
    ensures SignsLoop(args, i, r).Edited? ==> SignArgs(args, i) && (i < |args| ==> !args[0].str)
    ensures SignsLoop(args, i, r).Edited? ==>
      && |r.symbols| + |args| - i <= |r.link.placeholders| - 1
      && SignsLoop(args, i, r).rule == r.(symbols := Padded(r.symbols + SignChars(args[i..]), |r.link.placeholders| - 1))
    decreases |args| - i
  {
    if i == |args| {
      assert r.symbols + SignChars(args[i..]) == r.symbols;
    } else if SignStep(args, i, r).Edited? {
      var r' := SignStep(args, i, r).rule;
      SignsLoopMeans(args, i + 1, r');
      if SignsLoop(args, i + 1, r').Edited? {
        assert r.symbols + SignChars(args[i..]) == r'.symbols + SignChars(args[i + 1..]);
      }
    }
  }

  /** SIGNS sign…: appends split signs to the rule and pads them with the
      last one, so that there is one sign between every two placeholders. */
  function SignsCommand(args: seq<K.Token>, s: Session): (o: Outcome)
    requires Valid(s)
    ensures s.current.None? ==> o == Failed(NeedsRule)
    ensures s.current.Some? && !HasLink(s) ==> o == Failed(NeedsLink)
    ensures HasLink(s) && args == [] ==> o == Failed(NeedsOne)
    ensures o.Undefined? ==> HasLink(s) && |Current(s).link.placeholders| == 0
    ensures o.Done? ==> HasLink(s) && |args| > 0
  {
    if s.current.None? then Failed(NeedsRule)
    else if !HasLink(s) then Failed(NeedsLink)
    else if args == [] then Failed(NeedsOne)
    else Apply(s, SignsLoop(args, 0, Current(s)))
  }

  /** Every position of `a` is still held in `b` by the same placeholder. */
  predicate KeepsPlaces(a: map<int, string>, b: map<int, string>) {
    forall p :: p in a ==> p in b && b[p] == a[p]
  }

  /** The pair at `k` names one of the placeholders and a positive
      number, and in `r2` the placeholder has a position and the position
      one below that number maps back to it. */
  predicate PlacedPair(args: seq<K.Token>, k: nat, placeholders: seq<string>, r2: Rule)
    requires k + 1 < |args|
  {
    && args[k].src in placeholders && args[k].src in r2.positions
    && Stoi(args[k + 1].src).Some? && Stoi(args[k + 1].src).value > 0
    && Stoi(args[k + 1].src).value - 1 in r2.rvpositions
    && r2.rvpositions[Stoi(args[k + 1].src).value - 1] == args[k].src
  }

  /** One pair of WITH: a placeholder of the link and a free positive
      position take each other. */
  function WithPair(args: seq<K.Token>, i: nat, r: Rule): (e: Edit)
    requires i + 1 < |args|
    ensures !e.Unending?
    ensures e.Edited? ==> e.rule == r.(positions := e.rule.positions, rvpositions := e.rule.rvpositions)
    ensures e.Edited? ==> KeepsPlaces(r.rvpositions, e.rule.rvpositions) && r.positions.Keys <= e.rule.positions.Keys
    ensures e.Edited? ==> !args[i].str && !args[i + 1].str && PlacedPair(args, i, r.link.placeholders, e.rule)
  {
    if args[i].str then Rejected(NoStringAt(i))
    else if args[i + 1].str then Rejected(NoStringAt(i + 1))
    else
      var name, text := args[i].src, args[i + 1].src;
      if name !in r.link.placeholders then Rejected(NoSuchPlaceholder(name))
      else match Stoi(text)
        case None => Rejected(NotANumber(text))
        case Some(p) =>
          if p <= 0 then Rejected(InvalidPosition(text))
          else if p - 1 in r.rvpositions then Rejected(TakenPosition(text))
          else Edited(r.(positions := r.positions[name := p - 1], rvpositions := r.rvpositions[p - 1 := name]))
  }

  /** The loop of WITH from the pair at `i` on. */
  function WithLoop(args: seq<K.Token>, i: nat, r: Rule): (e: Edit)
    requires i <= |args| && i % 2 == 0 && |args| % 2 == 0
    ensures !e.Unending?
    decreases |args| - i
  {
    if i == |args| then Edited(r)
    else
      var e := WithPair(args, i, r);
      if e.Edited? then WithLoop(args, i + 2, e.rule) else e
  }

  /** WITH changes only the positions. */
  lemma {:induction false} WithLoopFrame(args: seq<K.Token>, i: nat, r: Rule)
    requires i <= |args| && i % 2 == 0 && |args| % 2 == 0
    ensures WithLoop(args, i, r).Edited? ==>
      WithLoop(args, i, r).rule == r.(positions := WithLoop(args, i, r).rule.positions, rvpositions := WithLoop(args, i, r).rule.rvpositions)
    decreases |args| - i
  {
    if i < |args| && WithPair(args, i, r).Edited? {
      WithLoopFrame(args, i + 2, WithPair(args, i, r).rule);
    }
  }

  /** WITH never reassigns a position nor forgets a placeholder's. */
  lemma {:induction false} WithLoopKeeps(args: seq<K.Token>, i: nat, r: Rule)
    requires i <= |args| && i % 2 == 0 && |args| % 2 == 0
    ensures WithLoop(args, i, r).Edited? ==>
      KeepsPlaces(r.rvpositions, WithLoop(args, i, r).rule.rvpositions) && r.positions.Keys <= WithLoop(args, i, r).rule.positions.Keys
    decreases |args| - i
  {
    if i < |args| && WithPair(args, i, r).Edited? {
      WithLoopKeeps(args, i + 2, WithPair(args, i, r).rule);
    }
  }

  /** A placed pair stays placed while positions are only added. */
  lemma PlacedPairKept(args: seq<K.Token>, k: nat, placeholders: seq<string>, r1: Rule, r2: Rule)
    requires k + 1 < |args| && PlacedPair(args, k, placeholders, r1)
    requires KeepsPlaces(r1.rvpositions, r2.rvpositions) && r1.positions.Keys <= r2.positions.Keys
    ensures PlacedPair(args, k, placeholders, r2)
  {
  }

  /** WITH places the pair at `k`. */
  lemma {:induction false} WithLoopPlacesPair(args: seq<K.Token>, i: nat, r: Rule, k: nat)
    requires i <= k < |args| && i % 2 == 0 && k % 2 == 0 && |args| % 2 == 0
    ensures WithLoop(args, i, r).Edited? ==> PlacedPair(args, k, r.link.placeholders, WithLoop(args, i, r).rule)
    decreases |args| - i
  {
    if WithPair(args, i, r).Edited? {
      var r' := WithPair(args, i, r).rule;
      if k == i {
        WithLoopKeeps(args, i + 2, r');
        if WithLoop(args, i + 2, r').Edited? {
          PlacedPairKept(args, i, r.link.placeholders, r', WithLoop(args, i + 2, r').rule);
        }
      } else {
        WithLoopPlacesPair(args, i + 2, r', k);
        WithLoopFrame(args, i + 2, r');
        assert r'.link == r.link;
      }
    }
  }

  /** WITH places every placeholder it names. */
  lemma WithLoopPlaces(args: seq<K.Token>, i: nat, r: Rule)
    requires i <= |args| && i % 2 == 0 && |args| % 2 == 0
    ensures WithLoop(args, i, r).Edited? ==> forall k :: i <= k < |args| && k % 2 == 0 ==> PlacedPair(args, k, r.link.placeholders, WithLoop(args, i, r).rule)
  {
    forall k | i <= k < |args| && k % 2 == 0
      ensures WithLoop(args, i, r).Edited? ==> PlacedPair(args, k, r.link.placeholders, WithLoop(args, i, r).rule)
    {
      WithLoopPlacesPair(args, i, r, k);
    }
  }

  /** WITH placeholder position…: places placeholders at 1-based word
      positions of a message, stored 0-based; a position can be taken once. */
  function WithCommand(args: seq<K.Token>, s: Session): (o: Outcome)
    requires Valid(s)
    ensures !o.Undefined?
    ensures s.current.None? ==> o == Failed(NeedsRule)
    ensures s.current.Some? && !HasLink(s) ==> o == Failed(NeedsLink)
    ensures HasLink(s) && args == [] ==> o == Failed(NeedsOne)
    ensures HasLink(s) && |args| % 2 == 1 ==> o == Failed(NeedsEven)
    ensures o.Done? ==> HasLink(s) && |args| > 0 && |args| % 2 == 0
  {
    if s.current.None? then Failed(NeedsRule)
    else if !HasLink(s) then Failed(NeedsLink)
    else if args == [] then Failed(NeedsOne)
    else if |args| % 2 == 1 then Failed(NeedsEven)
    else Apply(s, WithLoop(args, 0, Current(s)))
  }

  /** The loop of ATTACH from argument `i` on. */
  function AttachLoop(args: seq<K.Token>, i: nat, r: Rule): (e: Edit)
    requires i <= |args|
    ensures !e.Unending?
    ensures e.Edited? <==> forall k :: i <= k < |args| ==> args[k].str
    ensures e.Rejected? ==> exists k :: i <= k < |args| && !args[k].str && e.err == MustStringAt(k)
    ensures e.Edited? ==> e.rule == r.(scripts := r.scripts + PageLinks.TokenTexts(args[i..]))
    decreases |args| - i
  {
    if i == |args| then
      assert r.scripts + PageLinks.TokenTexts(args[i..]) == r.scripts;
      Edited(r)
    else if !args[i].str then Rejected(MustStringAt(i))
    else
      var e := AttachLoop(args, i + 1, r.(scripts := r.scripts + [args[i].src]));
      assert PageLinks.TokenTexts(args[i..]) == [args[i].src] + PageLinks.TokenTexts(args[i + 1..]);
      e
  }

  /** ATTACH "script"…: appends script names to the rule. */
  function AttachCommand(args: seq<K.Token>, s: Session): (o: Outcome)
    requires Valid(s)
    ensures !o.Undefined?
    ensures s.current.None? ==> o == Failed(NeedsRule)
    ensures s.current.Some? && args == [] ==> o == Failed(NeedsOne)
    ensures o.Done? <==> s.current.Some? && args != [] && forall k :: 0 <= k < |args| ==> args[k].str
  {
    if s.current.None? then Failed(NeedsRule)
    else if args == [] then Failed(NeedsOne)
    else Apply(s, AttachLoop(args, 0, Current(s)))
  }

  /** The script handle a word names: BEFORE 0, AFTER 1, INSTEAD 2. */
  function Handle(word: string): (h: Option<int>)
    ensures h.Some? <==> word in {"BEFORE", "AFTER", "INSTEAD"}
    ensures h.Some? ==> 0 <= h.value <= 2
  {
    if word == "BEFORE" then Some(0)
    else if word == "AFTER" then Some(1)
    else if word == "INSTEAD" then Some(2)
    else None
  }

  /** SCRIPTS BEFORE|AFTER|INSTEAD: when the rule's scripts run. */
  function ScriptsCommand(args: seq<K.Token>, s: Session): (o: Outcome)
    requires Valid(s)
    ensures !o.Undefined?
    ensures s.current.None? ==> o == Failed(NeedsRule)
    ensures s.current.Some? && |args| != 1 ==> o == Failed(NeedArgs(1))
    ensures o.Done? <==> s.current.Some? && |args| == 1 && !args[0].str && Handle(args[0].src).Some?
    ensures o.Done? ==> o.session == Update(s, Current(s).(scriptHandle := Handle(args[0].src).value))
    ensures s.current.Some? && |args| == 1 && !args[0].str && Handle(args[0].src).None? ==> o == Failed(UnknownOption(args[0].src))
  {
    if s.current.None? then Failed(NeedsRule)
    else if |args| != 1 then Failed(NeedArgs(1))
    else if args[0].str then Failed(NoStringAt(0))
    else match Handle(args[0].src)
      case None => Failed(UnknownOption(args[0].src))
      case Some(h) => Done(Update(s, Current(s).(scriptHandle := h)))
  }

  /** EMBED BEFORE|AFTER|INSTEAD {script}: appends the text inside the
      capsule with its handle. */
  function EmbedCommand(args: seq<K.Token>, s: Session): (o: Outcome)
    requires Valid(s) && Lexed(args)
    ensures !o.Undefined?
    ensures s.current.None? ==> o == Failed(NeedsRule)
    ensures s.current.Some? && |args| != 2 ==> o == Failed(NeedArgs(2))
    ensures o.Done? <==>
      && s.current.Some? && |args| == 2 && !args[0].str && !args[1].str
      && Handle(args[0].src).Some? && args[1].src[0] == '{'
    ensures o.Done? ==> o.session == Update(s, Current(s).(embedded := Current(s).embedded + [(StripEnds(args[1].src), Handle(args[0].src).value)]))
    ensures s.current.Some? && |args| == 2 && !args[0].str && !args[1].str && Handle(args[0].src).Some? && args[1].src[0] != '{' ==>
      o == Failed(ExpectedCapsule)
  {
    if s.current.None? then Failed(NeedsRule)
    else if |args| != 2 then Failed(NeedArgs(2))
    else if args[0].str then Failed(NoStringAt(0))
    else if args[1].str then Failed(NoStringAt(1))
    else match Handle(args[0].src)
      case None => Failed(UnknownOption(args[0].src))
      case Some(h) =>
        if args[1].src[0] != '{' then Failed(ExpectedCapsule)
        else
          var r := Current(s);
          Done(Update(s, r.(embedded := r.embedded + [(StripEnds(args[1].src), h)])))
  }

  /** The command table. */
  datatype Command = RuleCmd | FromCmd | LinkCmd | DefaultCmd | SignsCmd | WithCmd | AttachCmd | ScriptsCmd | EmbedCmd

  function CommandNamed(word: string): (c: Option<Command>)
    ensures c.Some? <==> word in {"RULE", "FROM", "LINK", "DEFAULT", "SIGNS", "WITH", "ATTACH", "SCRIPTS", "EMBED"}
  {
    match word
    case "RULE" => Some(RuleCmd)
    case "FROM" => Some(FromCmd)
    case "LINK" => Some(LinkCmd)
    case "DEFAULT" => Some(DefaultCmd)
    case "SIGNS" => Some(SignsCmd)
    case "WITH" => Some(WithCmd)
    case "ATTACH" => Some(AttachCmd)
    case "SCRIPTS" => Some(ScriptsCmd)
    case "EMBED" => Some(EmbedCmd)
    case _ => None
  }

  function Execute(c: Command, args: seq<K.Token>, s: Session): (o: Outcome)
    requires Valid(s) && Lexed(args)
    ensures o.Done? ==> Valid(o.session)
    ensures o.Undefined? ==> c == SignsCmd
  {
    match c
    case RuleCmd => RuleCommand(args, s)
    case FromCmd => FromCommand(args, s)
    case LinkCmd => LinkCommand(args, s)
    case DefaultCmd => DefaultCommand(args, s)
    case SignsCmd => SignsCommand(args, s)
    case WithCmd => WithCommand(args, s)
    case AttachCmd => AttachCommand(args, s)
    case ScriptsCmd => ScriptsCommand(args, s)
    case EmbedCmd => EmbedCommand(args, s)
  }

  // ---------------------------------------------------------------------
  // Every command keeps the rules healthy
  // ---------------------------------------------------------------------

  lemma UpdateHealthy(s: Session, r: Rule)
    requires Valid(s) && s.current.Some? && Healthy(s.rules)
    requires RuleHealthy(r) && r.name == s.current.value
    ensures Healthy(Update(s, r).rules)
  {
  }

  lemma {:induction false} FromHealthy(args: seq<K.Token>, i: nat, rules: RuleList, self: string, r: Rule)
    requires i <= |args| && Healthy(rules) && RuleHealthy(r)
    ensures FromLoop(args, i, rules, self, r).Edited? ==> RuleHealthy(FromLoop(args, i, rules, self, r).rule)
    decreases |args| - i
  {
    if i < |args| && !args[i].str && args[i].src in rules {
      FromHealthy(args, i + 1, rules, self, Merge(r, if args[i].src == self then r else rules[args[i].src]));
    }
  }

  lemma {:induction false} DefaultHealthy(args: seq<K.Token>, i: nat, r: Rule)
    requires i <= |args| && i % 2 == 0 && |args| % 2 == 0 && RuleHealthy(r)
    ensures DefaultLoop(args, i, r).Edited? ==> RuleHealthy(DefaultLoop(args, i, r).rule) && DefaultLoop(args, i, r).rule.name == r.name
    decreases |args| - i
  {
    if i < |args| && DefaultPair(args, i, r).Edited? {
      DefaultHealthy(args, i + 2, DefaultPair(args, i, r).rule);
    }
  }

  lemma {:induction false} SignsHealthy(args: seq<K.Token>, i: nat, r: Rule)
    requires 0 < |args| && i <= |args| && (i == |args| ==> |r.symbols| > 0) && RuleHealthy(r)
    ensures SignsLoop(args, i, r).Edited? ==> RuleHealthy(SignsLoop(args, i, r).rule) && SignsLoop(args, i, r).rule.name == r.name
    decreases |args| - i
  {
    if i == |args| {
      var e := PadSigns(r);
      if e.Edited? {
        var p := Padded(r.symbols, |r.link.placeholders| - 1);
        forall k | 0 <= k < |p| ensures IsSplitSign(p[k]) {
          if k < |r.symbols| {
            assert p[k] == p[..|r.symbols|][k];
          }
        }
      }
    } else if SignStep(args, i, r).Edited? {
      SignsHealthy(args, i + 1, SignStep(args, i, r).rule);
    }
  }

  lemma {:induction false} WithHealthy(args: seq<K.Token>, i: nat, r: Rule)
    requires i <= |args| && i % 2 == 0 && |args| % 2 == 0 && RuleHealthy(r)
    ensures WithLoop(args, i, r).Edited? ==> RuleHealthy(WithLoop(args, i, r).rule) && WithLoop(args, i, r).rule.name == r.name
    decreases |args| - i
  {
    if i < |args| && WithPair(args, i, r).Edited? {
      WithHealthy(args, i + 2, WithPair(args, i, r).rule);
    }
  }

  lemma {:induction false} AttachHealthy(args: seq<K.Token>, i: nat, r: Rule)
    requires i <= |args| && RuleHealthy(r)
    ensures AttachLoop(args, i, r).Edited? ==> RuleHealthy(AttachLoop(args, i, r).rule) && AttachLoop(args, i, r).rule.name == r.name
  {
  }

  /** Applying an edit that keeps the rule healthy and its name keeps the
      rules healthy. */
  lemma EditHealthy(s: Session, e: Edit)
    requires Valid(s) && s.current.Some? && Healthy(s.rules)
    requires e.Edited? ==> RuleHealthy(e.rule) && e.rule.name == s.current.value
    ensures Apply(s, e).Done? ==> Healthy(Apply(s, e).session.rules)
  {
    if e.Edited? {
      UpdateHealthy(s, e.rule);
    }
  }

  lemma FromCommandHealthy(args: seq<K.Token>, s: Session)
    requires Valid(s) && Healthy(s.rules)
    ensures FromCommand(args, s).Done? ==> Healthy(FromCommand(args, s).session.rules)
  {
    if s.current.Some? && args != [] {
      FromHealthy(args, 0, s.rules, s.current.value, Current(s));
      EditHealthy(s, FromLoop(args, 0, s.rules, s.current.value, Current(s)));
    }
  }

  lemma DefaultCommandHealthy(args: seq<K.Token>, s: Session)
    requires Valid(s) && Healthy(s.rules)
    ensures DefaultCommand(args, s).Done? ==> Healthy(DefaultCommand(args, s).session.rules)
  {
    if s.current.Some? && HasLink(s) && args != [] && |args| % 2 == 0 {
      DefaultHealthy(args, 0, Current(s));
      EditHealthy(s, DefaultLoop(args, 0, Current(s)));
    }
  }

  lemma SignsCommandHealthy(args: seq<K.Token>, s: Session)
    requires Valid(s) && Healthy(s.rules)
    ensures SignsCommand(args, s).Done? ==> Healthy(SignsCommand(args, s).session.rules)
  {
    if s.current.Some? && HasLink(s) && args != [] {
      SignsHealthy(args, 0, Current(s));
      EditHealthy(s, SignsLoop(args, 0, Current(s)));
    }
  }

  lemma WithCommandHealthy(args: seq<K.Token>, s: Session)
    requires Valid(s) && Healthy(s.rules)
    ensures WithCommand(args, s).Done? ==> Healthy(WithCommand(args, s).session.rules)
  {
    if s.current.Some? && HasLink(s) && args != [] && |args| % 2 == 0 {
      WithHealthy(args, 0, Current(s));
      EditHealthy(s, WithLoop(args, 0, Current(s)));
    }
  }

  lemma AttachCommandHealthy(args: seq<K.Token>, s: Session)
    requires Valid(s) && Healthy(s.rules)
    ensures AttachCommand(args, s).Done? ==> Healthy(AttachCommand(args, s).session.rules)
  {
    if s.current.Some? && args != [] {
      AttachHealthy(args, 0, Current(s));
      EditHealthy(s, AttachLoop(args, 0, Current(s)));
    }
  }

  lemma LinkCommandHealthy(args: seq<K.Token>, s: Session)
    requires Valid(s) && Healthy(s.rules)
    ensures LinkCommand(args, s).Done? ==> Healthy(LinkCommand(args, s).session.rules)
  {
    if LinkCommand(args, s).Done? {
      UpdateHealthy(s, Current(s).(link := ParseLink(args[0].src)));
    }
  }

  lemma ScriptsCommandHealthy(args: seq<K.Token>, s: Session)
    requires Valid(s) && Healthy(s.rules)
    ensures ScriptsCommand(args, s).Done? ==> Healthy(ScriptsCommand(args, s).session.rules)
  {
    if ScriptsCommand(args, s).Done? {
      UpdateHealthy(s, Current(s).(scriptHandle := Handle(args[0].src).value));
    }
  }

  lemma EmbedCommandHealthy(args: seq<K.Token>, s: Session)
    requires Valid(s) && Lexed(args) && Healthy(s.rules)
    ensures EmbedCommand(args, s).Done? ==> Healthy(EmbedCommand(args, s).session.rules)
  {
    if EmbedCommand(args, s).Done? {
      UpdateHealthy(s, Current(s).(embedded := Current(s).embedded + [(StripEnds(args[1].src), Handle(args[0].src).value)]));
    }
  }

  /** No command leaves a rule filed under another name, signs that are not
      split signs, a malformed link, an unknown script handle, a default
      without a position or a negative position. */
  lemma ExecuteHealthy(c: Command, args: seq<K.Token>, s: Session)
    requires Valid(s) && Lexed(args)
    ensures Healthy(s.rules) && Execute(c, args, s).Done? ==> Healthy(Execute(c, args, s).session.rules)
  {
    var o := Execute(c, args, s);
    if Healthy(s.rules) && o.Done? {
      match c
      case RuleCmd =>
      case FromCmd => FromCommandHealthy(args, s);
      case LinkCmd => LinkCommandHealthy(args, s);
      case DefaultCmd => DefaultCommandHealthy(args, s);
      case SignsCmd => SignsCommandHealthy(args, s);
      case WithCmd => WithCommandHealthy(args, s);
      case AttachCmd => AttachCommandHealthy(args, s);
      case ScriptsCmd => ScriptsCommandHealthy(args, s);
      case EmbedCmd => EmbedCommandHealthy(args, s);
    }
  }

  // ---------------------------------------------------------------------
  // Reading a rule list
  // ---------------------------------------------------------------------

  /** `process_rulelist`'s lexer: `{…}` capsules, blanks and newlines
      ignored, ';' ends a statement, split signs are tokens of their own,
      backslashes kept, both quote characters. */
  const RuleConfig: K.Config :=
    K.Config({'"', '\''}, [('{', '}')], {' ', '\t', '\n'}, {';'}, {}, {}, map[], true, true, [], [], [IsSplitSign], [], [])

  lemma RuleLexerBuilt()
    ensures K.AddStringq(K.AddStringq(K.EraseEmpty(K.IgnoreBackslashOpts(K.AddIgnore(K.AddIgnore(K.AddConExtract(
              K.AddLinebreak(K.AddIgnore(K.AddCapsule(K.NewLexer, '{', '}'), ' '), ';'), IsSplitSign), '\t'), '\n'))), '"'), '\'')
            == K.Lexer(RuleConfig, false)
  {
    CapsuleFresh(K.NewLexer, '{', '}');
    var l1 := K.AddLinebreak(K.AddIgnore(K.AddCapsule(K.NewLexer, '{', '}'), ' '), ';');
    assert l1.cfg.capsules == [('{', '}')] && l1.cfg.ignores == {' '} && l1.cfg.newlines == {';'};
    var l2 := K.IgnoreBackslashOpts(K.AddIgnore(K.AddIgnore(K.AddConExtract(l1, IsSplitSign), '\t'), '\n'));
    assert l2.cfg.ignores == {' ', '\t', '\n'} && l2.cfg.conExtracts == [IsSplitSign];
    var l3 := K.AddStringq(K.AddStringq(K.EraseEmpty(l2), '"'), '\'');
    assert l3.cfg.stringqs == {'"', '\''};
    assert l3.cfg == RuleConfig;
  }

  /** Drops the leading quoted tokens of a statement. */
  function DropStrings(g: seq<K.Token>): (r: seq<K.Token>)
    ensures |r| <= |g| && r == g[|g| - |r|..]
    ensures r != [] ==> !r[0].str
    ensures forall k :: 0 <= k < |g| - |r| ==> g[k].str
  {
    if g == [] || !g[0].str then g else DropStrings(g[1..])
  }

  /** Runs the statements in order. An unknown command or a failing one
      discards every rule. */
  function RunStatements(gs: seq<seq<K.Token>>, s: Session): (r: Option<RuleList>)
    requires Valid(s) && forall k :: 0 <= k < |gs| ==> Lexed(gs[k])
    ensures r.Some? && Healthy(s.rules) ==> Healthy(r.value)
    decreases |gs|
  {
    if gs == [] then Some(s.rules)
    else
      var g := DropStrings(gs[0]);
      if g == [] then RunStatements(gs[1..], s)
      else match CommandNamed(g[0].src)
        case None => Some(map[])
        case Some(c) =>
          assert Lexed(g[1..]) by {
            assert Lexed(gs[0]);
            forall t | t in g[1..] ensures t in gs[0] {
              var k :| 0 <= k < |g| - 1 && g[1..][k] == t;
              assert t == gs[0][|gs[0]| - |g| + 1 + k];
            }
          }
          ExecuteHealthy(c, g[1..], s);
          match Execute(c, g[1..], s)
          case Done(s') => RunStatements(gs[1..], s')
          case Failed(_) => Some(map[])
          case Undefined => None
  }

  /** Statement `g` takes session `s` to `s2`: it is blank (only quoted
      tokens, or none), or it names a command that succeeds with `s2`. */
  ghost predicate StepsTo(g: seq<K.Token>, s: Session, s2: Session) {
    var d := DropStrings(g);
    if d == [] then s2 == s
    else
      && CommandNamed(d[0].src).Some? && Valid(s) && Lexed(d[1..])
      && Execute(CommandNamed(d[0].src).value, d[1..], s) == Done(s2)
  }

  /** Statement `g` ends the run in session `s`: its first word names no
      command, or the command it names fails. */
  ghost predicate Stops(g: seq<K.Token>, s: Session) {
    var d := DropStrings(g);
    && d != []
    && (CommandNamed(d[0].src).None? ||
        (Valid(s) && Lexed(d[1..]) && Execute(CommandNamed(d[0].src).value, d[1..], s).Failed?))
  }

  /** `ss` are the sessions through the statements `gs`, each of which
      succeeds. */
  ghost predicate Succeeds(gs: seq<seq<K.Token>>, ss: seq<Session>) {
    && |ss| == |gs| + 1
    && (forall k :: 0 <= k < |ss| ==> Valid(ss[k]))
    && (forall k :: 0 <= k < |gs| ==> StepsTo(gs[k], ss[k], ss[k + 1]))
  }

  /** When every statement succeeds, the run gives the rules of the last
      session. */
  lemma {:induction false} SucceedingRunKeepsRules(gs: seq<seq<K.Token>>, ss: seq<Session>)
    requires Succeeds(gs, ss) && forall k :: 0 <= k < |gs| ==> Lexed(gs[k])
    ensures RunStatements(gs, ss[0]) == Some(Last(ss).rules)
    decreases |gs|
  {
    if gs != [] {
      assert StepsTo(gs[0], ss[0], ss[1]);
      assert Succeeds(gs[1..], ss[1..]) by {
        forall k | 0 <= k < |gs| - 1 ensures StepsTo(gs[1..][k], ss[1..][k], ss[1..][k + 1]) {
          assert StepsTo(gs[k + 1], ss[k + 1], ss[k + 2]);
        }
      }
      SucceedingRunKeepsRules(gs[1..], ss[1..]);
    }
  }

  /** When the statements before `i` succeed and statement `i` names no
      command or fails, the run defines no rules at all, whatever the rules
      built so far and whatever follows. */
  lemma {:induction false} StoppedRunDiscards(gs: seq<seq<K.Token>>, ss: seq<Session>, i: nat)
    requires i < |gs| && forall k :: 0 <= k < |gs| ==> Lexed(gs[k])
    requires Succeeds(gs[..i], ss) && Stops(gs[i], Last(ss))
    ensures RunStatements(gs, ss[0]) == Some(map[])
    decreases i
  {
    if i > 0 {
      assert StepsTo(gs[..i][0], ss[0], ss[1]);
      assert Succeeds(gs[1..][..i - 1], ss[1..]) by {
        forall k | 0 <= k < i - 1 ensures StepsTo(gs[1..][..i - 1][k], ss[1..][k], ss[1..][k + 1]) {
          assert StepsTo(gs[..i][k + 1], ss[k + 1], ss[k + 2]);
        }
      }
      StoppedRunDiscards(gs[1..], ss[1..], i - 1);
    }
  }

  /** The tokens of a rule list, each quoted or non-empty and each capsule
      whole. */
  function RuleTokens(source: string): (ts: seq<K.Token>)
    ensures Lexed(ts)
  {
    var lx := K.Lexer(RuleConfig, false);
    ErasedLexHasNoEmptyWords(lx, source);
    CapsuleTokensClosed(lx, source);
    assert RuleConfig.capsules[0].0 == '{';
    K.Lex(lx, source).tokens
  }

  lemma {:induction false} InFlatten(gs: seq<seq<K.Token>>, k: nat, j: nat)
    requires k < |gs| && j < |gs[k]|
    ensures gs[k][j] in Flatten(gs)
    decreases |gs|
  {
    if k < |gs| - 1 {
      assert DropLast(gs)[k] == gs[k];
      InFlatten(DropLast(gs), k, j);
      assert Flatten(gs) == Flatten(DropLast(gs)) + Last(gs);
    }
  }

  /** Grouping the tokens by line keeps every token. */
  lemma GroupsLexed(ts: seq<K.Token>)
    requires Lexed(ts)
    ensures forall k :: 0 <= k < |K.Lines(ts)| ==> Lexed(K.Lines(ts)[k])
  {
    var gs := K.Lines(ts);
    GroupByLineFlattens(ts, -1, []);
    assert Flatten(gs) == ts;
    forall k, j | 0 <= k < |gs| && 0 <= j < |gs[k]|
      ensures gs[k][j] in ts
    {
      InFlatten(gs, k, j);
    }
  }

  /** `process_rulelist`: the rules a rule list defines, or none at all
      when a statement names no command or a command fails. The statements
      are the tokens grouped by line; the system indexes the group being
      filled before there is one when the first token was never stamped
      with a line (an empty quoted string or a leading backslash), which
      is undefined. */
  function ProcessRulelist(source: string): (r: Option<map<string, Rule>>)
    ensures r.Some? ==> Healthy(r.value)
  {
    var ts := RuleTokens(source);
    if ts != [] && ts[0].line == 0 then None
    else
      GroupsLexed(ts);
      RunStatements(K.Lines(ts), NoSession)
  }
}

=== FILE: script_climb.dfy ===
/** Precedence climbing against the reference reading, for any climb and
    loop that satisfy the recurrences: by induction on the fuel, a climb
    from an operand evaluates the tree of the segment up to where its
    bound stops it. */
module ScriptClimb {
  import opened Common
  import opened ScriptValues
  import opened ScriptState
  import opened ScriptEngine
  import opened ScriptTree

  /** The recurrence `LoopsApply` at the loop after operand `k`. */
  lemma LoopApplies(fuel: nat, toks: seq<MTok>, n: nat, k: nat, bound: int, left: Value, t: Eval<Option<Value>>, m: nat,
                    climb: Climber, loop: Looper, app: Applier, st: Settings, errs: Errors)
    requires |toks| == 2 * n - 1 && LoopsApply(toks, n, climb, loop, app, st, errs)
    requires fuel >= 3 && k + 1 <= m < n && Prio(Opr(toks, k + 1)) < bound
    requires Agrees(climb(fuel - 1, k + 1, Prio(Opr(toks, k + 1))), t, m, st, errs)
    ensures var r := Combine(app, Impl(Opr(toks, k + 1)), Done(Some(left)), t);
      if r.Done? && r.value.Some? then loop(fuel, k, bound, left) == loop(fuel - 1, m, bound, r.value.value)
      else Agrees(loop(fuel, k, bound, left), r, m, st, errs)
  {
  }

  /** One step of the loop after operand `k` that applies operator `k + 1`,
      given what the climb of its right side evaluates: either the step
      fails the way the tree of the whole segment up to the stop `e` does,
      or the loop goes on after operand `m - 1` with the value `w` of the
      operands `start` to `m - 1`, and still stops at `e`. */
  lemma LoopStep(fuel: nat, toks: seq<MTok>, n: nat, start: nat, k: nat, bound: int, e: nat, left: Value,
                 climb: Climber, loop: Looper, app: Applier, st: Settings, errs: Errors) returns (m: nat, w: Option<Value>)
    requires |toks| == 2 * n - 1 && LoopsApply(toks, n, climb, loop, app, st, errs)
    requires start <= k && k + 1 < n && fuel >= 3 && e == Stop(toks, n, k + 1, bound)
    requires Tree(toks, start, k + 1, app) == Done(Some(left))
    requires Below(toks, start, k + 1, bound) && AtMost(toks, start, k + 1, Prio(Opr(toks, k + 1)))
    requires Prio(Opr(toks, k + 1)) < bound
    requires Agrees(climb(fuel - 1, k + 1, Prio(Opr(toks, k + 1))),
                    Tree(toks, k + 1, Stop(toks, n, k + 2, Prio(Opr(toks, k + 1))), app),
                    Stop(toks, n, k + 2, Prio(Opr(toks, k + 1))) - 1, st, errs)
    ensures k + 1 < m <= n
    ensures w.Some? ==> && Tree(toks, start, m, app) == Done(Some(w.value))
                        && loop(fuel, k, bound, left) == loop(fuel - 1, m - 1, bound, w.value)
                        && Below(toks, start, m, bound)
                        && (m < n ==> AtMost(toks, start, m, Prio(Opr(toks, m))))
                        && e == Stop(toks, n, m, bound)
    ensures w.None? ==> Agrees(loop(fuel, k, bound, left), Tree(toks, start, e, app), e - 1, st, errs)
  {
    var j := k + 1;
    var p := Prio(Opr(toks, j));
    m := Stop(toks, n, j + 1, p);
    var right := Tree(toks, j, m, app);
    TreeStep(toks, n, start, j, bound, left, app);
    LoopApplies(fuel, toks, n, k, bound, left, right, m - 1, climb, loop, app, st, errs);
    var whole := Tree(toks, start, m, app);
    assert whole == Combine(app, Impl(Opr(toks, j)), Done(Some(left)), right);
    if whole.Done? && whole.value.Some? {
      w := whole.value;
    } else {
      w := None;
      assert Tree(toks, start, e, app) == whole;
    }
  }

  /** The loop after operand `k` that meets the end of the list or an
      operator at or above the bound stops there with its left operand. */
  lemma LoopEnds(fuel: nat, toks: seq<MTok>, n: nat, start: nat, k: nat, bound: int, e: nat, left: Value,
                 climb: Climber, loop: Looper, app: Applier, st: Settings, errs: Errors)
    requires |toks| == 2 * n - 1 && Recurrences(toks, n, climb, loop, app, st, errs)
    requires start <= k < n && fuel >= 2 && e == Stop(toks, n, k + 1, bound)
    requires Tree(toks, start, k + 1, app) == Done(Some(left))
    requires !(k + 1 < n && Prio(Opr(toks, k + 1)) < bound)
    ensures Agrees(loop(fuel, k, bound, left), Tree(toks, start, e, app), e - 1, st, errs)
  {
    assert loop(fuel, k, bound, left) == Done(Climbed(left, 2 * k + 1, st, errs));
  }

  /** The loop after operand `k`, whose left operand `left` is the value of
      the operands `start` to `k`, finishes the tree of the segment from
      `start` to where the bound stops it, `e`. */
  lemma {:induction false} LoopAgrees(fuel: nat, toks: seq<MTok>, n: nat, start: nat, k: nat, bound: int, e: nat, left: Value,
                                      climb: Climber, loop: Looper, app: Applier, st: Settings, errs: Errors)
    requires |toks| == 2 * n - 1 && Recurrences(toks, n, climb, loop, app, st, errs)
    requires start <= k < n && fuel >= 2 * (n - k) && e == Stop(toks, n, k + 1, bound)
    requires Tree(toks, start, k + 1, app) == Done(Some(left))
    requires Below(toks, start, k + 1, bound)
    requires k + 1 < n ==> AtMost(toks, start, k + 1, Prio(Opr(toks, k + 1)))
    ensures Agrees(loop(fuel, k, bound, left), Tree(toks, start, e, app), e - 1, st, errs)
    decreases fuel, 1
  {
    if k + 1 < n && Prio(Opr(toks, k + 1)) < bound {
      ClimbAgrees(fuel - 1, toks, n, k + 1, Prio(Opr(toks, k + 1)), climb, loop, app, st, errs);
      var m, w := LoopStep(fuel, toks, n, start, k, bound, e, left, climb, loop, app, st, errs);
      if w.Some? {
        LoopGoesOn(fuel, toks, n, start, k, bound, e, left, m, w.value, climb, loop, app, st, errs);
      }
    } else {
      LoopEnds(fuel, toks, n, start, k, bound, e, left, climb, loop, app, st, errs);
    }
  }

  /** The loop after operand `k` that went on after operand `m - 1` with
      the value `w` of the operands `start` to `m - 1` finishes the same
      tree as the loop from there. */
  lemma {:induction false} LoopGoesOn(fuel: nat, toks: seq<MTok>, n: nat, start: nat, k: nat, bound: int, e: nat, left: Value,
                                      m: nat, w: Value, climb: Climber, loop: Looper, app: Applier, st: Settings, errs: Errors)
    requires |toks| == 2 * n - 1 && Recurrences(toks, n, climb, loop, app, st, errs)
    requires start <= k && k + 1 < m <= n && fuel >= 2 * (n - k) && e == Stop(toks, n, m, bound)
    requires Tree(toks, start, m, app) == Done(Some(w))
    requires loop(fuel, k, bound, left) == loop(fuel - 1, m - 1, bound, w)
    requires Below(toks, start, m, bound)
    requires m < n ==> AtMost(toks, start, m, Prio(Opr(toks, m)))
    ensures Agrees(loop(fuel, k, bound, left), Tree(toks, start, e, app), e - 1, st, errs)
    decreases fuel, 0
  {
    LoopAgrees(fuel - 1, toks, n, start, m - 1, bound, e, w, climb, loop, app, st, errs);
  }

  /** A climb from operand `i` evaluates the tree of the segment from `i`
      to where the bound stops it. */
  lemma {:induction false} ClimbAgrees(fuel: nat, toks: seq<MTok>, n: nat, i: nat, bound: int,
                                       climb: Climber, loop: Looper, app: Applier, st: Settings, errs: Errors)
    requires |toks| == 2 * n - 1 && Recurrences(toks, n, climb, loop, app, st, errs)
    requires i < n && fuel >= 2 * (n - i) + 1
    ensures Agrees(climb(fuel, i, bound), Tree(toks, i, Stop(toks, n, i + 1, bound), app),
                   Stop(toks, n, i + 1, bound) - 1, st, errs)
    decreases fuel, 0
  {
    LoopAgrees(fuel - 1, toks, n, i, i, bound, Stop(toks, n, i + 1, bound), Operand(Opd(toks, i)), climb, loop, app, st, errs);
  }
}

=== FILE: script_defaults.dfy ===
/** The tables a fresh interpreter starts with: the default operators, the
    default literal typechecks, the builtins that need no nested label run,
    and the platform macros. */
module ScriptDefaults {
  import opened Common
  import opened Numerals
  import opened KittenLexer
  import opened ScriptValues
  import opened ScriptState

  // ---------------------------------------------------------------------
  // Operators
  // ---------------------------------------------------------------------

  function Fail(msg: string): Outcome { Outcome(Null, msg) }

  function Ok(v: Value): Outcome { Outcome(v, "") }

  function RealPow(x: real, k: nat): real {
    if k == 0 then 1.0 else x * RealPow(x, k - 1)
  }

  /** The checks every default binary operator starts with: both operands of
      the same type, then the right one of an accepted type. */
  function BinaryGuard(op: string, l: Value, r: Value, types: seq<string>): (err: string)
    ensures err == "" <==> TypeName(l) == TypeName(r) && TypeName(r) in types
  {
    if TypeName(r) != TypeName(l) then SameTypeMessage(op, r, l)
    else if TypeName(r) !in types then OperandMessage(op, "right", types, r)
    else ""
  }

  /** A numeric binary operator: guard, then combine the two numbers. */
  function NumericOp(op: string, l: Value, r: Value, f: (real, real) -> Value): (o: Outcome)
    ensures o.error == "" <==> l.Number? && r.Number?
    ensures l.Number? && r.Number? ==> o.value == f(l.n, r.n)
  {
    var err := BinaryGuard(op, l, r, ["Number"]);
    if err != "" then Fail(err) else Ok(f(l.n, r.n))
  }

  /** Runs one operator definition on (left, right); a unary operator gets
      Null on the right. `Deref` reads the variables and constants. */
  function ApplyOp(impl: OpImpl, l: Value, r: Value, st: Settings): Eval<Outcome> {
    match impl
    case Add =>
      var err := BinaryGuard("+", l, r, ["Number", "String"]);
      Done(if err != "" then Fail(err)
           else if r.Number? then Ok(Number(l.n + r.n))
           else Ok(Str(l.s + r.s)))
    case Sub => Done(NumericOp("-", l, r, (a, b) => Number(a - b)))
    case Negate =>
      Done(if l.Number? then Ok(Number(l.n * -1.0)) else Fail(OperandMessage("-", "left", ["Number"], l)))
    case Mul => Done(NumericOp("*", l, r, (a, b) => Number(a * b)))
    case Div =>
      var err := BinaryGuard("/", l, r, ["Number"]);
      Done(if err != "" then Fail(err)
           else if r.n == 0.0 then Fail("/: division through 0 is not allowed")
           else Ok(Number(l.n / r.n)))
    case Pow =>
      var err := BinaryGuard("^", l, r, ["Number"]);
      if err != "" then Done(Fail(err))
      else if r.n >= 0.0 && r.n.Floor as real == r.n then Done(Ok(Number(RealPow(l.n, r.n.Floor))))
      else Stuck(Unmodelled("std::pow with an exponent that is not a natural number"))
    case Is =>
      Done(if TypeName(r) != TypeName(l) then Fail(SameTypeMessage("is", r, l)) else Ok(Bool(ValueEq(r, l))))
    case Isnt =>
      Done(if TypeName(r) != TypeName(l) then Fail(SameTypeMessage("isnt", r, l)) else Ok(Bool(!ValueEq(r, l))))
    case And => Done(NumericOp("and", l, r, (a, b) => Bool(a == 1.0 && b != 0.0)))
    case Or => Done(NumericOp("or", l, r, (a, b) => Bool(a == 1.0 || b == 1.0)))
    case More => Done(NumericOp("more", l, r, (a, b) => Bool(a > b)))
    case Less => Done(NumericOp("less", l, r, (a, b) => Bool(a < b)))
    case Not =>
      Done(if l.Number? then Ok(Bool(l.n == 0.0)) else Fail(OperandMessage("not", "left", ["Number"], l)))
    case Deref =>
      Done(if !l.Name? then Fail(OperandMessage("$", "left", ["Name"], l))
           else if l.name in st.variables then Ok(st.variables[l.name])
           else if l.name in st.constants then Ok(st.constants[l.name])
           else Fail("$: left is not a registered variable or constant!"))
    case NativeOp(f) => Done(f(l, r))
  }

  /** The default operators that take two operands. */
  predicate IsDefaultBinary(impl: OpImpl) {
    impl.Add? || impl.Sub? || impl.Mul? || impl.Div? || impl.Pow? || impl.Is? || impl.Isnt?
    || impl.And? || impl.Or? || impl.More? || impl.Less?
  }

  /** Every default binary operator rejects operands of different types
      with the same-type message and yields Null. */
  lemma BinaryOperatorsNeedSameType(impl: OpImpl, l: Value, r: Value, st: Settings)
    requires IsDefaultBinary(impl)
    requires TypeName(l) != TypeName(r)
    ensures ApplyOp(impl, l, r, st).Done?
    ensures StartsWith(ApplyOp(impl, l, r, st).value.error, '"')
    ensures ApplyOp(impl, l, r, st).value.value == Null
  {
    var op := match impl
      case Add => "+" case Sub => "-" case Mul => "*" case Div => "/" case Pow => "^"
      case Is => "is" case Isnt => "isnt" case And => "and" case Or => "or"
      case More => "more" case _ => "less";
    var msg := SameTypeMessage(op, r, l);
    assert msg[0] == '"';
    assert ApplyOp(impl, l, r, st) == Done(Fail(msg));
  }

  /** `is` and `isnt` are complementary, and `is` holds exactly for equal values. */
  lemma IsIsntComplement(l: Value, r: Value, st: Settings)
    requires TypeName(l) == TypeName(r)
    ensures ApplyOp(Is, l, r, st) == Done(Ok(Bool(l == r)))
    ensures ApplyOp(Isnt, l, r, st) == Done(Ok(Bool(l != r)))
  {
    ValueEqIsEquality(r, l);
  }

  /** Division by zero is refused with its own message and yields Null. */
  lemma DivisionByZero(l: Value, st: Settings)
    requires l.Number?
    ensures ApplyOp(Div, l, Number(0.0), st) == Done(Fail("/: division through 0 is not allowed"))
  {
  }

  /** `$` prefers a variable over a constant of the same name and fails
      only when neither exists. */
  lemma DerefLookupOrder(name: string, st: Settings)
    ensures name in st.variables ==> ApplyOp(Deref, Name(name), Null, st) == Done(Ok(st.variables[name]))
    ensures name !in st.variables && name in st.constants ==>
      ApplyOp(Deref, Name(name), Null, st) == Done(Ok(st.constants[name]))
    ensures ApplyOp(Deref, Name(name), Null, st).value.error != "" <==>
      name !in st.variables && name !in st.constants
  {
  }

  /** Truth for `and`/`or` is the number 1 exactly: `and` also accepts any
      non-zero right operand, `or` wants 1 on one side. */
  lemma LogicUsesExactlyOne(a: real, b: real, st: Settings)
    ensures ApplyOp(And, Number(a), Number(b), st) == Done(Ok(Bool(a == 1.0 && b != 0.0)))
    ensures ApplyOp(Or, Number(a), Number(b), st) == Done(Ok(Bool(a == 1.0 || b == 1.0)))
  {
  }

  // ---------------------------------------------------------------------
  // Literals
  // ---------------------------------------------------------------------

  predicate IsNameChar(c: char) { IsAlnum(c) || c == '_' }

  /** An identifier: non-empty, no leading digit, only letters, digits and
      underscores (`is_name`, and the Name typecheck). */
  predicate IsName(s: string) {
    s != [] && !IsDigit(s[0]) && forall k :: 0 <= k < |s| ==> IsNameChar(s[k])
  }

  /** One typecheck applied to a token: a value, or no match. A numeral
      `stold` reads as infinity or NaN is outside the model. */
  function RunTypeCheck(tc: TypeCheck, t: Token): Eval<Option<Value>> {
    match tc
    case StringCheck => Done(if t.str then Some(Str(t.src)) else None)
    case NumberCheck =>
      if t.str then Done(None)
      else (match ReadNumber(t.src)
            case Finite(v, _) => Done(Some(Number(v)))
            case NonFinite(_) => Stuck(Unmodelled("a non-finite number literal"))
            case NoNumber => Done(None))
    case NullCheck => Done(if !t.str && t.src == "null" then Some(Null) else None)
    case NameCheck => Done(if !t.str && IsName(t.src) then Some(Name(t.src)) else None)
    case NativeCheck(f) => Done(f(t))
  }

  /** `to_var`: the value of the first typecheck, in registration order,
      that accepts the token; Null when none does. */
  function ToVar(t: Token, tcs: seq<TypeCheck>): Eval<Value>
    decreases |tcs|
  {
    if tcs == [] then Done(Null)
    else
      var r :- RunTypeCheck(tcs[0], t);
      if r.Some? then Done(r.value) else ToVar(t, tcs[1..])
  }

  /** `valid_literal`: some typecheck accepts the token. */
  function ValidLiteral(t: Token, tcs: seq<TypeCheck>): Eval<bool>
    decreases |tcs|
  {
    if tcs == [] then Done(false)
    else
      var r :- RunTypeCheck(tcs[0], t);
      if r.Some? then Done(true) else ValidLiteral(t, tcs[1..])
  }

  /** When the typechecks before position k decline and the one at k
      accepts, the token becomes that check's value and is a valid literal. */
  lemma {:induction false} ToVarFirstMatch(t: Token, tcs: seq<TypeCheck>, k: nat, v: Value)
    requires k < |tcs|
    requires forall j :: 0 <= j < k ==> RunTypeCheck(tcs[j], t) == Done(None)
    requires RunTypeCheck(tcs[k], t) == Done(Some(v))
    ensures ToVar(t, tcs) == Done(v)
    ensures ValidLiteral(t, tcs) == Done(true)
    decreases k
  {
    if k > 0 {
      assert RunTypeCheck(tcs[0], t) == Done(None);
      ToVarFirstMatch(t, tcs[1..], k - 1, v);
    }
  }

  /** When every typecheck declines, the token becomes Null and is not a
      valid literal. */
  lemma {:induction false} ToVarNoMatch(t: Token, tcs: seq<TypeCheck>)
    requires forall j :: 0 <= j < |tcs| ==> RunTypeCheck(tcs[j], t) == Done(None)
    ensures ToVar(t, tcs) == Done(Null)
    ensures ValidLiteral(t, tcs) == Done(false)
    decreases |tcs|
  {
    if tcs != [] {
      assert RunTypeCheck(tcs[0], t) == Done(None);
      ToVarNoMatch(t, tcs[1..]);
    }
  }

  const DefaultTypechecks: seq<TypeCheck> := [StringCheck, NumberCheck, NullCheck, NameCheck]

  /** A quoted token is always a String under the default rules. */
  lemma DefaultStringLiteral(t: Token)
    requires t.str
    ensures ToVar(t, DefaultTypechecks) == Done(Str(t.src))
  {
    ToVarFirstMatch(t, DefaultTypechecks, 0, Str(t.src));
  }

  /** An unquoted token with a numeral prefix is a Number, whatever follows
      the prefix (`3abc` is 3). */
  lemma DefaultNumberLiteral(t: Token, v: real, len: nat)
    requires !t.str && ReadNumber(t.src) == Finite(v, len)
    ensures ToVar(t, DefaultTypechecks) == Done(Number(v))
  {
    var tcs := DefaultTypechecks;
    assert RunTypeCheck(tcs[0], t) == Done(None);
    assert RunTypeCheck(tcs[1], t) == Done(Some(Number(v)));
    ToVarFirstMatch(t, tcs, 1, Number(v));
  }

  /** Without a numeral prefix, `null` is Null, an identifier is a Name,
      and anything else is not a literal at all. */
  lemma DefaultWordLiteral(t: Token)
    requires !t.str && ReadNumber(t.src).NoNumber?
    ensures t.src == "null" ==> ToVar(t, DefaultTypechecks) == Done(Null)
    ensures t.src != "null" && IsName(t.src) ==> ToVar(t, DefaultTypechecks) == Done(Name(t.src))
    ensures t.src != "null" && !IsName(t.src) ==>
      ToVar(t, DefaultTypechecks) == Done(Null) && ValidLiteral(t, DefaultTypechecks) == Done(false)
  {
    if t.src == "null" {
      DefaultNullWord(t);
    } else if IsName(t.src) {
      DefaultNameWord(t);
    } else {
      DefaultOtherWord(t);
    }
  }

  lemma DefaultNullWord(t: Token)
    requires !t.str && ReadNumber(t.src).NoNumber? && t.src == "null"
    ensures ToVar(t, DefaultTypechecks) == Done(Null)
  {
    var tcs := DefaultTypechecks;
    assert RunTypeCheck(tcs[0], t) == Done(None);
    assert RunTypeCheck(tcs[1], t) == Done(None);
    ToVarFirstMatch(t, tcs, 2, Null);
  }

  lemma DefaultNameWord(t: Token)
    requires !t.str && ReadNumber(t.src).NoNumber? && t.src != "null" && IsName(t.src)
    ensures ToVar(t, DefaultTypechecks) == Done(Name(t.src))
  {
    var tcs := DefaultTypechecks;
    assert RunTypeCheck(tcs[0], t) == Done(None);
    assert RunTypeCheck(tcs[1], t) == Done(None);
    assert RunTypeCheck(tcs[2], t) == Done(None);
    ToVarFirstMatch(t, tcs, 3, Name(t.src));
  }

  lemma DefaultOtherWord(t: Token)
    requires !t.str && ReadNumber(t.src).NoNumber? && t.src != "null" && !IsName(t.src)
    ensures ToVar(t, DefaultTypechecks) == Done(Null) && ValidLiteral(t, DefaultTypechecks) == Done(false)
  {
    var tcs := DefaultTypechecks;
    assert RunTypeCheck(tcs[0], t) == Done(None);
    assert RunTypeCheck(tcs[1], t) == Done(None);
    assert RunTypeCheck(tcs[2], t) == Done(None);
    assert RunTypeCheck(tcs[3], t) == Done(None);
    ToVarNoMatch(t, tcs);
  }

  // ---------------------------------------------------------------------
  // Builtins that need no nested run
  // ---------------------------------------------------------------------

  /** `_cc_error`: the message is stored and the builtin returns Null. */
  function Err(st: Settings, msg: string): (r: Eval<Evaluated>)
    ensures r.Done? ==> RunStateOnly(st, r.value.st)
  {
    Done(Evaluated(Null, st.(errorMsg := msg)))
  }

  function Nothing(st: Settings): (r: Eval<Evaluated>)
    ensures r.Done? ==> RunStateOnly(st, r.value.st)
  { Done(Evaluated(Null, st)) }

  /** Reading an argument the caller did not pass is undefined in the source. */
  const MissingArgument: StuckReason := Undefined("an argument beyond the argument list is read")

  /** `set`: binds a Name to any non-Name value. */
  function SetBuiltin(args: seq<Value>, st: Settings): (r: Eval<Evaluated>)
    ensures r.Done? ==> RunStateOnly(st, r.value.st)
  {
    if Skipping(st) then Nothing(st)
    else if |args| == 0 then Stuck(MissingArgument)
    else if !args[0].Name? then Err(st, RequiresMessage("args[0]", ["Name"], args[0]))
    else if |args| < 2 then Stuck(MissingArgument)
    else if args[1].Name? then Err(st, NotRequiresMessage("args[1]", ["Name"], args[1]))
    else Nothing(st.(variables := st.variables[args[0].name := args[1]]))
  }

  /** `if`: inside a skipped branch only counts the nesting; otherwise pushes
      whether the condition is exactly 1. */
  function IfBuiltin(args: seq<Value>, st: Settings): (r: Eval<Evaluated>)
    ensures r.Done? ==> RunStateOnly(st, r.value.st)
  {
    if Skipping(st) then Nothing(st.(ignoreEndifs := st.ignoreEndifs + 1))
    else if |args| == 0 then Stuck(MissingArgument)
    else if !args[0].Number? then Err(st, RequiresMessage("args[0]", ["Number"], args[0]))
    else Nothing(st.(shouldRun := st.shouldRun + [args[0].n == 1.0]))
  }

  /** `else`: flips the innermost condition. */
  function ElseBuiltin(st: Settings): (r: Eval<Evaluated>)
    ensures r.Done? ==> RunStateOnly(st, r.value.st)
  {
    if st.shouldRun == [] then Err(st, "no if")
    else Nothing(st.(shouldRun := DropLast(st.shouldRun) + [!Last(st.shouldRun)]))
  }

  /** `endif`: first consumes the nested ifs of a skipped branch, then pops. */
  function EndifBuiltin(st: Settings): (r: Eval<Evaluated>)
    ensures r.Done? ==> RunStateOnly(st, r.value.st)
  {
    if st.ignoreEndifs != 0 then Nothing(st.(ignoreEndifs := st.ignoreEndifs - 1))
    else if st.shouldRun == [] then Err(st, "no if")
    else Nothing(st.(shouldRun := DropLast(st.shouldRun)))
  }

  /** `return`: stores the value and stops the label. */
  function ReturnBuiltin(args: seq<Value>, st: Settings): (r: Eval<Evaluated>)
    ensures r.Done? ==> RunStateOnly(st, r.value.st)
    ensures Skipping(st) ==> r == Done(Evaluated(Null, st))
    ensures !Skipping(st) && |args| > 0 ==>
      && r.Done? && r.value.value == Null
      && r.value.st.returnValue == args[0] && r.value.st.exit
      && r.value.st == st.(returnValue := args[0], exit := true)
  {
    if Skipping(st) then Nothing(st)
    else if |args| == 0 then Stuck(MissingArgument)
    else Nothing(st.(returnValue := args[0], exit := true))
  }

  /** `typeof`: the name of the argument's type, as a String. */
  function TypeOfBuiltin(args: seq<Value>, st: Settings): (r: Eval<Evaluated>)
    ensures r.Done? ==> RunStateOnly(st, r.value.st)
    ensures Skipping(st) ==> r == Done(Evaluated(Null, st))
    ensures !Skipping(st) && |args| > 0 ==> r == Done(Evaluated(Str(TypeName(args[0])), st))
  {
    if Skipping(st) then Nothing(st)
    else if |args| == 0 then Stuck(MissingArgument)
    else Done(Evaluated(Str(TypeName(args[0])), st))
  }

  /** `to_number`: numbers pass through; a string must be one whole numeral. */
  function ToNumberBuiltin(args: seq<Value>, st: Settings): (r: Eval<Evaluated>)
    ensures r.Done? ==> RunStateOnly(st, r.value.st)
  {
    if Skipping(st) then Nothing(st)
    else if |args| == 0 then Stuck(MissingArgument)
    else if !(args[0].Number? || args[0].Str?) then Err(st, RequiresMessage("args[0]", ["Number", "String"], args[0]))
    else if args[0].Number? then Done(Evaluated(args[0], st))
    else
      var s := args[0].s;
      match ReadNumber(s)
      case Finite(v, len) =>
        if len == |s| then Done(Evaluated(Number(v), st)) else Err(st, "invalid input: \"" + s + "\"")
      case NonFinite(len) =>
        if len == |s| then Stuck(Unmodelled("a non-finite number")) else Err(st, "invalid input: \"" + s + "\"")
      case NoNumber => Err(st, "invalid input: \"" + s + "\"")
  }

  /** `to_string`: a number's `std::to_string` text (all six decimals kept);
      strings pass through. */
  function ToStringBuiltin(args: seq<Value>, st: Settings): (r: Eval<Evaluated>)
    ensures r.Done? ==> RunStateOnly(st, r.value.st)
  {
    if Skipping(st) then Nothing(st)
    else if |args| == 0 then Stuck(MissingArgument)
    else if !(args[0].Number? || args[0].Str?) then Err(st, RequiresMessage("args[0]", ["Number", "String"], args[0]))
    else if args[0].Number? then Done(Evaluated(Str(Render(args[0].n)), st))
    else Done(Evaluated(args[0], st))
  }

  /** `exit`: ends the process with the truncated status. */
  function ExitBuiltin(args: seq<Value>, st: Settings): (r: Eval<Evaluated>)
    ensures r.Done? ==> RunStateOnly(st, r.value.st)
  {
    if Skipping(st) then Nothing(st)
    else if |args| == 0 then Stuck(MissingArgument)
    else if !args[0].Number? then Err(st, RequiresMessage("args[0]", ["Number"], args[0]))
    else Stuck(Exit(TruncToInt(args[0].n)))
  }

  /** Every builtin but `if`, `else` and `endif` does nothing in a skipped branch. */
  lemma SkippedBuiltinsDoNothing(args: seq<Value>, st: Settings)
    requires Skipping(st)
    ensures SetBuiltin(args, st) == Nothing(st) && ReturnBuiltin(args, st) == Nothing(st)
    ensures TypeOfBuiltin(args, st) == Nothing(st) && ToNumberBuiltin(args, st) == Nothing(st)
    ensures ToStringBuiltin(args, st) == Nothing(st) && ExitBuiltin(args, st) == Nothing(st)
    ensures StrmodBuiltin(args, st) == Nothing(st) && StrmodAsWritten(args, st) == Nothing(st)
  {
  }

  /** Only exactly 1 opens an `if` branch; inside a skipped branch `if`
      checks nothing and only counts. */
  lemma IfTakesExactlyOne(x: real, st: Settings)
    requires !Skipping(st)
    ensures IfBuiltin([Number(x)], st) == Nothing(st.(shouldRun := st.shouldRun + [x == 1.0]))
    ensures IfBuiltin([Number(2.0)], st).value.st.shouldRun == st.shouldRun + [false]
  {
  }

  /** `if` followed by `endif` restores the condition stack, and `else`
      twice restores it too; neither `else` nor `endif` looks at the
      skipping state. */
  lemma IfElseEndifBalance(x: real, st: Settings)
    requires !Skipping(st) && st.ignoreEndifs == 0
    ensures var s1 := IfBuiltin([Number(x)], st).value.st;
      EndifBuiltin(s1) == Nothing(st)
    ensures st.shouldRun != [] ==> ElseBuiltin(ElseBuiltin(st).value.st) == Nothing(st)
  {
    var s1 := IfBuiltin([Number(x)], st).value.st;
    assert DropLast(s1.shouldRun) == st.shouldRun;
    if st.shouldRun != [] {
      var s2 := ElseBuiltin(st).value.st;
      assert DropLast(s2.shouldRun) == DropLast(st.shouldRun);
      assert DropLast(s2.shouldRun) + [!Last(s2.shouldRun)] == st.shouldRun;
    }
  }

  /** A skipped `if` is balanced by its `endif`: the counter goes up and
      back down and the condition stack is untouched. */
  lemma SkippedIfBalance(args: seq<Value>, st: Settings)
    requires Skipping(st) && st.ignoreEndifs >= 0
    ensures EndifBuiltin(IfBuiltin(args, st).value.st) == Nothing(st)
  {
  }

  /** `set` stores exactly the given value under the given name, and `$`
      then reads it back. */
  lemma SetThenDeref(name: string, v: Value, st: Settings)
    requires !Skipping(st) && !v.Name?
    ensures SetBuiltin([Name(name), v], st) == Nothing(st.(variables := st.variables[name := v]))
    ensures ApplyOp(Deref, Name(name), Null, SetBuiltin([Name(name), v], st).value.st) == Done(Ok(v))
  {
  }

  // ---------------------------------------------------------------------
  // strmod
  // ---------------------------------------------------------------------

  /** The C++ conversion of a number to `int`: truncation, undefined when
      the result does not fit 32 bits. */
  function ToCInt(x: real): Eval<int> {
    var i := TruncToInt(x);
    if -0x8000_0000 <= i < 0x8000_0000 then Done(i) else Stuck(Undefined("int conversion out of range"))
  }

  /** `idx >= str.size()` with `idx` converted to unsigned: a negative index
      counts as too large, so the separate underflow check never fires. */
  predicate IndexOverflows(idx: int, s: string) { idx < 0 || idx >= |s| }

  /** ERASE: the character at `idx` is removed. */
  function EraseAt(s: string, idx: nat): (r: string)
    requires idx < |s|
    ensures |r| == |s| - 1
    ensures forall k :: 0 <= k < idx ==> r[k] == s[k]
    ensures forall k :: idx <= k < |r| ==> r[k] == s[k + 1]
  {
    s[..idx] + s[idx + 1..]
  }

  /** PUT: the character at `idx` is replaced by `t`. */
  function PutAt(s: string, idx: nat, t: string): (r: string)
    requires idx < |s|
    ensures |r| == |s| - 1 + |t|
    ensures r[..idx] == s[..idx] && r[idx..idx + |t|] == t && r[idx + |t|..] == s[idx + 1..]
  {
    s[..idx] + t + s[idx + 1..]
  }

  /** INSERT as written: `substr(0, idx - 1)` then `t` then `substr(idx, size - 1)`;
      at index 0 the first count wraps to "everything". */
  function InsertAt(s: string, idx: nat, t: string): string
    requires idx < |s|
  {
    if idx == 0 then s + t + s[..|s| - 1] else s[..idx - 1] + t + s[idx..]
  }

  /** SUBSTR as written, after the swap that puts the smaller index first:
      equal indices give "", otherwise the count wraps and the suffix from
      the larger index is returned. */
  function SubstrAt(s: string, a: nat, b: nat): (r: string)
    requires a < |s| && b < |s|
    ensures a == b ==> r == ""
    ensures a != b ==> r == s[(if a < b then b else a)..]
  {
    var lo := if a < b then a else b;
    var hi := if a < b then b else a;
    if lo == hi then "" else s[hi..]
  }

  /** INSERT at a positive index does not insert: it overwrites the
      character before the index, exactly like PUT one place earlier. */
  lemma InsertIsPutBefore(s: string, idx: nat, t: string)
    requires 0 < idx < |s|
    ensures InsertAt(s, idx, t) == PutAt(s, idx - 1, t)
  {
  }

  /** PUT of the character already there, and ERASE followed by PUT of the
      removed character one place earlier, give back the string. */
  lemma PutErasePartners(s: string, idx: nat)
    requires idx < |s|
    ensures PutAt(s, idx, [s[idx]]) == s
    ensures idx > 0 ==> PutAt(EraseAt(s, idx), idx - 1, [s[idx - 1], s[idx]]) == s
  {
    assert s[..idx] + [s[idx]] + s[idx + 1..] == s;
    if idx > 0 {
      var e := EraseAt(s, idx);
      assert e[..idx - 1] == s[..idx - 1];
      assert e[idx..] == s[idx + 1..];
      assert s[..idx - 1] + [s[idx - 1], s[idx]] + s[idx + 1..] == s;
    }
  }

  datatype StrmodResult = Failed(msg: string) | Stored(text: string) | Yields(v: Value)

  /** The sub-commands of `strmod` on the string `s` held by the variable:
      each checks its exact argument count, then argument types, then that
      the string is non-empty, then the indices. */
  function StrmodEdit(args: seq<Value>, s: string): Eval<StrmodResult>
    requires |args| >= 2 && args[0].Name?
  {
    var cmd := args[0].name;
    if cmd == "ERASE" then
      if |args| != 3 then Done(Failed("requires 3 arguments"))
      else if !args[2].Number? then Done(Failed(RequiresMessage("args[2]", ["Number"], args[2])))
      else
        var idx :- ToCInt(args[2].n);
        if s == [] then Done(Failed("string empty"))
        else if IndexOverflows(idx, s) then Done(Failed("index overflow"))
        else Done(Stored(EraseAt(s, idx)))
    else if cmd == "INSERT" || cmd == "PUT" then
      if |args| != 4 then Done(Failed("requires 4 arguments"))
      else if !args[2].Number? then Done(Failed(RequiresMessage("args[2]", ["Number"], args[2])))
      else if !args[3].Str? then Done(Failed(RequiresMessage("args[3]", ["String"], args[3])))
      else
        var idx :- ToCInt(args[2].n);
        if s == [] then Done(Failed("string empty"))
        else if IndexOverflows(idx, s) then Done(Failed("index overflow"))
        else if cmd == "INSERT" then Done(Stored(InsertAt(s, idx, args[3].s)))
        else Done(Stored(PutAt(s, idx, args[3].s)))
    else if cmd == "BACK" then
      if |args| != 2 then Done(Failed("requires 2 arguments"))
      else if s == [] then Done(Failed("string empty"))
      else Done(Yields(Str([Last(s)])))
    else if cmd == "SIZE" then
      if |args| != 2 then Done(Failed("requires 2 arguments"))
      else Done(Yields(Number(|s| as real)))
    else if cmd == "AT" then
      if |args| != 3 then Done(Failed("requires 3 arguments"))
      else if !args[2].Number? then Done(Failed(RequiresMessage("args[2]", ["Number"], args[2])))
      else if s == [] then Done(Failed("string empty"))
      else
        var idx :- ToCInt(args[2].n);
        if IndexOverflows(idx, s) then Done(Failed("index overflow"))
        else Done(Yields(Str([s[idx]])))
    else if cmd == "SUBSTR" then
      if |args| != 4 then Done(Failed("requires 4 arguments"))
      else if !args[2].Number? then Done(Failed(RequiresMessage("args[2]", ["Number"], args[2])))
      else if !args[3].Number? then Done(Failed(RequiresMessage("args[3]", ["Number"], args[3])))
      else if s == [] then Done(Failed("string empty"))
      else
        var from :- ToCInt(args[2].n);
        var to :- ToCInt(args[3].n);
        if IndexOverflows(from, s) || IndexOverflows(to, s) then Done(Failed("index overflow"))
        else Done(Yields(Str(SubstrAt(s, from, to))))
    else Done(Failed("unknown enum type"))
  }

  /** The checks `strmod` makes before it looks at the variable. */
  function StrmodPrelude(args: seq<Value>, st: Settings): Option<Eval<Evaluated>> {
    if Skipping(st) then Some(Nothing(st))
    else if |args| < 2 then Some(Err(st, "requires at least two argument"))
    else if !args[0].Name? then Some(Err(st, RequiresMessage("args[0]", ["Name"], args[0])))
    else if !args[1].Name? then Some(Err(st, RequiresMessage("args[1]", ["Name"], args[1])))
    else if args[1].name !in st.variables then Some(Stuck(Undefined("the type of a missing variable is read")))
    else None
  }

  /** `strmod` as the source writes it: the guard fires when the variable IS
      a string, and any other variable is then read as a string. */
  function StrmodAsWritten(args: seq<Value>, st: Settings): (r: Eval<Evaluated>)
    ensures r.Done? ==> RunStateOnly(st, r.value.st)
  {
    match StrmodPrelude(args, st)
    case Some(r) => r
    case None =>
      if st.variables[args[1].name].Str? then Err(st, "requires string variable")
      else Stuck(Undefined("a " + TypeName(st.variables[args[1].name]) + " variable is read as a string"))
  }

  /** As written, no `strmod` call on a string variable can succeed: every
      sub-command, even an unknown one, reports "requires string variable". */
  lemma StrmodAsWrittenRejectsStrings(cmd: string, v: string, rest: seq<Value>, st: Settings)
    requires !Skipping(st)
    requires v in st.variables && st.variables[v].Str?
    ensures StrmodAsWritten([Name(cmd), Name(v)] + rest, st) == Err(st, "requires string variable")
  {
  }

  /** `strmod` with its guard the evident way round: a string variable is
      edited, anything else is refused. */
  function StrmodBuiltin(args: seq<Value>, st: Settings): (r: Eval<Evaluated>)
    ensures r.Done? ==> RunStateOnly(st, r.value.st)
  {
    match StrmodPrelude(args, st)
    case Some(r) => r
    case None =>
      var name := args[1].name;
      if !st.variables[name].Str? then Err(st, "requires string variable")
      else
        var r :- StrmodEdit(args, st.variables[name].s);
        match r
        case Failed(m) => Err(st, m)
        case Stored(t) => Nothing(st.(variables := st.variables[name := Str(t)]))
        case Yields(v) => Done(Evaluated(v, st))
  }

  /** With the guard corrected, the editing sub-commands store their result
      in the variable and return Null; SIZE returns the length. */
  lemma StrmodEdits(v: string, s: string, idx: nat, t: string, st: Settings)
    requires !Skipping(st)
    requires v in st.variables && st.variables[v] == Str(s)
    requires idx < |s| && idx < 0x8000_0000
    ensures StrmodBuiltin([Name("ERASE"), Name(v), Number(idx as real)], st)
      == Nothing(st.(variables := st.variables[v := Str(EraseAt(s, idx))]))
    ensures StrmodBuiltin([Name("PUT"), Name(v), Number(idx as real), Str(t)], st)
      == Nothing(st.(variables := st.variables[v := Str(PutAt(s, idx, t))]))
    ensures StrmodBuiltin([Name("SIZE"), Name(v)], st) == Done(Evaluated(Number(|s| as real), st))
    ensures StrmodBuiltin([Name("AT"), Name(v), Number(idx as real)], st) == Done(Evaluated(Str([s[idx]]), st))
  {
    assert TruncToInt(idx as real) == idx;
  }

  /** A negative index is reported as an overflow, never an underflow. */
  lemma NegativeIndexOverflows(v: string, s: string, st: Settings)
    requires !Skipping(st)
    requires v in st.variables && st.variables[v] == Str(s) && s != []
    ensures StrmodBuiltin([Name("AT"), Name(v), Number(-1.0)], st) == Err(st, "index overflow")
    ensures StrmodBuiltin([Name("ERASE"), Name(v), Number(-1.0)], st) == Err(st, "index overflow")
  {
    assert TruncToInt(-1.0) == -1;
  }

  // ---------------------------------------------------------------------
  // Default tables
  // ---------------------------------------------------------------------

  const DefaultBuiltins: map<string, Builtin> := map[
    "set" := Builtin(2, SetVar),
    "if" := Builtin(1, If),
    "else" := Builtin(0, Else),
    "endif" := Builtin(0, Endif),
    "echo" := Builtin(-1, Host("echo")),
    "echoln" := Builtin(-1, Host("echoln")),
    "input" := Builtin(1, Host("input")),
    "to_number" := Builtin(1, ToNumber),
    "to_string" := Builtin(1, ToString),
    "exec" := Builtin(-1, Host("exec")),
    "exit" := Builtin(1, ExitProcess),
    "system" := Builtin(1, Host("system")),
    "read" := Builtin(1, Host("read")),
    "write" := Builtin(2, Host("write")),
    "call" := Builtin(-1, CallLabel),
    "return" := Builtin(1, Return),
    "strmod" := Builtin(-1, Strmod),
    "bake" := Builtin(1, Host("bake")),
    "typeof" := Builtin(1, TypeOf)]

  const DefaultOperators: map<string, seq<Operator>> := map[
    "+" := [Operator(0, Binary, Add)],
    "-" := [Operator(0, Binary, Sub), Operator(-3, Unary, Negate)],
    "*" := [Operator(-1, Binary, Mul)],
    "/" := [Operator(-1, Binary, Div)],
    "^" := [Operator(-2, Binary, Pow)],
    "is" := [Operator(2, Binary, Is)],
    "isnt" := [Operator(2, Binary, Isnt)],
    "and" := [Operator(3, Binary, And)],
    "or" := [Operator(4, Binary, Or)],
    "more" := [Operator(5, Binary, More)],
    "less" := [Operator(5, Binary, Less)],
    "not" := [Operator(-4, Unary, Not)],
    "$" := [Operator(-5, Unary, Deref)]]

  /** The macros of a Linux build. */
  const DefaultMacros: map<string, string> := map[
    "WINDOWS" := "0", "LINUX" := "1", "UNKNOWN" := "0", "OSNAME" := "\"LINUX\""]

  const DefaultRegistry: Registry := Registry(DefaultBuiltins, DefaultOperators, DefaultTypechecks, DefaultMacros)
}

=== FILE: script_engine.dfy ===
/** The expression evaluator and the statement executor of the script
    engine. They call each other (a statement's arguments are expressions,
    an expression may call a builtin, `call` runs a label), so they form one
    group of functions. Every member takes a `fuel` bound that each nested
    call lowers by one; running out gives `Stuck(OutOfFuel)`, which no
    real run of the source corresponds to. */
module ScriptEngine {
  import opened Common
  import opened KittenLexer
  import opened ScriptValues
  import opened ScriptState
  import opened ScriptDefaults
  import opened ScriptParsing

  /** A classified expression token (`_OperatorToken`): a literal value, an
      operator (with the kind, priority and function chosen for it so far),
      a builtin call with its argument list text, or a parenthesised
      sub-expression. */
  datatype MTok =
    | Val(v: Value)
    | Op(tk: string, kind: OpKind, priority: int, impl: Option<OpImpl>)
    | Call(fn: string, arguments: string)
    | Capsule(text: string)

  /** `_ExpressionErrors`: every message recorded so far, and whether one was
      recorded since the last reset. */
  datatype Errors = Errors(messages: seq<string>, hasNew: bool) {
    function Push(m: string): (e: Errors)
      ensures e.hasNew && e.messages == messages + [m]
    {
      Errors(messages + [m], true)
    }
  }

  const NoErrors: Errors := Errors([], false)

  datatype Prepared = Prepared(toks: seq<MTok>, errs: Errors)

  /** A value, the settings after computing it, and the error record. */
  datatype Parsed = Parsed(value: Value, st: Settings, errs: Errors)

  /** As `Parsed`, plus the position precedence climbing stopped at. */
  datatype Climbed = Climbed(value: Value, pos: nat, st: Settings, errs: Errors)

  datatype Arguments = Arguments(values: seq<Value>, st: Settings)

  /** The message a label run returns ("" for none) and the settings after it. */
  datatype Ran = Ran(msg: string, st: Settings)

  /** The bound the outermost precedence climb starts with. */
  const MaxPrec: int := 999999999

  const ErrorPrefix: string := "\nError in expression: "

  function JoinLines(ms: seq<string>): string
    decreases |ms|
  {
    if ms == [] then "" else if |ms| == 1 then ms[0] else ms[0] + "\n" + JoinLines(ms[1..])
  }

  /** The error text of a failed expression: the source, then each recorded
      message on its own line. */
  function ExpressionError(source: string, ms: seq<string>): (m: string)
    ensures ErrorPrefix <= m
  {
    ErrorPrefix + source + "\n" + JoinLines(ms)
  }

  function Quoted(t: Token): string { if t.str then "\"" + t.src + "\"" else t.src }

  /** `expression_prepare_tokens`: operators first, then parenthesised
      capsules, then builtin names (which need a following argument list),
      then literals through the typechecks. A malformed call abandons the
      whole list. */
  function PrepareTokens(toks: seq<Token>, i: nat, reg: Registry, errs: Errors, acc: seq<MTok>): (r: Eval<Prepared>)
    requires i <= |toks|
    requires !errs.hasNew ==> forall k :: 0 <= k < |acc| ==> acc[k].Val? ==> !acc[k].v.Null?
    ensures r.Done? && !r.value.errs.hasNew ==> !errs.hasNew
    ensures r.Done? && !r.value.errs.hasNew ==>
      forall k :: 0 <= k < |r.value.toks| ==> r.value.toks[k].Val? ==> !r.value.toks[k].v.Null?
    decreases |toks| - i
  {
    if i == |toks| then Done(Prepared(acc, errs))
    else
      var t := toks[i];
      if !t.str && t.src in reg.operators then
        PrepareTokens(toks, i + 1, reg, errs, acc + [Op(t.src, Unary, 0, None)])
      else if !t.str && StartsWith(t.src, '(') then
        PrepareTokens(toks, i + 1, reg, errs, acc + [Capsule(t.src)])
      else if !t.str && t.src in reg.builtins then
        if i + 1 >= |toks| || toks[i + 1].str then
          Done(Prepared([], errs.Push("function call without argument list")))
        else if !StartsWith(toks[i + 1].src, '(') then
          Done(Prepared([], errs.Push("function call with invalid argument list: " + t.src + " " + toks[i + 1].src)))
        else
          PrepareTokens(toks, i + 2, reg, errs, acc + [Call(t.src, toks[i + 1].src)])
      else
        var v :- ToVar(t, reg.typechecks);
        if v.Null? then
          PrepareTokens(toks, i + 1, reg, errs.Push("invalid literal: " + Quoted(t)), acc + [Val(v)])
        else
          PrepareTokens(toks, i + 1, reg, errs, acc + [Val(v)])
  }

  /** `script_operators[tk]` on a missing name inserts it with no definitions. */
  function TouchOperator(st: Settings, tk: string): (r: Settings)
    ensures tk in r.reg.operators
    ensures r.reg.operators == (if tk in st.reg.operators then st.reg.operators else st.reg.operators[tk := []])
    ensures r == st.(reg := r.reg) && r.reg == st.reg.(operators := r.reg.operators)
  {
    if tk in st.reg.operators then st else st.(reg := st.reg.(operators := st.reg.operators[tk := []]))
  }

  /** The token at a trial position with the chosen definition attached. */
  function Mark(t: MTok, kind: OpKind, o: Operator): MTok {
    if t.Op? then Op(t.tk, kind, o.priority, Some(o.impl)) else t
  }

  function RunOperator(impl: Option<OpImpl>, l: Value, r: Value, st: Settings): Eval<Outcome> {
    match impl
    case None => Stuck(Undefined("an operator without a function is called"))
    case Some(f) => ApplyOp(f, l, r, st)
  }

  /** The label stack after `settings.label.pop()`. */
  function PopLabel(st: Settings): Settings {
    st.(labelStack := if st.labelStack == [] then [] else DropLast(st.labelStack))
  }

  /** A statement line: exactly a builtin name and a parenthesised argument list. */
  predicate ValidLine(g: seq<Token>) {
    |g| == 2 && !g[0].str && !g[1].str && StartsWith(g[1].src, '(')
  }

  /** The index of the first line that is not a valid statement. */
  function FirstInvalid(lines: seq<seq<Token>>, k: nat): (r: Option<nat>)
    requires k <= |lines|
    ensures r.None? ==> forall j :: k <= j < |lines| ==> ValidLine(lines[j])
    ensures r.Some? ==> k <= r.value < |lines| && !ValidLine(lines[r.value])
    ensures r.Some? ==> forall j :: k <= j < r.value ==> ValidLine(lines[j])
    decreases |lines| - k
  {
    if k == |lines| then None
    else if !ValidLine(lines[k]) then Some(k)
    else FirstInvalid(lines, k + 1)
  }

  /** Running scripts changes the interpreter's tables in one way only:
      looking up the definitions of an operator name that has none inserts
      the name with an empty list (for a non-operator token the name is ""). */
  ghost predicate TablesGrow(a: Registry, b: Registry) {
    b.builtins == a.builtins && b.typechecks == a.typechecks && b.macros == a.macros &&
    a.operators.Keys <= b.operators.Keys &&
    (forall n :: n in a.operators ==> b.operators[n] == a.operators[n]) &&
    (forall n :: n in b.operators && n !in a.operators ==> b.operators[n] == [])
  }

  /** What no statement or expression changes: the constants, and the
      tables beyond the growth above. */
  ghost predicate Persistent(a: Settings, b: Settings) {
    b.constants == a.constants && TablesGrow(a.reg, b.reg)
  }

  lemma PersistentTrans(a: Settings, b: Settings, c: Settings)
    requires Persistent(a, b) && Persistent(b, c)
    ensures Persistent(a, c)
  {
  }

  /** Binds each parameter to the argument at its position, from left to
      right, so a parameter named twice ends up with its later argument. */
  function BindArgs(vars: map<string, Value>, params: seq<string>, args: seq<Value>): map<string, Value>
    requires |params| == |args|
    decreases |args|
  {
    if args == [] then vars else BindArgs(vars[params[0] := args[0]], params[1..], args[1..])
  }

  /** A name that is not a parameter keeps its variable (or its absence). */
  lemma {:induction false} BindArgsKeeps(vars: map<string, Value>, params: seq<string>, args: seq<Value>, x: string)
    requires |params| == |args| && x !in params
    ensures x in BindArgs(vars, params, args) <==> x in vars
    ensures x in vars ==> BindArgs(vars, params, args)[x] == vars[x]
    decreases |args|
  {
    if args != [] {
      BindArgsKeeps(vars[params[0] := args[0]], params[1..], args[1..], x);
    }
  }

  /** A parameter not repeated later holds the argument at its position. */
  lemma {:induction false} BindArgsBinds(vars: map<string, Value>, params: seq<string>, args: seq<Value>, k: nat)
    requires |params| == |args| && k < |args| && params[k] !in params[k + 1..]
    ensures params[k] in BindArgs(vars, params, args)
    ensures BindArgs(vars, params, args)[params[k]] == args[k]
    decreases k
  {
    if k == 0 {
      BindArgsKeeps(vars[params[0] := args[0]], params[1..], args[1..], params[0]);
    } else {
      assert params[1..][k - 1..] == params[k..];
      assert params[1..][k - 1 + 1..] == params[k + 1..];
      BindArgsBinds(vars[params[0] := args[0]], params[1..], args[1..], k - 1);
    }
  }

  /** The message of a failed statement: the script line (counted from the
      label's own line), what failed and the label's name around the
      statement's message; under `raw_error` the message alone. */
  function StatementError(st: Settings, labelLine: int, what: string, name: string): (m: string)
    ensures st.rawError ==> m == st.errorMsg
    ensures !st.rawError ==>
      m == "line " + IntToString(st.line + labelLine) + ": " + what + st.errorMsg + " (in label " + name + ")"
    ensures !st.rawError ==> |m| > |st.errorMsg| && m[..5] == "line "
  {
    if st.rawError then st.errorMsg
    else "line " + IntToString(st.line + labelLine) + ": " + what + st.errorMsg + " (in label " + name + ")"
  }

  // ---------------------------------------------------------------------
  // The evaluation group
  // ---------------------------------------------------------------------

  /** `evaluate_expression`: lex, classify, then resolve the operators. Any
      recorded error, or a Null result, becomes the expression error, so a
      successful evaluation never yields Null. */
  function EvaluateExpression(fuel: nat, source: string, st: Settings): (r: Eval<Evaluated>)
    ensures r.Done? && r.value.value.Null? ==> ErrorPrefix <= r.value.st.errorMsg
    ensures r.Done? && r.value.st.errorMsg == "" ==> !r.value.value.Null?
    ensures r.Done? ==> r.value.st.labelStack == st.labelStack
    ensures r.Done? ==> Persistent(st, r.value.st)
    decreases fuel
  {
    if fuel == 0 then Stuck(OutOfFuel)
    else
      var lexed := Lex(ExpressionLexer, source).tokens;
      var prep :- PrepareTokens(lexed, 0, st.reg, NoErrors, []);
      var r :- ForceParse(fuel - 1, prep.toks, 0, st, prep.errs);
      if r.errs.hasNew || r.value.Null? then
        Done(Evaluated(Null, r.st.(errorMsg := ExpressionError(source, r.errs.messages))))
      else Done(Evaluated(r.value, r.st))
  }

  /** `expression_force_parse`: from position i, decides whether the next
      operator is unary (at i) or binary (after the operand at i), and tries
      that kind's definitions in registration order; once every operator is
      chosen, climbs precedence over the whole list. */
  function ForceParse(fuel: nat, toks: seq<MTok>, i: nat, st: Settings, errs: Errors): (r: Eval<Parsed>)
    ensures r.Done? && errs.hasNew ==> r.value.value.Null?
    ensures r.Done? ==> r.value.st.labelStack == st.labelStack
    ensures r.Done? ==> Persistent(st, r.value.st)
    decreases fuel
  {
    if fuel == 0 then Stuck(OutOfFuel)
    else if errs.hasNew then Done(Parsed(Null, st, errs))
    else if |toks| == 1 then
      if toks[0].Op? then Done(Parsed(Null, st, errs.Push("standalone operator detected!")))
      else GetVal(fuel - 1, toks[0], st, errs)
    else
      var j := if i < |toks| && !toks[i].Op? then i + 1 else i;
      if j >= |toks| then
        var c :- CheckPrec(fuel - 1, toks, 0, MaxPrec, st, errs);
        Done(Parsed(c.value, c.st, c.errs))
      else
        var kind := if toks[i].Op? then Unary else Binary;
        var st1 := TouchOperator(st, if toks[j].Op? then toks[j].tk else "");
        TryOptions(fuel - 1, toks, j, kind, st1.reg.operators[if toks[j].Op? then toks[j].tk else ""], st1, errs)
  }

  /** The trial loop of `expression_force_parse`: the first definition of
      the right kind whose trial gives a non-Null value without a new error
      wins; after a failed trial the "new error" flag is reset but its
      messages are kept. */
  function TryOptions(fuel: nat, toks: seq<MTok>, j: nat, kind: OpKind, options: seq<Operator>, st: Settings, errs: Errors): (r: Eval<Parsed>)
    requires j < |toks|
    ensures r.Done? && !r.value.value.Null? ==> !r.value.errs.hasNew
    ensures r.Done? ==> r.value.st.labelStack == st.labelStack
    ensures r.Done? ==> Persistent(st, r.value.st)
    decreases fuel
  {
    if fuel == 0 then Stuck(OutOfFuel)
    else if options == [] then Done(Parsed(Null, st, errs))
    else if options[0].kind != kind then TryOptions(fuel - 1, toks, j, kind, options[1..], st, errs)
    else
      var t :- ForceParse(fuel - 1, toks[j := Mark(toks[j], kind, options[0])], j + 1, st, errs);
      if !t.value.Null? && !t.errs.hasNew then Done(t)
      else TryOptions(fuel - 1, toks, j, kind, options[1..], t.st, t.errs.(hasNew := false))
  }

  /** `expression_check_prec`: an operand (a unary operator applies to the
      operand climbed with its own priority as bound), then binary operators
      while their priority is strictly below `maxprec`. */
  function CheckPrec(fuel: nat, toks: seq<MTok>, pos: nat, maxprec: int, st: Settings, errs: Errors): (r: Eval<Climbed>)
    ensures r.Done? && errs.hasNew ==> r.value.value.Null? && r.value.errs == errs
    ensures r.Done? ==> r.value.st.labelStack == st.labelStack
    ensures r.Done? ==> Persistent(st, r.value.st)
    decreases fuel
  {
    if fuel == 0 then Stuck(OutOfFuel)
    else if errs.hasNew then Done(Climbed(Null, pos, st, errs))
    else if pos >= |toks| then Done(Climbed(Null, pos, st, errs.Push("Unexpected end of expression")))
    else
      var lhs := toks[pos];
      if lhs.Op? then
        var inner :- CheckPrec(fuel - 1, toks, pos + 1, lhs.priority, st, errs);
        var o :- RunOperator(lhs.impl, inner.value, Null, inner.st);
        var st1 := Report(inner.st, o.error);
        var errs1 := if st1.errorMsg != "" then inner.errs.Push(st1.errorMsg) else inner.errs;
        if errs1.hasNew then Done(Climbed(Null, inner.pos, st1, errs1))
        else CheckPrecLoop(fuel - 1, toks, inner.pos, maxprec, Val(o.value), st1, errs1)
      else CheckPrecLoop(fuel - 1, toks, pos + 1, maxprec, lhs, st, errs)
  }

  /** The loop of `expression_check_prec` with the left operand `lhs`. */
  function CheckPrecLoop(fuel: nat, toks: seq<MTok>, pos: nat, maxprec: int, lhs: MTok, st: Settings, errs: Errors): (r: Eval<Climbed>)
    ensures r.Done? ==> r.value.st.labelStack == st.labelStack
    ensures r.Done? ==> Persistent(st, r.value.st)
    decreases fuel, 1
  {
    if fuel == 0 then Stuck(OutOfFuel)
    else if pos >= |toks| then
      var g :- GetVal(fuel - 1, lhs, st, errs);
      Done(Climbed(g.value, pos, g.st, g.errs))
    else
      var vop := toks[pos];
      if !vop.Op? then
        if vop.Val? then Done(Climbed(Null, pos, st, errs.Push("expected operator: " + Printable(vop.v))))
        else Stuck(Undefined("the printable form of an empty value is taken"))
      else if vop.kind != Binary then
        Done(Climbed(Null, pos, st, errs.Push("expected binary operator: " + vop.tk)))
      else if vop.priority >= maxprec then
        var g :- GetVal(fuel - 1, lhs, st, errs);
        Done(Climbed(g.value, pos, g.st, g.errs))
      else ClimbBinary(fuel, toks, pos, maxprec, lhs, st, errs)
  }

  /** A binary operator below the bound: the right operand is climbed with
      the operator's priority as its bound, the left operand is read, and
      the loop goes on with the operator's result as its left operand. */
  function ClimbBinary(fuel: nat, toks: seq<MTok>, pos: nat, maxprec: int, lhs: MTok, st: Settings, errs: Errors): (r: Eval<Climbed>)
    requires fuel > 0 && pos < |toks| && toks[pos].Op?
    ensures r.Done? ==> r.value.st.labelStack == st.labelStack
    ensures r.Done? ==> Persistent(st, r.value.st)
    decreases fuel, 0
  {
    var vop := toks[pos];
    var rhs :- CheckPrec(fuel - 1, toks, pos + 1, vop.priority, st, errs);
    if rhs.errs.hasNew then Done(Climbed(Null, rhs.pos, rhs.st, rhs.errs))
    else
      var left :- GetVal(fuel - 1, lhs, rhs.st, rhs.errs);
      PersistentTrans(st, rhs.st, left.st);
      if left.errs.hasNew then Done(Climbed(Null, rhs.pos, left.st, left.errs))
      else
        var o :- RunOperator(vop.impl, left.value, rhs.value, left.st);
        var st1 := Report(left.st, o.error);
        if st1.errorMsg != "" then
          Done(Climbed(Null, rhs.pos, st1.(errorMsg := ""),
            left.errs.Push(Printable(left.value) + " " + vop.tk + " " + Printable(rhs.value) + ": " + st1.errorMsg)))
        else
          var r := CheckPrecLoop(fuel - 1, toks, rhs.pos, maxprec, Val(o.value), st1, left.errs);
          if r.Done? then PersistentTrans(st, st1, r.value.st); r else r
  }

  /** `_OperatorToken::get_val`: a literal is itself, a call runs the
      builtin, a capsule evaluates its inside; an operator gives Null. */
  function GetVal(fuel: nat, t: MTok, st: Settings, errs: Errors): (r: Eval<Parsed>)
    ensures r.Done? && t.Val? ==> r.value == Parsed(t.v, st, errs)
    ensures r.Done? ==> r.value.st.labelStack == st.labelStack
    ensures r.Done? ==> Persistent(st, r.value.st)
    decreases fuel
  {
    if fuel == 0 then Stuck(OutOfFuel)
    else match t
      case Val(v) => Done(Parsed(v, st, errs))
      case Op(_, _, _, _) => Done(Parsed(Null, st, errs))
      case Call(fn, a) => CallFunction(fuel - 1, fn, a, st, errs)
      case Capsule(text) =>
        if |text| < 2 then Stuck(Undefined("pop_back on an emptied capsule"))
        else
          var e :- EvaluateExpression(fuel - 1, StripEnds(text), st);
          if e.st.errorMsg != "" then
            Done(Parsed(Null, e.st.(errorMsg := ""), errs.Push("Error while parsing " + text + ": " + e.st.errorMsg)))
          else Done(Parsed(e.value, e.st, errs))
  }

  /** `_ExpressionFuncall::call`: evaluate the arguments, check the count
      against a non-negative declared count, then run the builtin. */
  function CallFunction(fuel: nat, fn: string, arguments: string, st: Settings, errs: Errors): (r: Eval<Parsed>)
    ensures r.Done? ==> r.value.st.labelStack == st.labelStack
    ensures r.Done? ==> Persistent(st, r.value.st)
    decreases fuel
  {
    if fuel == 0 then Stuck(OutOfFuel)
    else
      var pa :- ParseArgumentList(fuel - 1, arguments, st);
      var st1 := pa.st;
      var n := |pa.values|;
      if st1.errorMsg != "" then
        Done(Parsed(Null, st1.(errorMsg := ""), errs.Push("error parsing argumentlist: " + st1.errorMsg)))
      else if fn !in st1.reg.builtins then Stuck(Undefined("a builtin without a function is called"))
      else
        var b := st1.reg.builtins[fn];
        if b.argCount >= 0 && n < b.argCount then
          Done(Parsed(Null, st1, errs.Push("function call with too little arguments: " + fn + arguments
            + "\n- needs: " + IntToString(b.argCount) + " got: " + NatToString(n))))
        else if b.argCount >= 0 && n > b.argCount then
          Done(Parsed(Null, st1, errs.Push("function call with too many arguments: " + fn + arguments
            + "\n- needs: " + IntToString(b.argCount) + " got: " + NatToString(n))))
        else
          var e :- ExecBuiltin(fuel - 1, b.impl, pa.values, st1.(errorMsg := ""));
          Done(Parsed(e.value, e.st, if e.st.errorMsg != "" then errs.Push(e.st.errorMsg) else errs))
  }

  /** `parse_argumentlist`: strip the brackets, split on top-level commas,
      evaluate left to right; an empty inside gives no arguments. */
  function ParseArgumentList(fuel: nat, source: string, st: Settings): (r: Eval<Arguments>)
    ensures r.Done? && r.value.st.errorMsg != "" ==> r.value.values == []
    ensures r.Done? && r.value.st.errorMsg == "" ==> forall k :: 0 <= k < |r.value.values| ==> !r.value.values[k].Null?
    ensures r.Done? ==> r.value.st.labelStack == st.labelStack
    ensures r.Done? ==> Persistent(st, r.value.st)
    decreases fuel
  {
    if fuel == 0 then Stuck(OutOfFuel)
    else if |source| < 2 then Stuck(Undefined("an argument list without its brackets"))
    else
      var lexed := Lex(ArgumentLexer, StripEnds(source)).tokens;
      if lexed == [] then Done(Arguments([], st))
      else EvalArguments(fuel - 1, SplitArguments(lexed, st.reg.macros, [""]), st, [])
  }

  /** Evaluates argument texts in order, giving up with no arguments as
      soon as the error message is set. */
  function EvalArguments(fuel: nat, texts: seq<string>, st: Settings, acc: seq<Value>): (r: Eval<Arguments>)
    requires texts != [] || st.errorMsg == ""
    requires forall k :: 0 <= k < |acc| ==> !acc[k].Null?
    ensures r.Done? && r.value.st.errorMsg != "" ==> r.value.values == []
    ensures r.Done? && r.value.st.errorMsg == "" ==> forall k :: 0 <= k < |r.value.values| ==> !r.value.values[k].Null?
    ensures r.Done? ==> r.value.st.labelStack == st.labelStack
    ensures r.Done? ==> Persistent(st, r.value.st)
    decreases fuel, 1
  {
    if fuel == 0 then Stuck(OutOfFuel)
    else if texts == [] then Done(Arguments(acc, st))
    else
      var e :- EvaluateExpression(fuel - 1, texts[0], st);
      if e.st.errorMsg != "" then Done(Arguments([], e.st))
      else MoreArguments(fuel, texts[1..], st, e, acc)
  }

  /** After an argument evaluated without error: its value joins the list
      and the remaining texts are evaluated in the settings it left. */
  function MoreArguments(fuel: nat, texts: seq<string>, st: Settings, e: Evaluated, acc: seq<Value>): (r: Eval<Arguments>)
    requires fuel > 0 && e.st.errorMsg == "" && !e.value.Null?
    requires e.st.labelStack == st.labelStack && Persistent(st, e.st)
    requires forall k :: 0 <= k < |acc| ==> !acc[k].Null?
    ensures r.Done? && r.value.st.errorMsg != "" ==> r.value.values == []
    ensures r.Done? && r.value.st.errorMsg == "" ==> forall k :: 0 <= k < |r.value.values| ==> !r.value.values[k].Null?
    ensures r.Done? ==> r.value.st.labelStack == st.labelStack
    ensures r.Done? ==> Persistent(st, r.value.st)
    decreases fuel, 0
  {
    var acc' := acc + [e.value];
    assert forall k :: 0 <= k < |acc'| ==> !acc'[k].Null?;
    if texts == [] then Done(Arguments(acc', e.st))
    else
      var rest := EvalArguments(fuel - 1, texts, e.st, acc');
      if rest.Done? then PersistentTrans(st, e.st, rest.value.st); rest else rest
  }

  /** Runs a builtin on already evaluated arguments. */
  function ExecBuiltin(fuel: nat, impl: BuiltinImpl, args: seq<Value>, st: Settings): (r: Eval<Evaluated>)
    ensures r.Done? ==> r.value.st.labelStack == st.labelStack
    ensures r.Done? && !impl.CallLabel? ==> RunStateOnly(st, r.value.st)
    ensures r.Done? ==> Persistent(st, r.value.st)
    decreases fuel
  {
    if fuel == 0 then Stuck(OutOfFuel)
    else match impl
      case SetVar => SetBuiltin(args, st)
      case If => IfBuiltin(args, st)
      case Else => ElseBuiltin(st)
      case Endif => EndifBuiltin(st)
      case CallLabel => CallBuiltin(fuel - 1, args, st)
      case Return => ReturnBuiltin(args, st)
      case Strmod => StrmodAsWritten(args, st)
      case TypeOf => TypeOfBuiltin(args, st)
      case ToNumber => ToNumberBuiltin(args, st)
      case ToString => ToStringBuiltin(args, st)
      case ExitProcess => ExitBuiltin(args, st)
      case Host(name) => if Skipping(st) then Nothing(st) else Stuck(Unmodelled("the " + name + " builtin"))
      case Native(f) =>
        var o := f(args);
        Done(Evaluated(o.value, Report(st, o.error)))
  }

  /** `call`: runs a label of the current script in fresh settings that
      share the interpreter's tables and copy the constants; the child's
      error becomes this statement's error, verbatim, and its return value
      is the result. */
  function CallBuiltin(fuel: nat, args: seq<Value>, st: Settings): (r: Eval<Evaluated>)
    ensures r.Done? && !Skipping(st) && |args| > 0 && args[0].Name? && args[0].name !in st.labels ==>
      r.value.st.errorMsg == "no such label " + args[0].name && r.value.value == Null
    ensures r.Done? && !Skipping(st) && |args| > 0 && args[0].Name? && args[0].name in st.labels &&
            |st.labels[args[0].name].arglist| != |args| - 1 ==>
              r.value.st.errorMsg == (if |st.labels[args[0].name].arglist| > |args| - 1 then "too few arguments" else "too many arguments")
    ensures r.Done? ==> r.value.st.labelStack == st.labelStack
    ensures r.Done? ==> Persistent(st, r.value.st)
    ensures r.Done? ==> r.value.st == st.(reg := r.value.st.reg, errorMsg := r.value.st.errorMsg, rawError := r.value.st.rawError)
    ensures fuel == 0 ==> r.Stuck?
    ensures fuel > 0 && !Skipping(st) && |args| > 0 && args[0].Name? && args[0].name in st.labels &&
            |st.labels[args[0].name].arglist| == |args| - 1 ==>
              var c := RunLabel(fuel - 1, args[0].name, st.labels, FreshSettings(st.reg).(constants := st.constants), args[1..]);
              (r.Done? <==> c.Done?) &&
              (c.Done? ==>
                && r.value.value == c.value.st.returnValue
                && r.value.st.reg == c.value.st.reg
                && r.value.st.errorMsg == c.value.msg
                && r.value.st.rawError == (st.rawError || c.value.msg != ""))
    decreases fuel
  {
    if fuel == 0 then Stuck(OutOfFuel)
    else if Skipping(st) then Nothing(st)
    else if |args| == 0 then Err(st, "requires at least one argument")
    else if !args[0].Name? then Err(st, RequiresMessage("args[0]", ["Name"], args[0]))
    else
      var name := args[0].name;
      var runArgs := args[1..];
      if name !in st.labels then Err(st, "no such label " + name)
      else if |st.labels[name].arglist| > |runArgs| then Err(st, "too few arguments")
      else if |st.labels[name].arglist| < |runArgs| then Err(st, "too many arguments")
      else
        var child := FreshSettings(st.reg).(constants := st.constants);
        var c :- RunLabel(fuel - 1, name, st.labels, child, runArgs);
        Done(Evaluated(c.st.returnValue, st.(reg := c.st.reg, errorMsg := c.msg, rawError := st.rawError || c.msg != "")))
  }

  /** `run_label`: an unknown label does nothing. Otherwise every line is
      checked to be a statement first, the arguments are bound, and the
      statements run from `line` (0 counts as 1). */
  function RunLabel(fuel: nat, name: string, labels: map<string, Label>, st: Settings, args: seq<Value>): (r: Eval<Ran>)
    ensures name !in labels && fuel > 0 ==> r == Done(Ran("", st))
    ensures r.Done? && name in labels && FirstInvalid(Lines(labels[name].lines), 0).Some? ==>
      r.value.st == st && "line " <= r.value.msg
    ensures r.Done? ==>
      r.value.st.labelStack == st.labelStack || (r.value.st.exit && r.value.st.labelStack == st.labelStack + [name])
    ensures r.Done? ==> Persistent(st, r.value.st)
    decreases fuel
  {
    if fuel == 0 then Stuck(OutOfFuel)
    else if name !in labels then Done(Ran("", st))
    else
      var lab := labels[name];
      var lines := Lines(lab.lines);
      match FirstInvalid(lines, 0)
      case Some(k) =>
        Done(Ran("line " + NatToString(lines[k][0].line) + " is invalid (in label " + name + ")", st))
      case None =>
        if |args| > |lab.arglist| then Stuck(Undefined("an argument without a parameter is bound"))
        else
          var st1 := st.(labelStack := st.labelStack + [name], labels := labels,
                         variables := BindArgs(st.variables, lab.arglist[..|args|], args),
                         line := if st.line == 0 then 1 else st.line);
          RunLines(fuel - 1, name, lab.line, lines, st1)
  }

  /** The statement loop of `run_label`, at statement `line`. */
  function RunLines(fuel: nat, name: string, labelLine: int, lines: seq<seq<Token>>, st: Settings): (r: Eval<Ran>)
    requires forall k :: 0 <= k < |lines| ==> ValidLine(lines[k])
    ensures st.exit && 1 <= st.line <= |lines| && fuel > 0 ==> r == Done(Ran("", st))
    ensures !(1 <= st.line <= |lines|) && fuel > 0 ==> r == Done(Ran("", PopLabel(st)))
    ensures r.Done? ==>
      r.value.st.labelStack == PopLabel(st).labelStack || (r.value.st.exit && r.value.st.labelStack == st.labelStack)
    ensures r.Done? ==> Persistent(st, r.value.st)
    decreases fuel, 1
  {
    if fuel == 0 then Stuck(OutOfFuel)
    else if !(1 <= st.line <= |lines|) then Done(Ran("", PopLabel(st)))
    else if st.exit then Done(Ran("", st))
    else
      var g := lines[st.line - 1];
      assert ValidLine(g);
      var pa :- ParseArgumentList(fuel - 1, g[1].src, st);
      RunStatement(fuel, name, labelLine, lines, st, g[0], pa)
  }

  /** One statement after its argument list was evaluated: report a failed
      argument list, an unknown builtin or a wrong argument count; otherwise
      run the builtin and go on with the next line. */
  function RunStatement(fuel: nat, name: string, labelLine: int, lines: seq<seq<Token>>, st: Settings, head: Token, pa: Arguments): (r: Eval<Ran>)
    requires fuel > 0
    requires forall k :: 0 <= k < |lines| ==> ValidLine(lines[k])
    requires pa.st.labelStack == st.labelStack && Persistent(st, pa.st)
    ensures r.Done? ==>
      r.value.st.labelStack == PopLabel(st).labelStack || (r.value.st.exit && r.value.st.labelStack == st.labelStack)
    ensures r.Done? ==> Persistent(st, r.value.st)
    ensures pa.st.errorMsg != "" ==> r == Done(Ran(StatementError(pa.st, labelLine, "", name), PopLabel(pa.st)))
    ensures pa.st.errorMsg == "" && head.src !in pa.st.reg.builtins ==>
      r == Done(Ran("line " + IntToString(pa.st.line + labelLine) + ": unknown function: " + head.src + " (in label " + name + ")",
                    PopLabel(pa.st)))
    ensures pa.st.errorMsg == "" && head.src in pa.st.reg.builtins ==>
      var b := pa.st.reg.builtins[head.src];
      var e := ExecBuiltin(fuel - 1, b.impl, pa.values, pa.st);
      (b.argCount < 0 || b.argCount == |pa.values|) && e.Done? && e.value.st.errorMsg != "" ==>
        r == Done(Ran(StatementError(e.value.st, labelLine, head.src + ": ", name), PopLabel(e.value.st)))
    decreases fuel, 0
  {
  var fname := head.src;
  var st1 := pa.st;
  if st1.errorMsg != "" then Done(Ran(StatementError(st1, labelLine, "", name), PopLabel(st1)))
  else if fname !in st1.reg.builtins then
    Done(Ran("line " + IntToString(st1.line + labelLine) + ": unknown function: " + fname + " (in label " + name + ")", PopLabel(st1)))
  else
    var b := st1.reg.builtins[fname];
    if b.argCount != |pa.values| && b.argCount >= 0 then
      Done(Ran("line " + IntToString(head.line + labelLine) + " " + fname + " has invalid argument count "
        + " (in label " + name + ")", PopLabel(st1)))
    else
      var e :- ExecBuiltin(fuel - 1, b.impl, pa.values, st1);
      var st2 := e.st;
      if st2.errorMsg != "" then Done(Ran(StatementError(st2, labelLine, fname + ": ", name), PopLabel(st2)))
      else RunLines(fuel - 1, name, labelLine, lines, st2.(line := st2.line + 1))
  }
}

=== FILE: script_engine_props.dfy ===
/** Properties of the expression evaluator and the statement executor. */
module ScriptEngineProps {
  import opened Common
  import opened ScriptValues
  import opened ScriptState
  import opened ScriptDefaults
  import opened ScriptEngine

  function N(x: real): MTok { Val(Number(x)) }

  /** An operator token as classification leaves it: not yet resolved. */
  function Raw(tk: string): MTok { Op(tk, Unary, 0, None) }

  /** 2 + 3 * 4 with both operators resolved to their default definitions. */
  function SumOfProduct(): seq<MTok> {
    [N(2.0), Op("+", Binary, 0, Some(Add)), N(3.0), Op("*", Binary, -1, Some(Mul)), N(4.0)]
  }

  /** What one run of each evaluator function yields, named so that a
      chain of examples can pass results on from lemma to lemma. */
  predicate Climbs(fuel: nat, toks: seq<MTok>, pos: nat, maxprec: int, st: Settings, errs: Errors, c: Climbed) {
    CheckPrec(fuel, toks, pos, maxprec, st, errs) == Done(c)
  }

  predicate Loops(fuel: nat, toks: seq<MTok>, pos: nat, maxprec: int, lhs: MTok, st: Settings, errs: Errors, c: Climbed) {
    CheckPrecLoop(fuel, toks, pos, maxprec, lhs, st, errs) == Done(c)
  }

  predicate Parses(fuel: nat, toks: seq<MTok>, i: nat, st: Settings, errs: Errors, p: Parsed) {
    ForceParse(fuel, toks, i, st, errs) == Done(p)
  }

  predicate Tries(fuel: nat, toks: seq<MTok>, j: nat, kind: OpKind, options: seq<Operator>, st: Settings, errs: Errors, p: Parsed)
    requires j < |toks|
  {
    TryOptions(fuel, toks, j, kind, options, st, errs) == Done(p)
  }

  // ---------------------------------------------------------------------
  // One step of each evaluator function
  // ---------------------------------------------------------------------

  /** An operand that is not an operator starts the binary loop. */
  lemma CheckPrecOperand(fuel: nat, toks: seq<MTok>, pos: nat, maxprec: int, st: Settings, errs: Errors)
    requires fuel > 0 && !errs.hasNew && pos < |toks| && !toks[pos].Op?
    ensures CheckPrec(fuel, toks, pos, maxprec, st, errs) == CheckPrecLoop(fuel - 1, toks, pos + 1, maxprec, toks[pos], st, errs)
  {
  }

  /** A unary operator applies to the operand climbed with its own priority
      as the bound, and the loop goes on from where that climb stopped. */
  lemma CheckPrecUnary(fuel: nat, toks: seq<MTok>, pos: nat, maxprec: int, st: Settings, errs: Errors,
                       inner: Value, ipos: nat, res: Value)
    requires fuel > 1 && !errs.hasNew && pos < |toks| && toks[pos].Op? && st.errorMsg == ""
    requires CheckPrec(fuel - 1, toks, pos + 1, toks[pos].priority, st, errs) == Done(Climbed(inner, ipos, st, errs))
    requires RunOperator(toks[pos].impl, inner, Null, st) == Done(Ok(res))
    ensures CheckPrec(fuel, toks, pos, maxprec, st, errs) == CheckPrecLoop(fuel - 1, toks, ipos, maxprec, Val(res), st, errs)
  {
  }

  /** At the end of the tokens the loop yields its left operand. */
  lemma CheckPrecLoopEnd(fuel: nat, toks: seq<MTok>, pos: nat, maxprec: int, v: Value, st: Settings, errs: Errors)
    requires fuel > 1 && pos >= |toks|
    ensures CheckPrecLoop(fuel, toks, pos, maxprec, Val(v), st, errs) == Done(Climbed(v, pos, st, errs))
  {
  }

  /** A binary operator whose priority is not below the bound ends the loop. */
  lemma CheckPrecLoopStop(fuel: nat, toks: seq<MTok>, pos: nat, maxprec: int, v: Value, st: Settings, errs: Errors)
    requires fuel > 1 && pos < |toks| && toks[pos].Op? && toks[pos].kind == Binary && toks[pos].priority >= maxprec
    ensures CheckPrecLoop(fuel, toks, pos, maxprec, Val(v), st, errs) == Done(Climbed(v, pos, st, errs))
  {
  }

  /** A binary operator below the bound takes the right operand climbed with
      its priority, applies, and the loop goes on with the result. */
  lemma CheckPrecLoopApply(fuel: nat, toks: seq<MTok>, pos: nat, maxprec: int, v: Value, st: Settings, errs: Errors,
                           rv: Value, rpos: nat, res: Value)
    requires fuel > 1 && !errs.hasNew && st.errorMsg == ""
    requires pos < |toks| && toks[pos].Op? && toks[pos].kind == Binary && toks[pos].priority < maxprec
    requires CheckPrec(fuel - 1, toks, pos + 1, toks[pos].priority, st, errs) == Done(Climbed(rv, rpos, st, errs))
    requires RunOperator(toks[pos].impl, v, rv, st) == Done(Ok(res))
    ensures CheckPrecLoop(fuel, toks, pos, maxprec, Val(v), st, errs) == CheckPrecLoop(fuel - 1, toks, rpos, maxprec, Val(res), st, errs)
  {
    assert CheckPrecLoop(fuel, toks, pos, maxprec, Val(v), st, errs) == ClimbBinary(fuel, toks, pos, maxprec, Val(v), st, errs);
    assert GetVal(fuel - 1, Val(v), st, errs) == Done(Parsed(v, st, errs));
  }

  /** Once the last operator is resolved, the whole list is climbed. */
  lemma ForceParseClimb(fuel: nat, toks: seq<MTok>, i: nat, st: Settings, errs: Errors, c: Climbed)
    requires fuel > 1 && !errs.hasNew && |toks| > 1 && i < |toks| && !toks[i].Op? && i + 1 == |toks|
    requires CheckPrec(fuel - 1, toks, 0, MaxPrec, st, errs) == Done(c)
    ensures ForceParse(fuel, toks, i, st, errs) == Done(Parsed(c.value, c.st, c.errs))
  {
  }

  /** The next operator is unary when it stands at `i`, binary when it
      follows the operand at `i`; its registered definitions are tried. */
  lemma ForceParseTries(fuel: nat, toks: seq<MTok>, i: nat, st: Settings, errs: Errors)
    requires fuel > 0 && !errs.hasNew && |toks| > 1 && i < |toks|
    requires var j := if toks[i].Op? then i else i + 1; j < |toks| && toks[j].Op? && toks[j].tk in st.reg.operators
    ensures var j := if toks[i].Op? then i else i + 1;
      ForceParse(fuel, toks, i, st, errs) ==
        TryOptions(fuel - 1, toks, j, if toks[i].Op? then Unary else Binary, st.reg.operators[toks[j].tk], st, errs)
  {
  }

  /** A definition of the other kind is skipped. */
  lemma TryOptionsSkip(fuel: nat, toks: seq<MTok>, j: nat, kind: OpKind, options: seq<Operator>, st: Settings, errs: Errors)
    requires fuel > 0 && j < |toks| && options != [] && options[0].kind != kind
    ensures TryOptions(fuel, toks, j, kind, options, st, errs) == TryOptions(fuel - 1, toks, j, kind, options[1..], st, errs)
  {
  }

  /** A trial that yields a value without a new error wins. */
  lemma TryOptionsWins(fuel: nat, toks: seq<MTok>, j: nat, kind: OpKind, options: seq<Operator>, st: Settings, errs: Errors, p: Parsed)
    requires fuel > 0 && j < |toks| && options != [] && options[0].kind == kind
    requires ForceParse(fuel - 1, toks[j := Mark(toks[j], kind, options[0])], j + 1, st, errs) == Done(p)
    requires !p.value.Null? && !p.errs.hasNew
    ensures TryOptions(fuel, toks, j, kind, options, st, errs) == Done(p)
  {
  }

  /** The default definitions of the three operators the examples use. */
  lemma DefaultArithmetic()
    ensures DefaultOperators["+"] == [Operator(0, Binary, Add)]
    ensures DefaultOperators["-"] == [Operator(0, Binary, Sub), Operator(-3, Unary, Negate)]
    ensures DefaultOperators["*"] == [Operator(-1, Binary, Mul)]
  {
  }

  // 2 + 3 * 4, one link per evaluator call, from the innermost outwards

  lemma LastOperand(fuel: nat, st: Settings)
    requires fuel >= 3
    ensures Climbs(fuel, SumOfProduct(), 4, -1, st, NoErrors, Climbed(Number(4.0), 5, st, NoErrors))
  {
    CheckPrecOperand(fuel, SumOfProduct(), 4, -1, st, NoErrors);
    CheckPrecLoopEnd(fuel - 1, SumOfProduct(), 5, -1, Number(4.0), st, NoErrors);
  }

  lemma ProductLoop(fuel: nat, st: Settings)
    requires fuel >= 4 && st.errorMsg == ""
    requires Climbs(fuel - 1, SumOfProduct(), 4, -1, st, NoErrors, Climbed(Number(4.0), 5, st, NoErrors))
    ensures Loops(fuel, SumOfProduct(), 3, 0, N(3.0), st, NoErrors, Climbed(Number(12.0), 5, st, NoErrors))
  {
    assert RunOperator(Some(Mul), Number(3.0), Number(4.0), st) == Done(Ok(Number(12.0)));
    CheckPrecLoopApply(fuel, SumOfProduct(), 3, 0, Number(3.0), st, NoErrors, Number(4.0), 5, Number(12.0));
    CheckPrecLoopEnd(fuel - 1, SumOfProduct(), 5, 0, Number(12.0), st, NoErrors);
  }

  /** The climb below `+` (bound 0) takes 3 * 4 whole, since `*` has priority -1. */
  lemma ProductClimb(fuel: nat, st: Settings)
    requires fuel >= 5 && st.errorMsg == ""
    requires Loops(fuel - 1, SumOfProduct(), 3, 0, N(3.0), st, NoErrors, Climbed(Number(12.0), 5, st, NoErrors))
    ensures Climbs(fuel, SumOfProduct(), 2, 0, st, NoErrors, Climbed(Number(12.0), 5, st, NoErrors))
  {
    CheckPrecOperand(fuel, SumOfProduct(), 2, 0, st, NoErrors);
  }

  lemma SumLoop(fuel: nat, st: Settings)
    requires fuel >= 6 && st.errorMsg == ""
    requires Climbs(fuel - 1, SumOfProduct(), 2, 0, st, NoErrors, Climbed(Number(12.0), 5, st, NoErrors))
    ensures Loops(fuel, SumOfProduct(), 1, MaxPrec, N(2.0), st, NoErrors, Climbed(Number(14.0), 5, st, NoErrors))
  {
    assert RunOperator(Some(Add), Number(2.0), Number(12.0), st) == Done(Ok(Number(14.0)));
    CheckPrecLoopApply(fuel, SumOfProduct(), 1, MaxPrec, Number(2.0), st, NoErrors, Number(12.0), 5, Number(14.0));
    CheckPrecLoopEnd(fuel - 1, SumOfProduct(), 5, MaxPrec, Number(14.0), st, NoErrors);
  }

  lemma SumClimb(fuel: nat, st: Settings)
    requires fuel >= 7 && st.errorMsg == ""
    requires Loops(fuel - 1, SumOfProduct(), 1, MaxPrec, N(2.0), st, NoErrors, Climbed(Number(14.0), 5, st, NoErrors))
    ensures Climbs(fuel, SumOfProduct(), 0, MaxPrec, st, NoErrors, Climbed(Number(14.0), 5, st, NoErrors))
  {
    CheckPrecOperand(fuel, SumOfProduct(), 0, MaxPrec, st, NoErrors);
  }

  /** With both operators resolved, precedence climbing over 2 + 3 * 4
      applies `*` first and yields 14. */
  lemma SumPrecedence(fuel: nat, st: Settings)
    requires fuel >= 7 && st.errorMsg == ""
    ensures Climbs(fuel, SumOfProduct(), 0, MaxPrec, st, NoErrors, Climbed(Number(14.0), 5, st, NoErrors))
  {
    LastOperand(fuel - 4, st);
    ProductLoop(fuel - 3, st);
    ProductClimb(fuel - 2, st);
    SumLoop(fuel - 1, st);
    SumClimb(fuel, st);
  }

  /** The token list before any operator is resolved, and after `+` is. */
  function SumTokens(): seq<MTok> { [N(2.0), Raw("+"), N(3.0), Raw("*"), N(4.0)] }
  function SumHalf(): seq<MTok> { [N(2.0), Op("+", Binary, 0, Some(Add)), N(3.0), Raw("*"), N(4.0)] }

  lemma SumResolved(fuel: nat, st: Settings)
    requires fuel >= 8 && st.errorMsg == ""
    requires Climbs(fuel - 1, SumOfProduct(), 0, MaxPrec, st, NoErrors, Climbed(Number(14.0), 5, st, NoErrors))
    ensures Parses(fuel, SumOfProduct(), 4, st, NoErrors, Parsed(Number(14.0), st, NoErrors))
  {
    ForceParseClimb(fuel, SumOfProduct(), 4, st, NoErrors, Climbed(Number(14.0), 5, st, NoErrors));
  }

  lemma SumTryTimes(fuel: nat, st: Settings)
    requires fuel >= 9 && st.errorMsg == ""
    requires Parses(fuel - 1, SumOfProduct(), 4, st, NoErrors, Parsed(Number(14.0), st, NoErrors))
    ensures Tries(fuel, SumHalf(), 3, Binary, [Operator(-1, Binary, Mul)], st, NoErrors, Parsed(Number(14.0), st, NoErrors))
  {
    assert SumHalf()[3 := Mark(SumHalf()[3], Binary, Operator(-1, Binary, Mul))] == SumOfProduct();
    TryOptionsWins(fuel, SumHalf(), 3, Binary, [Operator(-1, Binary, Mul)], st, NoErrors, Parsed(Number(14.0), st, NoErrors));
  }

  lemma SumHalfParse(fuel: nat, st: Settings)
    requires fuel >= 10 && st.reg.operators == DefaultOperators && st.errorMsg == ""
    requires Tries(fuel - 1, SumHalf(), 3, Binary, [Operator(-1, Binary, Mul)], st, NoErrors, Parsed(Number(14.0), st, NoErrors))
    ensures Parses(fuel, SumHalf(), 2, st, NoErrors, Parsed(Number(14.0), st, NoErrors))
  {
    DefaultArithmetic();
    ForceParseTries(fuel, SumHalf(), 2, st, NoErrors);
  }

  lemma SumTryPlus(fuel: nat, st: Settings)
    requires fuel >= 11 && st.reg.operators == DefaultOperators && st.errorMsg == ""
    requires Parses(fuel - 1, SumHalf(), 2, st, NoErrors, Parsed(Number(14.0), st, NoErrors))
    ensures Tries(fuel, SumTokens(), 1, Binary, [Operator(0, Binary, Add)], st, NoErrors, Parsed(Number(14.0), st, NoErrors))
  {
    assert SumTokens()[1 := Mark(SumTokens()[1], Binary, Operator(0, Binary, Add))] == SumHalf();
    TryOptionsWins(fuel, SumTokens(), 1, Binary, [Operator(0, Binary, Add)], st, NoErrors, Parsed(Number(14.0), st, NoErrors));
  }

  lemma SumParse(fuel: nat, st: Settings)
    requires fuel >= 12 && st.reg.operators == DefaultOperators && st.errorMsg == ""
    requires Tries(fuel - 1, SumTokens(), 1, Binary, [Operator(0, Binary, Add)], st, NoErrors, Parsed(Number(14.0), st, NoErrors))
    ensures Parses(fuel, SumTokens(), 0, st, NoErrors, Parsed(Number(14.0), st, NoErrors))
  {
    DefaultArithmetic();
    ForceParseTries(fuel, SumTokens(), 0, st, NoErrors);
  }

  /** `*` binds tighter than `+`: 2 + 3 * 4 is 14. */
  lemma TighterOperatorFirst(fuel: nat, st: Settings)
    requires fuel >= 12 && st.reg.operators == DefaultOperators && st.errorMsg == ""
    ensures Parses(fuel, [N(2.0), Raw("+"), N(3.0), Raw("*"), N(4.0)], 0, st, NoErrors, Parsed(Number(14.0), st, NoErrors))
  {
    SumPrecedence(fuel - 5, st);
    SumResolved(fuel - 4, st);
    SumTryTimes(fuel - 3, st);
    SumHalfParse(fuel - 2, st);
    SumTryPlus(fuel - 1, st);
    SumParse(fuel, st);
    assert SumTokens() == [N(2.0), Raw("+"), N(3.0), Raw("*"), N(4.0)];
  }

  // - 2 * 3

  /** - 2 * 3 with `-` resolved to negation and `*` to multiplication. */
  function NegatedProduct(): seq<MTok> {
    [Op("-", Unary, -3, Some(Negate)), N(2.0), Op("*", Binary, -1, Some(Mul)), N(3.0)]
  }

  lemma NegatedOperand(fuel: nat, st: Settings)
    requires fuel >= 3
    ensures Climbs(fuel, NegatedProduct(), 1, -3, st, NoErrors, Climbed(Number(2.0), 2, st, NoErrors))
  {
    CheckPrecOperand(fuel, NegatedProduct(), 1, -3, st, NoErrors);
    CheckPrecLoopStop(fuel - 1, NegatedProduct(), 2, -3, Number(2.0), st, NoErrors);
  }

  lemma NegatedRight(fuel: nat, st: Settings)
    requires fuel >= 3
    ensures Climbs(fuel, NegatedProduct(), 3, -1, st, NoErrors, Climbed(Number(3.0), 4, st, NoErrors))
  {
    CheckPrecOperand(fuel, NegatedProduct(), 3, -1, st, NoErrors);
    CheckPrecLoopEnd(fuel - 1, NegatedProduct(), 4, -1, Number(3.0), st, NoErrors);
  }

  lemma NegatedLoop(fuel: nat, st: Settings)
    requires fuel >= 4 && st.errorMsg == ""
    requires Climbs(fuel - 1, NegatedProduct(), 3, -1, st, NoErrors, Climbed(Number(3.0), 4, st, NoErrors))
    ensures Loops(fuel, NegatedProduct(), 2, MaxPrec, Val(Number(-2.0)), st, NoErrors, Climbed(Number(-6.0), 4, st, NoErrors))
  {
    assert RunOperator(Some(Mul), Number(-2.0), Number(3.0), st) == Done(Ok(Number(-6.0)));
    CheckPrecLoopApply(fuel, NegatedProduct(), 2, MaxPrec, Number(-2.0), st, NoErrors, Number(3.0), 4, Number(-6.0));
    CheckPrecLoopEnd(fuel - 1, NegatedProduct(), 4, MaxPrec, Number(-6.0), st, NoErrors);
  }

  /** Negation (priority -3) takes only the 2, then the product follows. */
  lemma NegationClimb(fuel: nat, st: Settings)
    requires fuel >= 5 && st.errorMsg == ""
    requires Climbs(fuel - 1, NegatedProduct(), 1, -3, st, NoErrors, Climbed(Number(2.0), 2, st, NoErrors))
    requires Loops(fuel - 1, NegatedProduct(), 2, MaxPrec, Val(Number(-2.0)), st, NoErrors, Climbed(Number(-6.0), 4, st, NoErrors))
    ensures Climbs(fuel, NegatedProduct(), 0, MaxPrec, st, NoErrors, Climbed(Number(-6.0), 4, st, NoErrors))
  {
    assert RunOperator(Some(Negate), Number(2.0), Null, st) == Done(Ok(Number(-2.0)));
    CheckPrecUnary(fuel, NegatedProduct(), 0, MaxPrec, st, NoErrors, Number(2.0), 2, Number(-2.0));
  }

  /** With both operators resolved, - 2 * 3 climbs to -6. */
  lemma NegPrecedence(fuel: nat, st: Settings)
    requires fuel >= 5 && st.errorMsg == ""
    ensures Climbs(fuel, NegatedProduct(), 0, MaxPrec, st, NoErrors, Climbed(Number(-6.0), 4, st, NoErrors))
  {
    NegatedOperand(fuel - 1, st);
    NegatedRight(fuel - 2, st);
    NegatedLoop(fuel - 1, st);
    NegationClimb(fuel, st);
  }

  /** The token list before any operator is resolved, and after `-` is. */
  function NegTokens(): seq<MTok> { [Raw("-"), N(2.0), Raw("*"), N(3.0)] }
  function NegHalf(): seq<MTok> { [Op("-", Unary, -3, Some(Negate)), N(2.0), Raw("*"), N(3.0)] }

  lemma NegResolved(fuel: nat, st: Settings)
    requires fuel >= 6 && st.errorMsg == ""
    requires Climbs(fuel - 1, NegatedProduct(), 0, MaxPrec, st, NoErrors, Climbed(Number(-6.0), 4, st, NoErrors))
    ensures Parses(fuel, NegatedProduct(), 3, st, NoErrors, Parsed(Number(-6.0), st, NoErrors))
  {
    ForceParseClimb(fuel, NegatedProduct(), 3, st, NoErrors, Climbed(Number(-6.0), 4, st, NoErrors));
  }

  lemma NegTryTimes(fuel: nat, st: Settings)
    requires fuel >= 7 && st.errorMsg == ""
    requires Parses(fuel - 1, NegatedProduct(), 3, st, NoErrors, Parsed(Number(-6.0), st, NoErrors))
    ensures Tries(fuel, NegHalf(), 2, Binary, [Operator(-1, Binary, Mul)], st, NoErrors, Parsed(Number(-6.0), st, NoErrors))
  {
    assert NegHalf()[2 := Mark(NegHalf()[2], Binary, Operator(-1, Binary, Mul))] == NegatedProduct();
    TryOptionsWins(fuel, NegHalf(), 2, Binary, [Operator(-1, Binary, Mul)], st, NoErrors, Parsed(Number(-6.0), st, NoErrors));
  }

  lemma NegHalfParse(fuel: nat, st: Settings)
    requires fuel >= 8 && st.reg.operators == DefaultOperators && st.errorMsg == ""
    requires Tries(fuel - 1, NegHalf(), 2, Binary, [Operator(-1, Binary, Mul)], st, NoErrors, Parsed(Number(-6.0), st, NoErrors))
    ensures Parses(fuel, NegHalf(), 1, st, NoErrors, Parsed(Number(-6.0), st, NoErrors))
  {
    DefaultArithmetic();
    ForceParseTries(fuel, NegHalf(), 1, st, NoErrors);
  }

  lemma NegTryUnary(fuel: nat, st: Settings)
    requires fuel >= 9 && st.errorMsg == ""
    requires Parses(fuel - 1, NegHalf(), 1, st, NoErrors, Parsed(Number(-6.0), st, NoErrors))
    ensures Tries(fuel, NegTokens(), 0, Unary, [Operator(-3, Unary, Negate)], st, NoErrors, Parsed(Number(-6.0), st, NoErrors))
  {
    assert NegTokens()[0 := Mark(NegTokens()[0], Unary, Operator(-3, Unary, Negate))] == NegHalf();
    TryOptionsWins(fuel, NegTokens(), 0, Unary, [Operator(-3, Unary, Negate)], st, NoErrors, Parsed(Number(-6.0), st, NoErrors));
  }

  lemma NegSkipBinary(fuel: nat, st: Settings)
    requires fuel >= 10 && st.errorMsg == ""
    requires Tries(fuel - 1, NegTokens(), 0, Unary, [Operator(-3, Unary, Negate)], st, NoErrors, Parsed(Number(-6.0), st, NoErrors))
    ensures Tries(fuel, NegTokens(), 0, Unary, [Operator(0, Binary, Sub), Operator(-3, Unary, Negate)], st, NoErrors,
      Parsed(Number(-6.0), st, NoErrors))
  {
    assert [Operator(0, Binary, Sub), Operator(-3, Unary, Negate)][1..] == [Operator(-3, Unary, Negate)];
    TryOptionsSkip(fuel, NegTokens(), 0, Unary, [Operator(0, Binary, Sub), Operator(-3, Unary, Negate)], st, NoErrors);
  }

  lemma NegParse(fuel: nat, st: Settings)
    requires fuel >= 11 && st.reg.operators == DefaultOperators && st.errorMsg == ""
    requires Tries(fuel - 1, NegTokens(), 0, Unary, [Operator(0, Binary, Sub), Operator(-3, Unary, Negate)], st, NoErrors,
      Parsed(Number(-6.0), st, NoErrors))
    ensures Parses(fuel, NegTokens(), 0, st, NoErrors, Parsed(Number(-6.0), st, NoErrors))
  {
    DefaultArithmetic();
    ForceParseTries(fuel, NegTokens(), 0, st, NoErrors);
  }

  /** A leading `-` is tried as a unary operator only: its binary definition,
      listed first, is skipped, and - 2 * 3 is -6. */
  lemma LeadingMinusIsNegation(fuel: nat, st: Settings)
    requires fuel >= 11 && st.reg.operators == DefaultOperators && st.errorMsg == ""
    ensures Parses(fuel, [Raw("-"), N(2.0), Raw("*"), N(3.0)], 0, st, NoErrors, Parsed(Number(-6.0), st, NoErrors))
  {
    NegPrecedence(fuel - 6, st);
    NegResolved(fuel - 5, st);
    NegTryTimes(fuel - 4, st);
    NegHalfParse(fuel - 3, st);
    NegTryUnary(fuel - 2, st);
    NegSkipBinary(fuel - 1, st);
    NegParse(fuel, st);
    assert NegTokens() == [Raw("-"), N(2.0), Raw("*"), N(3.0)];
  }
}

=== FILE: script_interpreter.dfy ===
/** The embedding API: an interpreter owns the tables and the settings,
    keeps numbered snapshots of its tables, and runs scripts and labels.
    The host's error callback is kept as a flag saying whether one is set. */
module ScriptInterpreter {
  import opened Common
  import opened ScriptValues
  import opened ScriptState
  import opened ScriptDefaults
  import opened ScriptEngine
  import opened ScriptPreprocess

  /** `Interpreter`: the settings (which hold the tables), the saved table
      snapshots by number, and whether an error callback is registered. */
  datatype Interpreter = Interpreter(st: Settings, states: map<int, Registry>, hasHandler: bool)

  /** A fresh interpreter: the default tables and fresh settings. */
  function NewInterpreter(): (it: Interpreter)
    ensures it.st.reg == DefaultRegistry && it.states == map[] && !it.hasHandler
    ensures Ok(it)
  {
    Interpreter(FreshSettings(DefaultRegistry), map[], false)
  }

  /** `operator bool`: no error message is set. */
  predicate Ok(it: Interpreter) { it.st.errorMsg == "" }

  /** `InterpreterError`: the interpreter after a call, the returned value
      when it is not Null, and whether the registered callback ran. */
  datatype Reply = Reply(it: Interpreter, value: Option<Value>, handlerRan: bool)

  /** `error_check` followed by building the reply. */
  function Finish(it: Interpreter): (r: Reply)
    ensures r.it == it
    ensures r.handlerRan <==> !Ok(it) && it.hasHandler
    ensures r.value.Some? <==> !it.st.returnValue.Null?
    ensures r.value.Some? ==> r.value.value == it.st.returnValue
  {
    Reply(it, if it.st.returnValue.Null? then None else Some(it.st.returnValue), !Ok(it) && it.hasHandler)
  }

  /** `InterpreterError::on_error`: whether the callback given to it runs. */
  function OnErrorRuns(r: Reply): (b: bool)
    ensures b <==> r.it.st.errorMsg != ""
  {
    !Ok(r.it)
  }

  /** `InterpreterError::otherwise`. */
  function OtherwiseRuns(r: Reply): (b: bool)
    ensures b <==> r.it.st.errorMsg == ""
  {
    Ok(r.it)
  }

  /** `get_value_or`. */
  function ValueOr(r: Reply, v: Value): (x: Value)
    ensures r.value.None? ==> x == v
    ensures r.value.Some? ==> x == r.value.value
  {
    match r.value
    case Some(x) => x
    case None => v
  }

  function SetHandler(it: Interpreter): Interpreter { it.(hasHandler := true) }

  // ---------------------------------------------------------------------
  // Tables
  // ---------------------------------------------------------------------

  function WithReg(it: Interpreter, reg: Registry): Interpreter { it.(st := it.st.(reg := reg)) }

  /** `save`: snapshot the four tables under a number, replacing an older one. */
  function Save(it: Interpreter, id: int): (r: Interpreter)
    ensures r.st == it.st && r.hasHandler == it.hasHandler
    ensures r.states == it.states[id := it.st.reg]
  {
    it.(states := it.states[id := it.st.reg])
  }

  /** `load`: replace the tables by a snapshot; an unknown number creates an
      empty snapshot and loads that. */
  function Load(it: Interpreter, id: int): (r: Interpreter)
    ensures id in it.states ==> r == WithReg(it, it.states[id])
    ensures id !in it.states ==> r == WithReg(it, EmptyRegistry).(states := it.states[id := EmptyRegistry])
  {
    if id in it.states then WithReg(it, it.states[id])
    else WithReg(it, EmptyRegistry).(states := it.states[id := EmptyRegistry])
  }

  /** `clear`: empties the four tables. */
  function Clear(it: Interpreter): (r: Interpreter)
    ensures r.st.reg.builtins == map[] && r.st.reg.operators == map[]
    ensures r.st.reg.typechecks == [] && r.st.reg.macros == map[]
    ensures r.st == it.st.(reg := r.st.reg) && r.states == it.states
  {
    WithReg(it, EmptyRegistry)
  }

  /** `add_builtin`: sets the name, replacing an existing builtin. */
  function AddBuiltin(it: Interpreter, name: string, b: Builtin): (r: Interpreter)
    ensures r.st.reg.builtins == it.st.reg.builtins[name := b]
    ensures r == WithReg(it, it.st.reg.(builtins := r.st.reg.builtins))
  {
    WithReg(it, it.st.reg.(builtins := it.st.reg.builtins[name := b]))
  }

  /** `add_operator`: appends a definition after the name's existing ones. */
  function AddOperator(it: Interpreter, name: string, o: Operator): (r: Interpreter)
    ensures r.st.reg.operators.Keys == it.st.reg.operators.Keys + {name}
    ensures r.st.reg.operators[name] == (if name in it.st.reg.operators then it.st.reg.operators[name] else []) + [o]
    ensures forall n :: n in it.st.reg.operators && n != name ==> r.st.reg.operators[n] == it.st.reg.operators[n]
    ensures r == WithReg(it, it.st.reg.(operators := r.st.reg.operators))
  {
    WithReg(it, it.st.reg.(operators := AppendOperators(it.st.reg.operators, name, [o])))
  }

  /** `add_typecheck`: appends, so earlier typechecks take precedence. */
  function AddTypecheck(it: Interpreter, tc: TypeCheck): (r: Interpreter)
    ensures r.st.reg.typechecks == it.st.reg.typechecks + [tc]
    ensures r == WithReg(it, it.st.reg.(typechecks := r.st.reg.typechecks))
  {
    WithReg(it, it.st.reg.(typechecks := it.st.reg.typechecks + [tc]))
  }

  /** `add_macro`: sets the name, replacing an existing macro. */
  function AddMacro(it: Interpreter, name: string, text: string): (r: Interpreter)
    ensures r.st.reg.macros == it.st.reg.macros[name := text]
    ensures r == WithReg(it, it.st.reg.(macros := r.st.reg.macros))
  {
    WithReg(it, it.st.reg.(macros := it.st.reg.macros[name := text]))
  }

  /** `bake(Extension*)`: a missing bundle sets the error; the tables are
      merged otherwise. No callback runs. */
  function BakeCompiled(it: Interpreter, ext: Option<Extension>): (r: Reply)
    ensures ext.None? ==> r.it == it.(st := it.st.(errorMsg := "error while baking: <compiled>"))
    ensures ext.Some? ==> r.it == WithReg(it, BakeExtension(it.st.reg, ext).1)
    ensures !r.handlerRan
  {
    var b := BakeExtension(it.st.reg, ext);
    var it1 := WithReg(it, b.1);
    Reply(if b.0 then it1 else it1.(st := it1.st.(errorMsg := "error while baking: <compiled>")), None, false)
  }

  /** `bake(file)`: as above, with the file loaded through `loader`. */
  function BakeFile(it: Interpreter, file: string, loader: string -> LoadResult): (r: Reply)
    ensures loader(file).LoadFailed? ==> r.it == it.(st := it.st.(errorMsg := "error while baking: " + file))
    ensures loader(file).Loaded? ==> r.it == WithReg(it, BakeExtension(it.st.reg, Some(loader(file).ext)).1)
    ensures !r.handlerRan
  {
    match loader(file)
    case Loaded(e) => Reply(WithReg(it, BakeExtension(it.st.reg, Some(e)).1), None, false)
    case LoadFailed(_) => Reply(it.(st := it.st.(errorMsg := "error while baking: " + file)), None, false)
  }

  // ---------------------------------------------------------------------
  // Running
  // ---------------------------------------------------------------------

  /** `pre_process`: clears the message, then stores the labels of the
      source (the message tells whether that failed). The reply is built
      from the interpreter alone, so it never carries a value, whatever
      an earlier run left as the return value. */
  function PreProcessSource(fuel: nat, it: Interpreter, source: string, loader: string -> LoadResult): (r: Eval<Reply>)
    ensures r.Done? ==> r.value.it.states == it.states && r.value.it.hasHandler == it.hasHandler
    ensures r.Done? ==> forall n :: n in r.value.it.st.labels ==> AllNames(r.value.it.st.labels[n].arglist)
    ensures r.Done? ==> r.value.value.None?
    ensures r.Done? ==> (r.value.handlerRan <==> !Ok(r.value.it) && it.hasHandler)
  {
    var p :- PreProcess(fuel, source, it.st.(errorMsg := ""), loader);
    var it1 := it.(st := p.st.(labels := p.labels));
    Done(Reply(it1, None, !Ok(it1) && it1.hasHandler))
  }

  /** `run()`: runs "main" of the stored labels from line 1. */
  function Run(fuel: nat, it: Interpreter): (r: Eval<Reply>)
    ensures r.Done? ==> !r.value.it.st.exit && r.value.it.states == it.states
  {
    var run :- RunLabel(fuel, "main", it.st.labels, it.st.(returnValue := Null, line := 1), []);
    Done(Finish(it.(st := run.st.(errorMsg := run.msg, exit := false))))
  }

  /** `run(label, args)`: resets the return value, the line and the exit
      flag first, then runs the label with the arguments. */
  function RunNamed(fuel: nat, it: Interpreter, name: string, args: seq<Value>): (r: Eval<Reply>)
    ensures r.Done? ==> r.value.it.states == it.states
    ensures fuel > 0 && name !in it.st.labels ==>
      r == Done(Finish(it.(st := it.st.(returnValue := Null, line := 1, exit := false, errorMsg := ""))))
  {
    var run :- RunLabel(fuel, name, it.st.labels, it.st.(returnValue := Null, line := 1, exit := false), args);
    Done(Finish(it.(st := run.st.(errorMsg := run.msg))))
  }

  /** `eval`: preprocesses and runs a source text in one go. */
  function EvalSource(fuel: nat, it: Interpreter, source: string, loader: string -> LoadResult): (r: Eval<Reply>)
    ensures r.Done? ==> !r.value.it.st.exit && r.value.it.states == it.states
  {
    var run :- RunScript(fuel, source, it.st.(returnValue := Null), loader);
    Done(Finish(it.(st := run.st.(errorMsg := run.msg, exit := false))))
  }

  // ---------------------------------------------------------------------
  // Properties
  // ---------------------------------------------------------------------

  /** Loading a snapshot gives back exactly the tables that were saved,
      whatever happened to the tables in between. */
  lemma LoadAfterSave(it: Interpreter, id: int, other: Registry)
    ensures Load(WithReg(Save(it, id), other), id).st.reg == it.st.reg
    ensures Load(Save(it, id), id) == Save(it, id)
  {
  }

  /** Snapshots under other numbers are not touched by saving. */
  lemma SaveKeepsOthers(it: Interpreter, id: int, other: int)
    requires other != id && other in it.states
    ensures other in Save(it, id).states && Save(it, id).states[other] == it.states[other]
  {
  }

  /** `add_builtin` replaces while merging a bundle does not: after both,
      the name has the directly added builtin. */
  lemma AddBuiltinWinsOverBake(it: Interpreter, name: string, b: Builtin, e: Extension)
    ensures BakeCompiled(AddBuiltin(it, name, b), Some(e)).it.st.reg.builtins[name] == b
  {
    BakeKeepsExisting(AddBuiltin(it, name, b).st.reg, e);
  }

  /** The callback given to `on_error` and the one given to `otherwise`
      never both run, and one of them always does. */
  lemma ExactlyOneBranch(r: Reply)
    ensures OnErrorRuns(r) != OtherwiseRuns(r)
  {
  }
}

=== FILE: script_parsing.dfy ===
/** The lexer configurations of the script engine and the purely textual
    steps around them: label parameter lists and splitting an argument
    list into the source texts of its arguments. */
module ScriptParsing {
  import opened Common
  import opened KittenLexer
  import opened ScriptDefaults

  /** The characters an operator token is made of; each is a token of its own. */
  predicate IsOperatorChar(c: char) {
    c == '+' || c == '-' || c == '*' || c == '/' || c == '^' || c == '%' || c == '$'
  }

  /** Lexer of one expression: strings, the three capsule kinds, operator
      characters extracted, blanks ignored, and the usual backslash escapes. */
  const ExpressionLexer: Lexer :=
    EraseEmpty(AddBackslashOpt(AddBackslashOpt(AddBackslashOpt(AddBackslashOpt(AddBackslashOpt(
      AddIgnore(AddIgnore(AddConExtract(
        AddCapsule(AddCapsule(AddCapsule(AddStringq(NewLexer, '"'), '(', ')'), '[', ']'), '{', '}'),
        IsOperatorChar), ' '), '\t'),
      't', '\t'), 'n', '\n'), 'r', '\r'), '\\', '\\'), '"', '"'))

  /** Lexer of an argument list's inside: like the expression lexer, but
      linebreaks are blanks too, backslashes stay as they are, and ',' is
      extracted. */
  const ArgumentLexer: Lexer :=
    EraseEmpty(AddExtract(AddConExtract(IgnoreBackslashOpts(
      AddIgnore(AddIgnore(AddIgnore(
        AddStringq(AddCapsule(AddCapsule(AddCapsule(NewLexer, '(', ')'), '[', ']'), '{', '}'), '"'),
        ' '), '\t'), '\n')),
      IsOperatorChar), ','))

  /** Lexer of a script file and of a `const` block's body (the latter also
      extracts operator characters, the former '@'). */
  const ScriptLexer: Lexer :=
    EraseEmpty(IgnoreBackslashOpts(AddExtract(AddLineskip(AddLinebreak(
      AddIgnore(AddIgnore(AddCapsule(AddCapsule(AddStringq(NewLexer, '"'), '(', ')'), '[', ']'), ' '), '\t'),
      '\n'), '#'), '@')))

  const ConstLexer: Lexer :=
    EraseEmpty(IgnoreBackslashOpts(AddConExtract(AddLineskip(AddLinebreak(
      AddIgnore(AddIgnore(AddCapsule(AddCapsule(AddStringq(NewLexer, '"'), '(', ')'), '[', ']'), ' '), '\t'),
      '\n'), '#'), IsOperatorChar)))

  /** Lexer of a `bake` body: quoted file names separated by blanks. */
  const BakeLexer: Lexer :=
    AddIgnore(AddIgnore(AddIgnore(EraseEmpty(AddStringq(NewLexer, '"')), ' '), '\t'), '\n')

  /** The lexer `is_label_arglist` checks with: only ',' is special, so a
      blank stays inside a token. */
  const ArglistCheckLexer: Lexer := EraseEmpty(IgnoreBackslashOpts(AddExtract(NewLexer, ',')))

  /** The lexer `parse_label_arglist` reads names with; it skips blanks. */
  const ArglistLexer: Lexer :=
    EraseEmpty(IgnoreBackslashOpts(AddIgnore(AddIgnore(AddExtract(NewLexer, ','), ' '), '\t')))

  // ---------------------------------------------------------------------
  // Label parameter lists
  // ---------------------------------------------------------------------

  /** The scan of `is_label_arglist`: a name is expected when `wantName`,
      a comma otherwise; the list must end after a name. */
  function ScanArglist(toks: seq<Token>, wantName: bool): bool
    decreases |toks|
  {
    if toks == [] then !wantName
    else if wantName then IsName(toks[0].src) && ScanArglist(toks[1..], false)
    else toks[0].src == "," && ScanArglist(toks[1..], true)
  }

  /** The shape a parameter list must have: names at the even positions,
      commas at the odd ones, and a name last. */
  predicate Alternating(toks: seq<Token>) {
    |toks| % 2 == 1 &&
    forall k :: 0 <= k < |toks| ==> if k % 2 == 0 then IsName(toks[k].src) else toks[k].src == ","
  }

  lemma {:induction false} ScanArglistAlternates(toks: seq<Token>, wantName: bool)
    ensures ScanArglist(toks, wantName) <==>
      if wantName then Alternating(toks) else toks == [] || (toks[0].src == "," && Alternating(toks[1..]))
    decreases |toks|
  {
    if toks != [] {
      ScanArglistAlternates(toks[1..], !wantName);
      if wantName {
        if Alternating(toks) && |toks| > 1 {
          assert toks[1..][0] == toks[1];
          assert toks[1..][1..] == toks[2..];
          forall k | 0 <= k < |toks[2..]|
            ensures if k % 2 == 0 then IsName(toks[2..][k].src) else toks[2..][k].src == ","
          {
            assert toks[2..][k] == toks[k + 2];
          }
        }
        if IsName(toks[0].src) && |toks| > 1 && toks[1].src == "," && Alternating(toks[2..]) {
          forall k | 0 <= k < |toks|
            ensures if k % 2 == 0 then IsName(toks[k].src) else toks[k].src == ","
          {
            if k >= 2 {
              assert toks[k] == toks[2..][k - 2];
            }
          }
        }
        if |toks| > 1 {
          assert toks[1..][1..] == toks[2..];
        }
      } else {
        if |toks| > 1 {
          assert toks[1..][1..] == toks[2..];
        }
      }
    }
  }

  /** `is_label_arglist`: a `[...]` body whose inside is empty or an
      alternation of identifiers and commas; blanks are not allowed. */
  predicate IsLabelArglist(s: string) {
    |s| >= 2 && s[0] == '[' && Last(s) == ']' &&
    var lexed := Lex(ArglistCheckLexer, StripEnds(s)).tokens;
    lexed == [] || ScanArglist(lexed, true)
  }

  /** A parameter list is accepted exactly when its inside lexes to nothing
      or to alternating identifiers and commas that end on an identifier. */
  lemma LabelArglistShape(s: string)
    requires |s| >= 2 && s[0] == '[' && Last(s) == ']'
    ensures IsLabelArglist(s) <==>
      var lexed := Lex(ArglistCheckLexer, StripEnds(s)).tokens;
      lexed == [] || Alternating(lexed)
  {
    ScanArglistAlternates(Lex(ArglistCheckLexer, StripEnds(s)).tokens, true);
  }

  /** The collecting scan of `parse_label_arglist`; any break in the
      alternation gives the empty list. */
  function CollectNames(toks: seq<Token>, wantName: bool): Option<seq<string>>
    decreases |toks|
  {
    if toks == [] then Some([])
    else if wantName then
      if !IsName(toks[0].src) then None
      else
        var rest :- CollectNames(toks[1..], false);
        Some([toks[0].src] + rest)
    else if toks[0].src != "," then None
    else CollectNames(toks[1..], true)
  }

  /** On an alternating list the collected names are exactly the tokens at
      the even positions, in order. */
  lemma {:induction false} CollectNamesOfAlternating(toks: seq<Token>)
    requires Alternating(toks)
    ensures CollectNames(toks, true).Some?
    ensures var names := CollectNames(toks, true).value;
      |names| == (|toks| + 1) / 2 && forall k :: 0 <= k < |names| ==> names[k] == toks[2 * k].src
    decreases |toks|
  {
    if |toks| > 1 {
      var rest := toks[2..];
      assert Alternating(rest) by {
        forall k | 0 <= k < |rest|
          ensures if k % 2 == 0 then IsName(rest[k].src) else rest[k].src == ","
        {
          assert rest[k] == toks[k + 2];
        }
      }
      CollectNamesOfAlternating(rest);
      assert toks[1..][1..] == rest;
      assert CollectNames(toks[1..], false) == CollectNames(rest, true);
    }
  }

  /** `parse_label_arglist`: the parameter names, or [] when the body is
      not a parameter list. */
  function ParseLabelArglist(s: string): (names: seq<string>)
    ensures forall k :: 0 <= k < |names| ==> IsName(names[k])
  {
    if !IsLabelArglist(s) then []
    else
      var lexed := Lex(ArglistLexer, StripEnds(s)).tokens;
      match CollectNames(lexed, true)
      case Some(names) => CollectedAreNames(lexed, true); names
      case None => []
  }

  lemma {:induction false} CollectedAreNames(toks: seq<Token>, wantName: bool)
    ensures CollectNames(toks, wantName).Some? ==>
      forall k :: 0 <= k < |CollectNames(toks, wantName).value| ==> IsName(CollectNames(toks, wantName).value[k])
    decreases |toks|
  {
    if toks != [] {
      CollectedAreNames(toks[1..], !wantName);
    }
  }

  // ---------------------------------------------------------------------
  // Argument lists
  // ---------------------------------------------------------------------

  predicate IsComma(t: Token) { !t.str && t.src == "," }

  /** How a token is written back into an argument's source text: strings
      get their quotes back, a bare macro name becomes its replacement. */
  function ArgumentPiece(t: Token, macros: map<string, string>): string {
    if t.str then "\"" + t.src + "\""
    else if t.src in macros then macros[t.src]
    else t.src
  }

  /** The splitting loop of `parse_argumentlist`: `args` starts as one empty
      text; a comma opens the next one; any other token is appended to the
      current one after a blank. */
  function SplitArguments(toks: seq<Token>, macros: map<string, string>, args: seq<string>): (r: seq<string>)
    requires |args| > 0
    ensures |r| > 0
    decreases |toks|
  {
    if toks == [] then args
    else if IsComma(toks[0]) then SplitArguments(toks[1..], macros, args + [""])
    else SplitArguments(toks[1..], macros, DropLast(args) + [Last(args) + " " + ArgumentPiece(toks[0], macros)])
  }

  function CommaCount(toks: seq<Token>): nat
    decreases |toks|
  {
    if toks == [] then 0 else (if IsComma(toks[0]) then 1 else 0) + CommaCount(toks[1..])
  }

  /** There is one argument text more than there are top-level commas, and
      the texts already split are never touched again. */
  lemma {:induction false} SplitArgumentsCount(toks: seq<Token>, macros: map<string, string>, args: seq<string>)
    requires |args| > 0
    ensures |SplitArguments(toks, macros, args)| == |args| + CommaCount(toks)
    ensures SplitArguments(toks, macros, args)[..|args| - 1] == DropLast(args)
    decreases |toks|
  {
    if toks != [] {
      if IsComma(toks[0]) {
        SplitArgumentsCount(toks[1..], macros, args + [""]);
        assert (args + [""])[..|args|] == args;
      } else {
        var args' := DropLast(args) + [Last(args) + " " + ArgumentPiece(toks[0], macros)];
        SplitArgumentsCount(toks[1..], macros, args');
        assert args'[..|args'| - 1] == DropLast(args);
      }
    }
  }

  /** Without commas all tokens land in the one argument, each written
      back after a blank. */
  lemma {:induction false} SplitWithoutCommas(toks: seq<Token>, macros: map<string, string>, a: string)
    requires CommaCount(toks) == 0
    ensures SplitArguments(toks, macros, [a]) == [a + JoinPieces(toks, macros)]
    decreases |toks|
  {
    if toks != [] {
      var p := ArgumentPiece(toks[0], macros);
      assert !IsComma(toks[0]) && CommaCount(toks[1..]) == 0;
      SplitOnePiece(toks, macros, a);
      SplitWithoutCommas(toks[1..], macros, a + " " + p);
      JoinOnePiece(toks, macros, a);
    } else {
      assert a + JoinPieces(toks, macros) == a;
    }
  }

  /** A token that is not a comma goes into the only argument. */
  lemma SplitOnePiece(toks: seq<Token>, macros: map<string, string>, a: string)
    requires toks != [] && !IsComma(toks[0])
    ensures SplitArguments(toks, macros, [a])
            == SplitArguments(toks[1..], macros, [a + " " + ArgumentPiece(toks[0], macros)])
  {
    assert DropLast([a]) + [a + " " + ArgumentPiece(toks[0], macros)] == [a + " " + ArgumentPiece(toks[0], macros)];
  }

  lemma JoinOnePiece(toks: seq<Token>, macros: map<string, string>, a: string)
    requires toks != []
    ensures a + " " + ArgumentPiece(toks[0], macros) + JoinPieces(toks[1..], macros) == a + JoinPieces(toks, macros)
  {
    var p := ArgumentPiece(toks[0], macros);
    var rest := JoinPieces(toks[1..], macros);
    assert JoinPieces(toks, macros) == " " + p + rest;
    assert a + " " + p + rest == a + (" " + p + rest);
  }

  /** Each token written back, each preceded by a blank. */
  function JoinPieces(toks: seq<Token>, macros: map<string, string>): string
    decreases |toks|
  {
    if toks == [] then "" else " " + ArgumentPiece(toks[0], macros) + JoinPieces(toks[1..], macros)
  }

  /** The expression text of a `const` line: the tokens after `name =`,
      strings re-quoted, joined by single blanks. */
  function ConstExpression(toks: seq<Token>): string
    decreases |toks|
  {
    if toks == [] then ""
    else if |toks| == 1 then ArgumentPiece(toks[0], map[])
    else ArgumentPiece(toks[0], map[]) + " " + ConstExpression(toks[1..])
  }
}

=== FILE: script_precedence.dfy ===
/** What precedence climbing computes. Over a list of operands and resolved
    binary operators, `expression_check_prec` evaluates the same tree as a
    plain recursive reading of the expression: split at the loosest
    operator (the largest priority number, the rightmost of equals), value
    the left side, then the right side, then apply. A lower priority number
    therefore binds tighter, and operators of equal priority group to the
    left. */
module ScriptPrecedence {
  import opened Common
  import opened ScriptValues
  import opened ScriptState
  import opened ScriptDefaults
  import opened ScriptEngine
  import opened ScriptTree
  import opened ScriptClimb

  /** `expression_check_prec` from operand `i`. */
  function ClimbOf(toks: seq<MTok>, st: Settings, errs: Errors): Climber {
    (f: nat, i: nat, b: int) => CheckPrec(f, toks, 2 * i, b, st, errs)
  }

  /** The loop of `expression_check_prec` after operand `k`. */
  function LoopOf(toks: seq<MTok>, st: Settings, errs: Errors): Looper {
    (f: nat, k: nat, b: int, v: Value) => CheckPrecLoop(f, toks, 2 * k + 1, b, Val(v), st, errs)
  }

  /** The interpreter's operator application. */
  function Interpreted(st: Settings): Applier {
    (impl: Option<OpImpl>, x: Value, y: Value) => RunOperator(impl, x, y, st)
  }

  /** The loop ends at the end of the list or at an operator whose
      priority reaches the bound, with its left operand as the value. */
  lemma LoopStops(fuel: nat, toks: seq<MTok>, n: nat, k: nat, bound: int, left: Value, st: Settings, errs: Errors)
    requires Alternating(toks, n) && fuel >= 2 && k < n
    requires k + 1 < n ==> Prio(Opr(toks, k + 1)) >= bound
    ensures CheckPrecLoop(fuel, toks, 2 * k + 1, bound, Val(left), st, errs) == Done(Climbed(left, 2 * k + 1, st, errs))
  {
    assert GetVal(fuel - 1, Val(left), st, errs) == Done(Parsed(left, st, errs));
    if k + 1 < n {
      assert toks[2 * k + 1] == Opr(toks, k + 1);
    }
  }

  /** Below the bound, the loop after operand `k` applies operator `k + 1`. */
  lemma LoopIsBinary(fuel: nat, toks: seq<MTok>, n: nat, k: nat, bound: int, left: Value, st: Settings, errs: Errors)
    requires Alternating(toks, n) && fuel > 0 && k + 1 < n && Prio(Opr(toks, k + 1)) < bound
    ensures 2 * k + 1 < |toks| && toks[2 * k + 1] == Opr(toks, k + 1)
    ensures CheckPrecLoop(fuel, toks, 2 * k + 1, bound, Val(left), st, errs) == ClimbBinary(fuel, toks, 2 * k + 1, bound, Val(left), st, errs)
  {
  }

  /** A stuck climb of the right operand is a stuck application. */
  lemma BinaryStuck(fuel: nat, toks: seq<MTok>, k: nat, bound: int, left: Value, st: Settings, errs: Errors, why: StuckReason)
    requires fuel > 2 && 2 * k + 1 < |toks| && toks[2 * k + 1].Op?
    requires CheckPrec(fuel - 1, toks, 2 * k + 2, toks[2 * k + 1].priority, st, errs) == Stuck(why)
    ensures ClimbBinary(fuel, toks, 2 * k + 1, bound, Val(left), st, errs) == Stuck(why)
  {
  }

  /** A right operand that reports an error fails the application. */
  lemma BinaryRightFails(fuel: nat, toks: seq<MTok>, k: nat, bound: int, left: Value, st: Settings, errs: Errors)
    requires fuel > 2 && 2 * k + 1 < |toks| && toks[2 * k + 1].Op?
    requires var c := CheckPrec(fuel - 1, toks, 2 * k + 2, toks[2 * k + 1].priority, st, errs);
      c.Done? && c.value.value.Null? && c.value.errs.hasNew
    ensures var c := ClimbBinary(fuel, toks, 2 * k + 1, bound, Val(left), st, errs);
      c.Done? && c.value.value.Null? && c.value.errs.hasNew
  {
  }

  /** A right operand with a value `y`, stopped after operand `m`, whose
      application is stuck: the run is stuck. */
  lemma BinaryOpStuck(fuel: nat, toks: seq<MTok>, k: nat, bound: int, left: Value, st: Settings, errs: Errors,
                      y: Value, m: nat, why: StuckReason)
    requires fuel > 2 && 2 * k + 1 < |toks| && toks[2 * k + 1].Op? && !errs.hasNew
    requires CheckPrec(fuel - 1, toks, 2 * k + 2, toks[2 * k + 1].priority, st, errs) == Done(Climbed(y, 2 * m + 1, st, errs))
    requires RunOperator(toks[2 * k + 1].impl, left, y, st) == Stuck(why)
    ensures ClimbBinary(fuel, toks, 2 * k + 1, bound, Val(left), st, errs) == Stuck(why)
  {
    assert GetVal(fuel - 1, Val(left), st, errs) == Done(Parsed(left, st, errs));
  }

  /** A right operand with a value `y`, stopped after operand `m`, whose
      application reports an error: the application fails. */
  lemma BinaryOpFails(fuel: nat, toks: seq<MTok>, k: nat, bound: int, left: Value, st: Settings, errs: Errors,
                      y: Value, m: nat, o: Outcome)
    requires fuel > 2 && 2 * k + 1 < |toks| && toks[2 * k + 1].Op? && !errs.hasNew
    requires CheckPrec(fuel - 1, toks, 2 * k + 2, toks[2 * k + 1].priority, st, errs) == Done(Climbed(y, 2 * m + 1, st, errs))
    requires RunOperator(toks[2 * k + 1].impl, left, y, st) == Done(o) && o.error != ""
    ensures var c := ClimbBinary(fuel, toks, 2 * k + 1, bound, Val(left), st, errs);
      c.Done? && c.value.value.Null? && c.value.errs.hasNew
  {
    assert GetVal(fuel - 1, Val(left), st, errs) == Done(Parsed(left, st, errs));
  }

  /** A right operand with a value `y`, stopped after operand `m`, whose
      application has a value: the loop goes on after operand `m` with it. */
  lemma BinaryOpValue(fuel: nat, toks: seq<MTok>, k: nat, bound: int, left: Value, st: Settings, errs: Errors,
                      y: Value, m: nat, o: Outcome)
    requires fuel > 2 && 2 * k + 1 < |toks| && toks[2 * k + 1].Op? && !errs.hasNew && st.errorMsg == ""
    requires CheckPrec(fuel - 1, toks, 2 * k + 2, toks[2 * k + 1].priority, st, errs) == Done(Climbed(y, 2 * m + 1, st, errs))
    requires RunOperator(toks[2 * k + 1].impl, left, y, st) == Done(o) && o.error == ""
    ensures ClimbBinary(fuel, toks, 2 * k + 1, bound, Val(left), st, errs)
         == CheckPrecLoop(fuel - 1, toks, 2 * m + 1, bound, Val(o.value), st, errs)
  {
    assert GetVal(fuel - 1, Val(left), st, errs) == Done(Parsed(left, st, errs));
    assert Report(st, o.error) == st;
  }

  /** A right operand with a value `y`, stopped after operand `m`, is
      applied: a stuck application is a stuck run, an error fails the
      application, and a value goes on with the loop after operand `m`. */
  lemma BinaryRightValue(fuel: nat, toks: seq<MTok>, n: nat, k: nat, bound: int, left: Value, st: Settings, errs: Errors,
                         y: Value, m: nat)
    requires Alternating(toks, n) && fuel > 2 && k + 1 <= m < n
    requires !errs.hasNew && st.errorMsg == ""
    requires CheckPrec(fuel - 1, toks, 2 * (k + 1), Prio(Opr(toks, k + 1)), st, errs) == Done(Climbed(y, 2 * m + 1, st, errs))
    ensures var c := ClimbBinary(fuel, toks, 2 * k + 1, bound, Val(left), st, errs);
      match RunOperator(Impl(Opr(toks, k + 1)), left, y, st)
      case Stuck(why) => c == Stuck(why)
      case Done(o) =>
        if o.error != "" then c.Done? && c.value.value.Null? && c.value.errs.hasNew
        else c == CheckPrecLoop(fuel - 1, toks, 2 * m + 1, bound, Val(o.value), st, errs)
  {
    assert toks[2 * k + 1] == Opr(toks, k + 1);
    match RunOperator(Impl(Opr(toks, k + 1)), left, y, st)
    case Stuck(why) => BinaryOpStuck(fuel, toks, k, bound, left, st, errs, y, m, why);
    case Done(o) =>
      if o.error != "" {
        BinaryOpFails(fuel, toks, k, bound, left, st, errs, y, m, o);
      } else {
        BinaryOpValue(fuel, toks, k, bound, left, st, errs, y, m, o);
      }
  }

  /** One binary application, given what the climb of the right operand
      agrees with: a value goes on with the loop where that climb stopped,
      anything else is the application's result. */
  lemma BinaryAgrees(fuel: nat, toks: seq<MTok>, n: nat, k: nat, bound: int, left: Value, st: Settings, errs: Errors,
                     t: Eval<Option<Value>>, m: nat)
    requires Alternating(toks, n) && fuel > 2 && k + 1 <= m < n
    requires !errs.hasNew && st.errorMsg == ""
    requires Agrees(CheckPrec(fuel - 1, toks, 2 * (k + 1), Prio(Opr(toks, k + 1)), st, errs), t, m, st, errs)
    ensures var r := Combine(Interpreted(st), Impl(Opr(toks, k + 1)), Done(Some(left)), t);
      if r.Done? && r.value.Some? then
        ClimbBinary(fuel, toks, 2 * k + 1, bound, Val(left), st, errs) == CheckPrecLoop(fuel - 1, toks, 2 * m + 1, bound, Val(r.value.value), st, errs)
      else Agrees(ClimbBinary(fuel, toks, 2 * k + 1, bound, Val(left), st, errs), r, m, st, errs)
  {
    assert toks[2 * k + 1] == Opr(toks, k + 1);
    match t
    case Stuck(why) => BinaryStuck(fuel, toks, k, bound, left, st, errs, why);
    case Done(None) => BinaryRightFails(fuel, toks, k, bound, left, st, errs);
    case Done(Some(y)) => BinaryRightValue(fuel, toks, n, k, bound, left, st, errs, y, m);
  }

  /** One binary application of the loop, given what the climb of the
      right operand agrees with: a value continues the loop where that
      climb stopped, anything else is the loop's result. */
  lemma LoopBinary(fuel: nat, toks: seq<MTok>, n: nat, k: nat, bound: int, left: Value, st: Settings, errs: Errors,
                   t: Eval<Option<Value>>, m: nat)
    requires Alternating(toks, n) && fuel > 2 && k + 1 <= m < n && Prio(Opr(toks, k + 1)) < bound
    requires !errs.hasNew && st.errorMsg == ""
    requires Agrees(CheckPrec(fuel - 1, toks, 2 * (k + 1), Prio(Opr(toks, k + 1)), st, errs), t, m, st, errs)
    ensures var r := Combine(Interpreted(st), Impl(Opr(toks, k + 1)), Done(Some(left)), t);
      if r.Done? && r.value.Some? then
        CheckPrecLoop(fuel, toks, 2 * k + 1, bound, Val(left), st, errs) == CheckPrecLoop(fuel - 1, toks, 2 * m + 1, bound, Val(r.value.value), st, errs)
      else Agrees(CheckPrecLoop(fuel, toks, 2 * k + 1, bound, Val(left), st, errs), r, m, st, errs)
  {
    LoopIsBinary(fuel, toks, n, k, bound, left, st, errs);
    BinaryAgrees(fuel, toks, n, k, bound, left, st, errs, t, m);
  }

  /** The loop of `expression_check_prec` ends as the recurrences say. */
  lemma EngineLoopsEnd(toks: seq<MTok>, n: nat, st: Settings, errs: Errors)
    requires Alternating(toks, n)
    ensures LoopsEnd(toks, n, LoopOf(toks, st, errs), st, errs)
  {
    var loop := LoopOf(toks, st, errs);
    forall f: nat, k: nat, b: int, v: Value | 2 <= f && k < n && (k + 1 < n ==> Prio(Opr(toks, k + 1)) >= b)
      ensures loop(f, k, b, v) == Done(Climbed(v, 2 * k + 1, st, errs))
    {
      LoopStops(f, toks, n, k, b, v, st, errs);
    }
  }

  /** A climb of `expression_check_prec` starts as the recurrences say. */
  lemma EngineClimbsStart(toks: seq<MTok>, n: nat, st: Settings, errs: Errors)
    requires Alternating(toks, n) && !errs.hasNew
    ensures ClimbsStart(toks, n, ClimbOf(toks, st, errs), LoopOf(toks, st, errs))
  {
    var climb, loop := ClimbOf(toks, st, errs), LoopOf(toks, st, errs);
    forall f: nat, i: nat, b: int | 1 <= f && i < n
      ensures climb(f, i, b) == loop(f - 1, i, b, Operand(Opd(toks, i)))
    {
      assert toks[2 * i] == Opd(toks, i) == Val(Operand(Opd(toks, i)));
    }
  }

  /** The loop of `expression_check_prec` applies an operator below the
      bound as the recurrences say, with the interpreter's application. */
  lemma EngineLoopsApply(toks: seq<MTok>, n: nat, st: Settings, errs: Errors)
    requires Alternating(toks, n) && !errs.hasNew && st.errorMsg == ""
    ensures LoopsApply(toks, n, ClimbOf(toks, st, errs), LoopOf(toks, st, errs), Interpreted(st), st, errs)
  {
    var climb, loop, app := ClimbOf(toks, st, errs), LoopOf(toks, st, errs), Interpreted(st);
    forall f: nat, g: nat, k: nat, i: nat, p: int, b: int, v: Value, t: Eval<Option<Value>>, m: nat
      {:trigger loop(f, k, b, v), Agrees(climb(g, i, p), t, m, st, errs)} |
      && f == g + 1 && 2 <= g && i == k + 1 && i <= m < n && p == Prio(Opr(toks, i)) && p < b
      && Agrees(climb(g, i, p), t, m, st, errs)
      ensures var r := Combine(app, Impl(Opr(toks, i)), Done(Some(v)), t);
        if r.Done? && r.value.Some? then loop(f, k, b, v) == loop(g, m, b, r.value.value)
        else Agrees(loop(f, k, b, v), r, m, st, errs)
    {
      LoopBinary(f, toks, n, k, b, v, st, errs, t, m);
    }
  }

  /** `expression_check_prec` and its loop satisfy the recurrences, with the
      interpreter's operator application. */
  lemma EngineRecurrences(toks: seq<MTok>, n: nat, st: Settings, errs: Errors)
    requires Alternating(toks, n) && !errs.hasNew && st.errorMsg == ""
    ensures Recurrences(toks, n, ClimbOf(toks, st, errs), LoopOf(toks, st, errs), Interpreted(st), st, errs)
  {
    EngineLoopsEnd(toks, n, st, errs);
    EngineClimbsStart(toks, n, st, errs);
    EngineLoopsApply(toks, n, st, errs);
  }

  /** Precedence climbing over a whole list of operands and resolved binary
      operators, all below the outermost bound, evaluates the reference
      tree: the same value, the same stuck run, or an error exactly when an
      application in the tree reports one. */
  lemma ClimbingEvaluatesTree(fuel: nat, toks: seq<MTok>, n: nat, st: Settings, errs: Errors)
    requires Alternating(toks, n) && !errs.hasNew && st.errorMsg == ""
    requires Below(toks, 0, n, MaxPrec)
    requires fuel >= |toks| + 2
    ensures Agrees(CheckPrec(fuel, toks, 0, MaxPrec, st, errs), Tree(toks, 0, n, Interpreted(st)), n - 1, st, errs)
  {
    EngineRecurrences(toks, n, st, errs);
    ClimbAgrees(fuel, toks, n, 0, MaxPrec, ClimbOf(toks, st, errs), LoopOf(toks, st, errs), Interpreted(st), st, errs);
    StopSkips(toks, n, 1, n, MaxPrec);
  }

  function Three(a: Value, o1: MTok, b: Value, o2: MTok, c: Value): seq<MTok> {
    [Val(a), o1, Val(b), o2, Val(c)]
  }

  /** Of two operators the one with the lower priority number applies
      first: with p1 < p2, `a o1 b o2 c` is `(a o1 b) o2 c`. */
  lemma TighterLeftFirst(fuel: nat, a: Value, o1: MTok, b: Value, o2: MTok, c: Value, st: Settings, errs: Errors, x: Value, y: Value)
    requires o1.Op? && o1.kind == Binary && o2.Op? && o2.kind == Binary
    requires o1.priority < o2.priority < MaxPrec
    requires !errs.hasNew && st.errorMsg == "" && fuel >= 7
    requires RunOperator(o1.impl, a, b, st) == Done(Ok(x)) && RunOperator(o2.impl, x, c, st) == Done(Ok(y))
    ensures CheckPrec(fuel, Three(a, o1, b, o2, c), 0, MaxPrec, st, errs) == Done(Climbed(y, 5, st, errs))
  {
    var toks := Three(a, o1, b, o2, c);
    ClimbingEvaluatesTree(fuel, toks, 3, st, errs);
    RootAt(toks, 0, 3, 2);
  }

  /** With p2 < p1, `a o1 b o2 c` is `a o1 (b o2 c)`. */
  lemma TighterRightFirst(fuel: nat, a: Value, o1: MTok, b: Value, o2: MTok, c: Value, st: Settings, errs: Errors, x: Value, y: Value)
    requires o1.Op? && o1.kind == Binary && o2.Op? && o2.kind == Binary
    requires o2.priority < o1.priority < MaxPrec
    requires !errs.hasNew && st.errorMsg == "" && fuel >= 7
    requires RunOperator(o2.impl, b, c, st) == Done(Ok(x)) && RunOperator(o1.impl, a, x, st) == Done(Ok(y))
    ensures CheckPrec(fuel, Three(a, o1, b, o2, c), 0, MaxPrec, st, errs) == Done(Climbed(y, 5, st, errs))
  {
    var toks := Three(a, o1, b, o2, c);
    ClimbingEvaluatesTree(fuel, toks, 3, st, errs);
    RootAt(toks, 0, 3, 1);
  }

  /** Operators of equal priority group to the left: `a o1 b o2 c` is
      `(a o1 b) o2 c`. */
  lemma EqualGroupLeft(fuel: nat, a: Value, o1: MTok, b: Value, o2: MTok, c: Value, st: Settings, errs: Errors, x: Value, y: Value)
    requires o1.Op? && o1.kind == Binary && o2.Op? && o2.kind == Binary
    requires o1.priority == o2.priority < MaxPrec
    requires !errs.hasNew && st.errorMsg == "" && fuel >= 7
    requires RunOperator(o1.impl, a, b, st) == Done(Ok(x)) && RunOperator(o2.impl, x, c, st) == Done(Ok(y))
    ensures CheckPrec(fuel, Three(a, o1, b, o2, c), 0, MaxPrec, st, errs) == Done(Climbed(y, 5, st, errs))
  {
    var toks := Three(a, o1, b, o2, c);
    ClimbingEvaluatesTree(fuel, toks, 3, st, errs);
    RootAt(toks, 0, 3, 2);
  }
}

=== FILE: script_preprocess.dfy ===
/** The preprocessor: splits a script into labels, evaluates `@ const`
    blocks and bakes the extensions `@ bake` names; and `run_script`, which
    preprocesses and then runs the label "main". */
module ScriptPreprocess {
  import opened Common
  import opened KittenLexer
  import opened ScriptValues
  import opened ScriptState
  import opened ScriptDefaults
  import opened ScriptParsing
  import opened ScriptEngine

  /** What loading an extension by name gives: the bundle, or the reason
      the dynamic loader reported. Loading is a parameter of the model. */
  datatype LoadResult = Loaded(ext: Extension) | LoadFailed(reason: string)

  datatype Preprocessed = Preprocessed(labels: map<string, Label>, st: Settings)

  const ConstSyntax: string := "invalid syntax. <name> = <expression...>"

  /** A constant line: a name, "=", then at least one token of expression. */
  predicate ConstLineShape(g: seq<Token>) {
    |g| >= 3 && !g[0].str && !g[1].str && IsName(g[0].src) && g[1].src == "="
  }

  /** `parse_const_preprog`: one `name = expression` per line, each bound
      in the constants (even when its evaluation fails), stopping at the
      first error. */
  function ParseConstPreprog(fuel: nat, source: string, st: Settings): (r: Eval<Settings>)
  {
    ConstLines(fuel, Lines(Lex(ConstLexer, source).tokens), st)
  }

  function ConstLines(fuel: nat, groups: seq<seq<Token>>, st: Settings): Eval<Settings>
    decreases |groups|
  {
    if groups == [] then Done(st)
    else if !ConstLineShape(groups[0]) then Done(st.(errorMsg := ConstSyntax))
    else
      var g := groups[0];
      var e :- EvaluateExpression(fuel, ConstExpression(g[2..]), st);
      var st1 := e.st.(constants := e.st.constants[g[0].src := e.value]);
      if st1.errorMsg != "" then Done(st1) else ConstLines(fuel, groups[1..], st1)
  }

  /** The constant block `groups` finishes without an error in `c`. */
  predicate BlockBinds(fuel: nat, groups: seq<seq<Token>>, st: Settings, c: Settings) {
    ConstLines(fuel, groups, st) == Done(c) && c.errorMsg == ""
  }

  /** Every line of `groups` has the constant shape and binds a non-Null
      value in `c`. */
  predicate AllBound(groups: seq<seq<Token>>, c: map<string, Value>) {
    forall k :: 0 <= k < |groups| ==>
      ConstLineShape(groups[k]) && groups[k][0].src in c && !c[groups[k][0].src].Null?
  }

  /** Every constant of `before` is in `c`, with the same value or a
      non-Null one. */
  predicate KeepsBound(before: map<string, Value>, c: map<string, Value>) {
    forall n :: n in before ==> n in c && (c[n] == before[n] || !c[n].Null?)
  }

  /** When a constant block finishes without an error, every line had the
      `name = expression` shape and every name is bound to a non-Null value. */
  lemma {:induction false} ConstLinesBindAll(fuel: nat, groups: seq<seq<Token>>, st: Settings, c: Settings)
    requires BlockBinds(fuel, groups, st, c)
    ensures AllBound(groups, c.constants)
    decreases |groups|
  {
    if groups != [] {
      var st1, v := ConstLinesHead(fuel, groups, st, c);
      ConstLinesBindAll(fuel, groups[1..], st1, c);
      ConstLinesKeep(fuel, groups[1..], st1, c);
      AllBoundCons(groups, st1.constants, c.constants);
    }
  }

  lemma AllBoundCons(groups: seq<seq<Token>>, first: map<string, Value>, c: map<string, Value>)
    requires groups != [] && ConstLineShape(groups[0])
    requires groups[0][0].src in first && !first[groups[0][0].src].Null?
    requires AllBound(groups[1..], c) && KeepsBound(first, c)
    ensures AllBound(groups, c)
  {
    forall k | 0 <= k < |groups|
      ensures ConstLineShape(groups[k]) && groups[k][0].src in c && !c[groups[k][0].src].Null?
    {
      if k > 0 {
        assert groups[k] == groups[1..][k - 1];
      }
    }
  }

  /** Constants bound before an error-free block keep their value unless a
      line of the block rebinds them, and then to a non-Null value. */
  lemma {:induction false} ConstLinesKeep(fuel: nat, groups: seq<seq<Token>>, st: Settings, c: Settings)
    requires BlockBinds(fuel, groups, st, c)
    ensures KeepsBound(st.constants, c.constants)
    decreases |groups|
  {
    if groups != [] {
      var st1, v := ConstLinesHead(fuel, groups, st, c);
      ConstLinesKeep(fuel, groups[1..], st1, c);
      KeepsBoundRebind(st.constants, groups[0][0].src, v, c.constants);
    }
  }

  lemma KeepsBoundRebind(before: map<string, Value>, name: string, v: Value, c: map<string, Value>)
    requires !v.Null? && KeepsBound(before[name := v], c)
    ensures KeepsBound(before, c)
  {
    forall n | n in before
      ensures n in c && (c[n] == before[n] || !c[n].Null?)
    {
      assert n in before[name := v];
    }
  }

  /** A constant block that finishes without an error had the shape on its
      first line, bound that name to a non-Null value `v` (the other
      constants are as before), and ran the rest from the settings `st1`. */
  lemma ConstLinesHead(fuel: nat, groups: seq<seq<Token>>, st: Settings, c: Settings) returns (st1: Settings, v: Value)
    requires groups != [] && BlockBinds(fuel, groups, st, c)
    ensures ConstLineShape(groups[0]) && !v.Null?
    ensures st1.constants == st.constants[groups[0][0].src := v]
    ensures BlockBinds(fuel, groups[1..], st1, c)
  {
    var g := groups[0];
    var e := EvaluateExpression(fuel, ConstExpression(g[2..]), st);
    assert e.Done?;
    v := e.value.value;
    st1 := e.value.st.(constants := e.value.st.constants[g[0].src := v]);
    assert st1.errorMsg == "";
  }

  /** The checks `const` and `bake` make of their body token; gives the
      error text after the directive name, or "" for a good body. */
  function BodyError(t: Token): string {
    if t.str then "unexpected string"
    else if |t.src| < 2 then "unexpected token"
    else if t.src[0] != '[' || Last(t.src) != ']' then "expected body"
    else ""
  }

  /** The empty label a `std::map` lookup creates. */
  const NoLabel: Label := Label([], [], 0)

  function LabelOr(ret: map<string, Label>, name: string): Label {
    if name in ret then ret[name] else NoLabel
  }

  predicate AllNames(ns: seq<string>) { forall k :: 0 <= k < |ns| ==> IsName(ns[k]) }

  /** What one preprocessor line leads to: stop with this error (the
      result is then empty), or go on with this current label, labels and
      settings. */
  datatype Step = Halt(st: Settings) | Proceed(current: string, labels: map<string, Label>, st: Settings)

  /** `@ const [...]`: the body's lines bind constants. */
  function ConstDirective(fuel: nat, body: Token, at: string, current: string, ret: map<string, Label>,
                          st: Settings): (r: Eval<Step>)
    ensures r.Done? && r.value.Halt? ==> r.value.st.errorMsg != ""
    ensures r.Done? && r.value.Proceed? ==> r.value.labels == ret && r.value.current == current
  {
    if BodyError(body) != "" then Done(Halt(st.(errorMsg := at + "const: " + BodyError(body))))
    else
      var c :- ParseConstPreprog(fuel, StripEnds(body.src), st);
      if c.errorMsg != "" then
        Done(Halt(c.(errorMsg := at + "const: line " + IntToString(c.line) + ": " + c.errorMsg)))
      else Done(Proceed(current, ret, c))
  }

  /** `@ bake [...]`: the body's strings name extensions to bake in order. */
  function BakeDirective(body: Token, at: string, current: string, ret: map<string, Label>,
                         st: Settings, loader: string -> LoadResult): (r: Step)
    ensures r.Halt? ==> r.st.errorMsg != ""
    ensures r.Proceed? ==> r.labels == ret && r.current == current && r.st == st.(reg := r.st.reg)
  {
    if BodyError(body) != "" then Halt(st.(errorMsg := at + "bake: " + BodyError(body)))
    else
      var b := BakeAll(Lex(BakeLexer, StripEnds(body.src)).tokens, st.reg, loader);
      if b.0 != "" then Halt(st.(reg := b.1, errorMsg := at + "bake: " + b.0))
      else Proceed(current, ret, st.(reg := b.1))
  }

  /** `@ name [params]`: the label becomes current with these parameters
      and start line, keeping lines it already has; opening it twice is
      reported, but processing goes on. */
  function OpenLabel(name: Token, body: Token, at: string, ret: map<string, Label>, st: Settings): (r: Step)
    requires forall n :: n in ret ==> AllNames(ret[n].arglist)
    ensures r.Proceed? && r.current == name.src && r.labels.Keys == ret.Keys + {name.src}
    ensures forall n :: n in r.labels ==> AllNames(r.labels[n].arglist)
    ensures r.st.errorMsg != "" <==> name.src in ret || st.errorMsg != ""
  {
    var st1 := if name.src in ret then st.(errorMsg := at + "can't open label twice: " + name.src) else st;
    Proceed(name.src, ret[name.src := LabelOr(ret, name.src).(arglist := ParseLabelArglist(body.src), line := name.line)], st1)
  }

  /** A line starting with a bare "@", the `i`th line group. */
  function Directive(fuel: nat, g: seq<Token>, i: nat, current: string, ret: map<string, Label>,
                     st: Settings, loader: string -> LoadResult): (r: Eval<Step>)
    requires IsDirective(g)
    requires forall n :: n in ret ==> AllNames(ret[n].arglist)
    ensures r.Done? && r.value.Proceed? ==> forall n :: n in r.value.labels ==> AllNames(r.value.labels[n].arglist)
    ensures r.Done? && r.value.Halt? ==> r.value.st.errorMsg != ""
    ensures r.Done? && |g| != 3 ==> r.value.Halt?
  {
    if IsConstDirective(g) then ConstDirective(fuel, g[2], At(i), current, ret, st)
    else Done(OtherDirective(g, i, current, ret, st, loader))
  }

  predicate IsConstDirective(g: seq<Token>) {
    |g| == 3 && IsName(g[1].src) && !g[1].str && g[1].src == "const"
  }

  /** Every directive but `const`: the shape checks, `bake`, and opening a
      label. */
  function OtherDirective(g: seq<Token>, i: nat, current: string, ret: map<string, Label>,
                          st: Settings, loader: string -> LoadResult): (r: Step)
    requires IsDirective(g) && !IsConstDirective(g)
    requires forall n :: n in ret ==> AllNames(ret[n].arglist)
    ensures r.Proceed? ==> forall n :: n in r.labels ==> AllNames(r.labels[n].arglist)
    ensures r.Halt? ==> r.st.errorMsg != ""
    ensures |g| != 3 ==> r.Halt?
  {
    var at := At(i);
    if |g| != 3 then
      Refuse(st, at, "must have 2 arguments (got: " + NatToString(|g| - 1) + ")")
    else if !IsName(g[1].src) || g[1].str then
      Refuse(st, at, "expected instruction")
    else if g[1].src == "bake" then
      BakeDirective(g[2], at, current, ret, st, loader)
    else if IsLabelArglist(g[2].src) && !g[2].str then
      OpenLabel(g[1], g[2], at, ret, st)
    else
      Refuse(st, at, "no match for: " + g[1].src)
  }

  /** Stops preprocessing with an "invalid pre processor instruction" message. */
  function Refuse(st: Settings, at: string, why: string): (r: Step)
    requires at != ""
    ensures r.Halt? && r.st.errorMsg != "" && r.st == st.(errorMsg := r.st.errorMsg)
  {
    Halt(st.(errorMsg := at + "invalid pre processor instruction: " + why))
  }

  /** The prefix of a preprocessor message about the `i`th line group. */
  function At(i: nat): (r: string)
    ensures |r| > 0
  {
    "line " + NatToString(i + 1) + ": "
  }

  predicate IsDirective(g: seq<Token>) { |g| > 0 && g[0].src == "@" && !g[0].str }

  /** The loop of `pre_process` over the line groups; `current` is the
      label ordinary lines are appended to. */
  function PreLines(fuel: nat, groups: seq<seq<Token>>, i: nat, current: string, ret: map<string, Label>,
                    st: Settings, loader: string -> LoadResult): (r: Eval<Preprocessed>)
    requires i <= |groups|
    requires forall n :: n in ret ==> AllNames(ret[n].arglist)
    ensures r.Done? ==> forall n :: n in r.value.labels ==> AllNames(r.value.labels[n].arglist)
    decreases |groups| - i
  {
    if i == |groups| then Done(Preprocessed(ret, st))
    else if IsDirective(groups[i]) then
      var step :- Directive(fuel, groups[i], i, current, ret, st, loader);
      match step
      case Halt(st1) => Done(Preprocessed(map[], st1))
      case Proceed(c, ret1, st1) => PreLines(fuel, groups, i + 1, c, ret1, st1, loader)
    else
      var l := LabelOr(ret, current);
      PreLines(fuel, groups, i + 1, current, ret[current := l.(lines := l.lines + groups[i])], st, loader)
  }

  /** The extension list of `@ bake`: every entry must be a string, and each
      is loaded and baked in turn; gives the error text ("" for none) and
      the tables after the extensions baked so far. */
  function BakeAll(toks: seq<Token>, reg: Registry, loader: string -> LoadResult): (r: (string, Registry))
    ensures r.0 == "" ==> forall k :: 0 <= k < |toks| ==> toks[k].str && loader(toks[k].src).Loaded?
    decreases |toks|
  {
    if toks == [] then ("", reg)
    else if !toks[0].str then ("expected value: " + toks[0].src, reg)
    else match loader(toks[0].src)
      case LoadFailed(why) => ("error baking extension: " + toks[0].src + "\n" + why, reg)
      case Loaded(ext) =>
        var rest := BakeAll(toks[1..], BakeExtension(reg, Some(ext)).1, loader);
        assert forall k :: 1 <= k < |toks| ==> toks[k] == toks[1..][k - 1];
        rest
  }

  /** `pre_process`. */
  function PreProcess(fuel: nat, source: string, st: Settings, loader: string -> LoadResult): (r: Eval<Preprocessed>)
    ensures r.Done? ==> forall n :: n in r.value.labels ==> AllNames(r.value.labels[n].arglist)
  {
    PreLines(fuel, Lines(Lex(ScriptLexer, source).tokens), 0, "main", map[], st, loader)
  }

  function Flatten(gs: seq<seq<Token>>): seq<Token>
    decreases |gs|
  {
    if gs == [] then [] else gs[0] + Flatten(gs[1..])
  }

  /** The label `current` of `ret` with `toks` appended to its lines (a
      missing label is created empty first). */
  function Appended(ret: map<string, Label>, current: string, toks: seq<Token>): (r: map<string, Label>)
    ensures (forall n :: n in ret ==> AllNames(ret[n].arglist)) ==> forall n :: n in r ==> AllNames(r[n].arglist)
  {
    ret[current := LabelOr(ret, current).(lines := LabelOr(ret, current).lines + toks)]
  }

  /** The preprocessor loop from line group `i` on gives `p`. */
  predicate PreprocessesTo(fuel: nat, groups: seq<seq<Token>>, i: nat, current: string, ret: map<string, Label>,
                           st: Settings, loader: string -> LoadResult, p: Preprocessed)
    requires i <= |groups| && forall n :: n in ret ==> AllNames(ret[n].arglist)
  {
    PreLines(fuel, groups, i, current, ret, st, loader) == Done(p)
  }

  /** A line that is not a directive is appended to the current label. */
  lemma PlainLineStep(fuel: nat, groups: seq<seq<Token>>, i: nat, current: string, ret: map<string, Label>,
                      st: Settings, loader: string -> LoadResult, p: Preprocessed)
    requires i < |groups| && forall n :: n in ret ==> AllNames(ret[n].arglist)
    requires !IsDirective(groups[i])
    requires PreprocessesTo(fuel, groups, i + 1, current, Appended(ret, current, groups[i]), st, loader, p)
    ensures PreprocessesTo(fuel, groups, i, current, ret, st, loader, p)
  {
  }

  lemma AppendedTwice(ret: map<string, Label>, current: string, a: seq<Token>, b: seq<Token>)
    ensures Appended(Appended(ret, current, a), current, b) == Appended(ret, current, a + b)
  {
    assert LabelOr(Appended(ret, current, a), current) == LabelOr(ret, current).(lines := LabelOr(ret, current).lines + a);
    assert LabelOr(ret, current).lines + a + b == LabelOr(ret, current).lines + (a + b);
  }

  lemma FlattenFrom(groups: seq<seq<Token>>, i: nat)
    requires i < |groups|
    ensures Flatten(groups[i..]) == groups[i] + Flatten(groups[i + 1..])
  {
    assert groups[i..][1..] == groups[i + 1..];
  }

  /** Lines that are not directives are appended, in order, to the label
      that is current; with no directive at all, the whole script is the
      label "main". */
  lemma {:induction false} PlainLinesAppend(fuel: nat, groups: seq<seq<Token>>, i: nat, current: string,
                                            ret: map<string, Label>, st: Settings, loader: string -> LoadResult)
    requires i < |groups|
    requires forall n :: n in ret ==> AllNames(ret[n].arglist)
    requires forall k :: i <= k < |groups| ==> !IsDirective(groups[k])
    ensures PreprocessesTo(fuel, groups, i, current, ret, st, loader,
      Preprocessed(Appended(ret, current, Flatten(groups[i..])), st))
    decreases |groups| - i
  {
    var ret1 := Appended(ret, current, groups[i]);
    FlattenFrom(groups, i);
    if i + 1 == |groups| {
      assert Flatten(groups[i + 1..]) == [];
      assert groups[i] + [] == groups[i];
      assert PreprocessesTo(fuel, groups, i + 1, current, ret1, st, loader, Preprocessed(ret1, st));
    } else {
      PlainLinesAppend(fuel, groups, i + 1, current, ret1, st, loader);
      AppendedTwice(ret, current, groups[i], Flatten(groups[i + 1..]));
    }
    PlainLineStep(fuel, groups, i, current, ret, st, loader, Preprocessed(Appended(ret, current, Flatten(groups[i..])), st));
  }

  /** Opening a label that is already open reports it but does not stop:
      the label becomes current again, keeps its lines, and gets the new
      parameters and start line. */
  lemma DuplicateLabelContinues(fuel: nat, g: seq<Token>, i: nat, current: string, ret: map<string, Label>,
                                st: Settings, loader: string -> LoadResult)
    requires IsDirective(g) && |g| == 3 && !g[1].str && !g[2].str && IsName(g[1].src)
    requires g[1].src != "const" && g[1].src != "bake" && IsLabelArglist(g[2].src)
    requires g[1].src in ret && forall n :: n in ret ==> AllNames(ret[n].arglist)
    ensures Directive(fuel, g, i, current, ret, st, loader) == Done(Proceed(g[1].src,
      ret[g[1].src := ret[g[1].src].(arglist := ParseLabelArglist(g[2].src), line := g[1].line)],
      st.(errorMsg := At(i) + "can't open label twice: " + g[1].src)))
  {
  }

  /** `run_script`: preprocess (a message already set, or one the
      preprocessor sets, is returned as is), then run "main" from line 1. */
  function RunScript(fuel: nat, source: string, st: Settings, loader: string -> LoadResult): (r: Eval<Ran>)
    ensures r.Done? && r.value.msg == "" ==> !r.value.st.exit
  {
    var p :- PreProcess(fuel, source, st, loader);
    if p.st.errorMsg != "" then Done(Ran(p.st.errorMsg, p.st))
    else
      var run :- RunLabel(fuel, "main", p.labels, p.st.(line := 1), []);
      Done(Ran(run.msg, run.st.(exit := false)))
  }
}

=== FILE: script_state.dfy ===
/** The interpreter's tables (builtins, operators, typechecks, macros), the
    per-run settings record the statement executor threads through every
    step, and the outcome type of every evaluation step. */
module ScriptState {
  import opened Common
  import opened KittenLexer
  import opened ScriptValues

  /** What an operator or a function written by an extension reports: the
      value it returns and the error text it leaves behind ("" for none).
      Extension code sees its arguments only, not the interpreter state. */
  datatype Outcome = Outcome(value: Value, error: string)

  /** A value together with the settings after producing it. */
  datatype Evaluated = Evaluated(value: Value, st: Settings)

  /** The builtin functions the engine ships with. The console, file and
      process builtins are kept by name only (see `Host`); `Native` holds an
      extension's function. */
  datatype BuiltinImpl =
    | SetVar | If | Else | Endif | CallLabel | Return | Strmod | TypeOf
    | ToNumber | ToString | ExitProcess
    | Host(hostName: string)
    | Native(exec: seq<Value> -> Outcome)

  /** A builtin with its declared argument count; a negative count accepts
      any number of arguments. */
  datatype Builtin = Builtin(argCount: int, impl: BuiltinImpl)

  datatype OpKind = Unary | Binary | Unknown

  datatype OpImpl =
    | Add | Sub | Negate | Mul | Div | Pow | Is | Isnt | And | Or | More | Less | Not | Deref
    | NativeOp(run: (Value, Value) -> Outcome)

  /** One definition of an operator; a name may carry several. A lower
      priority binds tighter. */
  datatype Operator = Operator(priority: int, kind: OpKind, impl: OpImpl)

  datatype TypeCheck =
    | StringCheck | NumberCheck | NullCheck | NameCheck
    | NativeCheck(check: Token -> Option<Value>)

  /** The four tables of an interpreter (`InterpreterState`). */
  datatype Registry = Registry(
    builtins: map<string, Builtin>,
    operators: map<string, seq<Operator>>,
    typechecks: seq<TypeCheck>,
    macros: map<string, string>)

  const EmptyRegistry: Registry := Registry(map[], map[], [], map[])

  /** An extension bundle: the four tables it contributes. */
  type Extension = Registry

  /** A label: its parameter names, its tokens, and the line it starts on. */
  datatype Label = Label(arglist: seq<string>, lines: seq<Token>, line: int)

  /** `ScriptSettings`. The registry is the interpreter's, reached through
      the settings; `shouldRun` and `labelStack` are stacks whose top is
      the last element. */
  datatype Settings = Settings(
    reg: Registry,
    line: int,
    exit: bool,
    shouldRun: seq<bool>,
    variables: map<string, Value>,
    constants: map<string, Value>,
    labels: map<string, Label>,
    ignoreEndifs: int,
    returnValue: Value,
    errorMsg: string,
    rawError: bool,
    labelStack: seq<string>)

  /** Settings freshly constructed around an interpreter's tables. */
  function FreshSettings(reg: Registry): (st: Settings)
    ensures st.reg == reg && st.line == 0 && !st.exit && st.errorMsg == ""
    ensures st.variables == map[] && st.shouldRun == [] && st.returnValue == Null
  {
    Settings(reg, 0, false, [], map[], map[], map[], 0, Null, "", false, [])
  }

  /** `cc_builtin_if_ignore`: a disabled `if` branch is being skipped. */
  predicate Skipping(st: Settings) {
    st.shouldRun != [] && !Last(st.shouldRun)
  }

  /** `b` differs from `a` at most in what a builtin statement may change:
      the variables, the condition stack and its skip counter, the return
      value, the exit flag and the error message. */
  predicate RunStateOnly(a: Settings, b: Settings) {
    b == a.(variables := b.variables, shouldRun := b.shouldRun, ignoreEndifs := b.ignoreEndifs,
            returnValue := b.returnValue, exit := b.exit, errorMsg := b.errorMsg)
  }

  /** Why an evaluation stopped without an answer the model can give:
      the fuel bound ran out, the C++ behaviour is undefined, the step
      leaves the modelled world (I/O, non-finite numbers), or the script
      called `exit` with a status. */
  datatype StuckReason = OutOfFuel | Undefined(what: string) | Unmodelled(what: string) | Exit(code: int)

  datatype Eval<+T> = Done(value: T) | Stuck(reason: StuckReason) {
    predicate IsFailure() { Stuck? }

    function PropagateFailure<U>(): Eval<U>
      requires Stuck?
    {
      Stuck(reason)
    }

    function Extract(): T
      requires Done?
    {
      value
    }
  }

  /** The settings after an operator or builtin reported `error`: `_cc_error`
      overwrites the message, no report leaves it as it was. */
  function Report(st: Settings, error: string): (r: Settings)
    ensures error != "" ==> r == st.(errorMsg := error)
    ensures error == "" ==> r == st
  {
    if error != "" then st.(errorMsg := error) else st
  }

  // ---------------------------------------------------------------------
  // Merging tables
  // ---------------------------------------------------------------------

  /** `InterpreterState::add` for builtins: a map insert, so a name that is
      already present keeps its definition. */
  function AddBuiltins(reg: Registry, a: map<string, Builtin>): (r: Registry)
    ensures r.builtins.Keys == reg.builtins.Keys + a.Keys
    ensures forall n :: n in reg.builtins ==> r.builtins[n] == reg.builtins[n]
    ensures forall n :: n in a && n !in reg.builtins ==> r.builtins[n] == a[n]
    ensures r.operators == reg.operators && r.typechecks == reg.typechecks && r.macros == reg.macros
  {
    reg.(builtins := a + reg.builtins)
  }

  /** `InterpreterState::add` for operators: every name already present is
      extended by the argument's definitions for it (which must exist);
      names only the argument has are not added. */
  function AddOperators(reg: Registry, a: map<string, seq<Operator>>): (r: Registry)
    requires reg.operators.Keys <= a.Keys
    ensures r.operators.Keys == reg.operators.Keys
    ensures forall n :: n in reg.operators ==> r.operators[n] == reg.operators[n] + a[n]
    ensures r.builtins == reg.builtins && r.typechecks == reg.typechecks && r.macros == reg.macros
  {
    reg.(operators := map n | n in reg.operators :: reg.operators[n] + a[n])
  }

  /** `InterpreterState::add` for typechecks: appended after the existing ones. */
  function AddTypechecks(reg: Registry, a: seq<TypeCheck>): (r: Registry)
    ensures |r.typechecks| == |reg.typechecks| + |a|
    ensures r.typechecks[..|reg.typechecks|] == reg.typechecks && r.typechecks[|reg.typechecks|..] == a
    ensures r.builtins == reg.builtins && r.operators == reg.operators && r.macros == reg.macros
  {
    reg.(typechecks := reg.typechecks + a)
  }

  /** `InterpreterState::add` for macros: a map insert, existing names win. */
  function AddMacros(reg: Registry, a: map<string, string>): (r: Registry)
    ensures r.macros.Keys == reg.macros.Keys + a.Keys
    ensures forall n :: n in reg.macros ==> r.macros[n] == reg.macros[n]
    ensures forall n :: n in a && n !in reg.macros ==> r.macros[n] == a[n]
    ensures r.builtins == reg.builtins && r.operators == reg.operators && r.typechecks == reg.typechecks
  {
    reg.(macros := a + reg.macros)
  }

  /** Appends `defs` to the definitions of `name`, creating the entry when
      missing (`script_operators[name].push_back`). */
  function AppendOperators(ops: map<string, seq<Operator>>, name: string, defs: seq<Operator>): (r: map<string, seq<Operator>>)
    ensures r.Keys == ops.Keys + {name}
    ensures r[name] == (if name in ops then ops[name] else []) + defs
    ensures forall n :: n in ops && n != name ==> r[n] == ops[n]
  {
    ops[name := (if name in ops then ops[name] else []) + defs]
  }

  /** `bake_extension`: no bundle fails; otherwise builtins and macros are
      inserted without overwriting, typechecks appended, and each operator
      name's definitions appended (new names are created). */
  function BakeExtension(reg: Registry, ext: Option<Extension>): (r: (bool, Registry))
    ensures ext.None? <==> !r.0
    ensures ext.None? ==> r.1 == reg
    ensures ext.Some? ==> r.1.builtins == ext.value.builtins + reg.builtins
    ensures ext.Some? ==> r.1.macros == ext.value.macros + reg.macros
    ensures ext.Some? ==> r.1.typechecks == reg.typechecks + ext.value.typechecks
    ensures ext.Some? ==> r.1.operators.Keys == reg.operators.Keys + ext.value.operators.Keys
    ensures ext.Some? ==> forall n :: n in r.1.operators ==>
      r.1.operators[n] == (if n in reg.operators then reg.operators[n] else [])
                          + (if n in ext.value.operators then ext.value.operators[n] else [])
  {
    match ext
    case None => (false, reg)
    case Some(e) =>
      var ops := map n | n in reg.operators.Keys + e.operators.Keys ::
        (if n in reg.operators then reg.operators[n] else []) + (if n in e.operators then e.operators[n] else []);
      (true, Registry(e.builtins + reg.builtins, ops, reg.typechecks + e.typechecks, e.macros + reg.macros))
  }

  /** Baking never replaces a builtin or macro that is already registered. */
  lemma BakeKeepsExisting(reg: Registry, e: Extension)
    ensures forall n :: n in reg.builtins ==> BakeExtension(reg, Some(e)).1.builtins[n] == reg.builtins[n]
    ensures forall n :: n in reg.macros ==> BakeExtension(reg, Some(e)).1.macros[n] == reg.macros[n]
    ensures forall n :: n in reg.operators ==>
      BakeExtension(reg, Some(e)).1.operators[n][..|reg.operators[n]|] == reg.operators[n]
  {
  }
}

=== FILE: script_tree.dfy ===
/** The reference reading of a list of operands and resolved binary
    operators: split at the loosest operator (the largest priority number,
    the rightmost of equals), value the left side, then the right side,
    then apply. With it, the recurrences that precedence climbing
    satisfies, stated over any climb and loop, so that the reading can be
    matched against them without the interpreter in view. */
module ScriptTree {
  import opened Common
  import opened ScriptValues
  import opened ScriptState
  import opened ScriptDefaults
  import opened ScriptEngine

  /** Operand `i` of an operand/operator list, at position `2 * i`. */
  function Opd(toks: seq<MTok>, i: nat): MTok
    requires 2 * i < |toks|
  {
    toks[2 * i]
  }

  /** Operator `j`, between operands `j - 1` and `j`, at position `2 * j - 1`. */
  function Opr(toks: seq<MTok>, j: nat): MTok
    requires 0 < j && 2 * j - 1 < |toks|
  {
    toks[2 * j - 1]
  }

  /** `n` operands with binary operators between them. */
  predicate Alternating(toks: seq<MTok>, n: nat) {
    && 0 < n && |toks| == 2 * n - 1
    && (forall i :: 0 <= i < n ==> Opd(toks, i).Val?)
    && (forall j :: 0 < j < n ==> Opr(toks, j).Op? && Opr(toks, j).kind == Binary)
  }

  /** The priority of an operator token (0 for an operand, which never
      stands where an operator is looked for). */
  function Prio(t: MTok): int { if t.Op? then t.priority else 0 }

  /** Every operator strictly inside the operands `a` to `b` has a priority
      of at most `p`. */
  predicate AtMost(toks: seq<MTok>, a: nat, b: nat, p: int)
    requires 2 * b <= |toks| + 1
  {
    forall j :: a < j < b ==> Prio(Opr(toks, j)) <= p
  }

  /** Every operator strictly inside the operands `a` to `b` has a priority
      below `p`. */
  predicate Below(toks: seq<MTok>, a: nat, b: nat, p: int)
    requires 2 * b <= |toks| + 1
  {
    forall j :: a < j < b ==> Prio(Opr(toks, j)) < p
  }

  /** The operands `a` up to (not including) `b`, with the operators between them. */
  predicate Segment(toks: seq<MTok>, a: nat, b: nat) {
    a < b && 2 * b <= |toks| + 1
  }

  /** The loosest operator of a segment with at least one operator: the
      largest priority, the rightmost of equals (see `RootLoosest`). */
  function Root(toks: seq<MTok>, a: nat, b: nat): (r: nat)
    requires Segment(toks, a, b) && a + 1 < b
    ensures a < r < b
    decreases b - a
  {
    if a + 2 == b then a + 1
    else
      var r := Root(toks, a + 1, b);
      if Prio(Opr(toks, a + 1)) > Prio(Opr(toks, r)) then a + 1 else r
  }

  /** No operator of the segment has a larger priority than its root, and
      none to the root's right an equal one. */
  lemma {:induction false} RootLoosest(toks: seq<MTok>, a: nat, b: nat)
    requires Segment(toks, a, b) && a + 1 < b
    ensures AtMost(toks, a, b, Prio(Opr(toks, Root(toks, a, b))))
    ensures Below(toks, Root(toks, a, b), b, Prio(Opr(toks, Root(toks, a, b))))
    decreases b - a
  {
    if a + 2 != b {
      RootLoosest(toks, a + 1, b);
    }
  }

  /** How the reference applies a binary operator to two values. */
  type Applier = (Option<OpImpl>, Value, Value) -> Eval<Outcome>

  /** One application in the reference tree: a stuck or failed side decides
      the result, the left one first; an operator that reports an error
      gives `Done(None)`. */
  function Combine(app: Applier, impl: Option<OpImpl>, l: Eval<Option<Value>>, r: Eval<Option<Value>>): Eval<Option<Value>> {
    match l
    case Stuck(why) => Stuck(why)
    case Done(None) => Done(None)
    case Done(Some(x)) =>
      match r
      case Stuck(why) => Stuck(why)
      case Done(None) => Done(None)
      case Done(Some(y)) =>
        match app(impl, x, y)
        case Stuck(why) => Stuck(why)
        case Done(o) => if o.error != "" then Done(None) else Done(Some(o.value))
  }

  function Operand(t: MTok): Value { if t.Val? then t.v else Null }

  function Impl(t: MTok): Option<OpImpl> { if t.Op? then t.impl else None }

  /** The reference reading of the segment from operand `a` to `b`, with
      `app` applying the operators. */
  function Tree(toks: seq<MTok>, a: nat, b: nat, app: Applier): Eval<Option<Value>>
    requires Segment(toks, a, b)
    decreases b - a, 1
  {
    if a + 1 == b then Done(Some(Operand(Opd(toks, a)))) else Node(toks, a, b, app)
  }

  /** A segment of more than one operand: its root applied to the trees
      on either side. */
  function Node(toks: seq<MTok>, a: nat, b: nat, app: Applier): Eval<Option<Value>>
    requires Segment(toks, a, b) && a + 1 < b
    decreases b - a, 0
  {
    var k := Root(toks, a, b);
    Combine(app, Impl(Opr(toks, k)), Tree(toks, a, k, app), Tree(toks, k, b, app))
  }

  /** Where a climb bounded by `bound` stops, looking from operator `j` on:
      the first operator whose priority reaches the bound, or the end of
      the list (one past the last operand). */
  function Stop(toks: seq<MTok>, n: nat, j: nat, bound: int): (e: nat)
    requires |toks| == 2 * n - 1 && 0 < j <= n
    ensures j <= e <= n
    ensures e < n ==> Prio(Opr(toks, e)) >= bound
    ensures Below(toks, j - 1, e, bound)
    decreases n - j
  {
    if j == n || Prio(Opr(toks, j)) >= bound then j else Stop(toks, n, j + 1, bound)
  }

  /** A climb's result, matched against the reference: a stuck reference is
      the same stuck run, a failed one a Null value with a new error, and a
      value the same value, stopped just after operand `s` (at position
      `2 * s + 1`), with the settings and the error record untouched. */
  predicate Agrees(c: Eval<Climbed>, t: Eval<Option<Value>>, s: nat, st: Settings, errs: Errors) {
    && (t.Stuck? ==> c == Stuck(t.reason))
    && (t == Done(None) ==> c.Done? && c.value.value.Null? && c.value.errs.hasNew)
    && (t.Done? && t.value.Some? ==> c == Done(Climbed(t.value.value, 2 * s + 1, st, errs)))
  }

  /** The loosest operator is the one with no larger priority to its left
      and only smaller ones to its right. */
  lemma RootAt(toks: seq<MTok>, a: nat, b: nat, k: nat)
    requires Segment(toks, a, b) && a < k < b
    requires AtMost(toks, a, k, Prio(Opr(toks, k))) && Below(toks, k, b, Prio(Opr(toks, k)))
    ensures Root(toks, a, b) == k
  {
    RootLoosest(toks, a, b);
    var r := Root(toks, a, b);
    assert Prio(Opr(toks, k)) <= Prio(Opr(toks, r));
  }

  /** A run of operators below the bound does not stop the climb. */
  lemma {:induction false} StopSkips(toks: seq<MTok>, n: nat, i: nat, j: nat, bound: int)
    requires |toks| == 2 * n - 1 && 0 < i <= j <= n
    requires Below(toks, i - 1, j, bound)
    ensures Stop(toks, n, i, bound) == Stop(toks, n, j, bound)
    decreases j - i
  {
    if i < j {
      assert Prio(Opr(toks, i)) < bound;
      StopSkips(toks, n, i + 1, j, bound);
    }
  }

  /** A failed left part fails the whole: when no operator before operand
      `m` is looser than operator `m`, the segment's tree reaches that part
      first. */
  lemma {:induction false} PrefixFails(toks: seq<MTok>, a: nat, m: nat, b: nat, app: Applier)
    requires Segment(toks, a, b) && a < m < b
    requires AtMost(toks, a, m, Prio(Opr(toks, m)))
    requires !(Tree(toks, a, m, app).Done? && Tree(toks, a, m, app).value.Some?)
    ensures Tree(toks, a, b, app) == Tree(toks, a, m, app)
    decreases b - a
  {
    RootLoosest(toks, a, b);
    var r := Root(toks, a, b);
    assert Prio(Opr(toks, m)) <= Prio(Opr(toks, r));
    if r != m {
      PrefixFails(toks, a, m, r, app);
    }
  }

  /** One application seen from the tree: when operator `j` is below the
      bound and no looser than the operators before it, the tree up to `m`
      (where the climb of its right operand stops) applies it to the left
      part and the right operand; the invariant carries over to `m`, the
      outer climb stops where it would have from `j`, and a failed
      application fails the whole segment up to that stop. */
  lemma TreeStep(toks: seq<MTok>, n: nat, start: nat, j: nat, bound: int, left: Value, app: Applier)
    requires |toks| == 2 * n - 1 && Segment(toks, start, j) && j < n
    requires Tree(toks, start, j, app) == Done(Some(left))
    requires Below(toks, start, j, bound) && AtMost(toks, start, j, Prio(Opr(toks, j)))
    requires Prio(Opr(toks, j)) < bound
    ensures var m := Stop(toks, n, j + 1, Prio(Opr(toks, j)));
      && Tree(toks, start, m, app) == Combine(app, Impl(Opr(toks, j)), Done(Some(left)), Tree(toks, j, m, app))
      && Stop(toks, n, j, bound) == Stop(toks, n, m, bound)
      && Below(toks, start, m, bound)
      && (m < n ==> AtMost(toks, start, m, Prio(Opr(toks, m))))
      && (!(Tree(toks, start, m, app).Done? && Tree(toks, start, m, app).value.Some?) ==>
            Tree(toks, start, Stop(toks, n, j, bound), app) == Tree(toks, start, m, app))
  {
    var p := Prio(Opr(toks, j));
    var m := Stop(toks, n, j + 1, p);
    RootAt(toks, start, m, j);
    StopSkips(toks, n, j, m, bound);
    var e := Stop(toks, n, j, bound);
    if m < e && !(Tree(toks, start, m, app).Done? && Tree(toks, start, m, app).value.Some?) {
      PrefixFails(toks, start, m, e, app);
    }
  }

  /** A climb from operand `i` under a bound, and the loop after operand
      `k` (at position `2 * k + 1`) with a left operand, each given the fuel. */
  type Climber = (nat, nat, int) -> Eval<Climbed>
  type Looper = (nat, nat, int, Value) -> Eval<Climbed>

  /** The loop returns its left operand at the end of the list or at an
      operator whose priority reaches the bound. */
  ghost predicate LoopsEnd(toks: seq<MTok>, n: nat, loop: Looper, st: Settings, errs: Errors)
    requires |toks| == 2 * n - 1
  {
    forall f: nat, k: nat, b: int, v: Value :: 2 <= f && k < n && (k + 1 < n ==> Prio(Opr(toks, k + 1)) >= b) ==>
      loop(f, k, b, v) == Done(Climbed(v, 2 * k + 1, st, errs))
  }

  /** A climb reads its operand and runs the loop after it. */
  ghost predicate ClimbsStart(toks: seq<MTok>, n: nat, climb: Climber, loop: Looper)
    requires |toks| == 2 * n - 1
  {
    forall f: nat, i: nat, b: int :: 1 <= f && i < n ==> climb(f, i, b) == loop(f - 1, i, b, Operand(Opd(toks, i)))
  }

  /** An operator below the bound climbs its right operand with its own
      priority as the bound, then either goes on with the application's
      value where that climb stopped or ends with the application's
      failure. */
  ghost predicate LoopsApply(toks: seq<MTok>, n: nat, climb: Climber, loop: Looper, app: Applier, st: Settings, errs: Errors)
    requires |toks| == 2 * n - 1
  {
    forall f: nat, g: nat, k: nat, i: nat, p: int, b: int, v: Value, t: Eval<Option<Value>>, m: nat {:trigger loop(f, k, b, v), Agrees(climb(g, i, p), t, m, st, errs)} ::
      && f == g + 1 && 2 <= g && i == k + 1 && i <= m < n && p == Prio(Opr(toks, i)) && p < b
      && Agrees(climb(g, i, p), t, m, st, errs) ==>
      var r := Combine(app, Impl(Opr(toks, i)), Done(Some(v)), t);
      if r.Done? && r.value.Some? then loop(f, k, b, v) == loop(g, m, b, r.value.value)
      else Agrees(loop(f, k, b, v), r, m, st, errs)
  }

  /** The recurrences of precedence climbing over operands and binary
      operators. */
  ghost predicate Recurrences(toks: seq<MTok>, n: nat, climb: Climber, loop: Looper, app: Applier, st: Settings, errs: Errors)
    requires |toks| == 2 * n - 1
  {
    LoopsEnd(toks, n, loop, st, errs) && ClimbsStart(toks, n, climb, loop) && LoopsApply(toks, n, climb, loop, app, st, errs)
  }
}

=== FILE: script_values.dfy ===
/** The four built-in value types of the scripting language and the
    nullable wrapper the engine passes them around in. */
module ScriptValues {
  import opened Common
  import opened Numerals

  /** A script value: a number, a string, a name (an identifier used as a
      value, for example a variable name handed to `set`), or null. */
  datatype Value = Number(n: real) | Str(s: string) | Name(name: string) | Null

  /** The wrapper around a value; it may hold nothing at all. */
  datatype Var = Empty | Holds(v: Value)

  const True: Value := Number(1.0)
  const False: Value := Number(0.0)

  function Bool(b: bool): Value { if b then True else False }

  /** `get_type`. */
  function TypeName(v: Value): string {
    match v
    case Number(_) => "Number"
    case Str(_) => "String"
    case Name(_) => "Name"
    case Null => "Null"
  }

  /** `operator==` of the value classes: the other value must report the
      same type, and then numbers, strings and names compare their payload;
      any two nulls are equal. */
  predicate ValueEq(a: Value, b: Value) {
    TypeName(b) == TypeName(a) &&
    match a
    case Number(x) => b.Number? && b.n == x
    case Str(x) => b.Str? && b.s == x
    case Name(x) => b.Name? && b.name == x
    case Null => true
  }

  /** `to_printable`: the text `echo` shows. */
  function Printable(v: Value): string {
    match v
    case Number(x) => NumberText(x)
    case Str(x) => x
    case Name(x) => x
    case Null => "null"
  }

  /** `to_string`: like the printable form, except that strings are quoted. */
  function SourceText(v: Value): string {
    match v
    case Str(x) => "\"" + x + "\""
    case _ => Printable(v)
  }

  /** `is_null`: the wrapper is empty or holds null. */
  predicate IsNull(x: Var) { x.Empty? || x.v.Null? }

  /** Copy assignment: assigning from an empty wrapper leaves the target as it was. */
  function Assign(target: Var, src: Var): (r: Var)
    ensures src.Empty? ==> r == target
    ensures src.Holds? ==> r == src
  {
    if src.Empty? then target else src
  }

  /** Value equality is exactly structural equality: same type, same payload. */
  lemma ValueEqIsEquality(a: Value, b: Value)
    ensures ValueEq(a, b) <==> a == b
  {
  }

  /** Every value's printable form is its source text except for strings,
      whose source text adds the two quotes. */
  lemma SourceTextQuotesOnlyStrings(v: Value)
    ensures v.Str? ==> SourceText(v) == "\"" + Printable(v) + "\""
    ensures !v.Str? ==> SourceText(v) == Printable(v)
  {
  }

  /** A whole number prints without decimals; true and false print 1 and 0. */
  lemma WholeNumberPrints(i: int)
    ensures Printable(Number(i as real)) == IntToString(i)
    ensures Printable(True) == "1" && Printable(False) == "0"
  {
    WholeNumberText(i);
    WholeNumberText(1);
    WholeNumberText(0);
  }

  /** The message of a failed argument type check in a builtin
      (`cc_builtin_var_requires`): the expected type names each followed by a
      space, then the type actually received. */
  function RequiresMessage(arg: string, types: seq<string>, got: Value): string {
    "argument " + arg + " does match any of these types: " + Chain(types) + " (got: " + TypeName(got) + ")"
  }

  /** The message of `cc_builtin_var_not_requires`. */
  function NotRequiresMessage(arg: string, types: seq<string>, got: Value): string {
    "argument " + arg + " is not allowed to match any of these types: " + Chain(types) + " (got: " + TypeName(got) + ")"
  }

  /** The message of a failed operand type check in an operator. */
  function OperandMessage(op: string, side: string, types: seq<string>, got: Value): string {
    op + ": " + side + " doesn't match any of these types: " + Chain(types) + " (got: " + TypeName(got) + ")"
  }

  /** The message of a failed same-type check in a binary operator; the
      operator's name appears in double quotes. */
  function SameTypeMessage(op: string, right: Value, left: Value): string {
    "\"" + op + "\": right and left must have the same type (right: " + TypeName(right) + " | left: " + TypeName(left) + ")"
  }

  function Chain(types: seq<string>): string
    decreases |types|
  {
    if types == [] then "" else types[0] + " " + Chain(types[1..])
  }
}
